=== FILE: README.md ===
# WebGenius core in Dafny

WebGenius turns a user's prompt into a website. The backend asks a code-generating
model for a JSON reply. That reply describes either a set of React components plus a
Vite project (`components` and `viteConfig`) or a single legacy page (`html`, `css`, `js`).
The backend then does four things with it:

- it parses the reply, repairing a reply cut off mid-string;
- it normalises the reply's shape;
- it sanitises the generated code;
- it plans the files of the Vite project it writes to disk.

The frontend's preview (`WebsitePreview.tsx`) rebuilds a runnable page from the stored
website inside an iframe, rewriting the generated modules as it goes. The pages around the
preview hold smaller rules:

- the dashboard's statistics and code formatters;
- the history panel's open and closed previews;
- the login form's one-time-code boxes;
- the sidebar's titles, initials and recents paging;
- the recent-projects grid's "time ago" labels and ordering.

This project models those parts as Dafny functions, methods and classes, and proves what
each promises. Regular expressions are written out as explicit matchers: a matcher takes a
text and an offset and returns where its match ends and what replaces it. The `rewrite.dfy`
module gives these matchers the semantics of JavaScript's `String.prototype.replace`:

- with the `g` flag, matching restarts after each match;
- no global pattern of the source can match the empty string, so a matcher never reports an empty match;
- without `g`, only the first match is replaced.

`JSON.parse` and the browser's `toLocaleDateString` are parameters of the functions
that use them, so every property holds whatever parser or locale is supplied.

Module layout (one module per file):

- `text`, `rewrite` and `json` hold text helpers, the replace semantics and the JSON value model.
- `reply_parser`, `sanitize`, `files_shape`, `generate`, `project`, `index_page`,
  `patterns` and `placeholders` cover `backend/src/website/website.service.ts`.
- `preview_select`, `preview_component`, `preview_entry`, `preview_statements`, `preview_react`,
  `preview_vanilla`, `preview_legacy` and `preview` cover
  `frontend/src/components/WebsitePreview.tsx`.
- `code_format`, `dashboard`, `history`, `login`, `sidebar` and `recent_projects` cover the pages.

## Model

| member | source | states |
|---|---|---|
| ReplyParser.LeadingFenceAt | backend/src/website/website.service.ts:745 | The leading-fence pattern is anchored: it matches only at offset 0, covers at least the three backticks, and deletes what it matches |
| ReplyParser.ClosingFenceAt | backend/src/website/website.service.ts:746 | A closing fence match starts with optional whitespace and then three backticks, ends within the text, and is deleted |
| ReplyParser.LeadingFenceStripped | backend/src/website/website.service.ts:745 | Removing the leading fence of a fenced payload (tag `json` or none) removes the backticks, the tag and the line break, and nothing of the payload |
| ReplyParser.ClosingFenceStripped | backend/src/website/website.service.ts:746 | On `payload\n` followed by the closing backticks, the first closing-fence match is the final one, and removing it leaves exactly the payload |
| ReplyParser.NoFenceInPayload | backend/src/website/website.service.ts:746 | No closing-fence match starts inside a trimmed payload in which no triple backtick is followed only by whitespace up to a line end or the end of the text |
| ReplyParser.NoFenceNoLineEndingFence | backend/src/website/website.service.ts:746 | A payload without any triple backtick has none that ends a line |
| ReplyParser.StripFencesRoundTrip | backend/src/website/website.service.ts:741-747 | Fence stripping inverts fencing: wrapping a trimmed payload in a `json` or untagged fence and stripping it gives the payload back, for every payload in which no triple backtick ends a line |
| ReplyParser.StripFences | backend/src/website/website.service.ts:741-747 | The stripped reply is empty or starts and ends with a non-space character, and is never longer than the reply |
| ReplyParser.RepairFrom | backend/src/website/website.service.ts:714-728 | The repair result is the trimmed text plus the first suffix, in the source's order, whose completion parses to an object or array; no repair exists exactly when none does |
| ReplyParser.RepairTruncatedJson | backend/src/website/website.service.ts:710-729 | A blank input has no repair; any repair begins with the trimmed input and parses to an object or array |
| ReplyParser.TryRepairTruncatedJson | backend/src/website/website.service.ts:710-729 | The loop over the three suffixes returns null for blank input, otherwise the first suffix completion that parses to an object, and null when none does; it agrees with `RepairTruncatedJson` |
| ReplyParser.RawAttempt | backend/src/website/website.service.ts:783-795 | The last attempt succeeds exactly when the trimmed original reply, fences included, parses to an object or array, and then returns that value |
| ReplyParser.RepairAttempt | backend/src/website/website.service.ts:759-778 | Repair is attempted only after a syntax error whose message reads like truncation, and what it returns parses to an object or array |
| ReplyParser.ParseV0Response | backend/src/website/website.service.ts:736-796 | An empty reply gives null. The three attempts run in the source's order: the fence-stripped text, then its repair after a truncation error, then the raw trimmed reply. Every non-null result is an object or array |
| ReplyParser.ParseFencedPayload | backend/src/website/website.service.ts:741-757 | A fenced payload (under the same condition on line-ending triple backticks) that parses is parsed exactly as if the fence had been removed by hand |
| ReplyParser.NoRepairWithoutTruncation | backend/src/website/website.service.ts:759-792 | When the fence-stripped parse fails with a message that does not look like truncation, the result is the raw-reply attempt |
| ReplyParser.BraceSpan | backend/src/website/website.service.ts:809 | A span exists exactly when the reply has a `{` before its last `}` and the keys occur in order between them; the span then runs from the first `{` to the last `}`, inclusive, so no `{` precedes it and no `}` follows it |
| ReplyParser.IndexOfNoCase | backend/src/website/website.service.ts:851-858 | The result is the first offset, at or after the start, where the pattern occurs ignoring case; none means it occurs nowhere from the start on |
| ReplyParser.LastNewline | backend/src/website/website.service.ts:849-858 | The line break that ends `\s*\n` is the last `\n` of the whitespace run; none means the run holds no `\n` |
| ReplyParser.BlockAt | backend/src/website/website.service.ts:849-858 | A block pattern captures what its fenced or element form captures at that offset |
| ReplyParser.FenceBlockAt | backend/src/website/website.service.ts:849-857 | A fenced block matches only where the reply has three backticks and the tag; the capture is the text between the line break after the tag and the closing backticks |
| ReplyParser.ElementBlockAt | backend/src/website/website.service.ts:851-858 | An element (`<html>`, `<style>`, `<script>`, any case) matches exactly when the opening tag is at the offset and a closing tag follows; the capture is the text up to the first closing tag |
| ReplyParser.BlockOr | backend/src/website/website.service.ts:860-864 | A legacy field is the trimmed capture of the first pattern that matches, or the field's placeholder when none does |
| ReplyParser.ComponentSpanAttempt | backend/src/website/website.service.ts:808-834 | When the component brace span parses, its value is returned. When it fails with a truncation error and repairs, the repaired value is returned and is an object or array. Otherwise, and when no span exists, the fallback gives nothing |
| ReplyParser.LegacySpanAttempt | backend/src/website/website.service.ts:836-846 | The legacy fallback succeeds exactly when a brace span with `"html"`, `"css"` and `"js"` in order exists and parses, and then returns its value |
| ReplyParser.ExtractCodeFromResponse | backend/src/website/website.service.ts:798-873 | A reply that `parseV0Response` accepts is returned as parsed; otherwise the component span, then the legacy span, in that order, decide the result. The legacy record appears exactly when all of them failed, and each of its fields is the first block capture or the placeholder |
| ReplyParser.PlaceholdersWhenNothingFound | backend/src/website/website.service.ts:860-864 | A reply with no braces, backticks or angle brackets, under a parser that accepts nothing, yields exactly the three placeholders |
| ReplyParser.NoBlocks | backend/src/website/website.service.ts:849-858 | No block pattern matches a reply without backticks or `<` |
| Sanitize.DollarSpanFrom | backend/src/website/website.service.ts:631 | The lazy search finds a `${`, a later `}` and a closing `<`. No `<` lies between the `>` and the `${`, no `}` inside the expression, and no `<` between the `}` and the closing `<` |
| Sanitize.DollarFreeUnchanged | backend/src/website/website.service.ts:628-634 | Without `${` the dollar pattern matches nowhere |
| Sanitize.SanitizeJsxDollarInterpolation | backend/src/website/website.service.ts:628-634 | Code without `${` is returned unchanged |
| Sanitize.DollarGroupAt | backend/src/website/website.service.ts:631-633 | Whatever surrounds it, a group `>before${expr}after<` of the right shape is one match, rewritten to `>before{'$' + expr}after<` |
| Sanitize.DollarSpanAt | backend/src/website/website.service.ts:631 | The lazy search stops at the first `${` whose `}` and closing `<` exist |
| Sanitize.NoDollarSign | backend/src/website/website.service.ts:628-634 | Text without `$` holds no `${` |
| Sanitize.DollarInParagraph | backend/src/website/website.service.ts:628-634 | A paragraph `<p>before${expr}after</p>` has its interpolation rewritten and nothing else changed |
| Sanitize.PriceParagraph | backend/src/website/website.service.ts:624-634 | The method's own example: `<p>Total: ${price}</p>` becomes `<p>Total: {'$' + price}</p>` |
| Sanitize.NegatedAssignAt | backend/src/website/website.service.ts:620-621 | A match of `!\s*(\w+)\s*=\s*{}` (or `[]`) starts at `!`, and its replacement `!name` is never longer than the match |
| Sanitize.SanitizeConditionNeverLonger | backend/src/website/website.service.ts:616-622 | Neither of the two condition passes lengthens the code |
| Sanitize.SanitizeInvalidConditionAssignment | backend/src/website/website.service.ts:616-622 | The condition fix never lengthens the code |
| Sanitize.SanitizeConditionWithoutBang | backend/src/website/website.service.ts:616-622 | Code without `!` is returned unchanged |
| Sanitize.NegatedAssignBraces | backend/src/website/website.service.ts:614-621 | `!name = {}` becomes `!name` |
| Sanitize.NegatedAssignBrackets | backend/src/website/website.service.ts:614-621 | `!name = []` becomes `!name` |
| Sanitize.NegatedAssignOnce | backend/src/website/website.service.ts:620-621 | Each pattern covers the whole of `!name = <open><close>` and matches only its own bracket pair |
| Sanitize.BracesMissBrackets | backend/src/website/website.service.ts:620 | The `{}` pass leaves `!name = []` alone |
| Sanitize.PlainNegationKept | backend/src/website/website.service.ts:621 | A plain negation `!name` is not rewritten |
| Sanitize.SkipUrlChars | backend/src/website/website.service.ts:604 | `[^\s"'<>)\]]+` extends exactly over the URL characters |
| Sanitize.ImgurUrlEnd | backend/src/website/website.service.ts:604 | An imgur URL match starts with `http`, in any case, holds `imgur.com/` after the scheme, and ends exactly where the URL characters after it stop |
| Sanitize.FindKeyword | backend/src/website/website.service.ts:589-593 | The search succeeds exactly when one of the listed words occurs as a whole word from the start offset on |
| Sanitize.SizeByKeywords | backend/src/website/website.service.ts:588-595 | The size is hero-sized exactly when a hero word occurs. It is thumbnail-sized exactly when no hero word but a thumbnail word occurs. Otherwise it is card-sized |
| Sanitize.InferImageDimensions | backend/src/website/website.service.ts:584-596 | The inferred size is the keyword size of the lower-cased text from 400 characters before to 400 after the offset |
| Sanitize.ContextWindow | backend/src/website/website.service.ts:585-587 | The context is the lower-cased slice around the offset, clipped to the text, never longer than the two margins together |
| Sanitize.BrokenImageReplacement | backend/src/website/website.service.ts:605-609 | Every imgur URL is replaced by the picsum URL of the size inferred around the URL's first occurrence in the code |
| Sanitize.BrokenImageUsesFirstOccurrence | backend/src/website/website.service.ts:606-608 | The size is judged around the URL's first occurrence in the code, which may precede the occurrence being replaced |
| Sanitize.NoImgurUnchanged | backend/src/website/website.service.ts:602-610 | Neither image pattern matches code without `imgur.com/` in any letter case |
| Sanitize.ReplaceBrokenImageUrls | backend/src/website/website.service.ts:602-610 | Code without `imgur.com/` in any letter case is returned unchanged |
| Sanitize.ReplacePreviewImageUrls | frontend/src/components/WebsitePreview.tsx:666-680 | A document without `imgur.com/` in any letter case reaches the frame unchanged |
| Sanitize.Clamp | frontend/src/components/WebsitePreview.tsx:677-678 | `Math.min(hi, Math.max(lo, v))` lies within the bounds, and leaves a value already within them unchanged |
| Sanitize.PreviewImageSize | frontend/src/components/WebsitePreview.tsx:667-679 | A width (height) number near the URL sets the width (height), clamped to 48..1200 (48..800); without one the keyword size of the window from 500 characters before to 100 after is used |
| Sanitize.PreviewSizeWithoutNumbers | frontend/src/components/WebsitePreview.tsx:669-674 | Without an explicit width or height in the window from 500 characters before to 100 after, the keyword size is used |
| Project.ComponentOf | backend/src/website/website.service.ts:655 | Each of a component's five fields (`name`, `type`, `path`, `code`, `language`) is the member's text when that member is a string, and empty otherwise |
| Project.ComponentsOf | backend/src/website/website.service.ts:322 | The components are read one for one, in the reply's order |
| Project.ConfigOf | backend/src/website/website.service.ts:323 | The configuration is present exactly when the reply's `viteConfig` member exists and is truthy |
| Project.WebsiteCodeOf | backend/src/website/website.service.ts:322-328 | The components are read one for one from `components`, the configuration as `viteConfig || null`, and each legacy text (`html`, `HTML`, `css`, `CSS`, `js`, `JS`, `javascript`) is its member's text when that member is a string, and empty otherwise |
| Project.RemoveSpaces | backend/src/website/website.service.ts:307 | A component's identifier holds no whitespace, is no longer than its name, and uses only the name's characters |
| Project.RemoveSpacesNoop | backend/src/website/website.service.ts:307 | A name without whitespace is its own identifier |
| Project.RemoveSpacesAppend | backend/src/website/website.service.ts:307 | Removing whitespace works character by character: it distributes over concatenation, drops a whitespace character and keeps any other, so exactly the whitespace goes and the rest keeps its order |
| Project.NamesOf | backend/src/website/website.service.ts:307 | The identifiers of the components, one per component, in order |
| Project.Tags | backend/src/website/website.service.ts:685 | One `<Name />` element per name, in order |
| FilesShape.FilesOf | backend/src/website/website.service.ts:641 | The `files` entries are read one for one, in order; each file's path and content are the entry's `path` and `content` texts, empty when absent or not a string |
| FilesShape.FilterFiles | backend/src/website/website.service.ts:642-644 | The filter keeps exactly the files whose path passes the test, and no other file |
| FilesShape.FilterFilesConcat | backend/src/website/website.service.ts:642-644 | Filtering keeps the files' order: it distributes over concatenation |
| FilesShape.BaseName | backend/src/website/website.service.ts:647 | The base name of a path holds no `/`. BaseNameIsLastSegment states which text it is |
| FilesShape.BaseNameIsLastSegment | backend/src/website/website.service.ts:647 | The base name is a suffix of the path. It is preceded by a `/` when shorter than the path, and it holds no `/`, so it is the text after the last `/`. A path without `/` is its own base name |
| FilesShape.Stem | backend/src/website/website.service.ts:647 | The stem is the base name cut at its last `.`: a prefix of the base name, either all of it or followed by a `.` after which no other `.` occurs |
| FilesShape.FindSeparator | backend/src/website/website.service.ts:648 | The search stops at the first `-` or `_` from the offset on |
| FilesShape.SplitSeparators | backend/src/website/website.service.ts:648 | Splitting on `-` and `_` gives at least one piece, and no piece holds a separator. SplitRejoins states that the pieces rejoin to the text |
| FilesShape.SplitRejoins | backend/src/website/website.service.ts:648 | Splitting loses nothing: there is one piece more than the text has separators, and putting the separators back between the pieces gives the text again |
| FilesShape.Capitalize | backend/src/website/website.service.ts:648 | A piece keeps its length; its first character is upper-cased and the rest lower-cased |
| FilesShape.CapitalizeAll | backend/src/website/website.service.ts:648 | Joining capitalised separator-free pieces introduces no separator. CapitalizeAllInOrder states that the result is the capitalised pieces concatenated in order |
| FilesShape.CapitalizeAllInOrder | backend/src/website/website.service.ts:648 | The pieces are capitalised one by one and concatenated in order: the result over two lists is the results over each, concatenated, and over one piece it is that piece capitalised |
| FilesShape.PathToComponentName | backend/src/website/website.service.ts:646-649 | A component name derived from a file path holds no `-` or `_`. Its parts are stated by BaseNameIsLastSegment, Stem, SplitRejoins and CapitalizeAllInOrder, and TwoPieceName states the whole rule for a two-piece name |
| FilesShape.TwoPieceName | backend/src/website/website.service.ts:646-649 | A file `DIR/A-B.tsx`, with `A` and `B` free of separators and `/`, gives the name `A` capitalised followed by `B` capitalised |
| FilesShape.SinglePieceName | backend/src/website/website.service.ts:646-649 | A stem without separators becomes one capitalised word |
| FilesShape.LastIndexBefore | backend/src/website/website.service.ts:647 | The extension starts at the last `.` of the base name |
| FilesShape.EmiCalculatorName | backend/src/website/website.service.ts:638 | The method's own example: `components/emi-calculator.tsx` gives the component `EmiCalculator` |
| FilesShape.SrcPath | backend/src/website/website.service.ts:654 | A path not under `src/` becomes exactly `src/` plus the path; a path already under `src/` is kept as it is |
| FilesShape.SrcPathIdempotent | backend/src/website/website.service.ts:654 | Prefixing with `src/` twice is prefixing once |
| FilesShape.ComponentFromFile | backend/src/website/website.service.ts:651-657 | A component file becomes a `component` of language `jsx`, named from its path, placed under `src/`, with the file's content as code |
| FilesShape.ComponentsFromFiles | backend/src/website/website.service.ts:651-657 | One component per component file, in order |
| FilesShape.MountScriptMounts | backend/src/website/website.service.ts:679-680 | Whatever precedes it, the appended mount code calls `ReactDOM.createRoot` |
| FilesShape.PageImportAt | backend/src/website/website.service.ts:663 | An import-statement match starts with `import` and ends within the text. PageImportCovers states what it covers |
| FilesShape.PageImportCovers | backend/src/website/website.service.ts:663 | A page import covers `import`, whitespace, clause characters ending in whitespace, `from` and whitespace, then a quoted non-empty module path, and ends after the `\s*;?\s*` that follows it |
| FilesShape.WithMount | backend/src/website/website.service.ts:679-681 | The page module always mounts afterwards. One that already mounts is left unchanged, and any other gets exactly two line breaks and the mount code appended |
| FilesShape.PageMainJsx | backend/src/website/website.service.ts:660-682 | The entry module made from the first page file mounts. PlainPageMounted states its text for a page without `import` or `export` |
| FilesShape.PlainPageMounted | backend/src/website/website.service.ts:660-682 | A page with no `import` and no `export` is not rewritten: its entry module is the page itself, with two line breaks and the mount code appended when it does not render |
| FilesShape.ConvertPageContent | backend/src/website/website.service.ts:661-682 | The step-by-step rewrite of the page content equals the page's entry module, which mounts |
| FilesShape.SynthesizedAppRendersAll | backend/src/website/website.service.ts:683-685 | The synthesised `App` renders every component, and it mounts. SynthesizedAppInOrder states the order of the tags |
| FilesShape.SynthesizedAppInOrder | backend/src/website/website.service.ts:683-685 | Each component's tag is followed, after one space, by the next component's tag, so the tags keep the components' order |
| FilesShape.MainFromFiles | backend/src/website/website.service.ts:659-686 | The entry module is the first page's when there is a page, else a synthesised `App` over the components, else empty; when non-empty it mounts |
| FilesShape.NamesOfRaw | backend/src/website/website.service.ts:684-685 | The synthesised `App` uses the component names as they are, without removing whitespace |
| FilesShape.Contents | backend/src/website/website.service.ts:688 | The style texts are the style files' contents, in order |
| FilesShape.ConvertV0FilesToStructure | backend/src/website/website.service.ts:640-703 | The converted reply has the component files as components and always has a configuration. Its entry texts are the generated module or the existing ones, and its style is the joined style files or the existing style. The other configuration fields and the legacy fields are kept |
| FilesShape.ConvertedEntryMounts | backend/src/website/website.service.ts:683-697 | When the files hold a page or a component, `mainJsx` and `mainJs` are the same generated entry module, and it mounts |
| Patterns.KeywordSpaces | backend/src/website/website.service.ts:663 | `kw\s+` matches exactly where `kw` stands followed by whitespace, and consumes the whole whitespace run after it |
| Patterns.SemicolonSpaces | backend/src/website/website.service.ts:663 | `\s*;?\s*` consumes only whitespace and at most one `;`, and stops only before a character it cannot take: a non-space that is not `;`, or a second `;` |
| Patterns.FindQuote | backend/src/website/website.service.ts:663 | The quoted module path ends at the first quote character |
| Patterns.ExportDefault | backend/src/website/website.service.ts:664-666 | `export\s+default` ends just after `default`, which follows the whole whitespace run after `export` |
| Patterns.ExportDefaultSpaces | backend/src/website/website.service.ts:678 | `export\s+default\s+` matches exactly when whitespace follows `export default`, and ends after that whole whitespace run |
| Patterns.NameThenAt | backend/src/website/website.service.ts:664 | `(\w+)\s*close` captures the whole word run at the offset, and ends just after `close` with only whitespace between |
| Patterns.NameThenFound | backend/src/website/website.service.ts:664 | Every `(\w+)\s*close` present at the offset is found, with exactly that capture and end |
| Patterns.ExportDefaultFunction | backend/src/website/website.service.ts:664 | `export\s+default\s+function\s+(\w+)\s*\(` captures the whole identifier after `export default function`, and the match ends just after the `(` that follows it |
| Patterns.ExportDefaultAnonymous | backend/src/website/website.service.ts:665 | In `export\s+default\s+function\s*\(`, `function` directly follows `export default `, and the match ends after the `(`, with only whitespace between |
| Patterns.LineTail | backend/src/website/website.service.ts:666 | With the multiline flag, `\s*;?\s*$` ends at the end of the text or before a line terminator. LineTailLongest states that it is the longest such end |
| Patterns.LineTailLongest | backend/src/website/website.service.ts:666 | Backtracking takes the longest tail: what `LineTail` returns holds only whitespace and at most one `;` and ends at the end of the text or before a line terminator, every possible end of `\s*;?\s*$` lies at or before it, and it fails only when there is none |
| Patterns.ExportDefaultName | backend/src/website/website.service.ts:666-673 | `export\s+default\s+(\w+)\s*;?\s*$` captures the whole identifier after `export default `, and the match ends where `LineTail` from the end of that identifier ends |
| Patterns.DeclarationAt | backend/src/website/website.service.ts:671-672 | `\bkw\s+name\s*close` matches only at a word boundary, where `kw`, whitespace, `name`, optional whitespace and `close` follow in turn; the match ends just after `close` |
| Patterns.FirstExportDefaultName | backend/src/website/website.service.ts:666-668 | The first matching default export yields a non-empty identifier; none is found exactly when the pattern matches nowhere. FirstExportDefaultNameIsFirst states which identifier |
| Patterns.FirstExportDefaultNameIsFirst | backend/src/website/website.service.ts:666-668 | The name returned is the one captured at the first offset where the pattern matches |
| Placeholders.PlaceholderAt | backend/src/website/website.service.ts:313 | The placeholder pattern `const\s+NAME\s*=\s*\[\]\s*;?\s*` starts with `const`, whitespace and the name, and ends within the text. PlaceholderShape states the rest of what it covers and where it ends |
| Placeholders.PlaceholderShape | backend/src/website/website.service.ts:313 | A placeholder match is `const`, whitespace, the name, optional whitespace, `=`, optional whitespace and `[]`, and it ends where the greedy `\s*;?\s*` after the `[]` ends |
| Placeholders.PlaceholderRemoved | backend/src/website/website.service.ts:306-316 | A placeholder `const NAME = [];` between texts without `const` is removed, trailing whitespace included, and nothing else changes |
| Placeholders.PlaceholderRecognised | backend/src/website/website.service.ts:313 | A canonical placeholder declaration is one whole match |
| Placeholders.OtherNameMisses | backend/src/website/website.service.ts:311-314 | Another component's pass removes nothing from a placeholder declaration of a different name |
| Placeholders.OtherNameAtDeclaration | backend/src/website/website.service.ts:313 | At the declaration, another name's pattern fails |
| Placeholders.NoConstInsideDeclaration | backend/src/website/website.service.ts:313 | No other match starts inside the declaration |
| Generate.ShapeOf | backend/src/website/website.service.ts:269-279 | A `files` reply is converted and so gains a configuration; any other parsed reply is read as it is; the legacy record is kept |
| Generate.ParseOrExtract | backend/src/website/website.service.ts:269-274 | Parsing first and extracting only on failure gives the same result as extracting at once |
| Generate.SanitizeComponents | backend/src/website/website.service.ts:283-290 | Every component's code is sanitised, and nothing else about it changes |
| Generate.SanitizeKeepsNames | backend/src/website/website.service.ts:283-290 | Sanitising leaves the component identifiers unchanged |
| Generate.SanitizeCode | backend/src/website/website.service.ts:286-288 | Code with no `${`, no `!` and no imgur link passes the three sanitisers unchanged |
| Generate.StripPlaceholdersFrom | backend/src/website/website.service.ts:309-316 | Removing placeholders never lengthens the code |
| Generate.StripPlaceholder | backend/src/website/website.service.ts:311-314 | A pass never lengthens the code, and an empty name is skipped |
| Generate.StripPlaceholders | backend/src/website/website.service.ts:309-316 | The loop over the names gives the stepwise removal, one pass per name, and never lengthens the code |
| Generate.StripWithoutConst | backend/src/website/website.service.ts:309-316 | Code without `const` has no placeholder to remove |
| Generate.StripRemovesDeclaration | backend/src/website/website.service.ts:306-316 | A canonical placeholder `const NAME = [];` for one of the component names, between texts without `const`, is removed by the passes; the other names' passes leave it alone and nothing else changes |
| Generate.NoConstAround | backend/src/website/website.service.ts:311-314 | No `const` straddles a text without `c` and a text without `const`, so a pass after the removal finds nothing |
| Generate.NormalizedEntry | backend/src/website/website.service.ts:291-299 | An absent entry text stays absent |
| Generate.NormalizedEntryDropsPlaceholder | backend/src/website/website.service.ts:290-316 | In an entry text the sanitisers leave alone, a component's placeholder is removed when there are components and kept otherwise |
| Generate.ImagesFixed | backend/src/website/website.service.ts:302-304 | An absent legacy text stays absent, and a text without `imgur.com/` (any case) is kept as it is |
| Generate.ImgurFreeKept | backend/src/website/website.service.ts:602-610 | A text without `imgur.com/` (any case) is not changed by the image fix |
| Generate.NormalizeWebsiteCode | backend/src/website/website.service.ts:283-319 | Component code and both entry texts are sanitised, and the entry texts lose placeholders when there are components. Legacy `html`, `css` and `js` only lose imgur links. Nothing else changes |
| Generate.NormalizeEntry | backend/src/website/website.service.ts:291-299 | One entry text, rewritten in place step by step, equals its normalised form |
| Generate.FixImages | backend/src/website/website.service.ts:302-304 | The in-place image fix equals `ImagesFixed` |
| Generate.SavedOf | backend/src/website/website.service.ts:322-363 | With components, the legacy texts are saved empty. Without components, each is the first non-empty of its spellings, in the source's order (`html`, `HTML`; `css`, `CSS`; `js`, `JS`, `javascript`), or its fixed fallback when all are empty. The components and the configuration are saved as they are |
| Generate.EmptyReplySavesFallbacks | backend/src/website/website.service.ts:358-362 | A reply nothing can be read from is saved as the three fallback texts, without components or configuration |
| Generate.PromptKindOf | backend/src/website/website.service.ts:457-514 | A short prompt is a shop exactly when its lower-cased text mentions one of the five shop words; a calculator exactly when it is no shop and mentions `calc`; a to-do list exactly when it is neither and mentions `todo` or `task`. Otherwise it is general |
| Generate.ShopWins | backend/src/website/website.service.ts:457 | A prompt mentioning `bakery` is a shop whatever else it mentions |
| Generate.EnhanceUserPrompt | backend/src/website/website.service.ts:431-578 | A prompt over 800 characters is kept whole under the fixed header. A shorter one is framed as `Create a ... as a Vite project`, followed by its kind's section and the universal requirements |
| Generate.EnhancedKeepsPrompt | backend/src/website/website.service.ts:431-578 | The user's prompt always appears verbatim in the enhanced prompt |
| Generate.SpaceRunsGone | backend/src/website/website.service.ts:980 | After `.replace(/\s+/g, '-')`, no whitespace is left |
| Generate.DashRuns | backend/src/website/website.service.ts:980 | The reference for `\s+` replaced by `-` leaves no whitespace |
| Generate.SpaceRunsDashed | backend/src/website/website.service.ts:980 | The global replace of `\s+` by `-` equals the reference, from every offset |
| Generate.DashRunsJoin | backend/src/website/website.service.ts:980 | A word, a whitespace run and the rest become the word, one `-` and the rest's result; a text without whitespace is kept |
| Generate.PackageName | backend/src/website/website.service.ts:980 | The package name is the lower-cased site name with each maximal whitespace run made one `-`, and it holds no whitespace |
| Generate.DefaultPackageJson | backend/src/website/website.service.ts:978-997 | The default manifest is a JSON object text |
| Generate.DefaultManifestText | backend/src/website/website.service.ts:978-997 | The default manifest text opens with `{`, a line holding the package name as its first member, and closes with `}` on its own line |
| Generate.ObjectTextOpens | backend/src/website/website.service.ts:978-997 | `JSON.stringify(v, null, 2)` of an object of several members prints its first string member on the first indented line |
| Generate.PackageNamed | backend/src/website/website.service.ts:979-980 | The default manifest's `name` is the package name derived from the site name |
| Generate.Importable | backend/src/website/website.service.ts:1018-1029 | The default entry module takes exactly the `component` entries of language `js` or `jsx`, in order |
| Generate.WithoutScriptExt | backend/src/website/website.service.ts:1021-1022 | Removing a trailing `.js` or `.jsx` removes exactly that extension, keeps other paths, and keeps a leading `src/` |
| Generate.ImportPath | backend/src/website/website.service.ts:1020-1022 | Every import path is absolute, under `/src/` |
| Generate.ImportPathIsSrcPath | backend/src/website/website.service.ts:1020-1022 | The import path is the component's `src/` path made absolute, with exactly its `.js` or `.jsx` extension removed |
| Generate.ImportLines | backend/src/website/website.service.ts:1017-1026 | One import line per importable component, in order |
| Generate.RenderLines | backend/src/website/website.service.ts:1028-1034 | One render line per importable component, in order |
| Generate.DefaultMainImportsEach | backend/src/website/website.service.ts:1016-1052 | The default entry module imports every importable component |
| Generate.DefaultMainRendersEach | backend/src/website/website.service.ts:1016-1052 | The default entry module renders every importable component inside `App` |
| Generate.DefaultMainJs | backend/src/website/website.service.ts:1016-1052 | The default entry module starts with the React, ReactDOM and stylesheet imports and ends by closing `App` and rendering it into `#root` |
| Generate.JsToJsx | backend/src/website/website.service.ts:937 | A trailing `.js` becomes `.jsx` with the rest of the path unchanged; other paths are kept |
| Generate.ComponentFilePath | backend/src/website/website.service.ts:931-938 | A component's path is taken under `src/` by prefixing, and a `jsx` component's `.js` file is renamed to `.jsx` |
| Generate.ComponentWrites | backend/src/website/website.service.ts:930-947 | One write per component, in order, of its code to its file path |
| Generate.FixedLayout | backend/src/website/website.service.ts:906-926 | The five fixed files are written in order: `index.html`, `package.json`, `vite.config.js`, `src/main.jsx`, `src/style.css` |
| Generate.FixedFiles | backend/src/website/website.service.ts:906-926 | Each fixed file holds the configured text or its default; `index.html` is written through the corrected rewrite |
| Generate.FilePlan | backend/src/website/website.service.ts:875-961 | The project is written as exactly six files more than it has components |
| Generate.FixedFilesFirst | backend/src/website/website.service.ts:906-926 | The five fixed files are the first writes |
| Generate.ComponentFilesNext | backend/src/website/website.service.ts:929-947 | Every component follows, in order, at its path under `src/` with its code |
| Generate.GitignoreLast | backend/src/website/website.service.ts:949-957 | `.gitignore` is the last write |
| Generate.ComponentFilesUnderSrc | backend/src/website/website.service.ts:931-933 | Every component file path starts with `src/` in the string model, where `path.join` does not normalise it |
| IndexPage.DefaultPageShape | backend/src/website/website.service.ts:962-976 | The default page's only `j` is the one of its `src/main.jsx` reference, for a site name without `j` |
| IndexPage.OnlyReference | backend/src/website/website.service.ts:909 | In such a page, the entry reference is the only place `src/main.js` occurs |
| IndexPage.AsWrittenDoublesExtension | backend/src/website/website.service.ts:909 | As written, a page that already loads `src/main.jsx` is made to load `src/main.jsxx` |
| IndexPage.DefaultPageBrokenAsWritten | backend/src/website/website.service.ts:907-910 | As written, the default page ends up loading `src/main.jsxx` |
| IndexPage.CorrectedKeepsJsx | backend/src/website/website.service.ts:908-909 | With the reference matched as a whole word, a page already loading `src/main.jsx` is left alone |
| IndexPage.CorrectedRewritesJs | backend/src/website/website.service.ts:908-909 | With the corrected rewrite, a page loading `src/main.js` is pointed at `src/main.jsx` |
| IndexPage.DefaultPageKept | backend/src/website/website.service.ts:907-910 | With the corrected rewrite, the default page is written as generated |
| IndexPage.DefaultIndexHtml | backend/src/website/website.service.ts:962-976 | The default page loads `src/main.jsx` |
| IndexPage.IndexHtmlAsWritten | backend/src/website/website.service.ts:907-909 | As written, a configured page that never mentions `src/main.js` is written as it is |
| IndexPage.IndexHtmlText | backend/src/website/website.service.ts:907-909 | With the corrected rewrite too, a configured page that never mentions `src/main.js` is written as it is |
| PreviewSelect.SomeLooksLikeReact | frontend/src/components/WebsitePreview.tsx:54-59 | The scan succeeds exactly when some component looks like React |
| PreviewSelect.LooksLikeReact | frontend/src/components/WebsitePreview.tsx:54-59 | A `jsx` component looks like React. Because `&&` binds tighter than `\|\|`, a component of another language with no React import and no `<` does not |
| PreviewSelect.PathOf | frontend/src/components/WebsitePreview.tsx:52-61 | The legacy document is chosen exactly when there are no components. The React document is chosen exactly when there are components and one of them looks like React. Otherwise the vanilla document is chosen |
| PreviewSelect.JsxSelectsReact | frontend/src/components/WebsitePreview.tsx:54-55 | One `jsx` component selects the React document, whatever the others are |
| PreviewSelect.ClassNameWithoutTagIsVanilla | frontend/src/components/WebsitePreview.tsx:58 | `&&` binds tighter than `\|\|`: a `js` component that mentions `className=` but holds no `<` and no React import keeps the vanilla document |
| PreviewSelect.BackslashNeeded | frontend/src/components/WebsitePreview.tsx:74 | As written, the path test `/\\.(jsx\|tsx)$/` needs a literal backslash in the path |
| PreviewSelect.PlainJsxPathSkippedAsWritten | frontend/src/components/WebsitePreview.tsx:74 | A language-less component at an ordinary `.jsx` path, whose code neither imports from `'react'` nor mentions `className`, is dropped as written and kept as intended |
| PreviewSelect.JsxPathRewritten | frontend/src/components/WebsitePreview.tsx:74 | With the extension test as intended, every language-less component at a `.jsx` or `.tsx` path is among the rewritten components |
| PreviewSelect.Select | frontend/src/components/WebsitePreview.tsx:73-74 | The filter keeps exactly the components that pass and keeps everything when all pass; `SelectInOrder` states that the kept ones stay in order |
| PreviewSelect.Rewritten | frontend/src/components/WebsitePreview.tsx:73-74 | The rewritten components are exactly the input's components that pass the corrected test |
| PreviewSelect.SelectInOrder | frontend/src/components/WebsitePreview.tsx:73-74 | The filter distributes over concatenation and keeps a single component exactly when it passes, so the kept components keep their relative order |
| PreviewSelect.AppRendersOnlyWrapped | frontend/src/components/WebsitePreview.tsx:327-356 | Every component rendered by a synthesised `App` is also rewritten and wrapped in its own definition |
| PreviewComponent.OptSemicolonSpaces | frontend/src/components/WebsitePreview.tsx:79-80 | `;?\s*` is greedy: it takes one `;` when there is one, then the whole whitespace run after it |
| PreviewComponent.FromKeyword | frontend/src/components/WebsitePreview.tsx:79-80 | `\s+from\s+` matches exactly when whitespace, `from` and whitespace follow, and it ends after the whole second whitespace run |
| PreviewComponent.QuotedName | frontend/src/components/WebsitePreview.tsx:79-80 | `['"]M['"]` matches exactly when a quote, the module name and a quote follow, and it ends right after the closing quote |
| PreviewComponent.QuotedAny | frontend/src/components/WebsitePreview.tsx:182 | `['"][^'"]+['"]` is a quote, a non-empty run without quotes, then a quote, and it ends after that closing quote |
| PreviewComponent.Braces | frontend/src/components/WebsitePreview.tsx:80 | A brace group is `{`, a run without `}`, then the first `}`, so it closes at the first `}` |
| PreviewComponent.ReactImportAt | frontend/src/components/WebsitePreview.tsx:79 | The React import is `import`, whitespace and `React`, and it ends at `;?\s*` after a later quoted `react` |
| PreviewComponent.BracesFromAt | frontend/src/components/WebsitePreview.tsx:80 | The named-import pattern is the keyword, whitespace, a brace group, `\s+from\s+`, the quoted module, then `;?\s*` |
| PreviewComponent.ImportStatementAt | frontend/src/components/WebsitePreview.tsx:82 | `import\s+[^;]+;?\s*` matches exactly when `import` and whitespace follow and the first `;` lies past them; it ends after that `;` and the whitespace after it |
| PreviewComponent.UseDirectiveAt | frontend/src/components/WebsitePreview.tsx:84 | The directive pattern is leading whitespace, then the directive proper described by `UseDirectiveFrom` |
| PreviewComponent.UseDirectiveFrom | frontend/src/components/WebsitePreview.tsx:84 | The directive is a quote, `use` in any case, whitespace, `client` or `server` in any case, a quote, then `\s*;?\s*` |
| PreviewComponent.ReactAfterBrace | frontend/src/components/WebsitePreview.tsx:85 | `}\s*=\s*React` is a `}`, optional whitespace, `=`, optional whitespace and `React` |
| PreviewComponent.FirstReactBrace | frontend/src/components/WebsitePreview.tsx:85 | The lazy `[\s\S]*?` stops at the first `}` followed by `= React`; when there is none, it finds nothing |
| PreviewComponent.ReactBraceFrom | frontend/src/components/WebsitePreview.tsx:85 | From its `{`, the destructuring runs to the first `}` that `= React` follows, then through `\s*;?\s*` |
| PreviewComponent.ReactDestructureAt | frontend/src/components/WebsitePreview.tsx:85 | The hook-destructuring pattern is leading whitespace, then the `const` pattern of `ReactDestructureFrom` |
| PreviewComponent.ReactDestructureFrom | frontend/src/components/WebsitePreview.tsx:85 | The destructuring from `const` is `const`, optional whitespace, then the brace pattern of `ReactBraceFrom` |
| PreviewComponent.ReactDestructureShape | frontend/src/components/WebsitePreview.tsx:85 | A match is `const` after the leading whitespace, then from the next non-space the brace pattern up to the first `}` that `= React` follows |
| PreviewComponent.ExportDefaultConst | frontend/src/components/WebsitePreview.tsx:100 | `export\s+default\s+const\s+(\w+)\s*=` is `export default`, whitespace, `const`, whitespace, the whole word run it captures, optional whitespace and `=` |
| PreviewComponent.BareExportDefaultLineAt | frontend/src/components/WebsitePreview.tsx:106 | The bare line is a line start, optional whitespace, `export default`, then nothing but `;?` and whitespace to the end of the line |
| PreviewComponent.LineExportAt | frontend/src/components/WebsitePreview.tsx:108 | `^\s*export\s+` matches exactly at a line start followed by optional whitespace, `export` and whitespace, and ends after the whole whitespace run |
| PreviewComponent.FunctionDeclAt | frontend/src/components/WebsitePreview.tsx:148 | `function\s+(\w+)\s*\(` is `function`, whitespace, the whole word run it captures, optional whitespace and `(` |
| PreviewComponent.ConstDeclAt | frontend/src/components/WebsitePreview.tsx:149 | `const\s+(\w+)\s*=` is `const`, whitespace, the whole word run it captures, optional whitespace and `=` |
| PreviewComponent.DeclaredName | frontend/src/components/WebsitePreview.tsx:148-150 | The declared name is non-empty, and a function declaration always yields one (which one is stated by `DeclaredNameIsFirst`) |
| PreviewComponent.DeclaredNameIsFirst | frontend/src/components/WebsitePreview.tsx:148-150 | The name comes from the first `function X(` declaration; only when there is none, from the first `const X =`; and there is none when neither occurs |
| PreviewComponent.DeclarationIsFunctionDecl | frontend/src/components/WebsitePreview.tsx:148-152 | The rename pattern's declaration of an identifier is a match of the declaration pattern capturing the same identifier |
| PreviewComponent.FirstFunctionRenamed | frontend/src/components/WebsitePreview.tsx:147-154 | When the first `function X(` stands at a word boundary, the rename turns that very declaration into `function Name(` and keeps everything before it |
| PreviewComponent.NoRenameBefore | frontend/src/components/WebsitePreview.tsx:148-152 | Before the first `function X(`, the rename of `X` finds nothing |
| PreviewComponent.RenameAtFirst | frontend/src/components/WebsitePreview.tsx:148-152 | At a word boundary, the first `function X(` is itself a match of the rename of `X` |
| PreviewComponent.NamedComponentKept | frontend/src/components/WebsitePreview.tsx:151 | Code whose declared name already is the component's name is not renamed |
| PreviewComponent.RewriteComponent | frontend/src/components/WebsitePreview.tsx:75-157 | The pass-by-pass rewrite of one component's code equals its rewritten code; what the import and export passes do to it is stated by the `PreviewStatements` lemmas |
| PreviewComponent.WrapperName | frontend/src/components/WebsitePreview.tsx:356 | A wrapper's name is never empty; it is the component's identifier when that is non-empty |
| PreviewComponent.Definitions | frontend/src/components/WebsitePreview.tsx:355-357 | One wrapped definition per body, in order, each under its wrapper name |
| PreviewComponent.WrapComponents | frontend/src/components/WebsitePreview.tsx:355-358 | The definitions are joined with blank lines between them |
| PreviewComponent.RewrittenBodies | frontend/src/components/WebsitePreview.tsx:73-157 | One rewritten body per kept component, in order |
| PreviewComponent.MapCode | frontend/src/components/WebsitePreview.tsx:75 | Mapping keeps the length and applies the rewrite to each element |
| PreviewComponent.RewriteAll | frontend/src/components/WebsitePreview.tsx:73-157 | The loop over the kept components yields their rewritten bodies |
| PreviewComponent.DefinitionOfEachComponent | frontend/src/components/WebsitePreview.tsx:350-357 | Bodies and names come from the same filtered list, so the `k`-th definition wraps the `k`-th kept component's code under its own name |
| PreviewComponent.DefinitionsContainEach | frontend/src/components/WebsitePreview.tsx:355-358 | Every definition occurs in the joined definitions |
| PreviewStatements.ReactNamedImportDeleted | frontend/src/components/WebsitePreview.tsx:79-82 | In a component, a canonical `import {…} from 'react';` line is removed whole, and nothing else changes |
| PreviewStatements.JsxNamedImportDeleted | frontend/src/components/WebsitePreview.tsx:613 | In a vanilla function's code, a canonical `import {…} from '…';` line whose list names `jsx` is removed whole, and the text around it is kept |
| PreviewStatements.JsxDefaultImportDeleted | frontend/src/components/WebsitePreview.tsx:613-614 | In a vanilla function's code, a canonical `import jsx from '…';` line is left alone by the braces pass and removed whole by the default pass, and the text around it is kept |
| PreviewStatements.JsxDefaultLineShape | frontend/src/components/WebsitePreview.tsx:614 | The canonical default `jsx` import line has `import`, `jsx`, `from`, the quoted module and `;` at fixed offsets |
| PreviewStatements.JsxDefaultLineMatched | frontend/src/components/WebsitePreview.tsx:614 | At a canonical default `jsx` import followed by a non-space, the default pattern matches the whole line |
| PreviewStatements.JsxNamedLineMatched | frontend/src/components/WebsitePreview.tsx:613 | At a canonical named import whose list names `jsx` and which a non-space follows, the braces pattern matches the whole line |
| PreviewStatements.ImportStatementDeleted | frontend/src/components/WebsitePreview.tsx:79-82 | In a component, any other `import …;` statement is removed whole by the general import pass, and nothing else changes |
| PreviewStatements.ExportFreeUnchanged | frontend/src/components/WebsitePreview.tsx:91-108 | A component's export passes leave a text without `export` as it is |
| PreviewStatements.ExportedFunctionReduced | frontend/src/components/WebsitePreview.tsx:91-108 | `export default function NAME(` loses `export default ` and nothing else changes, whatever the component's own name |
| PreviewStatements.ImportFreeUnchanged | frontend/src/components/WebsitePreview.tsx:174-218 | The entry's import passes leave a text without `import` as it is |
| PreviewStatements.NamedImportDeleted | frontend/src/components/WebsitePreview.tsx:182-202 | The entry's first named-import pass removes a canonical `import {…} from '…';` line whole, so the list-capturing pass never sees it, and nothing else changes |
| PreviewStatements.ExportKeywordDeleted | frontend/src/components/WebsitePreview.tsx:229-234 | In the entry, `export ` before a declaration is removed, nothing else changes, and the directive passes run on what is left |
| PreviewEntry.LowerCaseIsComponent | frontend/src/components/WebsitePreview.tsx:169-172 | A component's name in lower case still counts as the component's |
| PreviewEntry.DefaultImportFromAt | frontend/src/components/WebsitePreview.tsx:176-180 | The fixed React and ReactDOM import patterns are `import`, whitespace, the binding, `\s+from\s+`, the quoted module, then `;?\s*` |
| PreviewEntry.DefaultImportAt | frontend/src/components/WebsitePreview.tsx:185 | `import\s+(\w+)\s+from\s+['"][^'"]+['"];?\s*` is `import`, whitespace, the captured word, `\s+from\s+`, a quoted module and `;?\s*` |
| PreviewEntry.NamedImportListAt | frontend/src/components/WebsitePreview.tsx:182-192 | The list-capturing named-import pattern matches exactly where the deleting one does, ends where it ends, and captures what lies between the braces |
| PreviewEntry.Bindings | frontend/src/components/WebsitePreview.tsx:193-197 | A named import yields every non-empty binding of its entries and no empty one; `BindingsInOrder` states their order |
| PreviewEntry.BindingsInOrder | frontend/src/components/WebsitePreview.tsx:193-197 | Bindings are taken entry by entry: those of a concatenation are the concatenation of the bindings, and one entry yields its own binding when non-empty |
| PreviewEntry.NonComponents | frontend/src/components/WebsitePreview.tsx:199-200 | The stand-ins cover exactly the bindings that are not component names; `NonComponentsInOrder` states their order |
| PreviewEntry.NonComponentsInOrder | frontend/src/components/WebsitePreview.tsx:199-200 | The filter keeps the bindings' order: it distributes over concatenation and keeps one binding exactly when it is not a component name |
| PreviewEntry.StandIns | frontend/src/components/WebsitePreview.tsx:201 | One `const b = [];` per binding, in order |
| PreviewEntry.NamespaceImportAt | frontend/src/components/WebsitePreview.tsx:205 | The namespace-import pattern is `import`, whitespace, then the `*` pattern of `NamespaceFrom` |
| PreviewEntry.NamespaceFrom | frontend/src/components/WebsitePreview.tsx:205 | `\*\s+as\s+(\w+)\s+from …` is `*`, whitespace, `as`, whitespace, then the captured word, `\s+from\s+` and a quoted module |
| PreviewEntry.SideEffectImportAt | frontend/src/components/WebsitePreview.tsx:207 | The side-effect import is `import`, whitespace, a quoted module, then `;?\s*` |
| PreviewEntry.LooseDefaultImportAt | frontend/src/components/WebsitePreview.tsx:209 | The catch-all default import is a non-empty match starting with `import`; `LooseDefaultImportShape` states its shape |
| PreviewEntry.LooseDefaultImportShape | frontend/src/components/WebsitePreview.tsx:209 | The loose default import is `import`, whitespace, the captured word, `\s+from\s+`, then through the first `;` (not right after `from`) and the whitespace after it |
| PreviewEntry.LineEnd | frontend/src/components/WebsitePreview.tsx:214-218 | A multiline `.*$` stops at the first line terminator, or at the end of the text, and crosses none |
| PreviewEntry.ImportLineWithBindingAt | frontend/src/components/WebsitePreview.tsx:214 | The leftover-import-line pattern starts at a line start with `import`; `ImportLineWithBindingShape` states its shape |
| PreviewEntry.ImportLineWithBindingShape | frontend/src/components/WebsitePreview.tsx:214 | The leftover import line is `import`, whitespace, the captured word, `\s+from\s+`, then the rest of the line |
| PreviewEntry.ImportLineAt | frontend/src/components/WebsitePreview.tsx:218 | `^import\s+.*$` matches exactly at a line start followed by `import` and whitespace, and runs to the end of that line |
| PreviewEntry.DeclaredBindingDropped | frontend/src/components/WebsitePreview.tsx:185-187 | A default import of a component, or of one of the data names the document declares itself, leaves nothing |
| PreviewEntry.OtherBindingDeclared | frontend/src/components/WebsitePreview.tsx:188 | Any other default import leaves a stand-in declaration of its binding |
| PreviewEntry.DefaultImportRecognised | frontend/src/components/WebsitePreview.tsx:185 | A canonical `import X from 'M';` followed by a non-space is one whole default-import match, ending right after the line, and it captures `X` |
| PreviewEntry.AliasBinds | frontend/src/components/WebsitePreview.tsx:195-196 | In a named import, `a as b` binds `b` |
| PreviewEntry.PlainBinds | frontend/src/components/WebsitePreview.tsx:196 | A plain entry binds its own name |
| PreviewEntry.ComponentsOnlyNamedImport | frontend/src/components/WebsitePreview.tsx:182-202 | Once a named import reaches the list-capturing pass, one naming only components leaves nothing; a canonical named import never reaches it (`PreviewStatements.NamedImportDeleted`) |
| PreviewEntry.NamedImportDeclares | frontend/src/components/WebsitePreview.tsx:182-202 | Once a named import reaches the list-capturing pass, each binding that is not a component gets a stand-in; a canonical named import never reaches it (`PreviewStatements.NamedImportDeleted`) |
| PreviewEntry.LowerFirst | frontend/src/components/WebsitePreview.tsx:224 | Lower-casing the first character keeps the length and keeps an identifier an identifier |
| PreviewEntry.RemovePlaceholders | frontend/src/components/WebsitePreview.tsx:222-228 | The loop over the component names equals the stepwise removal of every placeholder |
| PreviewEntry.RestUntouched | frontend/src/components/WebsitePreview.tsx:223-226 | Text outside a placeholder declaration is left alone by every pass |
| PreviewEntry.RestUntouchedByLoop | frontend/src/components/WebsitePreview.tsx:222-228 | Text outside a placeholder declaration is left alone by the whole loop |
| PreviewEntry.PassOnDeclaration | frontend/src/components/WebsitePreview.tsx:223-226 | One pass on a placeholder declaration removes it for its own name and leaves it for any other |
| PreviewEntry.ComponentPlaceholderDropped | frontend/src/components/WebsitePreview.tsx:219-228 | A placeholder of a component name, or of its lower-first variant, with no `c` before it and no `const` after it, is gone after the loop, and nothing else changes |
| PreviewEntry.AppDefinitionDeclaresApp | frontend/src/components/WebsitePreview.tsx:244-250 | The synthesised `App` is a `function App(` declaration |
| PreviewEntry.AppRendersEach | frontend/src/components/WebsitePreview.tsx:244-250 | The synthesised `App` renders every component it is given |
| PreviewEntry.NamedDeclAt | frontend/src/components/WebsitePreview.tsx:254-255 | The `App` detection patterns are the keyword, whitespace, the name, optional whitespace and the closing character |
| PreviewEntry.NextStatementAt | frontend/src/components/WebsitePreview.tsx:267 | `(ReactDOM\|function\|const\|var)\s` matches exactly when one of the four words and a whitespace character follow, and ends after that character |
| PreviewEntry.ConstAppEnd | frontend/src/components/WebsitePreview.tsx:264-275 | The arrow `App` ends after its first `;`; without one, at the first statement start found from the search offset, else at the end of the text |
| PreviewEntry.ConstAppSplicedAsWritten | frontend/src/components/WebsitePreview.tsx:259-276 | As written: without `const App` the text is unchanged. Otherwise the text before it is kept, the synthesised `App` stands in its place, and the rest is a suffix of the text |
| PreviewEntry.ConstAppSpliced | frontend/src/components/WebsitePreview.tsx:259-276 | The same as written, and with the search starting inside the arrow `App` no text is repeated: the result is shorter than the text plus the definition and its separator |
| PreviewEntry.InsertApp | frontend/src/components/WebsitePreview.tsx:278-286 | Adding a missing `App` puts the synthesised definition into the script |
| PreviewEntry.AppEnsured | frontend/src/components/WebsitePreview.tsx:252-288 | A script with a function `App` and no arrow `App` is kept. One with neither, or with an arrow `App` spelled `const App`, receives the synthesised definition. An arrow `App` spelled with other whitespace is kept |
| PreviewEntry.RenderCallAt | frontend/src/components/WebsitePreview.tsx:281 | `ReactDOM\.(render\|createRoot)` matches exactly at either call name, and ends right after it |
| PreviewEntry.AppAlwaysDeclared | frontend/src/components/WebsitePreview.tsx:305-318 | After the final check, the script always declares `App` |
| PreviewEntry.AppBeforeRender | frontend/src/components/WebsitePreview.tsx:281-283 | When there is a render call, the synthesised `App` is inserted right before it, and the rest still starts with the call |
| PreviewEntry.ArrowAppFound | frontend/src/components/WebsitePreview.tsx:260-265 | In an arrow `App` without `;`, `const App` is found at its start and no `;` follows |
| PreviewEntry.DuplicateAppAsWritten | frontend/src/components/WebsitePreview.tsx:257-277 | As written, an arrow `App` without `;` is not replaced: the synthesised `App` is put in front of it, and both declarations remain |
| PreviewEntry.ArrowAppReplaced | frontend/src/components/WebsitePreview.tsx:257-277 | With the statement search starting ten characters in, an arrow `App` without `;` and without a later statement is replaced through the end of the text |
| PreviewEntry.RootIdAt | frontend/src/components/WebsitePreview.tsx:292 | The mount-id pattern is `getElementById(`, a quote, a non-empty id without quotes, a quote and `)`, capturing the id |
| PreviewEntry.RootOf | frontend/src/components/WebsitePreview.tsx:291-303 | The mount id is never empty, and it is `app` when no `getElementById(` occurs |
| PreviewEntry.RootFromFirstLookup | frontend/src/components/WebsitePreview.tsx:291-295 | The first `getElementById('id')` gives the mount id |
| PreviewEntry.RootLookupRecognised | frontend/src/components/WebsitePreview.tsx:292 | A literal `getElementById('id')` is one whole mount-id match, ending right after the `)`, and it captures `id` |
| PreviewEntry.ResolveImports | frontend/src/components/WebsitePreview.tsx:174-218 | The pass-by-pass import rewrite equals the import resolution; what it does to import-free text and to canonical imports is stated by the `PreviewStatements` lemmas |
| PreviewEntry.StripExports | frontend/src/components/WebsitePreview.tsx:229-235 | The pass-by-pass export and directive removal equals the stripped text; what it does to `export ` is stated by `PreviewStatements.ExportKeywordDeleted` |
| PreviewEntry.EnsureApp | frontend/src/components/WebsitePreview.tsx:252-288 | The in-place `App` handling computes `AppEnsured`: a function `App` is kept, a missing one is inserted, and an arrow `App` is spliced out with the statement search starting ten characters into it (the corrected splice) |
| PreviewEntry.FindRoot | frontend/src/components/WebsitePreview.tsx:291-303 | The mount id is the first `getElementById` argument, else `app`, and is never empty |
| PreviewEntry.ProcessEntry | frontend/src/components/WebsitePreview.tsx:163-325 | The `mainJsx` branch: the script always declares `App`, and the mount id is the first `getElementById` argument, else `app` |
| PreviewEntry.EntryScript | frontend/src/components/WebsitePreview.tsx:163-325 | The processed entry module always declares `App` |
| PreviewReact.DefaultAppDeclaresApp | frontend/src/components/WebsitePreview.tsx:327-347 | Without an entry module, the synthesised script declares `App` |
| PreviewReact.DefaultAppLooksUpRoot | frontend/src/components/WebsitePreview.tsx:341 | The synthesised script looks up its mount element |
| PreviewReact.DefaultAppRendersEach | frontend/src/components/WebsitePreview.tsx:328-336 | The synthesised `App` renders each `jsx` or `js` component |
| PreviewReact.DataDeclarationAt | frontend/src/components/WebsitePreview.tsx:363 | `\b(const\|let\|var)\s+name\b` matches exactly at a word boundary followed by one of the three keywords, whitespace and the whole word `name`, and ends right after the name |
| PreviewReact.UndeclaredNames | frontend/src/components/WebsitePreview.tsx:362-363 | The names kept are exactly the data names the code does not declare; `UndeclaredNamesInOrder` states their order |
| PreviewReact.UndeclaredNamesInOrder | frontend/src/components/WebsitePreview.tsx:362-363 | The filter keeps the names' order: it distributes over concatenation and keeps one name exactly when the code does not declare it |
| PreviewReact.FallbackLinesOf | frontend/src/components/WebsitePreview.tsx:364 | One fallback line per name, in order |
| PreviewReact.FallbackForUndeclared | frontend/src/components/WebsitePreview.tsx:359-365 | A data name the code does not declare gets its fallback line |
| PreviewReact.DeclarationAtSeen | frontend/src/components/WebsitePreview.tsx:363 | `kw name` with word boundaries on both sides is a declaration of the name |
| PreviewReact.DeclarationSuppressesFallback | frontend/src/components/WebsitePreview.tsx:359-365 | A whole-word `const`, `let` or `var` declaration of a data name is seen, so that name gets no fallback line |
| PreviewReact.ReactScriptDeclaresApp | frontend/src/components/WebsitePreview.tsx:159-348 | The script declares `App` whichever way it was obtained, and the mount id is never empty. Without an entry module, the synthesised `App` mounts at the mount id |
| PreviewReact.ReactPageContents | frontend/src/components/WebsitePreview.tsx:380-439 | The page carries the title, the mount element, every fallback line, the definitions and the script, and its error guard looks up the element it mounts |
| PreviewReact.ReactDocument | frontend/src/components/WebsitePreview.tsx:61-439 | The React document carries the title, the mount element, every component definition and a script that declares `App`, and its error guard looks up the element it mounts |
| PreviewReact.ReactDocumentFallback | frontend/src/components/WebsitePreview.tsx:359-365 | Each data name left undeclared by the definitions and the script gets its fallback line in the document |
| PreviewVanilla.ConstHeadAt | frontend/src/components/WebsitePreview.tsx:468 | `const\s+\w+\s*=\s*` matches exactly when `const`, whitespace, a word, optional whitespace and `=` follow, and ends after the whole whitespace run after `=` |
| PreviewVanilla.ArrowConstAt | frontend/src/components/WebsitePreview.tsx:462 | The arrow-function capture is the text from the end of the `const X = ` head to the match's end, starting with `(` and ending with `}` |
| PreviewVanilla.FunctionConstAt | frontend/src/components/WebsitePreview.tsx:463 | The function-expression pattern is a `const X = ` head followed by `function`, and it ends at a `}` |
| PreviewVanilla.ExportDefaultWordAt | frontend/src/components/WebsitePreview.tsx:469 | `export\s+default\s+\w+;?` matches exactly when `export default`, whitespace and a word follow; it ends after the whole word and one `;` if there is one |
| PreviewVanilla.FunctionWordAt | frontend/src/components/WebsitePreview.tsx:480 | `function\s+\w+` matches exactly when `function`, whitespace and a word follow, and it ends after the whole word |
| PreviewVanilla.BlockAt | frontend/src/components/WebsitePreview.tsx:486 | `\{[\s\S]*\}` matches exactly at a `{` with a `}` somewhere after it, and ends right after the last `}` of the text |
| PreviewVanilla.ReplacementEmitted | frontend/src/components/WebsitePreview.tsx:456-480 | A global replace emits the replacement of the leftmost match |
| PreviewVanilla.NamedDefaultExportRenamed | frontend/src/components/WebsitePreview.tsx:456 | When a named default function export exists, the first pass leaves `function NAME(` in the code |
| PreviewVanilla.AnonymousDefaultExportRenamed | frontend/src/components/WebsitePreview.tsx:456-457 | Code whose only default export is an anonymous function gets the name from the second pass |
| PreviewVanilla.DeclaredFunctionNamed | frontend/src/components/WebsitePreview.tsx:476-481 | When a `function X` is left to rename, the function branch leaves `function NAME` in the code |
| PreviewVanilla.WrappedIsBlock | frontend/src/components/WebsitePreview.tsx:484-492 | The wrapping branch yields a function of the name whose body is a block; `WrappedBody` states which block |
| PreviewVanilla.WrappedBody | frontend/src/components/WebsitePreview.tsx:484-492 | The body is the code from its first `{` through its last `}` when a `}` follows that `{`, otherwise the whole code wrapped in braces |
| PreviewVanilla.PlainCodeWrapped | frontend/src/components/WebsitePreview.tsx:484-492 | Code with no default export that does not start with `function` is converted by the wrapping branch, so its body is its own block or the code wrapped in braces (`WrappedBody`) |
| PreviewVanilla.NoDefaultExport | frontend/src/components/WebsitePreview.tsx:454-476 | Code without `export default` neither contains nor starts with any longer form of it |
| PreviewVanilla.ArrowReturned | frontend/src/components/WebsitePreview.tsx:465-466 | With an arrow function, the `const` branch is `function NAME() { return ARROW; }`, where ARROW is the code's own text from the first arrow `const X = ` head through the arrow's closing `}` |
| PreviewVanilla.ArrowComponentReturned | frontend/src/components/WebsitePreview.tsx:459-466 | A `const` component holding an arrow function becomes the `const` branch's result: a function of the name that returns the arrow function |
| PreviewVanilla.JsxNamedImportAt | frontend/src/components/WebsitePreview.tsx:613 | The named `jsx` import is `import`, whitespace, a brace group whose list holds `jsx`, `\s+from\s+`, a quoted module and `;?\s*` |
| PreviewVanilla.JsxDefaultImportAt | frontend/src/components/WebsitePreview.tsx:614 | The default `jsx` import is `import`, whitespace, `jsx`, `\s+from\s+`, a quoted module and `;?\s*` |
| PreviewVanilla.JsxImportsNeedImport | frontend/src/components/WebsitePreview.tsx:613-614 | Neither `jsx` import pattern matches where no `import` occurs |
| PreviewVanilla.JsxImportsRemoved | frontend/src/components/WebsitePreview.tsx:609-616 | Code without `import` keeps its text |
| PreviewVanilla.ImportBindingAt | frontend/src/components/WebsitePreview.tsx:503 | The import pattern is `import`, whitespace, the whole word it captures, `\s+from\s+`, a quoted module, and one `;` if there is one |
| PreviewVanilla.ImportedNames | frontend/src/components/WebsitePreview.tsx:503-507 | Every collected name is the binding of some default import of the entry module; `ImportedNamesFirst` and `ImportedNamesNone` state their order |
| PreviewVanilla.ImportedNamesFirst | frontend/src/components/WebsitePreview.tsx:503-507 | The first name is the binding of the leftmost default import, and collection resumes right after that import |
| PreviewVanilla.ImportedNamesNone | frontend/src/components/WebsitePreview.tsx:503-507 | An entry module with no default import yields no names |
| PreviewVanilla.CallsOf | frontend/src/components/WebsitePreview.tsx:531-541 | One `app.appendChild(name())` call per function, in order |
| PreviewVanilla.Provider | frontend/src/components/WebsitePreview.tsx:517-520 | The provider is the first function that declares the name or has it as its name, ignoring case; there is none exactly when no function does |
| PreviewVanilla.ImportedCalls | frontend/src/components/WebsitePreview.tsx:515-522 | Each imported name with a provider calls its provider and every call belongs to such a name; `ImportedCallsInOrder` states their order |
| PreviewVanilla.ImportedCallsInOrder | frontend/src/components/WebsitePreview.tsx:515-522 | The calls follow the names: they distribute over concatenation, and one name yields its provider's call exactly when it has a provider |
| PreviewVanilla.ExecutionParts | frontend/src/components/WebsitePreview.tsx:511-543 | The execution looks up the `app` element and contains its calls |
| PreviewVanilla.JoinedPart | frontend/src/components/WebsitePreview.tsx:522-541 | Each part of a join occurs in the joined text |
| PreviewVanilla.ExecutionMountsAtApp | frontend/src/components/WebsitePreview.tsx:497-544 | The execution code always looks up the `app` element |
| PreviewVanilla.ExecutionCallsEveryFunction | frontend/src/components/WebsitePreview.tsx:525-544 | Without an entry module, or with one without default imports, every function is called |
| PreviewVanilla.ExecutionCallsImported | frontend/src/components/WebsitePreview.tsx:509-524 | With default imports, each imported name that some function provides has its provider called |
| PreviewVanilla.VanillaPageContents | frontend/src/components/WebsitePreview.tsx:586-621 | The page carries the title, the `app` element, the function codes and the execution code |
| PreviewVanilla.VanillaFunctions | frontend/src/components/WebsitePreview.tsx:445-495 | One converted function per `js` component, in order |
| PreviewVanilla.VanillaDocument | frontend/src/components/WebsitePreview.tsx:440-621 | The vanilla document carries the title and the `app` element, and its execution looks up that element |
| PreviewVanilla.FunctionCodes | frontend/src/components/WebsitePreview.tsx:609-616 | Each function contributes its code with the `jsx` imports removed; `JsxNamedImportDeleted` and `JsxDefaultImportDeleted` state what that removal does to a canonical import line |
| PreviewVanilla.VanillaDocumentContents | frontend/src/components/WebsitePreview.tsx:440-621 | The vanilla document carries every `js` component's function code, with its `jsx` imports removed |
| PreviewLegacy.SubstitutePlainPrefix | frontend/src/components/WebsitePreview.tsx:630-633 | A dollar-free prefix of a replacement string is copied as it is |
| PreviewLegacy.SubstituteAfter | frontend/src/components/WebsitePreview.tsx:633 | A replacement of dollar-free text around one `$'` expands to that text around what follows the match |
| PreviewLegacy.NoDollarLiteral | frontend/src/components/WebsitePreview.tsx:630-633 | A replacement without `$` is inserted literally, so as written and as intended agree |
| PreviewLegacy.InsertsBefore | frontend/src/components/WebsitePreview.tsx:630-633 | Replacing a tag by `ins + tag` inserts `ins` right before the tag's first occurrence and keeps everything else |
| PreviewLegacy.ReplaceTextAsWritten | frontend/src/components/WebsitePreview.tsx:629-634 | `replace` with a string pattern, as written: text without the target is unchanged; otherwise what precedes and what follows the first occurrence is kept |
| PreviewLegacy.ReplaceText | frontend/src/components/WebsitePreview.tsx:629-634 | The same, with the replacement standing literally where the target stood |
| PreviewLegacy.DollarQuoteSplicesTailAsWritten | frontend/src/components/WebsitePreview.tsx:632-633 | As written, script text holding `$'` carries a copy of everything after the page's first `</body>` into the script; inserted literally it would not |
| PreviewLegacy.LegacyShellContents | frontend/src/components/WebsitePreview.tsx:636-662 | The shell carries the title, the CSS, the markup and the script |
| PreviewLegacy.LegacyDocument | frontend/src/components/WebsitePreview.tsx:625-662 | A full document with its own style and script elements is shown as it is. Markup that is not a full document goes into the shell, with the CSS, the script and the title |
| PreviewLegacy.StyleInsertedBeforeHead | frontend/src/components/WebsitePreview.tsx:629-631 | A full document without a style element receives the CSS right before its first `</head>`, and nothing else changes when it has its own script element. For CSS without `$`, the replacement as JavaScript evaluates it gives the same page |
| PreviewLegacy.ScriptInsertedBeforeBody | frontend/src/components/WebsitePreview.tsx:632-634 | A full document without a script element receives the script right before its first `</body>`, and nothing else changes when it has its own style element. For a script without `$`, the replacement as JavaScript evaluates it gives the same page |
| Preview.LoadContent | frontend/src/components/WebsitePreview.tsx:49-680 | The content the frame receives is the selected builder's document with its imgur addresses replaced; the React branch runs the component and entry rewrites step by step |
| Preview.FirstImgurReplaced | frontend/src/components/WebsitePreview.tsx:667-679 | The first imgur address becomes a placeholder sized by the text around its own offset, and the text before it is kept |
| Preview.PreviewDocument | frontend/src/components/WebsitePreview.tsx:52-662 | A document built from components carries the page title, and so does the shell around a fragment. The element a document's script mounts into is the one the document declares: the React page's root or the vanilla page's `app` |
| CodeFormat.FormatJson | frontend/src/pages/Dashboard.tsx:117-127 | An empty text stays empty, a text that parses is printed with two-space indentation, and anything else is kept as it is |
| CodeFormat.FormatJsonIdempotent | frontend/src/pages/Dashboard.tsx:117-127 | With a parser that reads printed JSON back, formatting twice is formatting once |
| Json.Stringify | frontend/src/pages/Dashboard.tsx:122 | `JSON.stringify(v, null, 2)` never prints an empty text; it starts with `{` exactly for an object, with `[` exactly for an array, and with `"` for a string |
| Json.EscapeChar | frontend/src/pages/Dashboard.tsx:122 | A string character is escaped exactly when it is a quote, a backslash or a control character; every escape is printable |
| Json.EscapeString | frontend/src/pages/Dashboard.tsx:122 | Escaping never shortens a string and leaves no control character |
| Json.Quote | frontend/src/pages/Dashboard.tsx:122 | A printed string is enclosed in double quotes and holds no line break |
| Json.EscapePlain | frontend/src/pages/Dashboard.tsx:122 | Text without a quote, a backslash or a control character is printed verbatim between the quotes |
| Json.Get | backend/src/website/website.service.ts:322-328 | Reading a member of an object yields a value that the object holds under that key, and nothing when no member has the key or the value is not an object |
| Json.Lookup | backend/src/website/website.service.ts:322-328 | The value found is one the members hold under the key, and nothing is found when no member has the key |
| Json.LookupUnique | backend/src/website/website.service.ts:322-328 | A key held by exactly one member is found with that member's value |
| Json.GetString | backend/src/website/website.service.ts:655 | A member read as text is the member's string when it is a string, and empty otherwise |
| Json.GetArray | backend/src/website/website.service.ts:322 | A member that is an array is read as that array; an absent member, a non-array member or a non-object value is read as the empty sequence |
| Json.Without | backend/src/website/website.service.ts:690 | The object rest keeps exactly the members not under the removed key: none under the key, every other member of the original |
| Json.WithoutConcat | backend/src/website/website.service.ts:690 | The object rest keeps the members' order: removing a key distributes over concatenation |
| Rewrite.FirstHit | frontend/src/components/WebsitePreview.tsx:613-614 | The offset found is the leftmost one at or after the start where the pattern matches, and none is found only when it matches nowhere |
| Rewrite.ReplaceNoHit | frontend/src/components/WebsitePreview.tsx:613-614 | A global replace leaves text where the pattern never matches unchanged |
| Rewrite.ReplaceAtHit | frontend/src/components/WebsitePreview.tsx:613-614 | At a match, a global replace emits the replacement and resumes after the match |
| Rewrite.ReplaceCopiesUpTo | frontend/src/components/WebsitePreview.tsx:613-614 | A global replace copies verbatim the text before its first match |
| Rewrite.ReplaceOnlyHit | frontend/src/components/WebsitePreview.tsx:613-614 | A text with a single match has that match replaced and the rest copied |
| Rewrite.ReplaceFirstHit | frontend/src/components/WebsitePreview.tsx:613-614 | At the first match, a global replace copies what precedes it, emits the replacement and resumes after it |
| Rewrite.ReplaceFirstHitPrefix | frontend/src/components/WebsitePreview.tsx:613-614 | The result of a global replace begins with the text before the first match followed by its replacement |
| Rewrite.DeleteOnlyHit | frontend/src/components/WebsitePreview.tsx:613-614 | A text with a single deleting match keeps exactly the texts around it |
| Rewrite.ReplaceNeverLonger | frontend/src/components/WebsitePreview.tsx:613-614 | Replacements never longer than their matches never lengthen the text |
| Rewrite.ReplaceAll | frontend/src/components/WebsitePreview.tsx:613-614 | Text without any match is unchanged by a global replace |
| Rewrite.ReplaceFirstAtStart | backend/src/website/website.service.ts:745 | A non-global replace whose pattern deletes a match at the start leaves only what follows the match |
| Rewrite.ReplaceFirst | backend/src/website/website.service.ts:745-746 | A non-global replace leaves text without a match unchanged. Otherwise it keeps the text before the first match and emits that match's replacement there |
| Rewrite.MatchAllFrom | frontend/src/components/WebsitePreview.tsx:503 | `matchAll` collects no more matches than there are characters left to scan |
| Rewrite.MatchAllNoHit | frontend/src/components/WebsitePreview.tsx:503 | A scan over text where the pattern never matches collects nothing |
| Rewrite.MatchAll | frontend/src/components/WebsitePreview.tsx:503 | `matchAll` collects nothing exactly when the pattern matches nowhere |
| Rewrite.MatchAllSkips | frontend/src/components/WebsitePreview.tsx:503 | The scan passes over offsets without a match and collects the next match, then resumes after it |
| Rewrite.MatchAllOuts | frontend/src/components/WebsitePreview.tsx:503 | Everything the scan collects comes from a match at or after its start |
| CodeFormat.HtmlBreaksBetweenTags | frontend/src/pages/Dashboard.tsx:141-143 | Single-line HTML gains line breaks only between a tag's `>` and the next tag's `<` |
| CodeFormat.LevelBefore | frontend/src/pages/Dashboard.tsx:168-171 | A closing line is printed one level lower, never below zero; any other line at the current level |
| CodeFormat.LevelAfter | frontend/src/pages/Dashboard.tsx:175-179 | After an opening line the level rises by one |
| CodeFormat.TrimIndented | frontend/src/pages/Dashboard.tsx:165-173 | Trimming an indented line gives back its text |
| CodeFormat.IndentedLine | frontend/src/pages/Dashboard.tsx:173 | A trimmed text at `2 * level` spaces is a well-indented line |
| CodeFormat.Indented | frontend/src/pages/Dashboard.tsx:160-182 | One printed line per non-blank line, each well indented; `IndentedKeepsLines` states that each is the matching trimmed line |
| CodeFormat.IndentedKeepsLines | frontend/src/pages/Dashboard.tsx:160-182 | Each printed line, trimmed, is the matching non-blank input line, trimmed: only the indentation is added |
| CodeFormat.TrimmedNonBlank | frontend/src/pages/Dashboard.tsx:164-166 | The lines printed are non-empty and already trimmed, never more than the input lines |
| CodeFormat.IndentLines | frontend/src/pages/Dashboard.tsx:160-182 | The loop that carries `indentLevel` from line to line yields the indented lines |
| CodeFormat.FormatCode | frontend/src/pages/Dashboard.tsx:130-185 | The method computes the formatted code, with the level updated line by line |
| CodeFormat.SplitSeveral | frontend/src/pages/Dashboard.tsx:134 | Text splits into several lines exactly when it holds a line break |
| CodeFormat.MultiLineKept | frontend/src/pages/Dashboard.tsx:133-136 | Code already on several lines is shown as it is |
| CodeFormat.FormattedLines | frontend/src/pages/Dashboard.tsx:138-184 | Single-line code is shown as well-indented lines joined by line breaks |
| CodeFormat.ClosingMatchesOpening | frontend/src/pages/Dashboard.tsx:168-179 | A closing line right after an opening line is printed at the opening line's level |
| Dashboard.StatsOf | frontend/src/pages/Dashboard.tsx:101-108 | A missing list counts as empty; every count is the number of websites, and used plus remaining credits is always five |
| Dashboard.CreditsOverdrawn | frontend/src/pages/Dashboard.tsx:107 | The remaining credits go negative exactly when more than five websites exist |
| Dashboard.OneMoreWebsite | frontend/src/pages/Dashboard.tsx:104-107 | One more website moves one credit from remaining to used |
| Dashboard.Underscored | frontend/src/pages/Dashboard.tsx:274 | Each character that is not an ASCII letter or digit becomes `_`, and the length is kept |
| Dashboard.FolderName | frontend/src/pages/Dashboard.tsx:274 | An empty name gives `website`. Otherwise each letter or digit is lower-cased, each other character becomes `_`, and the length is kept |
| Dashboard.FolderNameSafe | frontend/src/pages/Dashboard.tsx:274 | A folder name is never empty and uses only lower-case letters, digits and `_` |
| Dashboard.FolderNameKeepsSafe | frontend/src/pages/Dashboard.tsx:274 | A non-empty name made only of folder characters is its own folder name |
| Dashboard.FolderNameIdempotent | frontend/src/pages/Dashboard.tsx:274 | Making a folder name twice is making it once |
| History.Toggled | frontend/src/pages/History.tsx:91-109 | Toggling flips the website's membership. Collapsing drops its view mode and tab; expanding opens the preview on the `html` tab. Other websites are untouched |
| History.ToggledConsistent | frontend/src/pages/History.tsx:91-109 | Toggling keeps the expanded set, the view modes and the tabs in step |
| History.ToggledTwice | frontend/src/pages/History.tsx:91-109 | Toggling twice restores the website's membership, and from a consistent state with the website collapsed, the whole state |
| History.Deleted | frontend/src/pages/History.tsx:73-82 | After a delete, the id leaves the expanded set, the view modes and the tabs, and everything else is kept |
| History.DeletedConsistent | frontend/src/pages/History.tsx:73-82 | Deleting keeps the panels consistent |
| History.WithoutSite | frontend/src/pages/History.tsx:72 | The list keeps exactly the websites with another id, and is unchanged when no website has that id; `WithoutSiteInOrder` states their order |
| History.WithoutSiteInOrder | frontend/src/pages/History.tsx:72 | The filter keeps the websites' order: it distributes over concatenation and keeps one website exactly when its id differs |
| History.DefaultTab | frontend/src/pages/History.tsx:294-300 | The default code tab is `component-0` for a website with components and `html` otherwise |
| History.DefaultTabShown | frontend/src/pages/History.tsx:294-300 | The default tab always has a panel |
| History.ShowsTab | frontend/src/pages/History.tsx:414-676 | A website with components has no panel for the `html`, `css` or `js` tabs, and one without components has none for a `component-` tab |
| History.CodeOpenedAsWritten | frontend/src/pages/History.tsx:292-301 | As written, the Code button switches to the code view and opens the default tab only when no tab is open |
| History.ComponentCodeHiddenAsWritten | frontend/src/pages/History.tsx:102-107 | As written, a website with components, once expanded, shows no code: its tab stays `html`, which has no panel |
| History.CodeOpened | frontend/src/pages/History.tsx:292-301 | The corrected Code button opens the code view on a tab that has a panel, keeping an open tab that has one; other websites are untouched |
| History.ExpandedCodeShowsDefault | frontend/src/pages/History.tsx:292-301 | With the correction, the code view opens the default tab after expanding, and the first component for a website with components |
| History.CodeOpenedConsistent | frontend/src/pages/History.tsx:292-301 | The code view keeps the panels consistent when its website is expanded |
| History.PreviewShown | frontend/src/pages/History.tsx:281 | The Preview button sets the website's view mode to preview and changes no other panel state and no other website's view mode |
| History.ComponentSelected | frontend/src/pages/History.tsx:340-341 | A component tab opens `component-<index>` and shows that component; no other panel state and no other website's tab or component changes |
| History.HistoryPage.constructor | frontend/src/pages/History.tsx:40-46 | The page starts with no websites, no panels and nothing being deleted |
| History.HistoryPage.FetchWebsites | frontend/src/pages/History.tsx:53-62 | A successful fetch replaces the list; a failed one keeps it |
| History.HistoryPage.TogglePreview | frontend/src/pages/History.tsx:91-109 | The page's panels become the toggled panels, and the consistency invariant is kept |
| History.HistoryPage.HandleDelete | frontend/src/pages/History.tsx:64-89 | Without confirmation nothing changes. A delete the server accepts removes the website and cleans up its panel, one it refuses changes neither, and the busy mark is cleared either way |
| History.HistoryPage.ShowCode | frontend/src/pages/History.tsx:292-301 | The page's panels become the corrected code view, and the invariant is kept |
| History.HistoryPage.ShowPreview | frontend/src/pages/History.tsx:281 | The page's panels show the preview, and the invariant is kept |
| History.HistoryPage.SelectComponent | frontend/src/pages/History.tsx:340-341 | The page's panels show the chosen component, and the invariant is kept |
| Login.EmptyBoxes | frontend/src/pages/Login.tsx:19 | Six empty boxes |
| Login.CombinedLength | frontend/src/pages/Login.tsx:30 | The joined code is as long as the number of boxes exactly when every box is filled, and never longer |
| Login.SubmitNeedsEveryBox | frontend/src/pages/Login.tsx:210 | The code can be submitted exactly when every one of the six boxes holds a digit |
| Login.DigitsOf | frontend/src/pages/Login.tsx:57 | Stripping non-digits leaves only digits and keeps every digit of the text; `DigitsOfInOrder` states their order |
| Login.DigitsOfInOrder | frontend/src/pages/Login.tsx:57 | The digits keep their order: stripping distributes over concatenation and keeps one character exactly when it is a digit |
| Login.DigitsOfDigits | frontend/src/pages/Login.tsx:57 | Text made of digits only is kept whole |
| Login.PastedCode | frontend/src/pages/Login.tsx:57 | The pasted code is the first six digits of the text, or all of them when there are fewer |
| Login.PastedBoxes | frontend/src/pages/Login.tsx:60-62 | After a paste the boxes hold the pasted digits from the left and are empty after them |
| Login.PastedCombined | frontend/src/pages/Login.tsx:60-62 | The joined boxes after a paste are the pasted code |
| Login.FullPasteSubmittable | frontend/src/pages/Login.tsx:56-65 | A paste of six or more digits fills every box and enables the submit button |
| Login.PayloadFor | frontend/src/pages/Login.tsx:88-90 | Login sends email and password only; sign-up adds the name |
| Login.Endpoint | frontend/src/pages/Login.tsx:86 | Login posts to `/auth/login` and sign-up to `/auth/signup` |
| Login.OutcomeOf | frontend/src/pages/Login.tsx:91-111 | A token with a user signs in. Otherwise a code request opens the code step for the reply's email, or the typed one. Anything else is an error, and a failed call shows the server's message or a generic one |
| Login.LoginForm.constructor | frontend/src/pages/Login.tsx:14-23 | The form starts in login mode with empty fields, six empty boxes and no session |
| Login.LoginForm.OtpBoxChange | frontend/src/pages/Login.tsx:32-42 | An empty or one-digit value replaces that box only; any other value changes nothing; every other field is kept |
| Login.LoginForm.OtpPaste | frontend/src/pages/Login.tsx:56-69 | A paste holding digits fills the boxes from the left; one without digits changes nothing; every other field is kept |
| Login.LoginForm.ResetOtpState | frontend/src/pages/Login.tsx:71-78 | Back to the credentials step with empty boxes and no pending code; loading, error, session, mode and credentials are kept |
| Login.LoginForm.Request | frontend/src/pages/Login.tsx:86-91 | The request goes to the mode's endpoint with the mode's payload |
| Login.LoginForm.Submit | frontend/src/pages/Login.tsx:80-115 | The form signs in, or opens the code step with empty boxes and the reply's pending code, or shows an error; loading is over either way, the credentials are kept, and the pending code changes only on the code step |
| Sidebar.TruncateTitle | frontend/src/components/AppSidebar.tsx:77-80 | An empty title reads `New Conversation`, one of up to 22 characters is kept, and a longer one keeps its first 22 characters plus `...` |
| Sidebar.TruncatedTitleIsPrefix | frontend/src/components/AppSidebar.tsx:77-80 | A shown title begins with the title's own first characters |
| Sidebar.TruncateTitleIdempotent | frontend/src/components/AppSidebar.tsx:77-80 | Truncating a shown title again changes nothing |
| Sidebar.RecentLabel | frontend/src/components/AppSidebar.tsx:197 | A recent is labelled by its name, else its prompt, else `New Conversation`, truncated |
| Sidebar.GetInitials | frontend/src/components/AppSidebar.tsx:82-89 | The initials are the upper-cased first characters of the first two space-separated words with a first character, in order, or as many as there are |
| Sidebar.InitialsStartWithName | frontend/src/components/AppSidebar.tsx:82-89 | A name not beginning with a space has its first character, upper-cased, as its first initial |
| Sidebar.TwoWordInitials | frontend/src/components/AppSidebar.tsx:82-89 | A two-word name gives both words' first characters, upper-cased |
| Sidebar.AvatarText | frontend/src/components/AppSidebar.tsx:229 | The avatar shows the initials of a named user, else `U` |
| Sidebar.VisibleRecents | frontend/src/components/AppSidebar.tsx:66 | The shown recents are the first `visible` ones, or all when there are fewer |
| Sidebar.MoreMeansHidden | frontend/src/components/AppSidebar.tsx:67 | More recents exist exactly when some are hidden |
| Sidebar.ShowMoreReveals | frontend/src/components/AppSidebar.tsx:69-71 | Show More reveals the next five recents after the shown ones |
| Sidebar.RecentsPanel.constructor | frontend/src/components/AppSidebar.tsx:44-45 | The sidebar starts with no recents and five visible |
| Sidebar.RecentsPanel.FetchRecents | frontend/src/components/AppSidebar.tsx:49-64 | A list replaces the recents and shows the first five again; a body that is not a list empties them the same way; a failure empties them and keeps the count |
| Sidebar.RecentsPanel.ShowMore | frontend/src/components/AppSidebar.tsx:69-71 | Show More raises the visible count by five and keeps the recents |
| RecentProjects.AgeOf | frontend/src/components/RecentProjects.tsx:25-31 | Under a minute is `Just now`, under an hour whole minutes, under a day whole hours, under a week whole days, otherwise the date |
| RecentProjects.AgeCountsInRange | frontend/src/components/RecentProjects.tsx:28-30 | Every count shown is at least one and below the next unit's size |
| RecentProjects.AgeMonotone | frontend/src/components/RecentProjects.tsx:25-31 | An older age never lands in a newer bucket, nor shows a smaller count in the same bucket |
| RecentProjects.GetTimeAgo | frontend/src/components/RecentProjects.tsx:22-32 | The text for a creation time: its bucket's text, or the locale date for an unparsable date or one a week old or more |
| RecentProjects.FutureIsJustNow | frontend/src/components/RecentProjects.tsx:25-27 | A creation time in the future reads `Just now` |
| RecentProjects.MinutesReadBack | frontend/src/components/RecentProjects.tsx:28 | The number before `minutes ago` is the whole minutes elapsed |
| RecentProjects.Insert | frontend/src/components/RecentProjects.tsx:44-47 | Insertion keeps the projects as a multiset and adds one |
| RecentProjects.InsertSorted | frontend/src/components/RecentProjects.tsx:44-47 | Inserting into a list sorted newest first keeps it sorted |
| RecentProjects.SortByNewest | frontend/src/components/RecentProjects.tsx:44-47 | The sort is a permutation of the projects |
| RecentProjects.SortByNewestSorted | frontend/src/components/RecentProjects.tsx:44-47 | The sort puts the newest first |
| RecentProjects.InsertKeepsTies | frontend/src/components/RecentProjects.tsx:44-47 | Insertion puts the new project before the others created at the same time and keeps their order |
| RecentProjects.SortByNewestStable | frontend/src/components/RecentProjects.tsx:44-47 | The sort is stable: projects created at the same time keep their input order |
| RecentProjects.Newest | frontend/src/components/RecentProjects.tsx:48 | At most the first six of the sorted list |
| RecentProjects.RecentList | frontend/src/components/RecentProjects.tsx:42-52 | The strip lists the newest six or fewer, in order, the `i`-th with gradient `i % 6` |
| RecentProjects.RecentListIsNewest | frontend/src/components/RecentProjects.tsx:42-52 | The listed projects are sorted newest first, are all fetched projects, and no project left out is newer than a listed one |
| RecentProjects.NewestIsNewest | frontend/src/components/RecentProjects.tsx:44-48 | The first six of the sorted list are sorted, fetched, and no newer than any left out |
| RecentProjects.SortedPrefix | frontend/src/components/RecentProjects.tsx:44-48 | A prefix of a list sorted newest first is sorted, and nothing after it is newer than anything in it |
| RecentProjects.ThumbnailsDistinct | frontend/src/components/RecentProjects.tsx:49-52 | The listed projects get different thumbnails |
| RecentProjects.GradientsDistinct | frontend/src/components/RecentProjects.tsx:13-20 | The six gradients differ from each other |

## Left out

- The text of every prompt the backend sends, and the call to the code-generating model itself. The model's reply is an input.
- Database reads and writes, file-system writes, HTTP requests, logging and the `import.meta.env.DEV` checks. Each of them is modelled by its result: the record saved, the list of files planned, or the outcome of a request.
- `JSON.parse` is a parameter of every operation that parses. The properties hold for whatever parser is supplied; the parser's own grammar is not modelled.
- `toLocaleDateString` is a parameter of `RecentProjects.GetTimeAgo`, so locale formatting is not modelled. `new Date(...)` parsing is modelled as an optional millisecond count.
- Lengths are counted in Unicode code points, whereas JavaScript counts UTF-16 units. Titles and slices can therefore differ for text outside the Basic Multilingual Plane.
- `toLowerCase` and `toUpperCase` are modelled for ASCII letters only.
- Component names are placed into the rename and placeholder patterns literally. The source interpolates them into `RegExp` unescaped, so a name holding a regular-expression metacharacter would match differently there.
- The default-props patch of the React preview (frontend/src/components/WebsitePreview.tsx:110-145) is not modelled. It adds `= {}` defaults to `product` and `props` parameters of a component's first function. The model goes straight from export stripping to the rename.
- PreviewComponent.FirstFunctionRenamed: it states the rename only for the first `function X(` declaration, not for every later one.
- PreviewVanilla.NamedDefaultExportRenamed: it covers only the first export pass. It does not state what the second pass does to the already-rewritten text.
- PreviewEntry.RootOf: the second root-id lookup (frontend/src/components/WebsitePreview.tsx:297-303) runs the same match on the same text as the first (frontend/src/components/WebsitePreview.tsx:291-295), so the model folds both into one.
- The `jsx` helper script of the vanilla preview is carried as an opaque constant. Its behaviour inside the iframe is not modelled.
- Writing the document into the iframe (`doc.write`), waiting for the iframe to load, the 100 ms retries (`setTimeout`) and the fullscreen toggle are not modelled; `Preview.LoadContent` ends with the document's text.
- Placeholders.PlaceholderRemoved: it states the removal only for one canonical placeholder, with no `c` before it, no `const` after it and no whitespace right after it, not for every text.
- The sanitisers are not idempotent, and no idempotence is claimed: a second pass can rewrite `>a$${x}<` or `!x = {} = {}` again.
- Generation errors (backend/src/website/website.service.ts:404-423): the messages `generateWebsite` throws when the model call fails are not modelled, since the call itself is outside the model.
- `saveWebsiteFiles` (backend/src/website/website.service.ts:1083 onwards) only writes the legacy three files to disk, so it is not modelled beyond the file plan.
- RecentProjects.SortByNewest: every `createdAt` is taken as a parsed time in milliseconds. A date that cannot be parsed makes the source's comparator return `NaN`, which leaves the browser's order unspecified; the model does not represent it.
- History's `formatDate` is left to the browser's locale and is not modelled.
- History.HistoryPage.HandleDelete: the browser's `confirm` dialog is a boolean parameter, and the failure alert is not modelled.
- Login: the key-down handler that moves focus back on Backspace (frontend/src/pages/Login.tsx:44-54) and all focus moves are not modelled; after a successful login, the navigation is not modelled.
- Sidebar: navigation on a recent's click and logout are not modelled.
- Generate.StripPlaceholdersFrom: its own contract bounds the length only. Which text is removed is stated by Generate.StripRemovesDeclaration, for a canonical placeholder between texts without `const`. No general account of the pattern's matches is given.
- Generate.StripPlaceholder: its own contract bounds the length and skips an empty name. The removal is stated by Generate.StripRemovesDeclaration, for the canonical case only.
- Generate.NormalizedEntry: its own contract keeps an absent text absent. Its effect on a present text is stated by Generate.NormalizedEntryDropsPlaceholder, only for a canonical placeholder in a text the sanitisers leave alone.
- Generate.DefaultPackageJson: its own contract says only that the text opens an object. Generate.DefaultManifestText pins the first member line and the closing brace; the printed text of the other members is not stated.
- Generate.ImportPath: its own contract states the `/src/` prefix. The whole path is stated by Generate.ImportPathIsSrcPath.
- Generate.ComponentFilePath: `path.join` normalises `..`, `./` and `//`, and the model joins strings without normalising. For a component path holding `..`, the source can write outside `src/`, while the model's path still starts with `src/`.
- Generate.ComponentFilesUnderSrc: it holds for the string model only. Because `path.join` normalises, it does not hold for the source when a component path holds `..`.
- FilesShape.PageMainJsx: its own contract says only that the entry module mounts. Its text is stated for a page without `import` or `export` (FilesShape.PlainPageMounted). For other pages, each pass is described only by its pattern's contract, not by the text that results. Nor is it claimed that no `export default` is left: a removal can join two pieces into a new one, as `expoexport default rt default x` becomes `export default x`.
- PreviewComponent.ReactImportAt: it states the `import`, the whitespace, `React` and the closing quoted `react` with what follows it. The optional `, {…}` list and the `from` between `React` and `'react'` are not stated.
- PreviewEntry.ComponentPlaceholderDropped: it holds only with no `c` before the placeholder and no `const` after it. In general it is false: with the names `[A]`, `const const A = []; A = [];` loses `const A = []; ` at offset 6 and leaves `const A = [];`.
- PreviewStatements: the removal of import and export statements is stated for one canonical statement in a text that holds no other `import` (or `export`), not for every text. In general a removal can create a new statement: removing `export ` from `exexport port x` leaves `export x`.
- PreviewVanilla.ArrowConstAt: it states the `const X = ` head and that the capture runs from there to the match's end, starting with `(` and ending with `}`. The parameter list without `)`, the `=>` and the body without `}` in between are not stated.
- PreviewVanilla.FunctionConstAt: it states the `const X = ` head, the `function` after it and the closing `}`. The parameter list and the body in between are not stated.
- The operations that build what the system writes or shows use the corrected behaviour of each row under "## Findings", not the behaviour as written. The as-written behaviour is modelled only by the `AsWritten` members and the lemmas named in the Findings table: `IndexPage.IndexHtmlAsWritten`, `PreviewSelect.IsRewrittenAsWritten`, `PreviewEntry.ConstAppSplicedAsWritten`, `PreviewLegacy.ReplaceTextAsWritten` and `History.CodeOpenedAsWritten`. The members concerned are `Generate.FixedFiles`, `PreviewEntry.EnsureApp`, `PreviewEntry.ProcessEntry`, `PreviewLegacy.StyleInsertedBeforeHead`, `PreviewLegacy.ScriptInsertedBeforeBody`, `Preview.LoadContent` and `History.HistoryPage.ShowCode`.
- Generate.FixedFiles: it writes `index.html` through `IndexPage.IndexHtmlText`, the corrected rewrite. As written, the source turns a page's `src/main.jsx` into `src/main.jsxx`; that behaviour is only in `IndexPage.IndexHtmlAsWritten`.
- PreviewEntry.EnsureApp: its statement search starts ten characters into the arrow `App`, the corrected splice. As written, the source's `search` ignores the offset and starts at the text's start; that behaviour is only in `PreviewEntry.ConstAppSplicedAsWritten`.
- PreviewEntry.ProcessEntry: it splices `App` the corrected way, through `PreviewEntry.EnsureApp`; the as-written splice is only in `PreviewEntry.ConstAppSplicedAsWritten`.
- PreviewLegacy.StyleInsertedBeforeHead: it states the literal insertion. As written, the source's string replacement expands `$&`, `$'`, `` $` `` and `$$` in the CSS. The lemma ties the two only for CSS without `$`. The expansion itself is only in `PreviewLegacy.ReplaceTextAsWritten`.
- PreviewLegacy.ScriptInsertedBeforeBody: it states the literal insertion. As written, the source's string replacement expands `$&`, `$'`, `` $` `` and `$$` in the script. The lemma ties the two only for a script without `$`. The expansion itself is only in `PreviewLegacy.ReplaceTextAsWritten`, and `PreviewLegacy.DollarQuoteSplicesTailAsWritten` shows its effect.
- Preview.LoadContent: it composes the corrected component selection, `App` splice and tag insertion. The content the source produces differs from it for a language-less `.jsx` component, an arrow `App` without `;`, and CSS or script holding `$`.
- Json.JNumber holds integers only. Fractions, exponents and `NaN` are not represented, so the number printing of `JSON.stringify` in CodeFormat.FormatJson has no counterpart beyond integers.

## Findings

| source | as written | input that shows it | evidently intended | confidence | as-written member | corrected member |
|---|---|---|---|---|---|---|
| backend/src/website/website.service.ts:907-910 | `indexHtml.replace(/src\/main\.js/g, 'src/main.jsx')` also matches inside `src/main.jsx` and writes `src/main.jsxx` | the default index page, whose script already loads `/src/main.jsx` | only a reference to `src/main.js` not followed by a word character is rewritten | not executed | IndexPage.DefaultPageBrokenAsWritten | IndexPage.DefaultPageKept |
| frontend/src/components/WebsitePreview.tsx:74 | the path test `/\\.(jsx\|tsx)$/` is a regular-expression literal, so `\\` demands a backslash in the path | a component with no language, path `src/components/Hero.jsx`, and code that neither imports from `'react'` nor mentions `className` | a `.jsx` or `.tsx` extension selects the component | not executed | PreviewSelect.PlainJsxPathSkippedAsWritten | PreviewSelect.JsxPathRewritten |
| frontend/src/components/WebsitePreview.tsx:257-277 | `search` takes no start offset, so the search for the next statement finds the `const` of `const App` itself | `const App = () => <Header />` with no semicolon after it | the search starts ten characters into the declaration and the arrow `App` is replaced by the synthesised one | not executed | PreviewEntry.DuplicateAppAsWritten | PreviewEntry.ArrowAppReplaced |
| frontend/src/components/WebsitePreview.tsx:629-634 | the replacement of `</body>` is a string, so `$'` in the script expands to the text after the match | page `<html><body></body></html>` with script `p='$'` | the script is inserted literally before `</body>` | not executed | PreviewLegacy.DollarQuoteSplicesTailAsWritten | PreviewLegacy.InsertsBefore |
| frontend/src/pages/History.tsx:102-107 | expanding a preview sets its tab to `html`, so the Code button never picks `component-0` | a site with components: click Preview, then Code | a site with components opens its code on its first component | not executed | History.ComponentCodeHiddenAsWritten | History.ExpandedCodeShowsDefault |

=== FILE: code_format.dfy ===
/**
 * The code viewers' formatters, defined identically in frontend/src/pages/Dashboard.tsx
 * and frontend/src/pages/History.tsx: `formatJson` pretty-prints JSON that parses, and
 * `formatCode` breaks single-line HTML, CSS or JavaScript into lines and indents them by
 * two spaces per nesting level.
 */
module CodeFormat {
  import opened Wrappers
  import opened Text
  import opened Rewrite
  import opened Json

  // ---------------------------------------------------------------------------
  // formatJson
  // ---------------------------------------------------------------------------

  /** `formatJson`: empty stays empty, parsed JSON is printed with two-space indentation, anything else is kept. */
  function FormatJson(text: string, parse: Parser): (r: string)
    ensures text == "" ==> r == ""
    ensures text != "" && parse(text).SyntaxError? ==> r == text
    ensures text != "" && parse(text).Parsed? ==> r == Pretty(parse(text).value)
  {
    if text == "" then ""
    else
      match parse(text)
      case Parsed(v) => Pretty(v)
      case SyntaxError(_) => text
  }

  /** With a parser that reads printed JSON back, formatting twice is formatting once. */
  lemma FormatJsonIdempotent(text: string, parse: Parser)
    requires forall v :: parse(Pretty(v)) == Parsed(v)
    ensures FormatJson(FormatJson(text, parse), parse) == FormatJson(text, parse)
  {
    if text != "" && parse(text).Parsed? {
      var v := parse(text).value;
      assert |Stringify(v, 0)| > 0;
      assert parse(Pretty(v)) == Parsed(v);
    }
  }

  // ---------------------------------------------------------------------------
  // formatCode: line breaks
  // ---------------------------------------------------------------------------

  /** The three kinds of code the viewers format. */
  datatype CodeKind = Html | Css | Js

  /** `>\s*<` at `p`, replaced by `>` line break `<`. */
  function TagGapAt(s: string, p: nat): Option<Hit> {
    if p < |s| && s[p] == '>' then
      var q := SkipSpaces(s, p + 1);
      if q < |s| && s[q] == '<' then Some(Hit(q + 1, ">\n<")) else None
    else None
  }

  /** `c\s*` at `p`, replaced by `out`. */
  function AfterChar(c: char, out: string): Matcher {
    (s: string, p: nat) =>
      if p < |s| && s[p] == c then Some(Hit(SkipSpaces(s, p + 1), out)) else None
  }

  /** The CSS breaks: after `;` and `{`, and around `}`. */
  function CssBroken(code: string): string {
    ReplaceAll(ReplaceAll(ReplaceAll(code, AfterChar(';', ";\n")), AfterChar('{', "{\n")), AfterChar('}', "\n}\n"))
  }

  /** The line breaks added to single-line code of each kind. */
  function LineBroken(code: string, kind: CodeKind): string {
    match kind
    case Html => ReplaceAll(code, TagGapAt)
    case Css => CssBroken(code)
    case Js => ReplaceAll(CssBroken(code), AfterChar(',', ",\n"))
  }

  /** Every line break in `r` sits between a `>` and a `<`. */
  predicate BreaksBetweenTags(r: string) {
    forall k :: 0 <= k < |r| && r[k] == '\n' ==> 0 < k < |r| - 1 && r[k - 1] == '>' && r[k + 1] == '<'
  }

  /** Single-line HTML is only broken between a tag's `>` and the next tag's `<`. */
  lemma {:induction false} HtmlBreaksBetweenTags(s: string, i: nat)
    requires i <= |s| && '\n' !in s
    ensures BreaksBetweenTags(ReplaceFrom(s, TagGapAt, i))
    decreases |s| - i
  {
    if i < |s| {
      var r := ReplaceFrom(s, TagGapAt, i);
      if HitAt(s, TagGapAt, i) {
        var e := TagGapAt(s, i).value.end;
        HtmlBreaksBetweenTags(s, e);
        var rest := ReplaceFrom(s, TagGapAt, e);
        assert r == ">\n<" + rest;
        forall k | 0 <= k < |r| && r[k] == '\n'
          ensures 0 < k < |r| - 1 && r[k - 1] == '>' && r[k + 1] == '<'
        {
          if k >= 3 {
            assert rest[k - 3] == '\n';
          }
        }
      } else {
        HtmlBreaksBetweenTags(s, i + 1);
        var rest := ReplaceFrom(s, TagGapAt, i + 1);
        assert r == [s[i]] + rest;
        assert s[i] in s;
        forall k | 0 <= k < |r| && r[k] == '\n'
          ensures 0 < k < |r| - 1 && r[k - 1] == '>' && r[k + 1] == '<'
        {
          assert k > 0 && rest[k - 1] == '\n';
        }
      }
    }
  }

  // ---------------------------------------------------------------------------
  // formatCode: indentation
  // ---------------------------------------------------------------------------

  /** A line that closes a level: a closing tag or a lone `}`. */
  predicate Closes(t: string) {
    StartsWith(t, "</") || t == "}"
  }

  /** A line that opens a level: an opening tag that is neither self-closing nor closed on the line, or a line ending in `{`. */
  predicate Opens(t: string) {
    (StartsWith(t, "<") && !StartsWith(t, "</") && !EndsWith(t, "/>") && !Contains(t, "</")) || EndsWith(t, "{")
  }

  /** The level a line is printed at: one less before a closing line, never below zero. */
  function LevelBefore(level: nat, t: string): (r: nat)
    ensures Closes(t) ==> r == if level > 0 then level - 1 else 0
    ensures !Closes(t) ==> r == level
  {
    if Closes(t) then (if level > 0 then level - 1 else 0) else level
  }

  /** The level after a line: one more after an opening line. */
  function LevelAfter(level: nat, t: string): (r: nat)
    ensures r == LevelBefore(level, t) + (if Opens(t) then 1 else 0)
  {
    var l := LevelBefore(level, t);
    if Opens(t) then l + 1 else l
  }

  /** A line of output: an even number of spaces, then a non-empty trimmed text. */
  predicate WellIndented(line: string) {
    var t := Trim(line);
    && t != ""
    && |t| <= |line|
    && line == Spaces(|line| - |t|) + t
    && (|line| - |t|) % 2 == 0
  }

  /** Spaces before a trimmed text are what trimming removes. */
  lemma TrimIndented(n: nat, t: string)
    requires t != "" && !IsSpace(t[0]) && !IsSpace(t[|t| - 1])
    ensures Trim(Spaces(n) + t) == t
  {
    var s := Spaces(n) + t;
    assert forall k :: 0 <= k < n ==> IsSpace(s[k]);
    assert s[n] == t[0];
    var a := TrimStartIndex(s, 0);
    assert a == n;
    assert s[|s| - 1] == t[|t| - 1];
    var b := TrimEndIndex(s, a, |s|);
    assert b == |s|;
    assert s[n..] == t;
  }

  /** A trimmed non-empty text at `2 * level` spaces is a well-indented line. */
  lemma IndentedLine(level: nat, t: string)
    requires t != "" && Trim(t) == t
    ensures WellIndented(Spaces(2 * level) + t)
  {
    TrimIndented(2 * level, t);
  }

  /** The non-blank lines, trimmed, in order. */
  function TrimmedNonBlank(lines: seq<string>): (r: seq<string>)
    ensures |r| <= |lines|
    ensures forall k :: 0 <= k < |r| ==> r[k] != "" && Trim(r[k]) == r[k]
  {
    if |lines| == 0 then []
    else
      var t := Trim(lines[0]);
      TrimNoop(t);
      (if t == "" then [] else [t]) + TrimmedNonBlank(lines[1..])
  }

  /** The printed lines from `level` on: blank lines dropped, the others trimmed and indented. */
  function Indented(lines: seq<string>, level: nat): (r: seq<string>)
    ensures |r| == |TrimmedNonBlank(lines)|
    ensures forall k :: 0 <= k < |r| ==> WellIndented(r[k])
  {
    if |lines| == 0 then []
    else
      var t := Trim(lines[0]);
      if t == "" then Indented(lines[1..], level)
      else
        TrimNoop(t);
        IndentedLine(LevelBefore(level, t), t);
        [Spaces(2 * LevelBefore(level, t)) + t] + Indented(lines[1..], LevelAfter(level, t))
  }

  /** The printed lines are the non-blank lines, trimmed, in order: only the indentation is added. */
  lemma {:induction false} IndentedKeepsLines(lines: seq<string>, level: nat)
    ensures forall k :: 0 <= k < |Indented(lines, level)| ==> Trim(Indented(lines, level)[k]) == TrimmedNonBlank(lines)[k]
    decreases |lines|
  {
    if |lines| > 0 {
      var t := Trim(lines[0]);
      if t == "" {
        IndentedKeepsLines(lines[1..], level);
      } else {
        TrimNoop(t);
        TrimIndented(2 * LevelBefore(level, t), t);
        IndentedKeepsLines(lines[1..], LevelAfter(level, t));
      }
    }
  }

  /** `formatCode` as a value. */
  function FormattedCode(code: string, kind: CodeKind): string {
    if code == "" then ""
    else if |Split(code, '\n')| > 1 then code
    else Join(Indented(Split(LineBroken(code, kind), '\n'), 0), "\n")
  }

  /** One step of the indentation map: a blank line is dropped, any other line is printed at its level. */
  lemma IndentedStep(lines: seq<string>, i: nat, level: nat)
    requires i < |lines|
    ensures var t := Trim(lines[i]);
            Indented(lines[i..], level)
            == if t == "" then Indented(lines[i + 1..], level)
               else [Spaces(2 * LevelBefore(level, t)) + t] + Indented(lines[i + 1..], LevelAfter(level, t))
  {
    assert lines[i..][0] == lines[i];
    assert lines[i..][1..] == lines[i + 1..];
  }

  /** One step keeps the loop's invariant: the printed prefix and the lines still to print make up the whole. */
  lemma IndentLinesStep(lines: seq<string>, i: nat, level: nat, kept: seq<string>)
    requires i < |lines|
    requires kept + Indented(lines[i..], level) == Indented(lines, 0)
    ensures var t := Trim(lines[i]);
            if t == "" then kept + Indented(lines[i + 1..], level) == Indented(lines, 0)
            else (kept + [Spaces(2 * LevelBefore(level, t)) + t]) + Indented(lines[i + 1..], LevelAfter(level, t))
                 == Indented(lines, 0)
  {
    IndentedStep(lines, i, level);
  }

  /** The map and filter of `formatCode`: the indentation level is updated line by line. */
  method IndentLines(lines: seq<string>) returns (kept: seq<string>)
    ensures kept == Indented(lines, 0)
  {
    var indentLevel: nat := 0;
    kept := [];
    for i := 0 to |lines|
      invariant kept + Indented(lines[i..], indentLevel) == Indented(lines, 0)
    {
      IndentLinesStep(lines, i, indentLevel, kept);
      var trimmed := Trim(lines[i]);
      if trimmed != "" {
        ghost var level := indentLevel;
        if Closes(trimmed) {
          indentLevel := if indentLevel > 0 then indentLevel - 1 else 0;
        }
        var indented := Spaces(2 * indentLevel) + trimmed;
        if Opens(trimmed) {
          indentLevel := indentLevel + 1;
        }
        assert indented == Spaces(2 * LevelBefore(level, trimmed)) + trimmed;
        assert indentLevel == LevelAfter(level, trimmed);
        kept := kept + [indented];
      }
    }
  }

  /** `formatCode`. */
  method FormatCode(code: string, kind: CodeKind) returns (formatted: string)
    ensures formatted == FormattedCode(code, kind)
  {
    if code == "" {
      return "";
    }
    if |Split(code, '\n')| > 1 {
      return code;
    }
    formatted := LineBroken(code, kind);
    var lines := Split(formatted, '\n');
    var kept := IndentLines(lines);
    formatted := Join(kept, "\n");
  }

  /** Text holding a line break splits into several pieces, and text without one into one. */
  lemma SplitSeveral(s: string, c: char)
    ensures |Split(s, c)| > 1 <==> c in s
  {
    var j := FindChar(s, 0, c);
    if c in s {
      var i :| 0 <= i < |s| && s[i] == c;
      assert j <= i;
    }
  }

  /** Code already on several lines is shown as it is. */
  lemma MultiLineKept(code: string, kind: CodeKind)
    requires '\n' in code
    ensures FormattedCode(code, kind) == code
  {
    SplitSeveral(code, '\n');
  }

  /** Every line of formatted single-line code is a trimmed non-empty text indented by an even number of spaces. */
  lemma FormattedLines(code: string, kind: CodeKind)
    requires code != "" && '\n' !in code
    ensures var lines := Indented(Split(LineBroken(code, kind), '\n'), 0);
            && FormattedCode(code, kind) == Join(lines, "\n")
            && forall k :: 0 <= k < |lines| ==> WellIndented(lines[k])
  {
    SplitSeveral(code, '\n');
  }

  /** A closing line directly after an opening line is printed at the opening line's level. */
  lemma ClosingMatchesOpening(a: string, b: string, rest: seq<string>, level: nat)
    requires Trim(a) != "" && Opens(Trim(a)) && Closes(Trim(b))
    ensures var r := Indented([a, b] + rest, level);
            |r| >= 2 && r[0] == Spaces(2 * LevelBefore(level, Trim(a))) + Trim(a)
            && r[1] == Spaces(2 * LevelBefore(level, Trim(a))) + Trim(b)
  {
    assert ([a, b] + rest)[1..] == [b] + rest;
    assert ([b] + rest)[1..] == rest;
  }
}

=== FILE: dashboard.dfy ===
/**
 * The dashboard's derived values (frontend/src/pages/Dashboard.tsx): the statistics
 * computed from the list of saved websites, and the folder name of the ZIP download.
 * The dashboard's code formatters are in `CodeFormat`.
 */
module Dashboard {
  import opened Wrappers
  import opened Text

  /** The free plan's allowance of generations. */
  const FreeCredits: int := 5

  datatype Stats = Stats(totalProjects: nat, generations: nat, creditsUsed: nat, creditsRemaining: int)

  /**
   * The statistics of `fetchStats`: a missing list counts as empty; every count is the
   * number of websites, and the remaining credits are what is left of the allowance.
   */
  function StatsOf<T>(data: Option<seq<T>>): (r: Stats)
    ensures data.None? ==> r == Stats(0, 0, 0, FreeCredits)
    ensures data.Some? ==> r.totalProjects == r.generations == r.creditsUsed == |data.value|
    ensures r.creditsUsed + r.creditsRemaining == FreeCredits
  {
    var n := match data case Some(ws) => |ws| case None => 0;
    Stats(n, n, n, FreeCredits - n)
  }

  /** The remaining credits go negative exactly when more than five websites were saved. */
  lemma CreditsOverdrawn<T>(ws: seq<T>)
    ensures StatsOf(Some(ws)).creditsRemaining < 0 <==> |ws| > FreeCredits
  {
  }

  /** Saving one more website moves one credit from remaining to used. */
  lemma OneMoreWebsite<T>(ws: seq<T>, w: T)
    ensures var before := StatsOf(Some(ws));
            var after := StatsOf(Some(ws + [w]));
            && after.creditsUsed == before.creditsUsed + 1
            && after.creditsRemaining == before.creditsRemaining - 1
  {
  }

  /** `[a-z0-9]` under the `i` flag: an ASCII letter or digit. */
  predicate IsAsciiAlnum(c: char) {
    ('a' <= c <= 'z') || ('A' <= c <= 'Z') || IsDigit(c)
  }

  /** A character of a folder name: a lower-case ASCII letter, a digit or `_`. */
  predicate IsFolderChar(c: char) {
    ('a' <= c <= 'z') || IsDigit(c) || c == '_'
  }

  /** `name.replace(/[^a-z0-9]/gi, '_')`: every other character becomes `_`. */
  function Underscored(name: string): (r: string)
    ensures |r| == |name|
    ensures forall k :: 0 <= k < |name| ==> r[k] == if IsAsciiAlnum(name[k]) then name[k] else '_'
  {
    seq(|name|, k requires 0 <= k < |name| => if IsAsciiAlnum(name[k]) then name[k] else '_')
  }

  /** The folder of the ZIP download: the website name made safe and lower-cased, or `website`. */
  function FolderName(websiteName: string): (r: string)
    ensures websiteName == "" ==> r == "website"
    ensures websiteName != "" ==> |r| == |websiteName|
    ensures websiteName != "" ==> forall k :: 0 <= k < |r| ==>
              r[k] == if IsAsciiAlnum(websiteName[k]) then ToLowerChar(websiteName[k]) else '_'
  {
    var lowered := ToLower(Underscored(websiteName));
    if lowered == "" then "website" else lowered
  }

  /** A folder name is never empty and uses only lower-case letters, digits and `_`. */
  lemma FolderNameSafe(websiteName: string)
    ensures var r := FolderName(websiteName);
            r != "" && forall k :: 0 <= k < |r| ==> IsFolderChar(r[k])
  {
    var r := FolderName(websiteName);
    if websiteName != "" {
      forall k | 0 <= k < |r|
        ensures IsFolderChar(r[k])
      {
        var c := websiteName[k];
        if IsAsciiAlnum(c) {
          assert r[k] == ToLowerChar(c);
        }
      }
    }
  }

  /** A name already made of folder characters is its own folder name. */
  lemma FolderNameKeepsSafe(name: string)
    requires name != "" && forall k :: 0 <= k < |name| ==> IsFolderChar(name[k])
    ensures FolderName(name) == name
  {
    var r := FolderName(name);
    forall k | 0 <= k < |name|
      ensures r[k] == name[k]
    {
      assert IsAsciiAlnum(name[k]) || name[k] == '_';
    }
  }

  /** Making a folder name twice is making it once. */
  lemma FolderNameIdempotent(websiteName: string)
    ensures FolderName(FolderName(websiteName)) == FolderName(websiteName)
  {
    FolderNameSafe(websiteName);
    FolderNameKeepsSafe(FolderName(websiteName));
  }
}

=== FILE: files_shape.dfy ===
/**
 * `convertV0FilesToStructure`: a reply in the `{ files: [{ path, content }] }` form becomes
 * components plus a `viteConfig` whose entry module is the rewritten page, or a
 * synthesised `App` that renders every component.
 */
module FilesShape {
  import opened Wrappers
  import opened Text
  import opened Rewrite
  import opened Json
  import opened Project
  import opened Patterns

  /** One entry of `files`. */
  datatype SourceFile = SourceFile(path: string, content: string)

  function FileOf(v: Json): SourceFile {
    SourceFile(GetString(v, "path"), GetString(v, "content"))
  }

  function FilesOf(items: seq<Json>): (fs: seq<SourceFile>)
    ensures |fs| == |items|
    ensures forall k :: 0 <= k < |items| ==> fs[k] == FileOf(items[k])
    ensures forall k :: 0 <= k < |items| ==>
      fs[k].path == GetString(items[k], "path") && fs[k].content == GetString(items[k], "content")
  {
    if |items| == 0 then [] else [FileOf(items[0])] + FilesOf(items[1..])
  }

  // ---------------------------------------------------------------------------
  // Path classification
  // ---------------------------------------------------------------------------

  /** `s` ends with `suffix`, ignoring ASCII case (`suffix` in lower case). */
  predicate EndsWithNoCase(s: string, suffix: string) {
    |suffix| <= |s| && AtNoCase(s, |s| - |suffix|, suffix)
  }

  /** `/\.(tsx|jsx)$/i`. */
  predicate IsScriptPath(p: string) {
    EndsWithNoCase(p, ".tsx") || EndsWithNoCase(p, ".jsx")
  }

  /** `/^components?\//i` and a script extension. */
  predicate IsComponentPath(p: string) {
    (AtNoCase(p, 0, "components/") || AtNoCase(p, 0, "component/")) && IsScriptPath(p)
  }

  /** `/^app\//i` and a script extension. */
  predicate IsPagePath(p: string) {
    AtNoCase(p, 0, "app/") && IsScriptPath(p)
  }

  /** `/\.(css|scss)$/i`. */
  predicate IsStylePath(p: string) {
    EndsWithNoCase(p, ".css") || EndsWithNoCase(p, ".scss")
  }

  /** `files.filter(f => keep(f.path))`. */
  function FilterFiles(files: seq<SourceFile>, keep: string -> bool): (r: seq<SourceFile>)
    ensures |r| <= |files|
    ensures forall k :: 0 <= k < |r| ==> keep(r[k].path) && r[k] in files
    ensures forall f :: f in files && keep(f.path) ==> f in r
  {
    if |files| == 0 then []
    else if keep(files[0].path) then [files[0]] + FilterFiles(files[1..], keep)
    else FilterFiles(files[1..], keep)
  }

  /** Filtering keeps the input order: it distributes over concatenation. */
  lemma {:induction false} FilterFilesConcat(a: seq<SourceFile>, b: seq<SourceFile>, keep: string -> bool)
    ensures FilterFiles(a + b, keep) == FilterFiles(a, keep) + FilterFiles(b, keep)
  {
    if |a| > 0 {
      assert (a + b)[1..] == a[1..] + b;
      FilterFilesConcat(a[1..], b, keep);
    } else {
      assert a + b == b;
    }
  }

  // ---------------------------------------------------------------------------
  // Component names
  // ---------------------------------------------------------------------------

  /** `path.basename(p)`: the text after the last `/`. */
  function BaseName(p: string): (r: string)
    ensures '/' !in r
  {
    match LastIndexOfChar(p, '/')
    case None => p
    case Some(k) =>
      var r := p[k + 1..];
      assert forall j :: 0 <= j < |r| ==> r[j] == p[k + 1 + j];
      r
  }

  /** The base name is the suffix after the last `/`, or the whole path when it has none. */
  lemma BaseNameIsLastSegment(p: string)
    ensures EndsWith(p, BaseName(p))
    ensures |BaseName(p)| < |p| ==> p[|p| - |BaseName(p)| - 1] == '/'
    ensures '/' !in p ==> BaseName(p) == p
  {
    var r := BaseName(p);
    if LastIndexOfChar(p, '/').Some? {
      assert p[|p| - |r|..] == r;
    }
  }

  /** `path.basename(p, path.extname(p))`: the base name without its last extension; a leading dot is not an extension. */
  function Stem(base: string): (r: string)
    ensures |r| <= |base| && r == base[..|r|]
    ensures r == base || (0 < |r| && base[|r|] == '.' && forall y :: |r| < y < |base| ==> base[y] != '.')
  {
    match LastIndexOfChar(base, '.')
    case Some(k) =>
      if k > 0 then base[..k] else base
    case None => base
  }

  predicate IsSeparator(c: char) {
    c == '-' || c == '_'
  }

  /** First offset at or after `i` holding `-` or `_` (or `|s|`). */
  function FindSeparator(s: string, i: nat): (j: nat)
    requires i <= |s|
    ensures i <= j <= |s|
    ensures forall k :: i <= k < j ==> !IsSeparator(s[k])
    ensures j < |s| ==> IsSeparator(s[j])
    decreases |s| - i
  {
    if i < |s| && !IsSeparator(s[i]) then FindSeparator(s, i + 1) else i
  }

  /** `s.split(/[-_]/)`. */
  function SplitSeparators(s: string): (r: seq<string>)
    ensures |r| >= 1
    ensures forall k, j :: 0 <= k < |r| && 0 <= j < |r[k]| ==> !IsSeparator(r[k][j])
    decreases |s|
  {
    var j := FindSeparator(s, 0);
    if j == |s| then [s] else [s[..j]] + SplitSeparators(s[j + 1..])
  }

  /** The separators of `s`, in order. */
  function SeparatorsOf(s: string): (r: string)
    ensures forall k :: 0 <= k < |r| ==> IsSeparator(r[k])
  {
    if |s| == 0 then [] else (if IsSeparator(s[0]) then [s[0]] else []) + SeparatorsOf(s[1..])
  }

  lemma {:induction false} SeparatorsOfAppend(a: string, b: string)
    ensures SeparatorsOf(a + b) == SeparatorsOf(a) + SeparatorsOf(b)
    decreases |a|
  {
    if |a| == 0 {
      assert a + b == b;
    } else {
      assert (a + b)[1..] == a[1..] + b;
      SeparatorsOfAppend(a[1..], b);
    }
  }

  /** The pieces with the separators put back between them. */
  function Interleave(pieces: seq<string>, seps: string): string
    requires |pieces| == |seps| + 1
  {
    if |seps| == 0 then pieces[0] else pieces[0] + [seps[0]] + Interleave(pieces[1..], seps[1..])
  }

  /** Splitting on `-`/`_` loses nothing: one piece more than separators, and they rejoin to `s`. */
  lemma {:induction false} SplitRejoins(s: string)
    ensures |SplitSeparators(s)| == |SeparatorsOf(s)| + 1
    ensures Interleave(SplitSeparators(s), SeparatorsOf(s)) == s
    decreases |s|
  {
    var j := FindSeparator(s, 0);
    if j == |s| {
      NoSeparators(s);
    } else {
      SplitRejoins(s[j + 1..]);
      SeparatorsAtFirst(s, j);
      var seps := SeparatorsOf(s);
      assert seps[1..] == SeparatorsOf(s[j + 1..]);
      var pieces := SplitSeparators(s);
      assert pieces[1..] == SplitSeparators(s[j + 1..]);
      assert s == s[..j] + [s[j]] + s[j + 1..];
    }
  }

  /** The separators of `s` from its first one on. */
  lemma {:induction false} SeparatorsAtFirst(s: string, j: nat)
    requires j < |s| && IsSeparator(s[j])
    requires forall k :: 0 <= k < j ==> !IsSeparator(s[k])
    ensures SeparatorsOf(s) == [s[j]] + SeparatorsOf(s[j + 1..])
    decreases j
  {
    if j > 0 {
      SeparatorsAtFirst(s[1..], j - 1);
      assert s[1..][j..] == s[j + 1..];
    }
  }

  lemma {:induction false} NoSeparators(s: string)
    requires forall k :: 0 <= k < |s| ==> !IsSeparator(s[k])
    ensures SeparatorsOf(s) == []
    decreases |s|
  {
    if |s| > 0 {
      NoSeparators(s[1..]);
    }
  }

  /** `s.charAt(0).toUpperCase() + s.slice(1).toLowerCase()`. */
  function Capitalize(piece: string): (r: string)
    ensures |r| == |piece|
    ensures |piece| > 0 ==> r[0] == ToUpperChar(piece[0])
    ensures forall k :: 1 <= k < |r| ==> r[k] == ToLowerChar(piece[k])
  {
    if |piece| == 0 then "" else [ToUpperChar(piece[0])] + ToLower(piece[1..])
  }

  /** The capitalised pieces, concatenated (`.map(capitalize).join('')`). */
  function CapitalizeAll(pieces: seq<string>): (r: string)
    ensures (forall k, j :: 0 <= k < |pieces| && 0 <= j < |pieces[k]| ==> !IsSeparator(pieces[k][j]))
            ==> forall j :: 0 <= j < |r| ==> !IsSeparator(r[j])
  {
    if |pieces| == 0 then ""
    else
      var head := Capitalize(pieces[0]);
      assert forall j :: 0 <= j < |head| && !IsSeparator(pieces[0][j]) ==> !IsSeparator(head[j]);
      head + CapitalizeAll(pieces[1..])
  }

  /** The pieces are capitalised one by one and concatenated in order. */
  lemma {:induction false} CapitalizeAllInOrder(a: seq<string>, b: seq<string>)
    ensures CapitalizeAll(a + b) == CapitalizeAll(a) + CapitalizeAll(b)
    ensures |a| == 1 ==> CapitalizeAll(a) == Capitalize(a[0])
    decreases |a|
  {
    if |a| == 0 {
      assert a + b == b;
    } else {
      assert (a + b)[1..] == a[1..] + b;
      CapitalizeAllInOrder(a[1..], b);
    }
  }

  /** `pathToComponentName`: the stem of the base name, split on `-`/`_`, each piece capitalised. */
  function PathToComponentName(p: string): (r: string)
    ensures forall j :: 0 <= j < |r| ==> !IsSeparator(r[j])
  {
    CapitalizeAll(SplitSeparators(Stem(BaseName(p))))
  }

  /** A stem without separators becomes one capitalised word. */
  lemma SinglePieceName(p: string)
    requires forall j :: 0 <= j < |Stem(BaseName(p))| ==> !IsSeparator(Stem(BaseName(p))[j])
    ensures PathToComponentName(p) == Capitalize(Stem(BaseName(p)))
  {
    var stem := Stem(BaseName(p));
    assert FindSeparator(stem, 0) == |stem|;
    assert SplitSeparators(stem) == [stem];
    assert CapitalizeAll([stem]) == Capitalize(stem) + CapitalizeAll([]);
  }

  /**
   * A file `DIR/A-B.tsx` with separator-free `A` and `B` gives the component named by `A`
   * and `B` capitalised and joined.
   */
  lemma TwoPieceName(dir: string, a: string, b: string)
    requires '/' !in a && '/' !in b
    requires forall k :: 0 <= k < |a| ==> !IsSeparator(a[k])
    requires forall k :: 0 <= k < |b| ==> !IsSeparator(b[k])
    ensures PathToComponentName(dir + "/" + a + "-" + b + ".tsx") == Capitalize(a) + Capitalize(b)
  {
    var stem := a + "-" + b;
    var base := stem + ".tsx";
    assert dir + "/" + a + "-" + b + ".tsx" == dir + "/" + base;
    NoSlashInBase(a, b);
    BaseNameAfterSlash(dir, base);
    StemBeforeExtension(stem, "tsx");
    assert stem + "." + "tsx" == base;
    SplitTwo(a, b);
    CapitalizeTwo(a, b);
  }

  lemma NoSlashInBase(a: string, b: string)
    requires '/' !in a && '/' !in b
    ensures '/' !in a + "-" + b + ".tsx"
  {
    var base := a + "-" + b + ".tsx";
    forall k | 0 <= k < |base|
      ensures base[k] != '/'
    {
      if k < |a| {
        assert base[k] == a[k] && a[k] in a;
      } else if |a| < k < |a| + 1 + |b| {
        assert base[k] == b[k - |a| - 1] && b[k - |a| - 1] in b;
      }
    }
  }

  lemma BaseNameAfterSlash(dir: string, base: string)
    requires '/' !in base
    ensures BaseName(dir + "/" + base) == base
  {
    assert dir + "/" + base == dir + ['/'] + base;
    LastIndexBefore(dir, '/', base);
  }

  lemma StemBeforeExtension(stem: string, ext: string)
    requires 0 < |stem| && '.' !in ext
    ensures Stem(stem + "." + ext) == stem
  {
    assert stem + "." + ext == stem + ['.'] + ext;
    LastIndexBefore(stem, '.', ext);
  }

  lemma SplitTwo(a: string, b: string)
    requires forall k :: 0 <= k < |a| ==> !IsSeparator(a[k])
    requires forall k :: 0 <= k < |b| ==> !IsSeparator(b[k])
    ensures SplitSeparators(a + "-" + b) == [a, b]
  {
    var stem := a + "-" + b;
    FindSeparatorTo(stem, |a|);
    assert stem[..|a|] == a && stem[|a| + 1..] == b;
    FindSeparatorTo(b, |b|);
  }

  lemma FindSeparatorTo(s: string, j: nat)
    requires j <= |s| && (j == |s| || IsSeparator(s[j]))
    requires forall k :: 0 <= k < j ==> !IsSeparator(s[k])
    ensures FindSeparator(s, 0) == j
  {
    FindSeparatorFrom(s, 0, j);
  }

  lemma {:induction false} FindSeparatorFrom(s: string, i: nat, j: nat)
    requires i <= j <= |s| && (j == |s| || IsSeparator(s[j]))
    requires forall k :: i <= k < j ==> !IsSeparator(s[k])
    ensures FindSeparator(s, i) == j
    decreases j - i
  {
    if i < j {
      FindSeparatorFrom(s, i + 1, j);
    }
  }

  /** The last occurrence of `c` is the one not followed by another. */
  lemma {:induction false} LastIndexBefore(a: string, c: char, b: string)
    requires c !in b
    ensures LastIndexOfChar(a + [c] + b, c) == Some(|a|)
    decreases |b|
  {
    var s := a + [c] + b;
    if |b| > 0 {
      var b' := b[..|b| - 1];
      assert s[..|s| - 1] == a + [c] + b';
      assert s[|s| - 1] == b[|b| - 1];
      assert b[|b| - 1] in b;
      LastIndexBefore(a, c, b');
    }
  }

  /** `components/emi-calculator.tsx` gives the component `EmiCalculator`. */
  lemma EmiCalculatorName()
    ensures PathToComponentName("components/emi-calculator.tsx") == "EmiCalculator"
  {
    EmiCalculatorStem();
    EmiCalculatorPieces();
    EmiCalculatorCapitalized();
  }

  lemma EmiCalculatorCapitalized()
    ensures CapitalizeAll(["emi", "calculator"]) == "EmiCalculator"
  {
    CapitalizeTwo("emi", "calculator");
    CapitalizedEmi();
    CapitalizedCalculator();
  }

  lemma CapitalizeTwo(a: string, b: string)
    ensures CapitalizeAll([a, b]) == Capitalize(a) + Capitalize(b)
  {
    assert [a, b][1..] == [b];
    assert CapitalizeAll([b]) == Capitalize(b) + CapitalizeAll([]);
  }

  lemma CapitalizedEmi()
    ensures Capitalize("emi") == "Emi"
  {
  }

  lemma CapitalizedCalculator()
    ensures Capitalize("calculator") == "Calculator"
  {
    LowerUnchanged("alculator");
  }

  lemma EmiCalculatorStem()
    ensures Stem(BaseName("components/emi-calculator.tsx")) == "emi-calculator"
  {
    LastIndexBefore("components", '/', "emi-calculator.tsx");
    assert "components/emi-calculator.tsx" == "components" + ['/'] + "emi-calculator.tsx";
    LastIndexBefore("emi-calculator", '.', "tsx");
    assert "emi-calculator.tsx" == "emi-calculator" + ['.'] + "tsx";
  }

  lemma EmiCalculatorPieces()
    ensures SplitSeparators("emi-calculator") == ["emi", "calculator"]
  {
    var s := "emi-calculator";
    assert FindSeparator(s, 3) == 3;
    assert FindSeparator(s, 0) == 3;
    assert s[..3] == "emi" && s[4..] == "calculator";
    var t := "calculator";
    assert forall k :: 0 <= k < |t| ==> !IsSeparator(t[k]);
    assert FindSeparator(t, 0) == |t|;
  }

  /** `p.startsWith('src/') ? p : 'src/' + p`. */
  function SrcPath(p: string): (r: string)
    ensures StartsWith(r, "src/")
    ensures !StartsWith(p, "src/") ==> r == "src/" + p
    ensures EndsWith(r, p)
    ensures StartsWith(p, "src/") ==> r == p
  {
    if StartsWith(p, "src/") then p
    else
      var r := "src/" + p;
      assert r[|r| - |p|..] == p;
      r
  }

  /** Prefixing is idempotent. */
  lemma SrcPathIdempotent(p: string)
    ensures SrcPath(SrcPath(p)) == SrcPath(p)
  {
  }

  /** The component built from a component file. */
  function ComponentFromFile(f: SourceFile): (c: Component)
    ensures c.name == PathToComponentName(f.path) && c.path == SrcPath(f.path)
    ensures c.code == f.content && c.kind == "component" && c.language == "jsx"
  {
    Component(PathToComponentName(f.path), "component", SrcPath(f.path), f.content, "jsx")
  }

  function ComponentsFromFiles(fs: seq<SourceFile>): (cs: seq<Component>)
    ensures |cs| == |fs|
    ensures forall k :: 0 <= k < |fs| ==> cs[k] == ComponentFromFile(fs[k])
  {
    seq(|fs|, k requires 0 <= k < |fs| => ComponentFromFile(fs[k]))
  }

  // ---------------------------------------------------------------------------
  // The entry module
  // ---------------------------------------------------------------------------

  /** The mount code appended to an entry module that does not render anything. */
  const MountScript: string :=
    "const rootEl = document.getElementById('root');\nif (rootEl && typeof ReactDOM !== 'undefined') {\n  if (typeof ReactDOM.createRoot === 'function') {\n    "
    + "ReactDOM.createRoot"
    + "(rootEl).render(<App />);\n  } else {\n    ReactDOM.render(<App />, rootEl);\n  }\n}\n"

  /** The entry module renders (it calls `ReactDOM.createRoot` or `ReactDOM.render`). */
  predicate Mounts(code: string) {
    Contains(code, "ReactDOM.createRoot") || Contains(code, "ReactDOM.render")
  }

  /** Any text followed by the mount code renders. */
  lemma MountScriptMounts(pre: string)
    ensures Contains(pre + MountScript, "ReactDOM.createRoot")
  {
    var head := "const rootEl = document.getElementById('root');\nif (rootEl && typeof ReactDOM !== 'undefined') {\n  if (typeof ReactDOM.createRoot === 'function') {\n    ";
    var tail := "(rootEl).render(<App />);\n  } else {\n    ReactDOM.render(<App />, rootEl);\n  }\n}\n";
    assert pre + MountScript == (pre + head) + "ReactDOM.createRoot" + tail;
    ContainsInfix(pre + head, "ReactDOM.createRoot", tail);
  }

  /** Characters of an import clause: `[\w{}\s,*]`. */
  predicate IsClauseChar(c: char) {
    IsWordChar(c) || c == '{' || c == '}' || IsSpace(c) || c == ',' || c == '*'
  }

  function SkipClause(s: string, i: nat): (j: nat)
    requires i <= |s|
    ensures i <= j <= |s|
    ensures forall k :: i <= k < j ==> IsClauseChar(s[k])
    ensures j == |s| || !IsClauseChar(s[j])
    decreases |s| - i
  {
    if i < |s| && IsClauseChar(s[i]) then SkipClause(s, i + 1) else i
  }

  /**
   * `import\s+[\w{}\s,*]+\s+from\s+['"][^'"]+['"]\s*;?\s*` at `p`. Every character between
   * `import` and the opening quote is a clause character, so the clause ends at the first
   * other character, which must be the quote, and the text before it must end in
   * whitespace, `from`, whitespace, with a non-empty binding list before that.
   */
  function PageImportAt(s: string, p: nat): (r: Option<nat>)
    ensures r.Some? ==> p < r.value <= |s| && At(s, p, "import")
  {
    if !At(s, p, "import") || p + 6 >= |s| || !IsSpace(s[p + 6]) then None
    else
      var q := SkipClause(s, p + 6);
      if q == |s| || !IsQuote(s[q]) then None
      else
        var w := TrimEndIndex(s, p + 6, q);
        if w == q || w < p + 13 || !At(s, w - 4, "from") || !IsSpace(s[w - 5]) then None
        else
          var c := FindQuote(s, q + 1);
          if c == |s| || c == q + 1 then None
          else Some(SemicolonSpaces(s, c + 1))
  }

  /**
   * What a page import covers: `import`, whitespace, clause characters ending in
   * whitespace, `from` and whitespace, a quoted non-empty source, then `\s*;?\s*`.
   */
  lemma PageImportCovers(s: string, p: nat)
    requires PageImportAt(s, p).Some?
    ensures p + 6 < |s| && IsSpace(s[p + 6])
    ensures SkipClause(s, p + 6) < |s| && IsQuote(s[SkipClause(s, p + 6)])
    ensures p + 13 <= TrimEndIndex(s, p + 6, SkipClause(s, p + 6)) < SkipClause(s, p + 6)
    ensures At(s, TrimEndIndex(s, p + 6, SkipClause(s, p + 6)) - 4, "from")
    ensures IsSpace(s[TrimEndIndex(s, p + 6, SkipClause(s, p + 6)) - 5])
    ensures SkipClause(s, p + 6) + 1 < FindQuote(s, SkipClause(s, p + 6) + 1) < |s|
    ensures IsQuote(s[FindQuote(s, SkipClause(s, p + 6) + 1)])
    ensures PageImportAt(s, p).value == SemicolonSpaces(s, FindQuote(s, SkipClause(s, p + 6) + 1) + 1)
  {
  }

  function PageImportMatch(): Matcher {
    (s: string, p: nat) =>
      match PageImportAt(s, p)
      case Some(e) => Some(Hit(e, ""))
      case None => None
  }

  /** `export\s+default\s+function\s+(\w+)\s*\(` becomes `function App(`. */
  function ExportFunctionToApp(): Matcher {
    (s: string, p: nat) =>
      match ExportDefaultFunction(s, p)
      case Some(c) => Some(Hit(c.end, "function App("))
      case None => None
  }

  /** `export\s+default\s+function\s*\(` becomes `function App(`. */
  function ExportAnonymousToApp(): Matcher {
    (s: string, p: nat) =>
      match ExportDefaultAnonymous(s, p)
      case Some(e) => Some(Hit(e, "function App("))
      case None => None
  }

  /** The default-export handling of the page: the exported name's declarations become `App`, and the export line goes. */
  function RenameExportToApp(code: string): string {
    match FirstExportDefaultName(code)
    case None => code
    case Some(name) =>
      if name != "App" then
        var renamed := ReplaceAll(ReplaceAll(code, DeclarationMatch("const", name, '=', "const App =")),
                                  DeclarationMatch("function", name, '(', "function App("));
        ReplaceFirst(renamed, ExportDefaultNameMatch())
      else ReplaceFirst(code, ExportDefaultNameMatch())
  }

  /** The mount code is appended unless the module already renders. */
  function WithMount(code: string): (r: string)
    ensures Mounts(r)
    ensures Mounts(code) ==> r == code
    ensures !Mounts(code) ==> r == code + "\n\n" + MountScript
  {
    if !Contains(code, "ReactDOM.createRoot") && !Contains(code, "ReactDOM.render") then
      MountScriptMounts(code + "\n\n");
      assert code + "\n\n" + MountScript == (code + "\n\n") + MountScript;
      code + "\n\n" + MountScript
    else code
  }

  /** The entry module made from the first page file. */
  function PageMainJsx(content: string): (r: string)
    ensures Mounts(r)
  {
    var withoutImports := ReplaceAll(content, PageImportMatch());
    var named := ReplaceAll(withoutImports, ExportFunctionToApp());
    var anonymous := ReplaceAll(named, ExportAnonymousToApp());
    var renamed := RenameExportToApp(anonymous);
    WithMount(ReplaceAll(renamed, ExportDefaultSpacesMatch()))
  }

  /**
   * A page with no `import` and no `export` has nothing rewritten: the entry module is the
   * page itself, with the mount code appended when it does not render.
   */
  lemma PlainPageMounted(content: string)
    requires !Contains(content, "import") && !Contains(content, "export")
    ensures PageMainJsx(content) == WithMount(content)
    ensures !Mounts(content) ==> PageMainJsx(content) == content + "\n\n" + MountScript
  {
    forall j | 0 <= j < |content|
      ensures !HitAt(content, PageImportMatch(), j) && !HitAt(content, ExportFunctionToApp(), j)
      ensures !HitAt(content, ExportAnonymousToApp(), j) && !HitAt(content, ExportDefaultNameMatch(), j)
      ensures !HitAt(content, ExportDefaultSpacesMatch(), j)
    {
      NotContains(content, "import", j);
      NotContains(content, "export", j);
      assert PageImportAt(content, j).None?;
      assert ExportDefaultSpaces(content, j).None?;
      assert ExportDefaultFunction(content, j).None? && ExportDefaultAnonymous(content, j).None?;
      assert ExportDefaultName(content, j).None?;
    }
    ReplaceNoHit(content, PageImportMatch(), 0);
    ReplaceNoHit(content, ExportFunctionToApp(), 0);
    ReplaceNoHit(content, ExportAnonymousToApp(), 0);
    assert !Matches(content, ExportDefaultNameMatch());
    ReplaceNoHit(content, ExportDefaultSpacesMatch(), 0);
  }

  /** The page rewrite of `convertV0FilesToStructure`, one reassignment of `pageContent` per step. */
  method ConvertPageContent(content: string) returns (pageContent: string)
    ensures pageContent == PageMainJsx(content)
    ensures Mounts(pageContent)
  {
    pageContent := content;
    pageContent := ReplaceAll(pageContent, PageImportMatch());
    pageContent := ReplaceAll(pageContent, ExportFunctionToApp());
    pageContent := ReplaceAll(pageContent, ExportAnonymousToApp());
    var exported := FirstExportDefaultName(pageContent);
    if exported.Some? {
      if exported.value != "App" {
        pageContent := ReplaceAll(pageContent, DeclarationMatch("const", exported.value, '=', "const App ="));
        pageContent := ReplaceAll(pageContent, DeclarationMatch("function", exported.value, '(', "function App("));
        pageContent := ReplaceFirst(pageContent, ExportDefaultNameMatch());
      } else {
        pageContent := ReplaceFirst(pageContent, ExportDefaultNameMatch());
      }
    }
    pageContent := ReplaceAll(pageContent, ExportDefaultSpacesMatch());
    if !Contains(pageContent, "ReactDOM.createRoot") && !Contains(pageContent, "ReactDOM.render") {
      pageContent := pageContent + "\n\n" + MountScript;
    }
  }

  /** The `App` synthesised when there is no page: a fragment of every component, then the mount code. */
  function SynthesizedApp(names: seq<string>): string {
    "function App() { return (<>" + Join(Tags(names), " ") + "</>); }\n" + MountScript
  }

  /** The synthesised `App` renders every component, and it mounts. */
  lemma SynthesizedAppRendersAll(names: seq<string>, k: nat)
    requires k < |names|
    ensures Contains(SynthesizedApp(names), "<" + names[k] + " />")
    ensures Mounts(SynthesizedApp(names))
  {
    var tags := Tags(names);
    JoinContainsPart(tags, " ", k);
    var pre, post :| Join(tags, " ") == pre + tags[k] + post;
    var head := "function App() { return (<>";
    var tail := "</>); }\n" + MountScript;
    assert SynthesizedApp(names) == (head + pre) + tags[k] + (post + tail);
    ContainsInfix(head + pre, tags[k], post + tail);
    MountScriptMounts(head + Join(tags, " ") + "</>); }\n");
    assert SynthesizedApp(names) == (head + Join(tags, " ") + "</>); }\n") + MountScript;
  }

  /** The tags keep the order of the components: each is followed by the next one's tag. */
  lemma SynthesizedAppInOrder(names: seq<string>, k: nat)
    requires k + 1 < |names|
    ensures Contains(SynthesizedApp(names), "<" + names[k] + " /> <" + names[k + 1] + " />")
  {
    var tags := Tags(names);
    JoinAdjacent(tags, " ", k);
    var head := "function App() { return (<>";
    var tail := "</>); }\n" + MountScript;
    assert SynthesizedApp(names) == head + Join(tags, " ") + tail;
    ContainsWithin(head, Join(tags, " "), tail, tags[k] + " " + tags[k + 1]);
    TagPair(names[k], names[k + 1]);
  }

  lemma TagPair(a: string, b: string)
    ensures ("<" + a + " />") + " " + ("<" + b + " />") == "<" + a + " /> <" + b + " />"
  {
    assert " />" + " " + "<" == " /> <";
  }

  /** The entry module: the first page, else a synthesised `App` when there are components, else none. */
  function MainFromFiles(pages: seq<SourceFile>, components: seq<Component>): (r: string)
    ensures |pages| > 0 ==> r == PageMainJsx(pages[0].content)
    ensures |pages| == 0 && |components| > 0 ==> r == SynthesizedApp(NamesOfRaw(components))
    ensures |pages| == 0 && |components| == 0 ==> r == ""
    ensures |pages| > 0 || |components| > 0 ==> Mounts(r)
  {
    if |pages| > 0 then PageMainJsx(pages[0].content)
    else if |components| > 0 then
      SynthesizedAppRendersAll(NamesOfRaw(components), 0);
      SynthesizedApp(NamesOfRaw(components))
    else ""
  }

  /** The component names as they are, without removing whitespace (`c.name`). */
  function NamesOfRaw(cs: seq<Component>): (names: seq<string>)
    ensures |names| == |cs|
    ensures forall k :: 0 <= k < |cs| ==> names[k] == cs[k].name
  {
    if |cs| == 0 then [] else [cs[0].name] + NamesOfRaw(cs[1..])
  }

  function Contents(fs: seq<SourceFile>): (r: seq<string>)
    ensures |r| == |fs|
    ensures forall k :: 0 <= k < |fs| ==> r[k] == fs[k].content
  {
    if |fs| == 0 then [] else [fs[0].content] + Contents(fs[1..])
  }

  /** `convertV0FilesToStructure` applied to a reply whose `files` member is an array. */
  function ConvertV0FilesToStructure(v: Json): (w: WebsiteCode)
    ensures var files := FilesOf(GetArray(v, "files"));
            w.components == ComponentsFromFiles(FilterFiles(files, IsComponentPath))
    ensures w.viteConfig.Some?
    ensures var files := FilesOf(GetArray(v, "files"));
            var styles := Join(Contents(FilterFiles(files, IsStylePath)), "\n\n");
            var existing := if ConfigOf(v).Some? then ConfigOf(v).value else NoConfig;
            var main := MainFromFiles(FilterFiles(files, IsPagePath), w.components);
            && w.viteConfig.value.mainJsx == Or(main, existing.mainJsx)
            && w.viteConfig.value.mainJs == Or(main, existing.mainJs)
            && w.viteConfig.value.styleCss == Or(styles, existing.styleCss)
            && w.viteConfig.value.packageJson == existing.packageJson
            && w.viteConfig.value.viteConfig == existing.viteConfig
            && w.viteConfig.value.indexHtml == existing.indexHtml
    ensures var rest := WebsiteCodeOf(v);
            w.html == rest.html && w.css == rest.css && w.js == rest.js
  {
    var files := FilesOf(GetArray(v, "files"));
    var components := ComponentsFromFiles(FilterFiles(files, IsComponentPath));
    var main := MainFromFiles(FilterFiles(files, IsPagePath), components);
    var styles := Join(Contents(FilterFiles(files, IsStylePath)), "\n\n");
    var existing := if ConfigOf(v).Some? then ConfigOf(v).value else NoConfig;
    var config := existing.(mainJsx := Or(main, existing.mainJsx),
                            mainJs := Or(main, existing.mainJs),
                            styleCss := Or(styles, existing.styleCss));
    WebsiteCodeOf(v).(components := components, viteConfig := Some(config))
  }

  /** When the files hold a page or a component, `mainJsx` and `mainJs` are the same generated entry module, and it mounts. */
  lemma ConvertedEntryMounts(v: Json)
    requires var files := FilesOf(GetArray(v, "files"));
             |FilterFiles(files, IsPagePath)| > 0 || |FilterFiles(files, IsComponentPath)| > 0
    ensures var w := ConvertV0FilesToStructure(v);
            w.viteConfig.value.mainJsx == w.viteConfig.value.mainJs && Mounts(w.viteConfig.value.mainJsx)
  {
    var files := FilesOf(GetArray(v, "files"));
    var w := ConvertV0FilesToStructure(v);
    var main := MainFromFiles(FilterFiles(files, IsPagePath), w.components);
    assert Mounts(main);
    assert main != "";
  }
}

=== FILE: generate.dfy ===
/**
 * What `generateWebsite` does with a reply once it has been received: choose the shape,
 * sanitise every source text, strip placeholder declarations, fall back to the legacy
 * defaults, and plan the files `saveViteProject` writes. Also the prompt enhancement
 * applied before the request and the default file templates.
 */
module Generate {
  import opened Wrappers
  import opened Text
  import opened Rewrite
  import opened Json
  import opened Sanitize
  import opened ReplyParser
  import opened Project
  import opened Patterns
  import opened FilesShape
  import opened IndexPage
  import opened Placeholders

  // ---------------------------------------------------------------------------
  // Choosing the shape
  // ---------------------------------------------------------------------------

  /** `websiteCode?.files && Array.isArray(websiteCode.files)`. */
  predicate HasFilesArray(v: Json) {
    Get(v, "files").Some? && Get(v, "files").value.JArray?
  }

  /** The project shape of an extracted reply: a `files` reply is converted, any other value is read as it is. */
  function ShapeOf(e: Extracted): (w: WebsiteCode)
    ensures e.Legacy? ==> w == LegacyCode(e.html, e.css, e.js)
    ensures e.FromJson? && !HasFilesArray(e.value) ==> w == WebsiteCodeOf(e.value)
    ensures e.FromJson? && HasFilesArray(e.value) ==> w.viteConfig.Some?
  {
    match e
    case Legacy(html, css, js) => LegacyCode(html, css, js)
    case FromJson(v) => if HasFilesArray(v) then ConvertV0FilesToStructure(v) else WebsiteCodeOf(v)
  }

  /**
   * `parseV0Response(r) || extractCodeFromResponse(r)` is the extraction alone: the
   * extraction starts with the same parse, so the first attempt never changes the outcome.
   */
  lemma ParseOrExtract(response: string, parse: Parser)
    ensures (match ParseV0Response(response, parse)
             case Some(v) => FromJson(v)
             case None => ExtractCodeFromResponse(response, parse))
            == ExtractCodeFromResponse(response, parse)
  {
  }

  // ---------------------------------------------------------------------------
  // Sanitising
  // ---------------------------------------------------------------------------

  /**
   * The three sanitisers in the order generation applies them: dollar interpolation,
   * condition assignment, image hosts. Source with no `${`, no `!` and no image-host
   * link passes every sanitiser unchanged.
   */
  function SanitizeCode(code: string): (r: string)
    ensures !Contains(code, "${") && '!' !in code ==>
              (forall k :: 0 <= k < |code| ==> !AtNoCase(code, k, "imgur.com/")) ==> r == code
  {
    if !Contains(code, "${") && '!' !in code then
      SanitizeConditionWithoutBang(code);
      ReplaceBrokenImageUrls(SanitizeInvalidConditionAssignment(SanitizeJsxDollarInterpolation(code)))
    else ReplaceBrokenImageUrls(SanitizeInvalidConditionAssignment(SanitizeJsxDollarInterpolation(code)))
  }

  function SanitizeComponents(cs: seq<Component>): (r: seq<Component>)
    ensures |r| == |cs|
    ensures forall k :: 0 <= k < |cs| ==> r[k] == cs[k].(code := SanitizeCode(cs[k].code))
  {
    if |cs| == 0 then [] else [cs[0].(code := SanitizeCode(cs[0].code))] + SanitizeComponents(cs[1..])
  }

  /** Sanitising leaves names, so the identifiers of the components, unchanged. */
  lemma {:induction false} SanitizeKeepsNames(cs: seq<Component>)
    ensures NamesOf(SanitizeComponents(cs)) == NamesOf(cs)
  {
    var r := SanitizeComponents(cs);
    assert forall k :: 0 <= k < |cs| ==> r[k].name == cs[k].name;
  }

  // ---------------------------------------------------------------------------
  // Placeholder declarations
  // ---------------------------------------------------------------------------

  /** One global removal pass per non-empty name, in order. */
  function StripPlaceholdersFrom(code: string, names: seq<string>): (r: string)
    ensures |r| <= |code|
    decreases |names|
  {
    if |names| == 0 then code else StripPlaceholdersFrom(StripPlaceholder(code, names[0]), names[1..])
  }

  /** One name's pass: every placeholder declaration of a non-empty name removed. */
  function StripPlaceholder(code: string, name: string): (r: string)
    ensures |r| <= |code|
    ensures name == "" ==> r == code
  {
    if name == "" then code
    else
      ReplaceNeverLonger(code, PlaceholderMatch(name), 0);
      ReplaceAll(code, PlaceholderMatch(name))
  }

  /** `stripPlaceholders`: the `forEach` over the component names. */
  method StripPlaceholders(code: string, names: seq<string>) returns (out: string)
    ensures out == StripPlaceholdersFrom(code, names)
    ensures |out| <= |code|
  {
    out := code;
    var i := 0;
    while i < |names|
      invariant 0 <= i <= |names|
      invariant StripPlaceholdersFrom(out, names[i..]) == StripPlaceholdersFrom(code, names)
    {
      var name := names[i];
      assert names[i..][1..] == names[i + 1..];
      if name != "" {
        out := ReplaceAll(out, PlaceholderMatch(name));
      }
      i := i + 1;
    }
    assert names[i..] == [];
  }

  /** Text without `const` has no placeholder to remove. */
  lemma {:induction false} StripWithoutConst(code: string, names: seq<string>)
    requires !Contains(code, "const")
    ensures StripPlaceholdersFrom(code, names) == code
    decreases |names|
  {
    if |names| > 0 {
      if names[0] != "" {
        forall j | 0 <= j < |code|
          ensures !HitAt(code, PlaceholderMatch(names[0]), j)
        {
          NotContains(code, "const", j);
        }
        ReplaceNoHit(code, PlaceholderMatch(names[0]), 0);
      }
      StripWithoutConst(code, names[1..]);
    }
  }


  /**
   * A canonical placeholder `const NAME = [];` for one of the names, standing between texts
   * without `const`, is removed by the passes, and nothing else changes: the other names'
   * passes leave it alone and nothing is left for the passes after its own.
   */
  lemma {:induction false} StripRemovesDeclaration(pre: string, name: string, post: string, names: seq<string>)
    requires IsIdentifier(name) && name in names
    requires forall i :: 0 <= i < |names| ==> names[i] == "" || IsIdentifier(names[i])
    requires 'c' !in pre && !Contains(post, "const")
    requires post == [] || !IsSpace(post[0])
    ensures StripPlaceholdersFrom(pre + PlaceholderDecl(name) + post, names) == pre + post
    decreases |names|
  {
    var s := pre + PlaceholderDecl(name) + post;
    if names[0] == name {
      PlaceholderRemoved(pre, name, post);
      NoConstAround(pre, post);
      StripWithoutConst(pre + post, names[1..]);
    } else {
      if names[0] != "" {
        forall j | 0 <= j < |s|
          ensures !HitAt(s, PlaceholderMatch(names[0]), j)
        {
          OtherNameMisses(pre, name, post, names[0], j);
        }
        ReplaceNoHit(s, PlaceholderMatch(names[0]), 0);
      }
      assert name in names[1..];
      StripRemovesDeclaration(pre, name, post, names[1..]);
    }
  }

  /** No `const` can straddle a text without `c` and a text without `const`. */
  lemma NoConstAround(pre: string, post: string)
    requires 'c' !in pre && !Contains(post, "const")
    ensures !Contains(pre + post, "const")
  {
    var t := pre + post;
    forall j: nat
      ensures !At(t, j, "const")
    {
      if j < |pre| {
        assert t[j] == pre[j];
      } else {
        AtInSuffix(pre, post, j, "const");
        NotContains(post, "const", j - |pre|);
      }
    }
  }

  // ---------------------------------------------------------------------------
  // Normalisation (generateWebsite, after parsing)
  // ---------------------------------------------------------------------------

  /** The sanitised, placeholder-stripped version of one entry text (`mainJsx` or `mainJs`). */
  function NormalizedEntry(code: string, names: seq<string>, strip: bool): (r: string)
    ensures code == "" ==> r == ""
  {
    if code == "" then ""
    else if strip then StripPlaceholdersFrom(SanitizeCode(code), names)
    else SanitizeCode(code)
  }

  lemma ImgurFreeKept(text: string)
    ensures (forall k :: 0 <= k < |text| ==> !AtNoCase(text, k, "imgur.com/")) ==> ReplaceBrokenImageUrls(text) == text
  {
    if forall k :: 0 <= k < |text| ==> !AtNoCase(text, k, "imgur.com/") {
      NoImgurUnchanged(text);
    }
  }

  /**
   * In an entry text the sanitisers leave alone, a placeholder for a component name is
   * removed when there are components and kept when there are none.
   */
  lemma NormalizedEntryDropsPlaceholder(pre: string, name: string, post: string, names: seq<string>)
    requires IsIdentifier(name) && name in names
    requires forall i :: 0 <= i < |names| ==> names[i] == "" || IsIdentifier(names[i])
    requires 'c' !in pre && !Contains(post, "const")
    requires post == [] || !IsSpace(post[0])
    requires !Contains(pre + PlaceholderDecl(name) + post, "${") && '!' !in pre + PlaceholderDecl(name) + post
    requires forall k :: 0 <= k < |pre + PlaceholderDecl(name) + post| ==> !AtNoCase(pre + PlaceholderDecl(name) + post, k, "imgur.com/")
    ensures NormalizedEntry(pre + PlaceholderDecl(name) + post, names, true) == pre + post
    ensures NormalizedEntry(pre + PlaceholderDecl(name) + post, names, false) == pre + PlaceholderDecl(name) + post
  {
    var code := pre + PlaceholderDecl(name) + post;
    assert code != "" by {
      assert |PlaceholderDecl(name)| > 0;
    }
    StripRemovesDeclaration(pre, name, post, names);
  }

  /** `if (x) x = replaceBrokenImageUrls(x)`. */
  function ImagesFixed(text: string): (r: string)
    ensures text == "" ==> r == ""
    ensures (forall k :: 0 <= k < |text| ==> !AtNoCase(text, k, "imgur.com/")) ==> r == text
  {
    ImgurFreeKept(text);
    if text == "" then "" else ReplaceBrokenImageUrls(text)
  }

  /**
   * The in-place rewrites of `generateWebsite` on the parsed reply: component code and
   * both entry texts are sanitised; legacy `html`, `css` and `js` only lose image-host
   * links; when there are components and a `viteConfig`, placeholder declarations of the
   * component names are removed from both entry texts.
   */
  method NormalizeWebsiteCode(w: WebsiteCode) returns (out: WebsiteCode)
    ensures out.components == SanitizeComponents(w.components)
    ensures w.viteConfig.None? ==> out.viteConfig.None?
    ensures w.viteConfig.Some? ==>
              var names := NamesOf(w.components);
              var c := w.viteConfig.value;
              out.viteConfig == Some(c.(mainJsx := NormalizedEntry(c.mainJsx, names, |names| > 0),
                                        mainJs := NormalizedEntry(c.mainJs, names, |names| > 0)))
    ensures out.html == ImagesFixed(w.html) && out.css == ImagesFixed(w.css) && out.js == ImagesFixed(w.js)
    ensures out.htmlUpper == w.htmlUpper && out.cssUpper == w.cssUpper
    ensures out.jsUpper == w.jsUpper && out.javascript == w.javascript
  {
    var components := w.components;
    if |components| > 0 {
      components := SanitizeComponents(components);
    }
    var names := NamesOf(components);
    SanitizeKeepsNames(w.components);
    var config := w.viteConfig;
    if config.Some? {
      var mainJsx := NormalizeEntry(config.value.mainJsx, names);
      var mainJs := NormalizeEntry(config.value.mainJs, names);
      config := Some(config.value.(mainJsx := mainJsx, mainJs := mainJs));
    }
    var html := FixImages(w.html);
    var css := FixImages(w.css);
    var js := FixImages(w.js);
    out := w.(components := components, viteConfig := config, html := html, css := css, js := js);
  }

  /**
   * One entry text: sanitised when present, then stripped of placeholders when there are
   * component names (both entry texts are handled alike and independently).
   */
  method NormalizeEntry(code: string, names: seq<string>) returns (r: string)
    ensures r == NormalizedEntry(code, names, |names| > 0)
  {
    r := code;
    if r != "" {
      r := SanitizeCode(r);
      if |names| > 0 {
        r := StripPlaceholders(r, names);
      }
    }
  }

  method FixImages(text: string) returns (r: string)
    ensures r == ImagesFixed(text)
  {
    r := text;
    if r != "" {
      r := ReplaceBrokenImageUrls(r);
    }
  }

  // ---------------------------------------------------------------------------
  // The stored record
  // ---------------------------------------------------------------------------

  const HtmlFallback := "<div>Generated Website</div>"
  const CssFallback := "body { margin: 0; padding: 0; }"
  const JsFallback := "// JavaScript code"

  /** What is saved: the legacy texts are emptied when there are components. */
  datatype SavedWebsite = SavedWebsite(
    htmlCode: string, cssCode: string, jsCode: string,
    components: seq<Component>, viteConfig: Option<ViteConfig>)

  function SavedOf(w: WebsiteCode): (r: SavedWebsite)
    ensures |w.components| > 0 ==> r.htmlCode == "" && r.cssCode == "" && r.jsCode == ""
    ensures |w.components| == 0 ==> r.htmlCode != "" && r.cssCode != "" && r.jsCode != ""
    ensures |w.components| == 0 && w.html == "" && w.htmlUpper == "" ==> r.htmlCode == HtmlFallback
    ensures |w.components| == 0 && w.css == "" && w.cssUpper == "" ==> r.cssCode == CssFallback
    ensures |w.components| == 0 && w.js == "" && w.jsUpper == "" && w.javascript == "" ==> r.jsCode == JsFallback
    ensures |w.components| == 0 && w.html != "" ==> r.htmlCode == w.html
    ensures |w.components| == 0 && w.html == "" && w.htmlUpper != "" ==> r.htmlCode == w.htmlUpper
    ensures |w.components| == 0 && w.css != "" ==> r.cssCode == w.css
    ensures |w.components| == 0 && w.css == "" && w.cssUpper != "" ==> r.cssCode == w.cssUpper
    ensures |w.components| == 0 && w.js != "" ==> r.jsCode == w.js
    ensures |w.components| == 0 && w.js == "" && w.jsUpper != "" ==> r.jsCode == w.jsUpper
    ensures |w.components| == 0 && w.js == "" && w.jsUpper == "" && w.javascript != "" ==> r.jsCode == w.javascript
    ensures r.components == w.components && r.viteConfig == w.viteConfig
  {
    var html := Or(w.html, Or(w.htmlUpper, HtmlFallback));
    var css := Or(w.css, Or(w.cssUpper, CssFallback));
    var js := Or(w.js, Or(w.jsUpper, Or(w.javascript, JsFallback)));
    if |w.components| > 0 then SavedWebsite("", "", "", w.components, w.viteConfig)
    else SavedWebsite(html, css, js, w.components, w.viteConfig)
  }

  /** A reply nothing can be read from is saved as the three fallback texts. */
  lemma EmptyReplySavesFallbacks(response: string, parse: Parser)
    requires forall text :: !parse(text).Parsed?
    requires '{' !in response && '`' !in response && '<' !in response
    ensures var w := ShapeOf(ExtractCodeFromResponse(response, parse));
            SavedOf(w) == SavedWebsite(HtmlFallback, CssFallback, JsFallback, [], None)
  {
    PlaceholdersWhenNothingFound(response, parse);
    var w := LegacyCode(HtmlPlaceholder, CssPlaceholder, JsPlaceholder);
    assert ShapeOf(ExtractCodeFromResponse(response, parse)) == w;
    assert w.html != "" && w.css != "" && w.js != "";
  }

  // ---------------------------------------------------------------------------
  // Prompt enhancement
  // ---------------------------------------------------------------------------

  /** The kind of site a short prompt asks for, by keyword priority. */
  datatype PromptKind = Shop | Calculator | Todo | General

  /** One of the five shop words occurs in the lower-cased prompt. */
  predicate IsShopPrompt(lower: string) {
    Contains(lower, "shop") || Contains(lower, "store") || Contains(lower, "business")
    || Contains(lower, "cake") || Contains(lower, "bakery")
  }

  function PromptKindOf(prompt: string): (k: PromptKind)
    ensures var lower := ToLower(prompt);
            k == Shop <==> (Contains(lower, "shop") || Contains(lower, "store") || Contains(lower, "business")
                            || Contains(lower, "cake") || Contains(lower, "bakery"))
    ensures var lower := ToLower(prompt);
            k == Calculator <==> !IsShopPrompt(lower) && Contains(lower, "calc")
    ensures var lower := ToLower(prompt);
            k == Todo <==> (&& !IsShopPrompt(lower) && !Contains(lower, "calc")
                            && (Contains(lower, "todo") || Contains(lower, "task")))
  {
    var lower := ToLower(prompt);
    if Contains(lower, "shop") || Contains(lower, "store") || Contains(lower, "business")
       || Contains(lower, "cake") || Contains(lower, "bakery") then Shop
    else if Contains(lower, "calculator") || Contains(lower, "calc") then
      if Contains(lower, "calculator") then
        ContainsPrefix(lower, "calculator", "calc");
        Calculator
      else Calculator
    else if Contains(lower, "todo") || Contains(lower, "task") then Todo
    else General
  }

  lemma ContainsPrefix(s: string, p: string, q: string)
    requires Contains(s, p) && |q| <= |p| && p[..|q|] == q
    ensures Contains(s, q)
  {
    var i := IndexOf(s, p).value;
    assert s[i..i + |q|] == s[i..i + |p|][..|q|];
    ContainsAt(s, q, i);
  }

  /** The fixed requirement lists the enhancement appends (prose, kept as parameters). */
  datatype PromptTexts = PromptTexts(
    detailedRequirements: string, shop: string, calculator: string, todo: string,
    general: string, universal: string)

  function SectionFor(kind: PromptKind, texts: PromptTexts): string {
    match kind
    case Shop => texts.shop
    case Calculator => texts.calculator
    case Todo => texts.todo
    case General => texts.general
  }

  const DetailedIntro :=
    "Create a complete, production-ready Vite project with component-based architecture. Implement EVERYTHING mentioned below with stunning design and full functionality:\n\n"

  /** `enhanceUserPrompt`: a long prompt is kept whole under a fixed header; a short one is framed and given the requirement list of its kind. */
  function EnhanceUserPrompt(prompt: string, texts: PromptTexts): (r: string)
    ensures |prompt| > 800 ==> r == DetailedIntro + prompt + "\n\n" + texts.detailedRequirements
    ensures |prompt| <= 800 ==>
              r == "Create a " + prompt + " as a Vite project with component-based architecture. Break down the UI into reusable components:\n\n"
                   + SectionFor(PromptKindOf(prompt), texts) + texts.universal
  {
    if |prompt| > 800 then DetailedIntro + prompt + "\n\n" + texts.detailedRequirements
    else
      "Create a " + prompt + " as a Vite project with component-based architecture. Break down the UI into reusable components:\n\n"
      + SectionFor(PromptKindOf(prompt), texts) + texts.universal
  }

  /** The user's prompt always survives the enhancement verbatim. */
  lemma EnhancedKeepsPrompt(prompt: string, texts: PromptTexts)
    ensures Contains(EnhanceUserPrompt(prompt, texts), prompt)
  {
    var r := EnhanceUserPrompt(prompt, texts);
    if |prompt| > 800 {
      assert r == DetailedIntro + prompt + ("\n\n" + texts.detailedRequirements);
      ContainsInfix(DetailedIntro, prompt, "\n\n" + texts.detailedRequirements);
    } else {
      var tail := " as a Vite project with component-based architecture. Break down the UI into reusable components:\n\n"
                  + SectionFor(PromptKindOf(prompt), texts) + texts.universal;
      assert r == "Create a " + prompt + tail;
      ContainsInfix("Create a ", prompt, tail);
    }
  }

  /** Shop keywords win over every other kind. */
  lemma ShopWins(prompt: string)
    requires Contains(ToLower(prompt), "bakery")
    ensures PromptKindOf(prompt) == Shop
  {
  }

  // ---------------------------------------------------------------------------
  // Default file templates
  // ---------------------------------------------------------------------------

  /** `\s+` replaced by `-`. */
  function SpaceRunMatch(): Matcher {
    (s: string, p: nat) => if p < |s| && IsSpace(s[p]) then Some(Hit(SkipSpaces(s, p), "-")) else None
  }

  /** The reference for `s.replace(/\s+/g, '-')`: each maximal whitespace run becomes one `-`. */
  function DashRuns(s: string): (r: string)
    ensures forall k :: 0 <= k < |r| ==> !IsSpace(r[k])
    decreases |s|
  {
    if |s| == 0 then ""
    else if IsSpace(s[0]) then "-" + DashRuns(s[SkipSpaces(s, 0)..])
    else [s[0]] + DashRuns(s[1..])
  }

  /** The global replace of `\s+` by `-` is `DashRuns` from every offset. */
  lemma {:induction false} SpaceRunsDashed(s: string, i: nat)
    requires i <= |s|
    ensures ReplaceFrom(s, SpaceRunMatch(), i) == DashRuns(s[i..])
    decreases |s| - i
  {
    if i < |s| {
      var m := SpaceRunMatch();
      if IsSpace(s[i]) {
        var e := SkipSpaces(s, i);
        SkipSpacesShift(s, i);
        assert s[i..][e - i..] == s[e..];
        SpaceRunsDashed(s, e);
      } else {
        assert s[i..][1..] == s[i + 1..];
        SpaceRunsDashed(s, i + 1);
      }
    }
  }

  /** Skipping whitespace in a suffix is skipping it in the whole text. */
  lemma {:induction false} SkipSpacesShift(s: string, i: nat)
    requires i <= |s|
    ensures SkipSpaces(s[i..], 0) == SkipSpaces(s, i) - i
    decreases |s| - i
  {
    if i < |s| && IsSpace(s[i]) {
      SkipSpacesShift(s, i + 1);
      SkipSpacesFrom(s[i..], 1);
      assert s[i..][1..] == s[i + 1..];
    }
  }

  lemma {:induction false} SkipSpacesFrom(t: string, j: nat)
    requires 1 <= j <= |t| && IsSpace(t[0])
    ensures SkipSpaces(t, j) - 1 == SkipSpaces(t[1..], j - 1)
    decreases |t| - j
  {
    if j < |t| && IsSpace(t[j]) {
      SkipSpacesFrom(t, j + 1);
    }
  }

  /**
   * Runs are replaced one by one: text, a whitespace run, text again becomes the two texts
   * joined by one `-`, and text without whitespace is kept.
   */
  lemma {:induction false} DashRunsJoin(a: string, run: string, b: string)
    requires |run| > 0 && forall k :: 0 <= k < |run| ==> IsSpace(run[k])
    requires b == [] || !IsSpace(b[0])
    requires forall k :: 0 <= k < |a| ==> !IsSpace(a[k])
    ensures DashRuns(a + run + b) == a + "-" + DashRuns(b)
    ensures DashRuns(a) == a
    decreases |a|
  {
    if |a| == 0 {
      assert a + run + b == run + b;
      var t := run + b;
      SkipPast(t, |run|);
      assert t[|run|..] == b;
    } else {
      assert (a + run + b)[1..] == a[1..] + run + b;
      DashRunsJoin(a[1..], run, b);
    }
  }

  lemma SkipPast(t: string, n: nat)
    requires n <= |t| && forall k :: 0 <= k < n ==> IsSpace(t[k])
    requires n == |t| || !IsSpace(t[n])
    ensures SkipSpaces(t, 0) == n
  {
    SkipTo(t, 0, n);
  }

  lemma {:induction false} SkipTo(t: string, i: nat, n: nat)
    requires i <= n <= |t| && forall k :: i <= k < n ==> IsSpace(t[k])
    requires n == |t| || !IsSpace(t[n])
    ensures SkipSpaces(t, i) == n
    decreases n - i
  {
    if i < n {
      SkipTo(t, i + 1, n);
    }
  }

  /** A global replace whose every match starts with whitespace and is replaced by `-` leaves no whitespace. */
  lemma {:induction false} SpaceRunsGone(s: string, i: nat)
    requires i <= |s|
    ensures forall k :: 0 <= k < |ReplaceFrom(s, SpaceRunMatch(), i)| ==> !IsSpace(ReplaceFrom(s, SpaceRunMatch(), i)[k])
    decreases |s| - i
  {
    if i < |s| {
      var m := SpaceRunMatch();
      if HitAt(s, m, i) {
        SpaceRunsGone(s, m(s, i).value.end);
      } else {
        SpaceRunsGone(s, i + 1);
      }
    }
  }

  /** The package name: the site name in lower case, each whitespace run made a `-`. */
  function PackageName(websiteName: string): (r: string)
    ensures forall k :: 0 <= k < |r| ==> !IsSpace(r[k])
    ensures r == DashRuns(ToLower(websiteName))
  {
    SpaceRunsGone(ToLower(websiteName), 0);
    SpaceRunsDashed(ToLower(websiteName), 0);
    ReplaceAll(ToLower(websiteName), SpaceRunMatch())
  }

  function PackageObject(websiteName: string): Json {
    JObject([
      ("name", JString(PackageName(websiteName))),
      ("version", JString("1.0.0")),
      ("type", JString("module")),
      ("scripts", JObject([("dev", JString("vite")), ("build", JString("vite build")), ("preview", JString("vite preview"))])),
      ("dependencies", JObject([("react", JString("^18.2.0")), ("react-dom", JString("^18.2.0"))])),
      ("devDependencies", JObject([("vite", JString("^5.0.0")), ("@vitejs/plugin-react", JString("^4.2.0"))]))
    ])
  }

  /** `generateDefaultPackageJson`: `JSON.stringify` of the fixed manifest, indented by two. */
  function DefaultPackageJson(websiteName: string): (r: string)
    ensures |r| > 0 && r[0] == '{'
  {
    assert PackageObject(websiteName).JObject?;
    Pretty(PackageObject(websiteName))
  }

  /** The default manifest text opens with the package name as its first member and closes the object. */
  lemma DefaultManifestText(websiteName: string)
    ensures StartsWith(DefaultPackageJson(websiteName), "{\n  \"name\": " + Quote(PackageName(websiteName)) + ",\n")
    ensures EndsWith(DefaultPackageJson(websiteName), "\n}")
  {
    var v := PackageObject(websiteName);
    assert |v.members| > 1 && v.members[0] == ("name", JString(PackageName(websiteName)));
    ObjectTextOpens(v.members, "name", PackageName(websiteName));
    NameLine(Quote(PackageName(websiteName)));
  }

  lemma NameLine(q: string)
    ensures "{\n  " + Quote("name") + ": " + q + ",\n" == "{\n  \"name\": " + q + ",\n"
  {
    EscapePlain("name");
  }

  /** An object of several members prints its first string member on its first line. */
  lemma ObjectTextOpens(ms: seq<(string, Json)>, key: string, n: string)
    requires |ms| > 1 && ms[0] == (key, JString(n))
    ensures StartsWith(Pretty(JObject(ms)), "{\n  " + Quote(key) + ": " + Quote(n) + ",\n")
    ensures EndsWith(Pretty(JObject(ms)), "\n}")
  {
    var v := JObject(ms);
    assert Stringify(JString(n), 1) == Quote(n);
    assert Spaces(2) == "  " by {
      assert Spaces(1) == " " + Spaces(0);
    }
    var body := StringifyMembers(v, ms, 1);
    var rest := StringifyMembers(v, ms[1..], 1);
    assert body == "  " + Quote(key) + ": " + Quote(n) + ",\n" + rest;
    assert Stringify(v, 0) == "{\n" + body + "\n" + "" + "}";
    ObjectText(Quote(key), Quote(n), rest);
  }

  lemma ObjectText(k: string, n: string, rest: string)
    ensures StartsWith("{\n" + ("  " + k + ": " + n + ",\n" + rest) + "\n" + "" + "}", "{\n  " + k + ": " + n + ",\n")
    ensures EndsWith("{\n" + ("  " + k + ": " + n + ",\n" + rest) + "\n" + "" + "}", "\n}")
  {
    var open := "{\n  " + k + ": " + n + ",\n";
    var r := "{\n" + ("  " + k + ": " + n + ",\n" + rest) + "\n" + "" + "}";
    assert r == open + rest + "\n}";
    assert r[..|open|] == open;
    assert r[|r| - 2..] == "\n}";
  }

  /** The manifest names the package after the site, with no whitespace. */
  lemma PackageNamed(websiteName: string)
    ensures Get(PackageObject(websiteName), "name") == Some(JString(PackageName(websiteName)))
  {
    LookupUnique(PackageObject(websiteName).members, "name", 0);
  }

  /** The default bundler configuration: its imports, then the configuration itself. */
  const ViteImports := "import { defineConfig } from 'vite';\nimport react from '@vitejs/plugin-react';"
  const ViteDefinition := "export default defineConfig({\n  plugins: [react()],\n  server: {\n    port: 3000,\n    open: true\n  },\n  build: {\n    outDir: 'dist',\n    assetsDir: 'assets'\n  }\n});"

  const DefaultViteConfig := ViteImports + "\n\n" + ViteDefinition

  /** The default sheet, rule by rule. */
  const StyleFonts := "@import url('https://fonts.googleapis.com/css2?family=Inter:wght@400;500;600;700&display=swap');"
  const StyleRoot := ":root {\n  --primary-color: #1e3a8a;\n  --secondary-color: #64748b;\n  --accent-color: #fbbf24;\n  --bg-color: #f1f5f9;\n  --text-color: #1f2937;\n}"
  const StyleReset := "* {\n  margin: 0;\n  padding: 0;\n  box-sizing: border-box;\n}"
  const StyleBody := "body {\n  font-family: 'Inter', -apple-system, BlinkMacSystemFont, 'Segoe UI', sans-serif;\n  color: var(--text-color);\n  background: var(--bg-color);\n  line-height: 1.6;\n}"
  const StyleApp := "#app {\n  min-height: 100vh;\n}"

  const DefaultStyleCss := StyleFonts + "\n\n" + StyleRoot + "\n\n" + StyleReset + "\n\n" + StyleBody + "\n\n" + StyleApp

  const Gitignore := "node_modules\ndist\n.DS_Store\n*.log\n.env\n.env.local\n"

  /** Components the default entry module imports: type `component`, language `js` or `jsx`. */
  predicate IsImportable(c: Component) {
    c.kind == "component" && (c.language == "js" || c.language == "jsx")
  }

  function Importable(cs: seq<Component>): (r: seq<Component>)
    ensures forall k :: 0 <= k < |r| ==> IsImportable(r[k]) && r[k] in cs
    ensures forall c :: c in cs && IsImportable(c) ==> c in r
  {
    if |cs| == 0 then []
    else if IsImportable(cs[0]) then [cs[0]] + Importable(cs[1..])
    else Importable(cs[1..])
  }

  /** `p.replace(/\.(js|jsx)$/, '')`. */
  function WithoutScriptExt(p: string): (r: string)
    ensures !EndsWith(p, ".js") && !EndsWith(p, ".jsx") ==> r == p
    ensures EndsWith(p, ".jsx") ==> r + ".jsx" == p
    ensures !EndsWith(p, ".jsx") && EndsWith(p, ".js") ==> r + ".js" == p
    ensures StartsWith(p, "src/") ==> StartsWith(r, "src/")
  {
    if EndsWith(p, ".jsx") then
      KeepsSrc(p, ".jsx");
      p[..|p| - 4]
    else if EndsWith(p, ".js") then
      KeepsSrc(p, ".js");
      p[..|p| - 3]
    else p
  }

  /** Cutting an extension that starts with `.` never reaches into a leading `src/`. */
  lemma KeepsSrc(p: string, ext: string)
    requires EndsWith(p, ext) && |ext| > 0 && ext[0] == '.'
    ensures StartsWith(p, "src/") ==> StartsWith(p[..|p| - |ext|], "src/")
  {
    var n := |ext|;
    assert p[|p| - n] == p[|p| - n..][0] == '.';
    if StartsWith(p, "src/") {
      assert p[..4] == "src/";
      assert p[0] == 's' && p[1] == 'r' && p[2] == 'c' && p[3] == '/';
      assert |p| - n >= 4;
      assert p[..|p| - n][..4] == p[..4];
    }
  }

  /** The script extension `.js` or `.jsx` that ends `p`, or none. */
  function ScriptExt(p: string): string {
    if EndsWith(p, ".jsx") then ".jsx" else if EndsWith(p, ".js") then ".js" else ""
  }

  /** The absolute module path a component is imported from. */
  function ImportPath(p: string): (r: string)
    ensures StartsWith(r, "/src/")
  {
    if StartsWith(p, "src/") then
      var r := "/" + WithoutScriptExt(p);
      assert r[..5] == "/" + WithoutScriptExt(p)[..4];
      r
    else "/src/" + WithoutScriptExt(p)
  }

  /** The import path is the component's `src/` path, made absolute, without its script extension. */
  lemma ImportPathIsSrcPath(p: string)
    ensures ImportPath(p) + ScriptExt(p) == "/" + SrcPath(p)
  {
    var w := WithoutScriptExt(p);
    ScriptExtRestored(p);
    if StartsWith(p, "src/") {
      assert ImportPath(p) + ScriptExt(p) == "/" + (w + ScriptExt(p));
    } else {
      assert ImportPath(p) + ScriptExt(p) == "/" + ("src/" + (w + ScriptExt(p)));
    }
  }

  lemma ScriptExtRestored(p: string)
    ensures WithoutScriptExt(p) + ScriptExt(p) == p
  {
  }

  function ImportLine(c: Component): string {
    "import " + RemoveSpaces(c.name) + " from '" + ImportPath(c.path) + "';"
  }

  function RenderLine(c: Component): string {
    "    <" + RemoveSpaces(c.name) + " />"
  }

  function ImportLines(cs: seq<Component>): (r: seq<string>)
    ensures |r| == |cs| && forall k :: 0 <= k < |cs| ==> r[k] == ImportLine(cs[k])
  {
    if |cs| == 0 then [] else [ImportLine(cs[0])] + ImportLines(cs[1..])
  }

  function RenderLines(cs: seq<Component>): (r: seq<string>)
    ensures |r| == |cs| && forall k :: 0 <= k < |cs| ==> r[k] == RenderLine(cs[k])
  {
    if |cs| == 0 then [] else [RenderLine(cs[0])] + RenderLines(cs[1..])
  }

  const MainPrologue := "import React from 'react';\nimport ReactDOM from 'react-dom/client';\nimport './style.css';\n\n"
  const AppOpen := "\n\nfunction App() {\n  return (\n    <>\n"
  const AppClose := "\n    </>\n  );\n}\n\nconst root = ReactDOM.createRoot(document.getElementById('root'));\nroot.render(<App />);"

  /**
   * `generateDefaultMainJs`: imports and renders every importable component, in order.
   * The module opens by importing React, ReactDOM and the style sheet, and ends by
   * mounting `App` at `#root`.
   */
  function DefaultMainJs(cs: seq<Component>): (r: string)
    ensures StartsWith(r, MainPrologue) && EndsWith(r, AppClose)
  {
    var selected := Importable(cs);
    var head := MainPrologue + Join(ImportLines(selected), "\n") + AppOpen + Join(RenderLines(selected), "\n");
    assert head[..|MainPrologue|] == MainPrologue;
    assert (head + AppClose)[..|MainPrologue|] == MainPrologue;
    assert (head + AppClose)[|head|..] == AppClose;
    head + AppClose
  }

  /** Every importable component is imported by the default entry module. */
  lemma DefaultMainImportsEach(cs: seq<Component>, c: Component)
    requires c in cs && IsImportable(c)
    ensures Contains(DefaultMainJs(cs), ImportLine(c))
  {
    var selected := Importable(cs);
    var k :| 0 <= k < |selected| && selected[k] == c;
    var imports := Join(ImportLines(selected), "\n");
    var renders := Join(RenderLines(selected), "\n");
    JoinContainsPart(ImportLines(selected), "\n", k);
    var pre, post :| imports == pre + ImportLine(c) + post;
    ContainsInfix(pre, ImportLine(c), post);
    ContainsInSecond(MainPrologue, imports, AppOpen, renders, AppClose, ImportLine(c));
  }

  lemma ContainsInSecond(a: string, b: string, c: string, d: string, e: string, p: string)
    requires Contains(b, p)
    ensures Contains(a + b + c + d + e, p)
  {
    ContainsWithin(a, b, c + d + e, p);
    assert a + b + (c + d + e) == a + b + c + d + e;
  }

  /** Every importable component is rendered inside `App` by the default entry module. */
  lemma DefaultMainRendersEach(cs: seq<Component>, c: Component)
    requires c in cs && IsImportable(c)
    ensures Contains(DefaultMainJs(cs), RenderLine(c))
  {
    var selected := Importable(cs);
    var k :| 0 <= k < |selected| && selected[k] == c;
    var imports := Join(ImportLines(selected), "\n");
    var renders := Join(RenderLines(selected), "\n");
    JoinContainsPart(RenderLines(selected), "\n", k);
    var pre, post :| renders == pre + RenderLine(c) + post;
    ContainsInfix(pre, RenderLine(c), post);
    ContainsWithin(MainPrologue + imports + AppOpen, renders, AppClose, RenderLine(c));
  }

  // ---------------------------------------------------------------------------
  // The file plan of saveViteProject
  // ---------------------------------------------------------------------------

  /** One file written, relative to the project directory. */
  datatype FileWrite = FileWrite(path: string, content: string)

  /** `p.replace(/\.js$/, '.jsx')`. */
  function JsToJsx(p: string): (r: string)
    ensures EndsWith(p, ".js") ==> EndsWith(r, ".jsx") && r[..|r| - 4] == p[..|p| - 3]
    ensures !EndsWith(p, ".js") ==> r == p
  {
    if EndsWith(p, ".js") then
      var r := p[..|p| - 3] + ".jsx";
      assert r[|r| - 4..] == ".jsx";
      r
    else p
  }

  /** Where a component is written: under `src/`, with a JSX component's `.js` extension made `.jsx`. */
  function ComponentFilePath(c: Component): (r: string)
    ensures !(c.language == "jsx" && EndsWith(SrcPath(c.path), ".js")) ==> r == SrcPath(c.path)
    ensures c.language == "jsx" && EndsWith(SrcPath(c.path), ".js") ==> EndsWith(r, ".jsx")
  {
    var p := SrcPath(c.path);
    if !EndsWith(p, ".jsx") && c.language == "jsx" then JsToJsx(p) else p
  }

  function ComponentWrites(cs: seq<Component>): (r: seq<FileWrite>)
    ensures |r| == |cs|
    ensures forall k :: 0 <= k < |cs| ==> r[k] == FileWrite(ComponentFilePath(cs[k]), cs[k].code)
  {
    if |cs| == 0 then [] else [FileWrite(ComponentFilePath(cs[0]), cs[0].code)] + ComponentWrites(cs[1..])
  }

  /** `src/main.jsx`: the configured `mainJs`, else `mainJsx`, else the generated entry module. */
  function EntryText(cfg: ViteConfig, cs: seq<Component>): string {
    Or(cfg.mainJs, Or(cfg.mainJsx, DefaultMainJs(cs)))
  }

  /** `package.json`: the configured manifest or the default one. */
  function PackageJsonText(cfg: ViteConfig, websiteName: string): string {
    Or(cfg.packageJson, DefaultPackageJson(websiteName))
  }

  /** `vite.config.js`: the configured text or the default one. */
  function ViteConfigText(cfg: ViteConfig): string {
    Or(cfg.viteConfig, DefaultViteConfig)
  }

  /** `src/style.css`: the configured sheet or the default one. */
  function StyleText(cfg: ViteConfig): string {
    Or(cfg.styleCss, DefaultStyleCss)
  }

  /** The five fixed files in the order they are written, given their texts. */
  function FixedLayout(index: string, manifest: string, bundler: string, entry: string, style: string): (r: seq<FileWrite>)
    ensures |r| == 5
    ensures r[0] == FileWrite("index.html", index) && r[1] == FileWrite("package.json", manifest)
    ensures r[2] == FileWrite("vite.config.js", bundler) && r[3] == FileWrite("src/main.jsx", entry)
    ensures r[4] == FileWrite("src/style.css", style)
  {
    [ FileWrite("index.html", index), FileWrite("package.json", manifest), FileWrite("vite.config.js", bundler),
      FileWrite("src/main.jsx", entry), FileWrite("src/style.css", style) ]
  }

  /**
   * The five fixed files, each the configured text or its default; `index.html` goes
   * through the corrected entry-script rewrite.
   */
  function FixedFiles(cs: seq<Component>, cfg: ViteConfig, websiteName: string): (r: seq<FileWrite>)
    ensures |r| == 5
    ensures r[0] == FileWrite("index.html", IndexHtmlText(cfg.indexHtml, websiteName))
    ensures r[1] == FileWrite("package.json", PackageJsonText(cfg, websiteName))
    ensures r[2] == FileWrite("vite.config.js", ViteConfigText(cfg))
    ensures r[3] == FileWrite("src/main.jsx", EntryText(cfg, cs))
    ensures r[4] == FileWrite("src/style.css", StyleText(cfg))
  {
    FixedLayout(IndexHtmlText(cfg.indexHtml, websiteName), PackageJsonText(cfg, websiteName), ViteConfigText(cfg),
                EntryText(cfg, cs), StyleText(cfg))
  }

  /**
   * The writes of `saveViteProject`, in order: the five fixed files, every component,
   * then `.gitignore`.
   */
  function FilePlan(cs: seq<Component>, config: Option<ViteConfig>, websiteName: string): (plan: seq<FileWrite>)
    ensures |plan| == |cs| + 6
  {
    PlanLayout(FixedFiles(cs, ConfigOrEmpty(config), websiteName), ComponentWrites(cs), FileWrite(".gitignore", Gitignore))
  }

  /** The five fixed files are written first. */
  lemma FixedFilesFirst(cs: seq<Component>, config: Option<ViteConfig>, websiteName: string)
    ensures FilePlan(cs, config, websiteName)[..5] == FixedFiles(cs, ConfigOrEmpty(config), websiteName)
  {
  }

  /** Then every component, in order, at its path under `src/` with its code. */
  lemma ComponentFilesNext(cs: seq<Component>, config: Option<ViteConfig>, websiteName: string)
    ensures forall k :: 0 <= k < |cs| ==>
      FilePlan(cs, config, websiteName)[5 + k] == FileWrite(ComponentFilePath(cs[k]), cs[k].code)
  {
  }

  /** And `.gitignore` last. */
  lemma GitignoreLast(cs: seq<Component>, config: Option<ViteConfig>, websiteName: string)
    ensures FilePlan(cs, config, websiteName)[|cs| + 5] == FileWrite(".gitignore", Gitignore)
  {
  }

  /** Fixed files, then per-component files, then one last file. */
  function PlanLayout(fixed: seq<FileWrite>, writes: seq<FileWrite>, last: FileWrite): (plan: seq<FileWrite>)
    ensures |plan| == |fixed| + |writes| + 1
    ensures plan[..|fixed|] == fixed
    ensures forall k :: 0 <= k < |writes| ==> plan[|fixed| + k] == writes[k]
    ensures plan[|plan| - 1] == last
  {
    var plan := fixed + writes + [last];
    assert plan[..|fixed|] == fixed;
    plan
  }

  /** Every component file lands under `src/`. */
  lemma ComponentFilesUnderSrc(c: Component)
    ensures StartsWith(ComponentFilePath(c), "src/")
  {
    var p := SrcPath(c.path);
    if !EndsWith(p, ".jsx") && c.language == "jsx" && EndsWith(p, ".js") {
      JsxKeepsSrc(p);
    }
  }

  /** Renaming `.js` to `.jsx` keeps the `src/` prefix. */
  lemma JsxKeepsSrc(p: string)
    requires StartsWith(p, "src/") && EndsWith(p, ".js")
    ensures StartsWith(JsToJsx(p), "src/")
  {
    SrcJsLong(p);
    var q := p[..|p| - 3];
    assert (q + ".jsx")[..4] == q[..4] == p[..4];
  }

  /** A path under `src/` ending in `.js` has at least one character between the two. */
  lemma SrcJsLong(p: string)
    requires StartsWith(p, "src/") && EndsWith(p, ".js")
    ensures |p| >= 7
  {
    assert p[..4] == "src/" && p[|p| - 3..] == ".js";
    assert p[|p| - 3] == '.';
    assert p[1] == 'r' && p[2] == 'c' && p[3] == '/';
  }
}

=== FILE: history.dfy ===
/**
 * The history page's panel state (frontend/src/pages/History.tsx): which saved websites
 * are expanded, whether each expanded one shows its preview or its code, which code tab
 * is open, and which component a component tab shows. The page's `formatCode` and
 * `formatJson` are in `CodeFormat`.
 */
module History {
  import opened Wrappers
  import opened Text

  /**
   * A saved website, as far as the panels depend on it: its id, how many components it
   * has, and which of the project-file tabs (`style`, `main`, `index`, `vite`, `package`)
   * have a text to show.
   */
  datatype Site = Site(id: string, componentCount: nat, fileTabs: set<string>)

  datatype ViewMode = PreviewMode | CodeMode

  /** The four pieces of panel state, keyed by website id. */
  datatype Panels = Panels(
    expanded: set<string>,
    viewMode: map<string, ViewMode>,
    activeTab: map<string, string>,
    activeComponentIndex: map<string, nat>)

  const NoPanels := Panels({}, map[], map[], map[])

  /** Every expanded website, and only those, has a view mode and a tab. */
  predicate Consistent(p: Panels) {
    p.viewMode.Keys == p.expanded && p.activeTab.Keys == p.expanded
  }

  /** `togglePreview`: collapsing drops the view mode and tab; expanding opens the preview on the `html` tab. */
  function Toggled(p: Panels, id: string): (r: Panels)
    ensures id in r.expanded <==> id !in p.expanded
    ensures id in p.expanded ==> id !in r.viewMode && id !in r.activeTab
    ensures id !in p.expanded ==> id in r.viewMode && r.viewMode[id] == PreviewMode
    ensures id !in p.expanded ==> id in r.activeTab && r.activeTab[id] == "html"
    ensures forall j :: j != id ==> (j in r.expanded <==> j in p.expanded)
    ensures forall j :: j != id && j in p.viewMode ==> j in r.viewMode && r.viewMode[j] == p.viewMode[j]
    ensures forall j :: j != id && j in p.activeTab ==> j in r.activeTab && r.activeTab[j] == p.activeTab[j]
    ensures r.activeComponentIndex == p.activeComponentIndex
  {
    if id in p.expanded then
      p.(expanded := p.expanded - {id}, viewMode := p.viewMode - {id}, activeTab := p.activeTab - {id})
    else
      p.(expanded := p.expanded + {id}, viewMode := p.viewMode[id := PreviewMode], activeTab := p.activeTab[id := "html"])
  }

  /** Toggling keeps the panels consistent. */
  lemma ToggledConsistent(p: Panels, id: string)
    requires Consistent(p)
    ensures Consistent(Toggled(p, id))
  {
  }

  /** Toggling the same website twice restores its membership, and from a consistent state the whole state. */
  lemma ToggledTwice(p: Panels, id: string)
    ensures id in Toggled(Toggled(p, id), id).expanded <==> id in p.expanded
    ensures Consistent(p) && id !in p.expanded ==> Toggled(Toggled(p, id), id) == p
  {
    if Consistent(p) && id !in p.expanded {
      var q := Toggled(Toggled(p, id), id);
      assert q.expanded == p.expanded;
      assert q.viewMode == p.viewMode;
      assert q.activeTab == p.activeTab;
    }
  }

  /** The clean-up after a successful delete: the id leaves every record but the component indices. */
  function Deleted(p: Panels, id: string): (r: Panels)
    ensures r.expanded == p.expanded - {id}
    ensures id !in r.viewMode && id !in r.activeTab
    ensures forall j :: j != id ==> (j in r.viewMode <==> j in p.viewMode) && (j in r.activeTab <==> j in p.activeTab)
    ensures forall j :: j != id && j in p.viewMode ==> r.viewMode[j] == p.viewMode[j]
    ensures forall j :: j != id && j in p.activeTab ==> r.activeTab[j] == p.activeTab[j]
    ensures r.activeComponentIndex == p.activeComponentIndex
  {
    p.(expanded := p.expanded - {id}, viewMode := p.viewMode - {id}, activeTab := p.activeTab - {id})
  }

  /** Deleting keeps the panels consistent. */
  lemma DeletedConsistent(p: Panels, id: string)
    requires Consistent(p)
    ensures Consistent(Deleted(p, id))
  {
  }

  /** `websites.filter((w) => w.id !== id)`. */
  function WithoutSite(sites: seq<Site>, id: string): (r: seq<Site>)
    ensures |r| <= |sites|
    ensures forall w :: w in r <==> w in sites && w.id != id
    ensures (forall k :: 0 <= k < |sites| ==> sites[k].id != id) ==> r == sites
  {
    if |sites| == 0 then []
    else if sites[0].id == id then WithoutSite(sites[1..], id)
    else [sites[0]] + WithoutSite(sites[1..], id)
  }

  /** The filter goes website by website, so the websites it keeps stay in their order. */
  lemma {:induction false} WithoutSiteInOrder(a: seq<Site>, b: seq<Site>, id: string)
    ensures WithoutSite(a + b, id) == WithoutSite(a, id) + WithoutSite(b, id)
    ensures |a| == 1 ==> WithoutSite(a, id) == (if a[0].id == id then [] else a)
  {
    if |a| == 0 {
      assert a + b == b;
    } else {
      var ab := a + b;
      assert ab[0] == a[0];
      assert ab[1..] == a[1..] + b;
      WithoutSiteInOrder(a[1..], b, id);
      if a[0].id == id {
        assert WithoutSite(ab, id) == WithoutSite(a[1..] + b, id);
        assert WithoutSite(a, id) == WithoutSite(a[1..], id);
      } else {
        assert WithoutSite(ab, id) == [a[0]] + WithoutSite(a[1..] + b, id);
        assert WithoutSite(a, id) == [a[0]] + WithoutSite(a[1..], id);
      }
      if |a| == 1 {
        assert a[1..] == [];
        assert a == [a[0]];
      }
    }
  }

  /** The default tab of the code view: the first component's, or `html` for a page without components. */
  function DefaultTab(site: Site): (r: string)
    ensures site.componentCount > 0 ==> r == "component-0"
    ensures site.componentCount == 0 ==> r == "html"
  {
    if site.componentCount > 0 then "component-0" else "html"
  }

  /**
   * The tabs the code view has a panel for: any `component-` tab, a project-file tab
   * whose text is present, and, for a website without components, the legacy tabs.
   */
  predicate ShowsTab(site: Site, tab: string): (r: bool)
    ensures site.componentCount > 0 && tab in {"html", "css", "js"} ==> !r
    ensures site.componentCount == 0 && StartsWith(tab, "component-") ==> !r
  {
    assert !StartsWith("html", "component-") && !StartsWith("css", "component-") && !StartsWith("js", "component-");
    if site.componentCount > 0 then
      StartsWith(tab, "component-") || (tab in {"style", "main", "index", "vite", "package"} && tab in site.fileTabs)
    else tab in {"html", "css", "js"}
  }

  /** The default tab always has a panel. */
  lemma DefaultTabShown(site: Site)
    ensures ShowsTab(site, DefaultTab(site))
  {
    if site.componentCount > 0 {
      assert DefaultTab(site)[..10] == "component-";
    }
  }

  /**
   * The `Code` button as written: switches to the code view and, only when no tab is
   * open, opens the default tab (and the first component).
   */
  function CodeOpenedAsWritten(p: Panels, site: Site): (r: Panels)
    ensures r.expanded == p.expanded
    ensures site.id in r.viewMode && r.viewMode[site.id] == CodeMode
    ensures site.id in p.activeTab ==> r.activeTab == p.activeTab && r.activeComponentIndex == p.activeComponentIndex
    ensures site.id !in p.activeTab ==> r.activeTab == p.activeTab[site.id := DefaultTab(site)]
    ensures site.id !in p.activeTab && site.componentCount > 0 ==> r.activeComponentIndex == p.activeComponentIndex[site.id := 0]
  {
    var q := p.(viewMode := p.viewMode[site.id := CodeMode]);
    if site.id in p.activeTab then q
    else if site.componentCount > 0 then
      q.(activeTab := p.activeTab[site.id := "component-0"], activeComponentIndex := p.activeComponentIndex[site.id := 0])
    else q.(activeTab := p.activeTab[site.id := "html"])
  }

  /**
   * As written, the default is never chosen on an expanded panel: expanding already
   * opened the `html` tab, so a website with components shows no code at all.
   */
  lemma ComponentCodeHiddenAsWritten(p: Panels, site: Site)
    requires Consistent(p) && site.id !in p.expanded && site.componentCount > 0
    ensures var r := CodeOpenedAsWritten(Toggled(p, site.id), site);
            r.activeTab[site.id] == "html" && !ShowsTab(site, r.activeTab[site.id])
  {
    assert !StartsWith("html", "component-");
  }

  /**
   * The `Code` button as intended: switches to the code view and opens the default tab
   * (and the first component) unless the open tab has a panel.
   */
  function CodeOpened(p: Panels, site: Site): (r: Panels)
    ensures r.expanded == p.expanded
    ensures site.id in r.viewMode && r.viewMode[site.id] == CodeMode
    ensures site.id in r.activeTab && ShowsTab(site, r.activeTab[site.id])
    ensures site.id in p.activeTab && ShowsTab(site, p.activeTab[site.id]) ==>
              r.activeTab == p.activeTab && r.activeComponentIndex == p.activeComponentIndex
    ensures !(site.id in p.activeTab && ShowsTab(site, p.activeTab[site.id])) ==>
              r.activeTab == p.activeTab[site.id := DefaultTab(site)]
    ensures forall j :: j != site.id && j in p.viewMode ==> j in r.viewMode && r.viewMode[j] == p.viewMode[j]
  {
    DefaultTabShown(site);
    var q := p.(viewMode := p.viewMode[site.id := CodeMode]);
    if site.id in p.activeTab && ShowsTab(site, p.activeTab[site.id]) then q
    else if site.componentCount > 0 then
      q.(activeTab := p.activeTab[site.id := "component-0"], activeComponentIndex := p.activeComponentIndex[site.id := 0])
    else q.(activeTab := p.activeTab[site.id := "html"])
  }

  /** After expanding, the code view of any website opens its default tab. */
  lemma ExpandedCodeShowsDefault(p: Panels, site: Site)
    requires Consistent(p) && site.id !in p.expanded
    ensures var r := CodeOpened(Toggled(p, site.id), site);
            && r.activeTab[site.id] == DefaultTab(site)
            && (site.componentCount > 0 ==> r.activeComponentIndex[site.id] == 0)
  {
    if site.componentCount > 0 {
      assert !StartsWith("html", "component-");
    }
  }

  /** The code view keeps the panels consistent when its website is expanded. */
  lemma CodeOpenedConsistent(p: Panels, site: Site)
    requires Consistent(p) && site.id in p.expanded
    ensures Consistent(CodeOpened(p, site))
  {
  }

  /** The `Preview` button. */
  function PreviewShown(p: Panels, id: string): (r: Panels)
    ensures id in r.viewMode && r.viewMode[id] == PreviewMode
    ensures r.expanded == p.expanded && r.activeTab == p.activeTab && r.activeComponentIndex == p.activeComponentIndex
    ensures forall j :: j != id && j in p.viewMode ==> j in r.viewMode && r.viewMode[j] == p.viewMode[j]
  {
    p.(viewMode := p.viewMode[id := PreviewMode])
  }

  /** A component tab: opens `component-<index>` and shows that component. */
  function ComponentSelected(p: Panels, id: string, index: nat): (r: Panels)
    ensures id in r.activeTab && StartsWith(r.activeTab[id], "component-")
    ensures r.activeTab[id] == "component-" + NatToString(index)
    ensures id in r.activeComponentIndex && r.activeComponentIndex[id] == index
    ensures r.expanded == p.expanded && r.viewMode == p.viewMode
    ensures forall j :: j != id && j in p.activeTab ==> j in r.activeTab && r.activeTab[j] == p.activeTab[j]
    ensures forall j :: j != id && j in p.activeComponentIndex ==>
              j in r.activeComponentIndex && r.activeComponentIndex[j] == p.activeComponentIndex[j]
  {
    var tab := "component-" + NatToString(index);
    assert tab[..10] == "component-";
    p.(activeTab := p.activeTab[id := tab], activeComponentIndex := p.activeComponentIndex[id := index])
  }

  /** The history page: the fetched websites, the panels, and the website being deleted. */
  class HistoryPage {
    var websites: seq<Site>
    var panels: Panels
    var deleting: Option<string>

    predicate Valid()
      reads this
    {
      Consistent(panels)
    }

    constructor ()
      ensures Valid() && websites == [] && panels == NoPanels && deleting == None
    {
      websites := [];
      panels := NoPanels;
      deleting := None;
    }

    /** `fetchWebsites`: a failed fetch keeps the list. */
    method FetchWebsites(reply: Option<seq<Site>>)
      modifies this
      ensures reply.Some? ==> websites == reply.value
      ensures reply.None? ==> websites == old(websites)
      ensures panels == old(panels) && deleting == old(deleting)
    {
      if reply.Some? {
        websites := reply.value;
      }
    }

    /** `togglePreview`, copying the set and the records and editing the copies. */
    method TogglePreview(id: string)
      requires Valid()
      modifies this
      ensures Valid()
      ensures panels == Toggled(old(panels), id)
      ensures websites == old(websites) && deleting == old(deleting)
    {
      var expanded := panels.expanded;
      var viewMode := panels.viewMode;
      var activeTab := panels.activeTab;
      if id in expanded {
        expanded := expanded - {id};
        viewMode := viewMode - {id};
        activeTab := activeTab - {id};
      } else {
        expanded := expanded + {id};
        viewMode := viewMode[id := PreviewMode];
        activeTab := activeTab[id := "html"];
      }
      ToggledConsistent(panels, id);
      panels := panels.(expanded := expanded, viewMode := viewMode, activeTab := activeTab);
    }

    /**
     * `handleDelete`: nothing happens unless the user confirms; a delete the server
     * accepts removes the website and cleans up its panel; the busy mark is cleared
     * either way (the failure alert is not modelled).
     */
    method HandleDelete(id: string, confirmed: bool, serverDeleted: bool)
      requires Valid()
      modifies this
      ensures Valid()
      ensures !confirmed ==> websites == old(websites) && panels == old(panels) && deleting == old(deleting)
      ensures confirmed ==> deleting == None
      ensures confirmed && serverDeleted ==> websites == WithoutSite(old(websites), id) && panels == Deleted(old(panels), id)
      ensures confirmed && !serverDeleted ==> websites == old(websites) && panels == old(panels)
    {
      if !confirmed {
        return;
      }
      deleting := Some(id);
      if serverDeleted {
        websites := WithoutSite(websites, id);
        DeletedConsistent(panels, id);
        panels := Deleted(panels, id);
      }
      deleting := None;
    }

    /** The `Code` button of an expanded website. */
    method ShowCode(site: Site)
      requires Valid() && site.id in panels.expanded
      modifies this
      ensures Valid()
      ensures panels == CodeOpened(old(panels), site)
      ensures websites == old(websites) && deleting == old(deleting)
    {
      CodeOpenedConsistent(panels, site);
      panels := CodeOpened(panels, site);
    }

    /** The `Preview` button of an expanded website. */
    method ShowPreview(id: string)
      requires Valid() && id in panels.expanded
      modifies this
      ensures Valid()
      ensures panels == PreviewShown(old(panels), id)
      ensures websites == old(websites) && deleting == old(deleting)
    {
      panels := PreviewShown(panels, id);
    }

    /** A component tab of an expanded website. */
    method SelectComponent(id: string, index: nat)
      requires Valid() && id in panels.expanded
      modifies this
      ensures Valid()
      ensures panels == ComponentSelected(old(panels), id, index)
      ensures websites == old(websites) && deleting == old(deleting)
    {
      panels := ComponentSelected(panels, id, index);
    }
  }
}

=== FILE: index_page.dfy ===
/**
 * The `index.html` written for a generated project: the default page, and the rewrite
 * that points an older page's entry script at `src/main.jsx`.
 *
 * The rewrite as written replaces every `src/main.js`, including the one inside an
 * existing `src/main.jsx`, so a page that already loads `src/main.jsx` (the default page
 * among them) is made to load `src/main.jsxx`. The model keeps that behaviour as
 * `MainJsMatch` with a lemma exhibiting it, and uses `MainJsWordMatch`, which only
 * rewrites a reference that does not continue with an identifier character.
 */
module IndexPage {
  import opened Wrappers
  import opened Text
  import opened Rewrite

  // The default page, line by line (long lines in pieces).
  const Doctype := "<!DOCTYPE html>\n"
  const HtmlOpen := "<html lang=\"en\">\n<head>\n"
  const MetaCharset := "    <meta charset=\"UTF-8\">\n"
  const MetaViewport := "    <meta name=\"viewport\" "
  const ViewportWidth := "content=\"width=device-width, "
  const ViewportScale := "initial-scale=1.0\">\n"
  const MetaDescription := "    <meta name=\"description\" content=\""
  const IndexHead := Doctype + HtmlOpen + MetaCharset + MetaViewport + ViewportWidth + ViewportScale + MetaDescription
  const IndexTitle := " - Generated Website\">\n    <title>"
  const HeadClose := "</title>\n</head>\n<body>\n"
  const RootDiv := "    <div id=\"root\"></div>\n"
  const ScriptOpen := "    <script type=\"module\" src=\"/"
  const IndexBodyHead := HeadClose + RootDiv + ScriptOpen
  const IndexBodyTail := "\"></script>\n</body>\n</html>"

  /** `generateDefaultIndexHtml`: the page that mounts `#root` and loads `/src/main.jsx`. */
  function DefaultIndexHtml(websiteName: string): (r: string)
    ensures Contains(r, "src/main.jsx")
  {
    ContainsInfix(IndexHead + websiteName + IndexTitle + websiteName + IndexBodyHead, "src/main.jsx", IndexBodyTail);
    IndexHead + websiteName + IndexTitle + websiteName + IndexBodyHead + "src/main.jsx" + IndexBodyTail
  }

  /** `/src\/main\.js/g` replaced by `src/main.jsx`, as written. */
  function MainJsMatch(): Matcher {
    (s: string, p: nat) => if At(s, p, "src/main.js") then Some(Hit(p + 11, "src/main.jsx")) else None
  }

  /** `/src\/main\.js\b/g` replaced by `src/main.jsx`: only a reference that ends there. */
  function MainJsWordMatch(): Matcher {
    (s: string, p: nat) =>
      if At(s, p, "src/main.js") && (p + 11 == |s| || !IsWordChar(s[p + 11])) then Some(Hit(p + 11, "src/main.jsx"))
      else None
  }

  /**
   * The page written as `index.html`, as written: the configured page or the default,
   * rewritten. A configured page that never mentions `src/main.js` is written as it is.
   */
  function IndexHtmlAsWritten(indexHtml: string, websiteName: string): (r: string)
    ensures indexHtml != "" && !Contains(indexHtml, "src/main.js") ==> r == indexHtml
  {
    if indexHtml != "" && !Contains(indexHtml, "src/main.js") then
      MainJsMisses(indexHtml);
      ReplaceAll(indexHtml, MainJsMatch())
    else ReplaceAll(if indexHtml != "" then indexHtml else DefaultIndexHtml(websiteName), MainJsMatch())
  }

  /** The page written as `index.html` in this model: the same, with the corrected rewrite. */
  function IndexHtmlText(indexHtml: string, websiteName: string): (r: string)
    ensures indexHtml != "" && !Contains(indexHtml, "src/main.js") ==> r == indexHtml
  {
    if indexHtml != "" && !Contains(indexHtml, "src/main.js") then
      MainJsMisses(indexHtml);
      ReplaceAll(indexHtml, MainJsWordMatch())
    else ReplaceAll(if indexHtml != "" then indexHtml else DefaultIndexHtml(websiteName), MainJsWordMatch())
  }

  /** Neither rewrite matches a page that never mentions `src/main.js`. */
  lemma MainJsMisses(page: string)
    requires !Contains(page, "src/main.js")
    ensures !Matches(page, MainJsMatch()) && !Matches(page, MainJsWordMatch())
  {
    forall j | 0 <= j < |page|
      ensures !HitAt(page, MainJsMatch(), j) && !HitAt(page, MainJsWordMatch(), j)
    {
      NotContains(page, "src/main.js", j);
    }
  }

  /** In a text whose only `j` is the one of the entry reference, that reference is the only `src/main.js`. */
  lemma OnlyReference(pre: string, mid: string, post: string, j: nat)
    requires mid == "src/main.js" || mid == "src/main.jsx"
    requires 'j' !in pre && 'j' !in post
    requires At(pre + mid + post, j, "src/main.js")
    ensures j == |pre|
  {
    var s := pre + mid + post;
    assert s[j + 9] == s[j..j + 11][9] == 'j';
    if |pre| <= j + 9 < |pre| + |mid| {
      assert s[j + 9] == mid[j + 9 - |pre|];
    }
  }

  /** The default page has a single `j`: the one of its `src/main.jsx`. */
  lemma DefaultPageShape(websiteName: string)
    requires 'j' !in websiteName
    ensures var pre := IndexHead + websiteName + IndexTitle + websiteName + IndexBodyHead;
            && DefaultIndexHtml(websiteName) == pre + "src/main.jsx" + IndexBodyTail
            && 'j' !in pre && 'j' !in IndexBodyTail
  {
    HeadWithoutJ();
    BodyWithoutJ();
  }

  lemma HeadWithoutJ()
    ensures 'j' !in IndexHead
  {
    OpeningWithoutJ();
    MetaWithoutJ();
  }

  lemma OpeningWithoutJ()
    ensures 'j' !in Doctype && 'j' !in HtmlOpen && 'j' !in MetaCharset
  {
  }

  lemma MetaWithoutJ()
    ensures 'j' !in MetaViewport && 'j' !in ViewportWidth && 'j' !in ViewportScale && 'j' !in MetaDescription
  {
    assert 'j' !in MetaViewport;
    assert 'j' !in ViewportWidth;
  }

  lemma BodyWithoutJ()
    ensures 'j' !in IndexTitle && 'j' !in IndexBodyHead && 'j' !in IndexBodyTail
  {
    assert 'j' !in HeadClose && 'j' !in RootDiv;
    assert 'j' !in ScriptOpen;
  }

  /** As written, a page that already loads `src/main.jsx` is made to load `src/main.jsxx`. */
  lemma AsWrittenDoublesExtension(pre: string, post: string)
    requires 'j' !in pre && 'j' !in post
    ensures ReplaceAll(pre + "src/main.jsx" + post, MainJsMatch()) == pre + "src/main.jsxx" + post
  {
    var s := pre + "src/main.jsx" + post;
    var m := MainJsMatch();
    var p := |pre|;
    forall j | 0 <= j < |s| && j != p
      ensures !HitAt(s, m, j)
    {
      if At(s, j, "src/main.js") {
        OnlyReference(pre, "src/main.jsx", post, j);
      }
    }
    assert s[p..p + 11] == "src/main.js";
    ReplaceCopiesUpTo(s, m, 0, p);
    ReplaceAtHit(s, m, p);
    ReplaceNoHit(s, m, p + 11);
    assert s[..p] == pre;
    assert s[p + 11..] == "x" + post;
  }

  /** The default page, for a site name without `j`, ends up loading `src/main.jsxx` as written. */
  lemma DefaultPageBrokenAsWritten(websiteName: string)
    requires 'j' !in websiteName
    ensures Contains(IndexHtmlAsWritten("", websiteName), "src/main.jsxx")
  {
    DefaultPageShape(websiteName);
    var pre := IndexHead + websiteName + IndexTitle + websiteName + IndexBodyHead;
    AsWrittenDoublesExtension(pre, IndexBodyTail);
    ContainsInfix(pre, "src/main.jsxx", IndexBodyTail);
  }

  /** With the corrected rewrite, a page that already loads `src/main.jsx` is left alone. */
  lemma CorrectedKeepsJsx(pre: string, post: string)
    requires 'j' !in pre && 'j' !in post
    ensures ReplaceAll(pre + "src/main.jsx" + post, MainJsWordMatch()) == pre + "src/main.jsx" + post
  {
    var s := pre + "src/main.jsx" + post;
    var m := MainJsWordMatch();
    forall j | 0 <= j < |s|
      ensures !HitAt(s, m, j)
    {
      if At(s, j, "src/main.js") {
        OnlyReference(pre, "src/main.jsx", post, j);
        assert s[j + 11] == 'x';
      }
    }
    ReplaceNoHit(s, m, 0);
  }

  /** With the corrected rewrite, a page loading `src/main.js` is pointed at `src/main.jsx`. */
  lemma CorrectedRewritesJs(pre: string, post: string)
    requires 'j' !in pre && 'j' !in post
    requires post == [] || !IsWordChar(post[0])
    ensures ReplaceAll(pre + "src/main.js" + post, MainJsWordMatch()) == pre + "src/main.jsx" + post
  {
    var s := pre + "src/main.js" + post;
    var m := MainJsWordMatch();
    var p := |pre|;
    forall j | 0 <= j < |s| && j != p
      ensures !HitAt(s, m, j)
    {
      if At(s, j, "src/main.js") {
        OnlyReference(pre, "src/main.js", post, j);
      }
    }
    assert s[p..p + 11] == "src/main.js";
    assert p + 11 == |s| || s[p + 11] == post[0];
    ReplaceCopiesUpTo(s, m, 0, p);
    ReplaceAtHit(s, m, p);
    ReplaceNoHit(s, m, p + 11);
    assert s[..p] == pre;
    assert s[p + 11..] == post;
  }

  /** The default page is written as generated: it keeps loading `src/main.jsx`. */
  lemma DefaultPageKept(websiteName: string)
    requires 'j' !in websiteName
    ensures IndexHtmlText("", websiteName) == DefaultIndexHtml(websiteName)
  {
    DefaultPageShape(websiteName);
    var pre := IndexHead + websiteName + IndexTitle + websiteName + IndexBodyHead;
    CorrectedKeepsJsx(pre, IndexBodyTail);
  }
}

=== FILE: json.dfy ===
/**
 * JSON values as `JSON.parse` produces them, the outcome of a parse, and
 * `JSON.stringify(value, null, 2)`.
 *
 * `JSON.parse` itself is not modelled: every operation that parses takes the parser
 * as a parameter of type `Parser`, so what is proved holds for whatever it returns.
 */
module Json {
  import opened Wrappers
  import opened Text

  /**
   * A parsed value. Numbers are integers; an object's members are its own
   * properties in property order, keys distinct.
   */
  datatype Json =
    | JNull
    | JBool(b: bool)
    | JNumber(n: int)
    | JString(str: string)
    | JArray(items: seq<Json>)
    | JObject(members: seq<(string, Json)>)

  /** What `JSON.parse(text)` does: a value, or a thrown `SyntaxError` with its message. */
  datatype ParseOutcome = Parsed(value: Json) | SyntaxError(message: string)

  type Parser = string -> ParseOutcome

  /** `v && typeof v === 'object'`: an object or an array (never `null`). */
  predicate IsObjectLike(v: Json) {
    v.JObject? || v.JArray?
  }

  /** `parse(text)` succeeds with an object or an array. */
  predicate ParsesToObject(parse: Parser, text: string) {
    parse(text).Parsed? && IsObjectLike(parse(text).value)
  }

  /** JavaScript truthiness of a value. */
  predicate Truthy(v: Json) {
    match v
    case JNull => false
    case JBool(b) => b
    case JNumber(n) => n != 0
    case JString(s) => s != ""
    case _ => true
  }

  /** `v[key]` for an object (the last member with that key); `undefined` otherwise. */
  function Get(v: Json, key: string): (r: Option<Json>)
    ensures r.Some? ==> v.JObject? && exists k :: 0 <= k < |v.members| && v.members[k] == (key, r.value)
    ensures v.JObject? && (forall k :: 0 <= k < |v.members| ==> v.members[k].0 != key) ==> r.None?
  {
    if v.JObject? then Lookup(v.members, key) else None
  }

  function Lookup(members: seq<(string, Json)>, key: string): (r: Option<Json>)
    ensures r.Some? ==> exists k :: 0 <= k < |members| && members[k] == (key, r.value)
    ensures (forall k :: 0 <= k < |members| ==> members[k].0 != key) ==> r.None?
    decreases |members|
  {
    if |members| == 0 then None
    else
      var last := members[|members| - 1];
      if last.0 == key then Some(last.1)
      else
        var r := Lookup(members[..|members| - 1], key);
        if r.Some? then
          var k :| 0 <= k < |members| - 1 && members[..|members| - 1][k] == (key, r.value);
          assert members[k] == (key, r.value);
          r
        else r
  }

  /** A key that occurs once is found with its own value. */
  lemma {:induction false} LookupUnique(members: seq<(string, Json)>, key: string, k: nat)
    requires k < |members| && members[k].0 == key
    requires forall j :: 0 <= j < |members| && j != k ==> members[j].0 != key
    ensures Lookup(members, key) == Some(members[k].1)
    decreases |members|
  {
    if k != |members| - 1 {
      var init := members[..|members| - 1];
      assert forall j :: 0 <= j < |init| && j != k ==> init[j].0 != key;
      LookupUnique(init, key, k);
    }
  }

  /** A string member, with an absent or non-string member read as `""` (every reader tests it for truthiness). */
  /** `s` is how `v[key]` reads as a string: the member's text when it is a string, else `""`. */
  predicate ReadsAsString(v: Json, key: string, s: string) {
    && (s != "" ==> Get(v, key) == Some(JString(s)))
    && (Get(v, key).Some? && Get(v, key).value.JString? ==> s == Get(v, key).value.str)
  }

  function GetString(v: Json, key: string): (s: string)
    ensures s != "" ==> Get(v, key) == Some(JString(s))
    ensures ReadsAsString(v, key, s)
  {
    match Get(v, key)
    case Some(JString(s)) => s
    case _ => ""
  }

  /** An array member, with an absent or non-array member read as the empty sequence. */
  function GetArray(v: Json, key: string): (items: seq<Json>)
    ensures Get(v, key).Some? && Get(v, key).value.JArray? ==> items == Get(v, key).value.items
    ensures !(Get(v, key).Some? && Get(v, key).value.JArray?) ==> items == []
  {
    match Get(v, key)
    case Some(JArray(items)) => items
    case _ => []
  }

  /** The value with member `key` removed (object rest `{ key: _, ...rest }`). */
  function Without(members: seq<(string, Json)>, key: string): (r: seq<(string, Json)>)
    ensures forall k :: 0 <= k < |r| ==> r[k].0 != key && r[k] in members
    ensures forall k :: 0 <= k < |members| && members[k].0 != key ==> members[k] in r
    ensures |r| <= |members|
  {
    if |members| == 0 then []
    else
      var rest := Without(members[1..], key);
      assert forall k :: 1 <= k < |members| ==> members[k] == members[1..][k - 1];
      if members[0].0 == key then rest
      else [members[0]] + rest
  }

  /** The rest keeps the members' order: removing a key distributes over concatenation. */
  lemma {:induction false} WithoutConcat(a: seq<(string, Json)>, b: seq<(string, Json)>, key: string)
    ensures Without(a + b, key) == Without(a, key) + Without(b, key)
    decreases |a|
  {
    if |a| == 0 {
      assert a + b == b;
    } else {
      WithoutConcat(a[1..], b, key);
      assert (a + b)[0] == a[0] && (a + b)[1..] == a[1..] + b;
    }
  }

  // ---------------------------------------------------------------------------
  // JSON.stringify(value, null, 2)
  // ---------------------------------------------------------------------------

  function Hex(d: nat): char
    requires d < 16
  {
    if d < 10 then ('0' as int + d) as char else ('a' as int + d - 10) as char
  }

  /** The escape `JSON.stringify` writes for one character of a string. */
  function EscapeChar(c: char): (r: string)
    ensures |r| >= 1
    ensures r == [c] <==> c != '"' && c != '\\' && c >= ' '
    ensures forall k :: 0 <= k < |r| ==> r[k] >= ' '
  {
    if c == '"' then "\\\""
    else if c == '\\' then "\\\\"
    else if c == '\n' then "\\n"
    else if c == '\r' then "\\r"
    else if c == '\t' then "\\t"
    else if c == '\U{0008}' then "\\b"
    else if c == '\U{000C}' then "\\f"
    else if c < ' ' then "\\u00" + [Hex(c as int / 16), Hex(c as int % 16)]
    else [c]
  }

  function EscapeString(s: string): (r: string)
    ensures |r| >= |s|
    ensures forall k :: 0 <= k < |r| ==> r[k] >= ' '
  {
    if |s| == 0 then "" else EscapeChar(s[0]) + EscapeString(s[1..])
  }

  /** A JSON string literal. */
  function Quote(s: string): (r: string)
    ensures |r| >= 2 && r[0] == '"' && r[|r| - 1] == '"'
    ensures forall k :: 0 <= k < |r| ==> r[k] != '\n'
  {
    "\"" + EscapeString(s) + "\""
  }

  /** Text without any character that needs escaping is quoted verbatim. */
  lemma {:induction false} EscapePlain(s: string)
    requires forall k :: 0 <= k < |s| ==> s[k] != '"' && s[k] != '\\' && s[k] >= ' '
    ensures EscapeString(s) == s
  {
    if |s| > 0 {
      EscapePlain(s[1..]);
    }
  }

  function Spaces(n: nat): (r: string)
    ensures |r| == n && forall k :: 0 <= k < n ==> r[k] == ' '
  {
    if n == 0 then "" else " " + Spaces(n - 1)
  }

  /** `JSON.stringify(v, null, 2)` at nesting depth `depth`. */
  function Stringify(v: Json, depth: nat): (r: string)
    ensures |r| > 0
    ensures r[0] == '{' <==> v.JObject?
    ensures r[0] == '[' <==> v.JArray?
    ensures v.JString? ==> r[0] == '"'
    decreases v, 2
  {
    match v
    case JNull => "null"
    case JBool(b) => if b then "true" else "false"
    case JNumber(n) => if n < 0 then "-" + NatToString(-n) else NatToString(n)
    case JString(s) => Quote(s)
    case JArray(items) =>
      if |items| == 0 then "[]"
      else "[\n" + StringifyItems(v, items, depth + 1) + "\n" + Spaces(2 * depth) + "]"
    case JObject(members) =>
      if |members| == 0 then "{}"
      else "{\n" + StringifyMembers(v, members, depth + 1) + "\n" + Spaces(2 * depth) + "}"
  }

  function StringifyItems(parent: Json, items: seq<Json>, depth: nat): string
    requires forall k :: 0 <= k < |items| ==> items[k] < parent
    decreases parent, 1, |items|
  {
    if |items| == 0 then ""
    else
      var head := Spaces(2 * depth) + Stringify(items[0], depth);
      if |items| == 1 then head else head + ",\n" + StringifyItems(parent, items[1..], depth)
  }

  function StringifyMembers(parent: Json, members: seq<(string, Json)>, depth: nat): string
    requires forall k :: 0 <= k < |members| ==> members[k].1 < parent
    decreases parent, 1, |members|
  {
    if |members| == 0 then ""
    else
      var head := Spaces(2 * depth) + Quote(members[0].0) + ": " + Stringify(members[0].1, depth);
      if |members| == 1 then head else head + ",\n" + StringifyMembers(parent, members[1..], depth)
  }

  /** `JSON.stringify(v, null, 2)`. */
  function Pretty(v: Json): string {
    Stringify(v, 0)
  }
}

=== FILE: login.dfy ===
/**
 * The sign-in form (frontend/src/pages/Login.tsx): the six one-digit boxes of the
 * one-time code, pasting a code, resetting the code step, the payload of a login or a
 * sign-up, and what the form does with the server's reply.
 */
module Login {
  import opened Wrappers
  import opened Text

  /** `OTP_LENGTH`. */
  const OtpLength: nat := 6

  /** `/^\d?$/`: an empty value or one ASCII digit. */
  predicate IsBoxValue(v: string) {
    v == "" || (|v| == 1 && IsDigit(v[0]))
  }

  /** Six boxes, each empty or holding one digit. */
  predicate WellFormedBoxes(digits: seq<string>) {
    |digits| == OtpLength && forall k :: 0 <= k < |digits| ==> IsBoxValue(digits[k])
  }

  /** `Array(OTP_LENGTH).fill('')`. */
  function EmptyBoxes(): (r: seq<string>)
    ensures WellFormedBoxes(r)
    ensures forall k :: 0 <= k < |r| ==> r[k] == ""
  {
    seq(OtpLength, _ => "")
  }

  /** `otpDigits.join('')`. */
  function CombinedOtp(digits: seq<string>): string {
    Join(digits, "")
  }

  /** The length of the joined boxes is the number of filled boxes. */
  lemma {:induction false} CombinedLength(digits: seq<string>)
    requires forall k :: 0 <= k < |digits| ==> IsBoxValue(digits[k])
    ensures |CombinedOtp(digits)| <= |digits|
    ensures |CombinedOtp(digits)| == |digits| <==> forall k :: 0 <= k < |digits| ==> digits[k] != ""
  {
    if |digits| > 0 {
      var tail := digits[1..];
      CombinedLength(tail);
      assert |CombinedOtp(digits)| == |digits[0]| + |CombinedOtp(tail)| by {
        if |digits| == 1 {
          assert CombinedOtp(digits) == digits[0];
          assert CombinedOtp(tail) == "";
        }
      }
      if |CombinedOtp(digits)| == |digits| {
        forall k | 0 <= k < |digits|
          ensures digits[k] != ""
        {
          if k > 0 {
            assert tail[k - 1] == digits[k];
          }
        }
      }
      if forall k :: 0 <= k < |digits| ==> digits[k] != "" {
        assert forall k :: 0 <= k < |tail| ==> tail[k] == digits[k + 1];
      }
    }
  }

  /** The submit button of the code step: disabled while loading or unless the joined code has six characters. */
  predicate CanSubmitOtp(loading: bool, digits: seq<string>) {
    !loading && |CombinedOtp(digits)| == OtpLength
  }

  /** With well-formed boxes, the code can be submitted exactly when every box holds a digit. */
  lemma SubmitNeedsEveryBox(digits: seq<string>)
    requires WellFormedBoxes(digits)
    ensures CanSubmitOtp(false, digits) <==> forall k :: 0 <= k < OtpLength ==> digits[k] != ""
  {
    CombinedLength(digits);
  }

  /** `text.replace(/\D/g, '')`: the ASCII digits of the text, in order. */
  function DigitsOf(text: string): (r: string)
    ensures |r| <= |text|
    ensures forall k :: 0 <= k < |r| ==> IsDigit(r[k])
    ensures forall c :: IsDigit(c) ==> (c in r <==> c in text)
  {
    if |text| == 0 then ""
    else if IsDigit(text[0]) then [text[0]] + DigitsOf(text[1..])
    else DigitsOf(text[1..])
  }

  /** Non-digits are dropped character by character, so the digits keep their order. */
  lemma {:induction false} DigitsOfInOrder(a: string, b: string)
    ensures DigitsOf(a + b) == DigitsOf(a) + DigitsOf(b)
    ensures |a| == 1 ==> DigitsOf(a) == (if IsDigit(a[0]) then a else "")
  {
    if |a| > 0 {
      assert (a + b)[0] == a[0];
      assert (a + b)[1..] == a[1..] + b;
      DigitsOfInOrder(a[1..], b);
      if |a| == 1 {
        assert a[1..] == "";
        assert DigitsOf(a[1..]) == "";
      }
    } else {
      assert a + b == b;
    }
  }

  /** Text made of digits only is kept whole. */
  lemma {:induction false} DigitsOfDigits(text: string)
    requires forall k :: 0 <= k < |text| ==> IsDigit(text[k])
    ensures DigitsOf(text) == text
  {
    if |text| > 0 {
      DigitsOfDigits(text[1..]);
    }
  }

  /** The pasted code: at most the first six digits of the clipboard text. */
  function PastedCode(text: string): (r: string)
    ensures |r| <= OtpLength
    ensures forall k :: 0 <= k < |r| ==> IsDigit(r[k])
    ensures |r| == if |DigitsOf(text)| < OtpLength then |DigitsOf(text)| else OtpLength
    ensures forall k :: 0 <= k < |r| ==> r[k] == DigitsOf(text)[k]
  {
    var d := DigitsOf(text);
    if |d| <= OtpLength then d else d[..OtpLength]
  }

  /** The boxes after a paste: the pasted digits from the left, empty boxes after them. */
  function PastedBoxes(code: string): (r: seq<string>)
    requires |code| <= OtpLength && forall k :: 0 <= k < |code| ==> IsDigit(code[k])
    ensures WellFormedBoxes(r)
    ensures forall k :: 0 <= k < |code| ==> r[k] == [code[k]]
    ensures forall k :: |code| <= k < OtpLength ==> r[k] == ""
  {
    seq(OtpLength, k requires 0 <= k < OtpLength => if k < |code| then [code[k]] else "")
  }

  /** The joined boxes after a paste are the pasted code. */
  lemma PastedCombined(code: string)
    requires |code| <= OtpLength && forall k :: 0 <= k < |code| ==> IsDigit(code[k])
    ensures CombinedOtp(PastedBoxes(code)) == code
  {
    JoinChars(PastedBoxes(code), code, 0);
  }

  /** Joining one-character boxes followed by empty boxes gives their characters. */
  lemma {:induction false} JoinChars(boxes: seq<string>, code: string, i: nat)
    requires i <= |boxes| && |code| <= |boxes|
    requires forall k :: 0 <= k < |code| ==> boxes[k] == [code[k]]
    requires forall k :: |code| <= k < |boxes| ==> boxes[k] == ""
    ensures Join(boxes[i..], "") == if i < |code| then code[i..] else ""
    decreases |boxes| - i
  {
    if i < |boxes| {
      JoinChars(boxes, code, i + 1);
      assert boxes[i..][1..] == boxes[i + 1..];
      if i + 1 == |boxes| {
        assert boxes[i..] == [boxes[i]];
      }
      if i < |code| {
        assert code[i..] == [code[i]] + code[i + 1..];
      }
    }
  }

  /** A paste of six or more digits fills every box and enables the submit button. */
  lemma FullPasteSubmittable(text: string)
    requires |DigitsOf(text)| >= OtpLength
    ensures var code := PastedCode(text);
            |code| == OtpLength && CanSubmitOtp(false, PastedBoxes(code))
  {
    PastedCombined(PastedCode(text));
  }

  /** What the form sends. */
  datatype Payload =
    | LoginPayload(email: string, password: string)
    | SignupPayload(name: string, email: string, password: string)

  /** The login mode sends email and password only; the sign-up mode adds the name. */
  function PayloadFor(isLogin: bool, name: string, email: string, password: string): (r: Payload)
    ensures isLogin <==> r.LoginPayload?
    ensures r.email == email && r.password == password
    ensures !isLogin ==> r.name == name
  {
    if isLogin then LoginPayload(email, password) else SignupPayload(name, email, password)
  }

  /** The endpoint the payload goes to. */
  function Endpoint(isLogin: bool): (r: string)
    ensures isLogin ==> r == "/auth/login"
    ensures !isLogin ==> r == "/auth/signup"
  {
    if isLogin then "/auth/login" else "/auth/signup"
  }

  /** The fields of a reply the form reads; an absent string field is the empty string. */
  datatype AuthReply = AuthReply(
    accessToken: string,
    user: Option<string>,
    otpRequired: bool,
    email: Option<string>,
    otpSession: string,
    message: string,
    expiresAt: Option<string>)

  /** The request's outcome: a reply body (`null` when absent), or a failure with the server's message if any. */
  datatype CallResult = Replied(data: Option<AuthReply>) | CallFailed(serverMessage: string)

  /** What the form does next. */
  datatype Outcome =
    | Authenticated(user: string, token: string)
    | OtpStep(email: string, session: string, message: string, expiresAt: Option<string>)
    | ShowError(error: string)

  /**
   * The reply's branches: a token with a user signs in; otherwise a code request opens
   * the code step for the reply's email (or the typed one); anything else is an error.
   */
  function OutcomeOf(result: CallResult, formEmail: string): (r: Outcome)
    ensures result.CallFailed? ==> r == ShowError(Or(result.serverMessage, "An error occurred"))
    ensures result.Replied? && result.data.None? ==> r == ShowError("Unexpected response from server.")
    ensures result.Replied? && result.data.Some? ==>
              var d := result.data.value;
              && (d.accessToken != "" && d.user.Some? <==> r.Authenticated?)
              && (r.Authenticated? ==> r.user == d.user.value && r.token == d.accessToken)
              && (r.OtpStep? <==> !(d.accessToken != "" && d.user.Some?) && d.otpRequired)
              && (r.OtpStep? ==> r.session == d.otpSession && r.message == d.message && r.expiresAt == d.expiresAt)
              && (r.OtpStep? && d.email.Some? ==> r.email == d.email.value)
              && (r.OtpStep? && d.email.None? ==> r.email == formEmail)
              && (r.ShowError? ==> r.error == "Unexpected response from server.")
  {
    match result
    case CallFailed(m) => ShowError(Or(m, "An error occurred"))
    case Replied(None) => ShowError("Unexpected response from server.")
    case Replied(Some(d)) =>
      if d.accessToken != "" && d.user.Some? then Authenticated(d.user.value, d.accessToken)
      else if d.otpRequired then
        OtpStep(match d.email case Some(e) => e case None => formEmail, d.otpSession, d.message, d.expiresAt)
      else ShowError("Unexpected response from server.")
  }

  /** The form's state. */
  class LoginForm {
    var isLogin: bool
    var name: string
    var email: string
    var password: string
    var loading: bool
    var error: string
    var isOtpStep: bool
    var otpDigits: seq<string>
    var pendingEmail: string
    var otpSession: string
    var otpMessage: string
    var otpExpiresAt: Option<string>
    /** The signed-in user and token handed to the session store, once signed in. */
    var session: Option<(string, string)>

    predicate Valid()
      reads this
    {
      WellFormedBoxes(otpDigits)
    }

    constructor ()
      ensures Valid() && isLogin && !isOtpStep && !loading && error == "" && session == None
      ensures name == "" && email == "" && password == "" && otpDigits == EmptyBoxes()
    {
      isLogin := true;
      name, email, password := "", "", "";
      loading := false;
      error := "";
      isOtpStep := false;
      otpDigits := EmptyBoxes();
      pendingEmail, otpSession, otpMessage := "", "", "";
      otpExpiresAt := None;
      session := None;
    }

    /** `handleOtpBoxChange`: a value that is empty or one digit replaces that box only (focus moves are not modelled). */
    method OtpBoxChange(index: nat, value: string)
      requires Valid() && index < OtpLength
      modifies this
      ensures Valid()
      ensures IsBoxValue(value) ==> otpDigits == old(otpDigits)[index := value]
      ensures !IsBoxValue(value) ==> otpDigits == old(otpDigits)
      ensures isOtpStep == old(isOtpStep) && loading == old(loading) && error == old(error)
      ensures isLogin == old(isLogin) && name == old(name) && email == old(email) && password == old(password)
      ensures pendingEmail == old(pendingEmail) && otpSession == old(otpSession)
      ensures otpMessage == old(otpMessage) && otpExpiresAt == old(otpExpiresAt)
      ensures session == old(session)
    {
      if !IsBoxValue(value) {
        return;
      }
      var updated := otpDigits;
      updated := updated[index := value];
      otpDigits := updated;
    }

    /** `handleOtpPaste`: a paste holding digits fills the boxes; one without digits changes nothing. */
    method OtpPaste(text: string)
      requires Valid()
      modifies this
      ensures Valid()
      ensures PastedCode(text) == "" ==> otpDigits == old(otpDigits)
      ensures PastedCode(text) != "" ==> otpDigits == PastedBoxes(PastedCode(text))
      ensures isOtpStep == old(isOtpStep) && loading == old(loading) && error == old(error)
      ensures isLogin == old(isLogin) && name == old(name) && email == old(email) && password == old(password)
      ensures pendingEmail == old(pendingEmail) && otpSession == old(otpSession)
      ensures otpMessage == old(otpMessage) && otpExpiresAt == old(otpExpiresAt)
      ensures session == old(session)
    {
      var pasted := PastedCode(text);
      if pasted == "" {
        return;
      }
      otpDigits := PastedBoxes(pasted);
    }

    /** `resetOtpState`: back to the credentials step with empty boxes and no pending code. */
    method ResetOtpState()
      modifies this
      ensures Valid()
      ensures !isOtpStep && otpDigits == EmptyBoxes()
      ensures pendingEmail == "" && otpSession == "" && otpMessage == "" && otpExpiresAt == None
      ensures loading == old(loading) && error == old(error) && session == old(session)
      ensures isLogin == old(isLogin) && name == old(name) && email == old(email) && password == old(password)
    {
      isOtpStep := false;
      otpDigits := EmptyBoxes();
      pendingEmail := "";
      otpSession := "";
      otpMessage := "";
      otpExpiresAt := None;
    }

    /** The request `handleSubmit` sends. */
    function Request(): (r: (string, Payload))
      reads this
      ensures r.0 == Endpoint(isLogin) && r.1 == PayloadFor(isLogin, name, email, password)
    {
      (Endpoint(isLogin), PayloadFor(isLogin, name, email, password))
    }

    /**
     * `handleSubmit` once the request has `result`: signs in, or opens the code step with
     * empty boxes, or shows an error; loading is over either way (navigation is not modelled).
     */
    method Submit(result: CallResult)
      requires Valid()
      modifies this
      ensures Valid() && !loading
      ensures var o := OutcomeOf(result, old(email));
              && (o.Authenticated? ==> session == Some((o.user, o.token)) && error == "" && otpDigits == old(otpDigits)
                                       && isOtpStep == old(isOtpStep))
              && (o.OtpStep? ==> isOtpStep && otpDigits == EmptyBoxes() && error == "" && session == old(session)
                                 && pendingEmail == o.email && otpSession == o.session
                                 && otpMessage == o.message && otpExpiresAt == o.expiresAt)
              && (o.ShowError? ==> error == o.error && isOtpStep == old(isOtpStep)
                                   && otpDigits == old(otpDigits) && session == old(session))
      ensures isLogin == old(isLogin) && name == old(name) && email == old(email) && password == old(password)
      ensures !OutcomeOf(result, old(email)).OtpStep? ==>
                pendingEmail == old(pendingEmail) && otpSession == old(otpSession)
                && otpMessage == old(otpMessage) && otpExpiresAt == old(otpExpiresAt)
    {
      loading := true;
      error := "";
      var outcome := OutcomeOf(result, email);
      match outcome {
        case Authenticated(user, token) =>
          session := Some((user, token));
        case OtpStep(e, s, m, x) =>
          isOtpStep := true;
          pendingEmail := e;
          otpSession := s;
          otpMessage := m;
          otpExpiresAt := x;
          otpDigits := EmptyBoxes();
        case ShowError(message) =>
          error := message;
      }
      loading := false;
    }
  }
}

=== FILE: patterns.dfy ===
/**
 * Scanners for the JavaScript source patterns that both the generation service and the
 * preview rewrite: `export default …` forms and named declarations. Each returns where
 * the pattern, tried at one offset, ends (and what it captured); a greedy `\s+` or `\w+`
 * is a maximal run, since every pattern here continues with a character outside the run.
 */
module Patterns {
  import opened Wrappers
  import opened Text
  import opened Rewrite

  /** `kw\s+` at `p`: the offset after the whitespace. */
  function KeywordSpaces(s: string, p: nat, kw: string): (r: Option<nat>)
    ensures r.Some? ==> At(s, p, kw) && p + |kw| < r.value <= |s|
    ensures r.Some? <==> At(s, p, kw) && p + |kw| < |s| && IsSpace(s[p + |kw|])
    ensures r.Some? ==> SpaceRunTo(s, p + |kw|, r.value)
  {
    if At(s, p, kw) && p + |kw| < |s| && IsSpace(s[p + |kw|]) then Some(SkipSpaces(s, p + |kw| + 1)) else None
  }

  /** `\s*;?\s*` from `i`: the end of the greedy match. */
  function SemicolonSpaces(s: string, i: nat): (j: nat)
    requires i <= |s|
    ensures i <= j <= |s|
    ensures SpaceRunTo(s, i, j) || (SkipSpaces(s, i) < |s| && s[SkipSpaces(s, i)] == ';' && SpaceRunTo(s, SkipSpaces(s, i) + 1, j))
    ensures SpaceRunTo(s, i, j) ==> j == |s| || s[j] != ';'
  {
    var a := SkipSpaces(s, i);
    if a < |s| && s[a] == ';' then SkipSpaces(s, a + 1) else a
  }

  predicate IsQuote(c: char) {
    c == '\'' || c == '"'
  }

  /** First quote character at or after `i` (or `|s|`). */
  function FindQuote(s: string, i: nat): (j: nat)
    requires i <= |s|
    ensures i <= j <= |s|
    ensures forall k :: i <= k < j ==> !IsQuote(s[k])
    ensures j < |s| ==> IsQuote(s[j])
    decreases |s| - i
  {
    if i < |s| && !IsQuote(s[i]) then FindQuote(s, i + 1) else i
  }

  /** `export\s+default` at `p`: the offset after `default`. */
  function ExportDefault(s: string, p: nat): (r: Option<nat>)
    ensures r.Some? ==> At(s, p, "export") && p + 14 <= r.value <= |s|
    ensures r.Some? ==> SpaceRunTo(s, p + 6, r.value - 7) && At(s, r.value - 7, "default")
  {
    match KeywordSpaces(s, p, "export")
    case None => None
    case Some(a) => if At(s, a, "default") then Some(a + 7) else None
  }

  /** `export\s+default\s+` at `p`: the offset after the whitespace. */
  function ExportDefaultSpaces(s: string, p: nat): (r: Option<nat>)
    ensures r.Some? ==> At(s, p, "export") && p + 15 <= r.value <= |s|
    ensures r.Some? <==> (ExportDefault(s, p).Some? && ExportDefault(s, p).value < |s| && IsSpace(s[ExportDefault(s, p).value]))
    ensures r.Some? ==> SpaceRunTo(s, ExportDefault(s, p).value, r.value)
  {
    match ExportDefault(s, p)
    case None => None
    case Some(d) => if d < |s| && IsSpace(s[d]) then Some(SkipSpaces(s, d)) else None
  }

  /** A match that captured one identifier. */
  datatype Capture = Capture(end: nat, name: string)

  /**
   * `(\w+)\s*close` from `w`: the capture is the whole word run starting at `w`, and the
   * match ends just after `close`, with only whitespace between.
   */
  predicate NameThen(s: string, w: nat, c: Capture, close: char) {
    && 0 < |c.name| && w + |c.name| < c.end <= |s|
    && c.name == s[w..w + |c.name|]
    && WordRunTo(s, w, w + |c.name|)
    && SpacesIn(s, w + |c.name|, c.end - 1) && s[c.end - 1] == close
  }

  /** `(\w+)\s*close` at `w`, with its capture. */
  function NameThenAt(s: string, w: nat, close: char): (r: Option<Capture>)
    requires w <= |s|
    ensures r.Some? ==> w < r.value.end <= |s| && NameThen(s, w, r.value, close)
  {
    var e := SkipWord(s, w);
    var f := SkipSpaces(s, e);
    if e > w && f < |s| && s[f] == close then Some(Capture(f + 1, s[w..e])) else None
  }

  /** `NameThenAt` finds every `(\w+)\s*close` that is there, when `close` is not in `\s`. */
  lemma NameThenFound(s: string, w: nat, c: Capture, close: char)
    requires w <= |s| && !IsSpace(close) && NameThen(s, w, c, close)
    ensures NameThenAt(s, w, close) == Some(c)
  {
    SkipWordExact(s, w, w + |c.name|);
    SkipSpacesTo(s, w + |c.name|, c.end - 1);
  }

  /** `export\s+default\s+function\s+(\w+)\s*\(`. */
  function ExportDefaultFunction(s: string, p: nat): (r: Option<Capture>)
    ensures r.Some? ==> p < r.value.end <= |s| && |r.value.name| > 0
    ensures r.Some? ==> ExportDefaultSpaces(s, p).Some? && KeywordSpaces(s, ExportDefaultSpaces(s, p).value, "function").Some?
    ensures r.Some? ==> NameThen(s, KeywordSpaces(s, ExportDefaultSpaces(s, p).value, "function").value, r.value, '(')
  {
    match ExportDefaultSpaces(s, p)
    case None => None
    case Some(a) =>
      match KeywordSpaces(s, a, "function")
      case None => None
      case Some(w) => NameThenAt(s, w, '(')
  }

  /** `export\s+default\s+function\s*\(`: an anonymous default function. */
  function ExportDefaultAnonymous(s: string, p: nat): (r: Option<nat>)
    ensures r.Some? ==> p < r.value <= |s|
    ensures r.Some? ==> ExportDefaultSpaces(s, p).Some? && At(s, ExportDefaultSpaces(s, p).value, "function")
    ensures r.Some? ==> ExportDefaultSpaces(s, p).value + 8 < r.value && s[r.value - 1] == '('
    ensures r.Some? ==> SpacesIn(s, ExportDefaultSpaces(s, p).value + 8, r.value - 1)
  {
    match ExportDefaultSpaces(s, p)
    case None => None
    case Some(a) =>
      if !At(s, a, "function") then None
      else
        var f := SkipSpaces(s, a + 8);
        if f < |s| && s[f] == '(' then Some(f + 1) else None
  }

  /**
   * `t` can end a match of `\s*;?\s*$` (multiline) from `w`: only whitespace and at most
   * one `;` lie between, and `t` is the end of the text or stands before a line terminator.
   */
  predicate TailEnd(s: string, w: nat, t: nat) {
    && w <= t <= |s|
    && (forall k :: w <= k < t ==> IsSpace(s[k]) || s[k] == ';')
    && (forall k, l :: w <= k < l < t && s[k] == ';' ==> s[l] != ';')
    && (t == |s| || IsLineTerminator(s[t]))
  }

  /**
   * `\s*;?\s*$` with the multiline flag, from offset `w`: the end of the longest match,
   * which stops at the end of the text or before a line terminator.
   */
  function LineTail(s: string, w: nat): (r: Option<nat>)
    requires w <= |s|
    ensures r.Some? ==> w <= r.value <= |s|
    ensures r.Some? ==> r.value == |s| || IsLineTerminator(s[r.value])
  {
    var a := SkipSpaces(s, w);
    if a < |s| && s[a] == ';' then
      var b := SkipSpaces(s, a + 1);
      if b == |s| then Some(b)
      else
        match LastLineTerminator(s, a + 1, b)
        case Some(x) => Some(x)
        case None => LastLineTerminator(s, w, a)
    else if a == |s| then Some(a)
    else LastLineTerminator(s, w, a)
  }

  /**
   * Backtracking finds the longest tail: `LineTail` takes a possible end of the match, and
   * every possible end lies at or before it.
   */
  lemma LineTailLongest(s: string, w: nat)
    requires w <= |s|
    ensures LineTail(s, w).Some? ==> TailEnd(s, w, LineTail(s, w).value)
    ensures forall t: nat :: TailEnd(s, w, t) ==> LineTail(s, w).Some? && t <= LineTail(s, w).value
  {
    forall t: nat | TailEnd(s, w, t)
      ensures LineTail(s, w).Some? && t <= LineTail(s, w).value
    {
      LineTailCovers(s, w, t);
    }
  }

  lemma LineTailCovers(s: string, w: nat, t: nat)
    requires w <= |s| && TailEnd(s, w, t)
    ensures LineTail(s, w).Some? && t <= LineTail(s, w).value
  {
    var a := SkipSpaces(s, w);
    if a < |s| && s[a] == ';' {
      var b := SkipSpaces(s, a + 1);
      if b < |s| && t > a {
        assert IsLineTerminator(s[t]);
      }
    }
  }

  /** `export\s+default\s+(\w+)\s*;?\s*$` with the multiline flag: a default export of a name ending its line. */
  function ExportDefaultName(s: string, p: nat): (r: Option<Capture>)
    ensures r.Some? ==> p < r.value.end <= |s| && |r.value.name| > 0
    ensures r.Some? ==> forall k :: 0 <= k < |r.value.name| ==> IsWordChar(r.value.name[k])
    ensures r.Some? ==> ExportDefaultSpaces(s, p).Some?
    ensures r.Some? ==>
      var w := ExportDefaultSpaces(s, p).value;
      && WordRunTo(s, w, w + |r.value.name|) && r.value.name == s[w..w + |r.value.name|]
      && LineTail(s, w + |r.value.name|) == Some(r.value.end)
  {
    match ExportDefaultSpaces(s, p)
    case None => None
    case Some(w) =>
      var e := SkipWord(s, w);
      if e == w then None
      else
        match LineTail(s, e)
        case None => None
        case Some(t) =>
          var c := Capture(t, s[w..e]);
          assert |c.name| == e - w && WordRunTo(s, w, w + |c.name|);
          Some(c)
  }

  /** `\bkw\s+name\s*close`: a declaration of the identifier `name`, the offset after `close`. */
  function DeclarationAt(s: string, p: nat, kw: string, name: string, close: char): (r: Option<nat>)
    requires |kw| > 0 && IsWordChar(kw[0])
    ensures r.Some? ==> p < r.value <= |s| && At(s, p, kw)
    ensures r.Some? ==> (p == 0 || !IsWordChar(s[p - 1])) && KeywordSpaces(s, p, kw).Some?
    ensures r.Some? ==>
      var n := KeywordSpaces(s, p, kw).value;
      && At(s, n, name) && n + |name| < r.value
      && SpacesIn(s, n + |name|, r.value - 1) && s[r.value - 1] == close
  {
    if p > |s| || (p > 0 && IsWordChar(s[p - 1])) then None
    else
      match KeywordSpaces(s, p, kw)
      case None => None
      case Some(n) =>
        if !At(s, n, name) then None
        else
          var f := SkipSpaces(s, n + |name|);
          if f < |s| && s[f] == close then Some(f + 1) else None
  }

  /** The matcher replacing `\bkw\s+name\s*close` with `out`. */
  function DeclarationMatch(kw: string, name: string, close: char, out: string): Matcher
    requires |kw| > 0 && IsWordChar(kw[0])
  {
    (s: string, p: nat) =>
      match DeclarationAt(s, p, kw, name, close)
      case Some(e) => Some(Hit(e, out))
      case None => None
  }

  /** The matcher deleting every `export\s+default\s+`. */
  function ExportDefaultSpacesMatch(): Matcher {
    (s: string, p: nat) =>
      match ExportDefaultSpaces(s, p)
      case Some(e) => Some(Hit(e, ""))
      case None => None
  }

  /** The matcher deleting the first `export\s+default\s+\w+\s*;?\s*$` (multiline). */
  function ExportDefaultNameMatch(): Matcher {
    (s: string, p: nat) =>
      match ExportDefaultName(s, p)
      case Some(c) => Some(Hit(c.end, ""))
      case None => None
  }

  /** The first default export of a name ending its line, with its captured name. */
  function FirstExportDefaultName(s: string): (r: Option<string>)
    ensures r.Some? ==> |r.value| > 0 && forall k :: 0 <= k < |r.value| ==> IsWordChar(r.value[k])
    ensures r.None? <==> !Matches(s, ExportDefaultNameMatch())
  {
    match FirstHit(s, ExportDefaultNameMatch(), 0)
    case None => None
    case Some(p) => Some(ExportDefaultName(s, p).value.name)
  }

  /** The name found is the one captured at the first offset where the pattern matches. */
  lemma FirstExportDefaultNameIsFirst(s: string)
    ensures FirstExportDefaultName(s).Some? ==> exists p: nat ::
      && p < |s| && ExportDefaultName(s, p).Some?
      && FirstExportDefaultName(s).value == ExportDefaultName(s, p).value.name
      && forall j :: 0 <= j < p ==> ExportDefaultName(s, j).None?
  {
    var m := ExportDefaultNameMatch();
    match FirstHit(s, m, 0)
    case None =>
    case Some(p) =>
      forall j | 0 <= j < p
        ensures ExportDefaultName(s, j).None?
      {
        assert !HitAt(s, m, j);
      }
  }
}

=== FILE: placeholders.dfy ===
/**
 * Placeholder declarations `const NAME = [];`: a reply sometimes declares a component's
 * name as an empty array, which would shadow the component. Both the generation service
 * and the preview remove every `const\s+NAME\s*=\s*\[\]\s*;?\s*`, building the pattern
 * from the name without escaping it; the model matches the name as literal text.
 */
module Placeholders {
  import opened Wrappers
  import opened Text
  import opened Rewrite
  import opened Patterns
  import opened Sanitize

  /** `const\s+NAME\s*=\s*\[\]\s*;?\s*` at `p`, for a name without whitespace. */
  function PlaceholderAt(name: string, s: string, p: nat): (r: Option<nat>)
    ensures r.Some? ==> p < r.value <= |s| && At(s, p, "const")
    ensures r.Some? ==> KeywordSpaces(s, p, "const").Some? && At(s, KeywordSpaces(s, p, "const").value, name)
  {
    match KeywordSpaces(s, p, "const")
    case None => None
    case Some(n) =>
      if !At(s, n, name) then None
      else
        var f := SkipSpaces(s, n + |name|);
        if f == |s| || s[f] != '=' then None
        else
          var g := SkipSpaces(s, f + 1);
          if !At(s, g, "[]") then None
          else Some(SemicolonSpaces(s, g + 2))
  }

  /** A placeholder match is `const`, the name, `=`, `[]` and the `;?\s*` tail after them. */
  lemma PlaceholderShape(name: string, s: string, p: nat)
    requires PlaceholderAt(name, s, p).Some?
    ensures exists f: nat, g: nat ::
      (&& EmptyArrayInit(s, KeywordSpaces(s, p, "const").value, name, f, g)
       && PlaceholderAt(name, s, p).value == SemicolonSpaces(s, g + 2))
  {
    var n := KeywordSpaces(s, p, "const").value;
    var f := SkipSpaces(s, n + |name|);
    var g := SkipSpaces(s, f + 1);
    assert EmptyArrayInit(s, n, name, f, g);
  }

  /** `name\s*=\s*\[\]` from `n`, with the `=` at `f` and the `[` at `g`. */
  predicate EmptyArrayInit(s: string, n: nat, name: string, f: nat, g: nat) {
    && At(s, n, name) && At(s, g, "[]") && n + |name| <= f < g
    && SpacesIn(s, n + |name|, f) && s[f] == '=' && SpacesIn(s, f + 1, g)
  }

  function PlaceholderMatch(name: string): Matcher {
    (s: string, p: nat) =>
      match PlaceholderAt(name, s, p)
      case Some(e) => Some(Hit(e, ""))
      case None => None
  }

  /** A placeholder for `name` standing between two texts without `const` is removed, trailing whitespace included. */
  lemma PlaceholderRemoved(pre: string, name: string, post: string)
    requires IsIdentifier(name)
    requires 'c' !in pre && !Contains(post, "const")
    requires post == [] || !IsSpace(post[0])
    ensures ReplaceAll(pre + PlaceholderDecl(name) + post, PlaceholderMatch(name)) == pre + post
  {
    var s := pre + PlaceholderDecl(name) + post;
    DeclarationBetween(pre, name, post);
    DeclarationChars(s, |pre|, name);
    PlaceholderRemovedIn(s, name, pre, post);
  }

  /** The removal, for a text `s` that holds the declaration between `pre` and `post`. */
  lemma PlaceholderRemovedIn(s: string, name: string, pre: string, post: string)
    requires IsIdentifier(name) && 'c' !in pre && !Contains(post, "const")
    requires DeclShape(s, |pre|, name)
    requires |pre| + |name| + 13 == |s| || !IsSpace(s[|pre| + |name| + 13])
    requires s[..|pre|] == pre && s[|pre| + |name| + 13..] == post
    ensures ReplaceAll(s, PlaceholderMatch(name)) == pre + post
  {
    var p, e := |pre|, |pre| + |name| + 13;
    PlaceholderHit(s, p, name);
    NoHitBefore(s, pre, name);
    NoHitAfter(s, e, name);
    DeleteOnlyHit(s, PlaceholderMatch(name), pre, e, post);
  }

  /** The canonical declaration, followed by a non-space, is a hit that deletes it. */
  lemma PlaceholderHit(s: string, p: nat, name: string)
    requires IsIdentifier(name) && DeclShape(s, p, name)
    requires p + |name| + 13 == |s| || !IsSpace(s[p + |name| + 13])
    ensures HitAt(s, PlaceholderMatch(name), p)
    ensures PlaceholderMatch(name)(s, p) == Some(Hit(p + |name| + 13, ""))
  {
    ShapeRecognised(s, p, name);
  }

  /** No placeholder starts in a head of `s` without the letter `c`. */
  lemma NoHitBefore(s: string, pre: string, name: string)
    requires |pre| <= |s| && s[..|pre|] == pre && 'c' !in pre
    ensures forall j :: 0 <= j < |pre| ==> !HitAt(s, PlaceholderMatch(name), j)
  {
    forall j | 0 <= j < |pre|
      ensures !HitAt(s, PlaceholderMatch(name), j)
    {
      assert s[j] == pre[j];
      NoHitWithoutC(s, name, j);
    }
  }

  /** No placeholder starts in a tail of `s` that holds no `const`. */
  lemma NoHitAfter(s: string, e: nat, name: string)
    requires e <= |s| && !Contains(s[e..], "const")
    ensures forall j :: e <= j < |s| ==> !HitAt(s, PlaceholderMatch(name), j)
  {
    forall j | e <= j < |s|
      ensures !HitAt(s, PlaceholderMatch(name), j)
    {
      if At(s, j, "const") {
        assert s[j..j + 5] == s[e..][j - e..j - e + 5];
        ContainsAt(s[e..], "const", j - e);
      }
    }
  }

  /** Where the canonical declaration sits in `pre + d + post`. */
  lemma DeclarationBetween(pre: string, name: string, post: string)
    requires post == [] || !IsSpace(post[0])
    ensures var s := pre + PlaceholderDecl(name) + post;
            var p, e := |pre|, |pre| + |name| + 13;
            && |PlaceholderDecl(name)| == |name| + 13 && e <= |s|
            && At(s, p, PlaceholderDecl(name))
            && (e == |s| || !IsSpace(s[e]))
            && s[..p] == pre && s[e..] == post
  {
    var d := PlaceholderDecl(name);
    var s := pre + d + post;
    assert |d| == |name| + 13;
    assert s[|pre|..|pre| + |d|] == d;
    assert s[..|pre|] == pre;
    assert s[|pre| + |d|..] == post;
    if post != [] {
      assert s[|pre| + |d|] == post[0];
    }
  }

  lemma NoHitWithoutC(s: string, name: string, j: nat)
    requires j < |s| && s[j] != 'c'
    ensures !HitAt(s, PlaceholderMatch(name), j)
  {
  }

  lemma NoHitInSuffix(a: string, b: string, name: string, j: nat)
    requires |a| <= j && !Contains(b, "const")
    ensures !HitAt(a + b, PlaceholderMatch(name), j)
  {
    var s := a + b;
    if At(s, j, "const") {
      assert s[j..j + 5] == b[j - |a|..j - |a| + 5];
      ContainsAt(b, "const", j - |a|);
    }
  }

  /** The canonical placeholder declaration of `name`. */
  function PlaceholderDecl(name: string): string {
    "const " + name + " = [];\n"
  }

  /** A canonical declaration followed by a non-space is one whole placeholder match. */
  lemma PlaceholderRecognised(s: string, p: nat, name: string)
    requires IsIdentifier(name)
    requires At(s, p, PlaceholderDecl(name))
    requires p + |name| + 13 == |s| || !IsSpace(s[p + |name| + 13])
    ensures PlaceholderAt(name, s, p) == Some(p + |name| + 13)
  {
    DeclarationChars(s, p, name);
    ShapeRecognised(s, p, name);
  }

  /**
   * The characters of `const NAME = [];\n` at `p`, one by one: the shape every lemma about
   * a canonical declaration works from.
   */
  predicate DeclShape(s: string, p: nat, name: string) {
    var n := |name|;
    && p + n + 13 <= |s|
    && At(s, p, "const") && s[p + 5] == ' ' && At(s, p + 6, name)
    && s[p + 6 + n] == ' ' && s[p + 7 + n] == '=' && s[p + 8 + n] == ' '
    && At(s, p + 9 + n, "[]") && s[p + 9 + n] == '[' && s[p + 10 + n] == ']'
    && s[p + 11 + n] == ';' && s[p + 12 + n] == '\n'
  }

  lemma ShapeRecognised(s: string, p: nat, name: string)
    requires IsIdentifier(name) && DeclShape(s, p, name)
    requires p + |name| + 13 == |s| || !IsSpace(s[p + |name| + 13])
    ensures PlaceholderAt(name, s, p) == Some(p + |name| + 13)
  {
    var n := |name|;
    NameChar(s, p, name, 0);
    SkipNone(s, p + 6);
    assert KeywordSpaces(s, p, "const") == Some(p + 6);
    SkipOne(s, p + 6 + n);
    SkipOne(s, p + 8 + n);
    SkipNone(s, p + 11 + n);
    if p + n + 13 == |s| {
      assert SkipSpaces(s, p + 13 + n) == p + 13 + n;
    } else {
      SkipNone(s, p + 13 + n);
    }
    SkipOneMore(s, p + 12 + n);
    assert SemicolonSpaces(s, p + 11 + n) == p + 13 + n;
  }

  lemma SkipNone(s: string, i: nat)
    requires i < |s| && !IsSpace(s[i])
    ensures SkipSpaces(s, i) == i
  {
  }

  lemma SkipOne(s: string, i: nat)
    requires i + 1 < |s| && IsSpace(s[i]) && !IsSpace(s[i + 1])
    ensures SkipSpaces(s, i) == i + 1
  {
  }

  lemma SkipOneMore(s: string, i: nat)
    requires i < |s| && IsSpace(s[i]) && SkipSpaces(s, i + 1) == i + 1
    ensures SkipSpaces(s, i) == i + 1
  {
  }

  lemma SliceOfSlice(s: string, a: nat, b: nat, i: nat, j: nat)
    requires a <= b <= |s| && i <= j <= b - a
    ensures s[a..b][i..j] == s[a + i..a + j]
  {
    assert forall k :: 0 <= k < j - i ==> s[a..b][i..j][k] == s[a + i + k];
  }

  /** The characters of the canonical declaration itself. */
  lemma DeclText(name: string)
    ensures var d, n := PlaceholderDecl(name), |name|;
            && |d| == n + 13 && d[..5] == "const" && d[5] == ' ' && d[6..6 + n] == name
            && d[6 + n] == ' ' && d[7 + n] == '=' && d[8 + n] == ' ' && d[9 + n..11 + n] == "[]"
            && d[9 + n] == '[' && d[10 + n] == ']' && d[11 + n] == ';' && d[12 + n] == '\n'
  {
    var n := |name|;
    var head, tail := "const ", " = [];\n";
    var d := PlaceholderDecl(name);
    assert d == head + name + tail;
    assert forall k :: 0 <= k < 6 ==> d[k] == head[k];
    assert forall k :: 0 <= k < n ==> d[6 + k] == name[k];
    assert forall k :: 0 <= k < 7 ==> d[6 + n + k] == tail[k];
  }

  /** A canonical declaration at `p` has the declaration's shape there. */
  lemma DeclarationChars(s: string, p: nat, name: string)
    requires At(s, p, PlaceholderDecl(name))
    ensures DeclShape(s, p, name)
  {
    var n := |name|;
    var d := PlaceholderDecl(name);
    DeclText(name);
    assert s[p..p + n + 13] == d;
    forall k | 0 <= k < n + 13
      ensures s[p + k] == d[k]
    {
      assert s[p..p + n + 13][k] == s[p + k];
    }
    assert s[p..p + 5] == d[..5];
    assert s[p + 6..p + 6 + n] == d[6..6 + n];
    assert s[p + 9 + n..p + 11 + n] == d[9 + n..11 + n];
  }

  /**
   * The placeholder pattern of another identifier matches nowhere in a canonical
   * declaration standing between texts without `const`.
   */
  lemma OtherNameMisses(pre: string, name: string, post: string, other: string, j: nat)
    requires IsIdentifier(name) && IsIdentifier(other) && other != name
    requires 'c' !in pre && !Contains(post, "const")
    ensures !HitAt(pre + PlaceholderDecl(name) + post, PlaceholderMatch(other), j)
  {
    var d := PlaceholderDecl(name);
    var s := pre + d + post;
    var p := |pre|;
    var n := |name|;
    assert |d| == n + 13;
    assert s[p..p + n + 13] == d;
    if j < p {
      assert s[j] == pre[j];
      NoHitWithoutC(s, other, j);
    } else if j >= p + n + 13 {
      NoHitInSuffix(pre + d, post, other, j);
    } else if j == p {
      OtherNameAtDeclaration(s, p, name, other);
    } else {
      NoConstInsideDeclaration(s, p, name, other, j);
    }
  }

  /** At the declaration itself, the keyword is followed by a different name. */
  lemma OtherNameAtDeclaration(s: string, p: nat, name: string, other: string)
    requires IsIdentifier(name) && IsIdentifier(other) && other != name
    requires At(s, p, PlaceholderDecl(name))
    ensures PlaceholderAt(other, s, p).None?
  {
    DeclarationChars(s, p, name);
    OtherNameAtShape(s, p, name, other);
  }

  lemma OtherNameAtShape(s: string, p: nat, name: string, other: string)
    requires IsIdentifier(name) && IsIdentifier(other) && other != name
    requires DeclShape(s, p, name)
    ensures PlaceholderAt(other, s, p).None?
  {
    var n := |name|;
    var k := |other|;
    NameChar(s, p, name, 0);
    SkipNone(s, p + 6);
    assert KeywordSpaces(s, p, "const") == Some(p + 6);
    if k < n {
      NameChar(s, p, name, k);
      assert s[p + 6..p + 6 + k][k - 1] == s[p + 5 + k];
      SkipNone(s, p + 6 + k);
    } else if k == n {
      assert s[p + 6..p + 6 + n] == name;
    } else if p + 6 + k <= |s| {
      assert s[p + 6..p + 6 + k][n] == s[p + 6 + n] == ' ';
    }
  }

  /** Inside the declaration, no `const` followed by whitespace starts a placeholder of another name. */
  lemma NoConstInsideDeclaration(s: string, p: nat, name: string, other: string, j: nat)
    requires IsIdentifier(name) && IsIdentifier(other)
    requires At(s, p, PlaceholderDecl(name))
    requires p < j < p + |name| + 13
    ensures PlaceholderAt(other, s, j).None?
  {
    DeclarationChars(s, p, name);
    NoConstInsideShape(s, p, name, other, j);
  }

  lemma NoConstInsideShape(s: string, p: nat, name: string, other: string, j: nat)
    requires IsIdentifier(name) && IsIdentifier(other)
    requires DeclShape(s, p, name)
    requires p < j < p + |name| + 13
    ensures PlaceholderAt(other, s, j).None?
  {
    var n := |name|;
    ConstIsWord(s, j);
    if j < p + 6 {
      assert !IsWordChar(s[p + 5]);
    } else if j >= p + 6 + n {
      TailNotWord(s, p, name, j);
    } else if j + 4 >= p + 6 + n {
      TailNotWord(s, p, name, j + 4);
    } else if j + 5 < p + 6 + n {
      NameChar(s, p, name, j + 5 - p - 6);
    } else {
      assert j + 6 == p + 7 + n;
      SkipNone(s, p + 7 + n);
      if p + 7 + n + |other| <= |s| {
        assert s[p + 7 + n..p + 7 + n + |other|][0] == '=';
      }
    }
  }

  lemma ConstIsWord(s: string, j: nat)
    ensures At(s, j, "const") ==> forall i :: j <= i < j + 5 ==> IsWordChar(s[i])
  {
    if At(s, j, "const") {
      forall i | j <= i < j + 5
        ensures IsWordChar(s[i])
      {
        assert s[i] == s[j..j + 5][i - j];
      }
    }
  }

  lemma NameChar(s: string, p: nat, name: string, i: nat)
    requires IsIdentifier(name) && i < |name|
    requires DeclShape(s, p, name)
    ensures s[p + 6 + i] == name[i] && !IsSpace(s[p + 6 + i])
  {
    assert s[p + 6..p + 6 + |name|][i] == s[p + 6 + i];
  }

  /** After the name, the declaration holds no identifier character. */
  lemma TailNotWord(s: string, p: nat, name: string, i: nat)
    requires DeclShape(s, p, name)
    requires p + 6 + |name| <= i < p + |name| + 13
    ensures !IsWordChar(s[i])
  {
  }
}

=== FILE: preview.dfy ===
/**
 * `loadContent` of the preview frame (frontend/src/components/WebsitePreview.tsx): the
 * document written into the frame is built by one of three builders, chosen by the
 * components, and every imgur image address in it is then replaced by a placeholder
 * image sized by the text around it.
 */
module Preview {
  import opened Wrappers
  import opened Text
  import opened Rewrite
  import opened Project
  import opened Sanitize
  import opened PreviewSelect
  import opened PreviewComponent
  import opened PreviewEntry
  import opened PreviewReact
  import opened PreviewVanilla
  import opened PreviewLegacy

  /**
   * The document of the chosen builder, before the image addresses are replaced. A document
   * built from components carries the page title, and so does the shell around a fragment
   * of markup; the element a document's script mounts into is the element the document
   * declares: the React page's root, the vanilla page's `app`.
   */
  function PreviewDocument(components: seq<Component>, viteConfig: Option<ViteConfig>, html: string, css: string,
                           js: string, websiteName: string): (r: string)
    ensures |components| > 0 || !HasFullHtml(html) ==> Contains(r, TitleElement(Title(websiteName)))
    ensures PathOf(components) == ReactPath ==>
              var root := ReactRoot(ConfigOrEmpty(viteConfig), components);
              Contains(r, MountDiv(root)) && Contains(r, RootLookup(root))
    ensures PathOf(components) == VanillaPath ==> Contains(r, MountDiv("app")) && Contains(r, RootLookup("app"))
  {
    var cfg := ConfigOrEmpty(viteConfig);
    var path := PathOf(components);
    if path == ReactPath then ReactDocument(cfg, components, websiteName)
    else if path == VanillaPath then VanillaDocument(cfg, components, websiteName)
    else LegacyDocument(html, css, js, websiteName)
  }

  /**
   * `loadContent`: the content the frame receives. The React branch rewrites and wraps the
   * kept components and processes the entry module step by step, with the corrected
   * component selection, `App` splice and tag insertion of `PreviewSelect`, `PreviewEntry`
   * and `PreviewLegacy`.
   */
  method LoadContent(components: seq<Component>, viteConfig: Option<ViteConfig>, html: string, css: string,
                     js: string, websiteName: string) returns (content: string)
    ensures content == ReplacePreviewImageUrls(PreviewDocument(components, viteConfig, html, css, js, websiteName))
  {
    var path := PathOf(components);
    var cfg := ConfigOrEmpty(viteConfig);
    if path == ReactPath {
      var kept := Rewritten(components);
      var bodies := RewriteAll(kept);
      var defs := WrapComponents(bodies, NamesOf(kept));
      var mainJsx := EntryModule(cfg);
      var appCode, rootElement;
      if mainJsx != "" {
        appCode, rootElement := ProcessEntry(mainJsx, components);
      } else {
        appCode := DefaultAppScript(AppNames(components), "app");
        rootElement := "app";
      }
      var fallbacks := ReactFallbacks(defs + "\n\n" + appCode);
      content := ReactPage(Title(websiteName), cfg.styleCss, rootElement, fallbacks, defs, appCode);
    } else if path == VanillaPath {
      content := VanillaDocument(cfg, components, websiteName);
    } else if HasFullHtml(html) {
      content := html;
      if !Contains(html, "<style>") && css != "" {
        content := ReplaceText(content, "</head>", StyleElement(css) + "</head>");
      }
      if !Contains(html, "<script>") && js != "" {
        content := ReplaceText(content, "</body>", ScriptInsertion(js));
      }
    } else {
      content := LegacyShell(Title(websiteName), css, html, js);
    }
    content := ReplacePreviewImageUrls(content);
  }

  /** The first imgur address of a document becomes a placeholder sized by the text around it; the text before it is kept. */
  lemma FirstImgurReplaced(doc: string, i: nat, e: nat)
    requires ImgurUrlEnd(doc, i) == Some(e)
    requires forall j :: 0 <= j < i ==> ImgurUrlEnd(doc, j).None?
    ensures ReplacePreviewImageUrls(doc) == doc[..i] + PicsumUrl(PreviewImageSize(doc, i)) + ReplaceFrom(doc, PreviewImageMatch, e)
  {
    NoPreviewImageBefore(doc, i);
    PreviewImageAt(doc, i, e, PicsumUrl(PreviewImageSize(doc, i)));
    ReplaceFirstHit(doc, PreviewImageMatch, i, e, PicsumUrl(PreviewImageSize(doc, i)));
  }

  /** Where no imgur address starts before `i`, the image pattern does not match there. */
  lemma NoPreviewImageBefore(doc: string, i: nat)
    requires forall j :: 0 <= j < i ==> ImgurUrlEnd(doc, j).None?
    ensures forall j :: 0 <= j < i ==> !HitAt(doc, PreviewImageMatch, j)
  {
    forall j | 0 <= j < i
      ensures !HitAt(doc, PreviewImageMatch, j)
    {
      assert PreviewImageMatch(doc, j).None?;
    }
  }

  /** An imgur address at `i` is a match of the image pattern, replaced by the placeholder. */
  lemma PreviewImageAt(doc: string, i: nat, e: nat, out: string)
    requires ImgurUrlEnd(doc, i) == Some(e) && out == PicsumUrl(PreviewImageSize(doc, i))
    ensures PreviewImageMatch(doc, i) == Some(Hit(e, out)) && HitAt(doc, PreviewImageMatch, i)
  {
  }
}

=== FILE: preview_component.dfy ===
/**
 * How the React preview turns one component's source into a script fragment
 * (frontend/src/components/WebsitePreview.tsx, the `processedComponents` map and the
 * IIFE wrapping): `${…}` in JSX text is fixed, imports, directives and exports are
 * stripped, the declared name is renamed to the component's name, and every body is
 * wrapped in its own function scope that yields the component.
 */
module PreviewComponent {
  import opened Wrappers
  import opened Text
  import opened Rewrite
  import opened Project
  import opened Patterns
  import opened Sanitize
  import opened PreviewSelect

  // ---------------------------------------------------------------------------
  // Pattern pieces
  // ---------------------------------------------------------------------------

  /** `;?\s*` from `i`. */
  function OptSemicolonSpaces(s: string, i: nat): (j: nat)
    requires i <= |s|
    ensures i <= j <= |s|
    ensures i < |s| && s[i] == ';' ==> SpaceRunTo(s, i + 1, j)
    ensures !(i < |s| && s[i] == ';') ==> SpaceRunTo(s, i, j)
  {
    if i < |s| && s[i] == ';' then SkipSpaces(s, i + 1) else SkipSpaces(s, i)
  }

  /** `\s+from\s+` at `i`: the offset after the second whitespace run. */
  function FromKeyword(s: string, i: nat): (r: Option<nat>)
    ensures r.Some? ==> i < r.value <= |s|
    ensures r.Some? <==> i < |s| && IsSpace(s[i]) && KeywordSpaces(s, SkipSpaces(s, i), "from").Some?
    ensures r.Some? ==> At(s, SkipSpaces(s, i), "from") && SpaceRunTo(s, SkipSpaces(s, i) + 4, r.value)
  {
    if i < |s| && IsSpace(s[i]) then KeywordSpaces(s, SkipSpaces(s, i), "from") else None
  }

  /** `['"]module['"]` at `q`: the offset after the closing quote. */
  function QuotedName(s: string, q: nat, source: string): (r: Option<nat>)
    ensures r.Some? ==> q < r.value <= |s|
    ensures r.Some? <==> q + |source| + 2 <= |s| && IsQuote(s[q]) && At(s, q + 1, source) && IsQuote(s[q + 1 + |source|])
    ensures r.Some? ==> r.value == q + |source| + 2
  {
    if q < |s| && IsQuote(s[q]) && At(s, q + 1, source) && q + 1 + |source| < |s| && IsQuote(s[q + 1 + |source|])
    then Some(q + 2 + |source|)
    else None
  }

  /** `['"][^'"]+['"]` at `q`: the offset after the closing quote. */
  function QuotedAny(s: string, q: nat): (r: Option<nat>)
    ensures r.Some? ==> q < r.value <= |s|
    ensures r.Some? ==> q + 2 < r.value && IsQuote(s[q]) && IsQuote(s[r.value - 1])
    ensures r.Some? ==> forall k :: q < k < r.value - 1 ==> !IsQuote(s[k])
  {
    if q < |s| && IsQuote(s[q]) then
      var c := FindQuote(s, q + 1);
      if c > q + 1 && c < |s| then Some(c + 1) else None
    else None
  }

  /** `\{[^}]+\}` (or `\{[^}]*\}` when `empty` is allowed) at `i`: the offset after `}`. */
  function Braces(s: string, i: nat, empty: bool): (r: Option<nat>)
    ensures r.Some? ==> i < r.value <= |s| && s[i] == '{' && s[r.value - 1] == '}'
    ensures r.Some? ==> (empty || i + 2 < r.value) && forall k :: i < k < r.value - 1 ==> s[k] != '}'
  {
    if i < |s| && s[i] == '{' then
      var e := FindChar(s, i + 1, '}');
      if e < |s| && (empty || e > i + 1) then Some(e + 1) else None
    else None
  }

  /** `^` with the multiline flag. */
  predicate LineStart(s: string, p: nat) {
    p == 0 || (p <= |s| && IsLineTerminator(s[p - 1]))
  }

  function Deleting(at: (string, nat) -> Option<nat>): Matcher {
    (s: string, p: nat) =>
      match at(s, p)
      case Some(e) => Some(Hit(e, ""))
      case None => None
  }

  // ---------------------------------------------------------------------------
  // Imports
  // ---------------------------------------------------------------------------

  /** `(?:\s*,\s*\{[^}]*\})?` after `React` ending at `a`: where the optional named list ends. */
  function ReactListEnd(s: string, a: nat): (r: Option<nat>)
    requires a <= |s|
    ensures r.Some? ==> a <= r.value <= |s|
  {
    var c := SkipSpaces(s, a);
    if c < |s| && s[c] == ',' then Braces(s, SkipSpaces(s, c + 1), true) else Some(a)
  }

  /** `import\s+React(?:\s*,\s*\{[^}]*\})?\s+from\s+['"]react['"];?\s*`. */
  function ReactImportAt(s: string, p: nat): (r: Option<nat>)
    ensures r.Some? ==> p < r.value <= |s| && At(s, p, "import")
    ensures r.Some? ==> KeywordSpaces(s, p, "import").Some? && At(s, KeywordSpaces(s, p, "import").value, "React")
    ensures r.Some? ==> exists q: nat :: p < q && QuotedName(s, q, "react").Some? && r.value == OptSemicolonSpaces(s, q + 7)
  {
    match KeywordSpaces(s, p, "import")
    case None => None
    case Some(a) =>
      if !At(s, a, "React") then None
      else
        match ReactListEnd(s, a + 5)
        case None => None
        case Some(b) => ReactImportTail(s, p, b)
  }

  /** `\s+from\s+['"]react['"];?\s*` from `b`, for an import starting at `p`. */
  function ReactImportTail(s: string, p: nat, b: nat): (r: Option<nat>)
    requires p < b <= |s|
    ensures r.Some? ==> b < r.value <= |s|
    ensures r.Some? ==> exists q: nat :: p < q && QuotedName(s, q, "react").Some? && r.value == OptSemicolonSpaces(s, q + 7)
  {
    match FromKeyword(s, b)
    case None => None
    case Some(q) =>
      match QuotedName(s, q, "react")
      case None => None
      case Some(e) =>
        assert e == q + 7;
        Some(OptSemicolonSpaces(s, e))
  }

  /** `kw\s+\{[^}]+\}\s+from\s+['"]…['"];?\s*`, from `module` when given, else from any module. */
  function BracesFromAt(s: string, p: nat, kw: string, source: Option<string>): (r: Option<nat>)
    ensures r.Some? ==> p < r.value <= |s| && At(s, p, kw)
    ensures r.Some? ==> KeywordSpaces(s, p, kw).Some? && Braces(s, KeywordSpaces(s, p, kw).value, false).Some?
    ensures r.Some? ==> exists q: nat, e: nat ::
      && FromKeyword(s, Braces(s, KeywordSpaces(s, p, kw).value, false).value) == Some(q)
      && QuotedModule(s, q, source, e) && r.value == OptSemicolonSpaces(s, e)
  {
    match KeywordSpaces(s, p, kw)
    case None => None
    case Some(a) =>
      match Braces(s, a, false)
      case None => None
      case Some(b) =>
        match FromKeyword(s, b)
        case None => None
        case Some(q) =>
          var e := match source case Some(m) => QuotedName(s, q, m) case None => QuotedAny(s, q);
          match e
          case None => None
          case Some(e) =>
            assert QuotedModule(s, q, source, e);
            Some(OptSemicolonSpaces(s, e))
  }

  /** `['"]module['"]` when the module is given, else `['"][^'"]+['"]`, from `q` to `e`. */
  predicate QuotedModule(s: string, q: nat, source: Option<string>, e: nat) {
    match source
    case Some(m) => QuotedName(s, q, m) == Some(e)
    case None => QuotedAny(s, q) == Some(e)
  }

  /** `import\s+\{([^}]+)\}\s+from\s+['"]react['"];?\s*`. */
  function ReactNamedImportAt(s: string, p: nat): Option<nat> {
    BracesFromAt(s, p, "import", Some("react"))
  }

  /**
   * `import\s+[^;]+;?\s*`: through the first `;` (or the end), which must leave at least
   * one whitespace character after `import` and one more character before it.
   */
  function ImportStatementAt(s: string, p: nat): (r: Option<nat>)
    ensures r.Some? ==> p < r.value <= |s| && At(s, p, "import")
    ensures r.Some? <==> At(s, p, "import") && p + 6 < |s| && IsSpace(s[p + 6]) && FindChar(s, p + 6, ';') >= p + 8
    ensures r.Some? ==> r.value == OptSemicolonSpaces(s, FindChar(s, p + 6, ';'))
  {
    if At(s, p, "import") && p + 6 < |s| && IsSpace(s[p + 6]) then
      var e := FindChar(s, p + 6, ';');
      if e >= p + 8 then Some(OptSemicolonSpaces(s, e)) else None
    else None
  }

  /** The three import passes of a component, in order. */
  function ImportsStripped(code: string): string {
    var a := ReplaceAll(code, Deleting(ReactImportAt));
    var b := ReplaceAll(a, Deleting(ReactNamedImportAt));
    ReplaceAll(b, Deleting(ImportStatementAt))
  }

  // ---------------------------------------------------------------------------
  // Directives and hook destructuring (shared with the entry module)
  // ---------------------------------------------------------------------------

  /** `\s*['"]use\s+(?:client|server)['"]\s*;?\s*`, ignoring case. */
  function UseDirectiveAt(s: string, p: nat): (r: Option<nat>)
    ensures r.Some? ==> p < r.value <= |s|
    ensures r.Some? ==> p <= |s| && r == UseDirectiveFrom(s, SkipSpaces(s, p))
  {
    if p <= |s| then UseDirectiveFrom(s, SkipSpaces(s, p)) else None
  }

  /** The directive proper, from its opening quote at `a`. */
  function UseDirectiveFrom(s: string, a: nat): (r: Option<nat>)
    requires a <= |s|
    ensures r.Some? ==> a < r.value <= |s|
    ensures r.Some? ==>
      && a + 4 < |s| && IsQuote(s[a]) && AtNoCase(s, a + 1, "use") && IsSpace(s[a + 4])
      && var b := SkipSpaces(s, a + 4);
      && (AtNoCase(s, b, "client") || AtNoCase(s, b, "server")) && b + 6 < |s| && IsQuote(s[b + 6])
      && r.value == SemicolonSpaces(s, b + 7)
  {
    if a < |s| && IsQuote(s[a]) && AtNoCase(s, a + 1, "use") && a + 4 < |s| && IsSpace(s[a + 4]) then
      var b := SkipSpaces(s, a + 4);
      if (AtNoCase(s, b, "client") || AtNoCase(s, b, "server")) && b + 6 < |s| && IsQuote(s[b + 6])
      then Some(SemicolonSpaces(s, b + 7))
      else None
    else None
  }

  /** `}\s*=\s*React` at `q`: the offset after `React`. */
  function ReactAfterBrace(s: string, q: nat): (r: Option<nat>)
    ensures r.Some? ==> q < r.value <= |s|
    ensures r.Some? ==> q + 2 <= r.value - 5 && s[q] == '}' && At(s, r.value - 5, "React")
    ensures r.Some? ==> exists f: nat :: AssignedReact(s, q, f, r.value)
  {
    if q < |s| && s[q] == '}' then
      var f := SkipSpaces(s, q + 1);
      if f < |s| && s[f] == '=' then
        var g := SkipSpaces(s, f + 1);
        if At(s, g, "React") then
          assert AssignedReact(s, q, f, g + 5);
          Some(g + 5)
        else None
      else None
    else None
  }

  /** `\s*=\s*React` from `q + 1` to `e`, with the `=` at `f`. */
  predicate AssignedReact(s: string, q: nat, f: nat, e: nat) {
    && q < f && f + 6 <= e <= |s| && s[f] == '='
    && SpacesIn(s, q + 1, f) && SpacesIn(s, f + 1, e - 5) && At(s, e - 5, "React")
  }

  /** The lazy `[\s\S]*?`: the first `}` at or after `q` followed by `\s*=\s*React`. */
  function FirstReactBrace(s: string, q: nat): (r: Option<nat>)
    requires q <= |s|
    ensures r.Some? ==> q <= r.value && ReactAfterBrace(s, r.value).Some?
    ensures r.Some? ==> forall y :: q <= y < r.value ==> ReactAfterBrace(s, y).None?
    ensures r.None? ==> forall y :: q <= y < |s| ==> ReactAfterBrace(s, y).None?
    decreases |s| - q
  {
    if q == |s| then None
    else if ReactAfterBrace(s, q).Some? then Some(q)
    else FirstReactBrace(s, q + 1)
  }

  /** `\s*const\s*\{[\s\S]*?\}\s*=\s*React\s*;?\s*`. */
  function ReactDestructureAt(s: string, p: nat): (r: Option<nat>)
    ensures r.Some? ==> p < r.value <= |s|
    ensures r.Some? ==> p <= |s| && r == ReactDestructureFrom(s, SkipSpaces(s, p))
  {
    if p > |s| then None else ReactDestructureFrom(s, SkipSpaces(s, p))
  }

  /** The destructuring pattern from its `const`, at `a`. */
  function ReactDestructureFrom(s: string, a: nat): (r: Option<nat>)
    requires a <= |s|
    ensures r.Some? ==> a < r.value <= |s| && At(s, a, "const")
    ensures r.Some? ==> a + 5 <= |s| && r == ReactBraceFrom(s, SkipSpaces(s, a + 5))
  {
    if !At(s, a, "const") then None
    else ReactBraceFrom(s, SkipSpaces(s, a + 5))
  }

  /** The destructuring pattern from its `{`, at `b`. */
  function ReactBraceFrom(s: string, b: nat): (r: Option<nat>)
    requires b <= |s|
    ensures r.Some? ==> b < r.value <= |s| && s[b] == '{' && FirstReactBrace(s, b + 1).Some?
    ensures r.Some? ==> r.value == SemicolonSpaces(s, ReactAfterBrace(s, FirstReactBrace(s, b + 1).value).value)
  {
    if b < |s| && s[b] == '{' then
      match FirstReactBrace(s, b + 1)
      case None => None
      case Some(q) => Some(SemicolonSpaces(s, ReactAfterBrace(s, q).value))
    else None
  }

  /**
   * A match of `\s*const\s*\{[\s\S]*?\}\s*=\s*React\s*;?\s*` is `const` after the leading
   * whitespace, then, from the next non-space, the `{` pattern of `ReactBraceFrom`: everything
   * up to the first `}` that `=` and `React` follow, then the semicolon and whitespace after `React`.
   */
  lemma ReactDestructureShape(s: string, p: nat)
    requires ReactDestructureAt(s, p).Some?
    ensures p <= |s| && At(s, SkipSpaces(s, p), "const")
    ensures ReactDestructureAt(s, p) == ReactBraceFrom(s, SkipSpaces(s, SkipSpaces(s, p) + 5))
  {
    assert ReactDestructureAt(s, p) == ReactDestructureFrom(s, SkipSpaces(s, p));
  }

  /** A matcher replacing each match of `at` by a line break. */
  function ToLineBreak(at: (string, nat) -> Option<nat>): Matcher {
    (s: string, p: nat) =>
      match at(s, p)
      case Some(e) => Some(Hit(e, "\n"))
      case None => None
  }

  /** `'use client'`/`'use server'` directives and `const { … } = React;` lines become line breaks. */
  function DirectivesStripped(code: string): string {
    ReplaceAll(ReplaceAll(code, ToLineBreak(UseDirectiveAt)), ToLineBreak(ReactDestructureAt))
  }

  // ---------------------------------------------------------------------------
  // Exports
  // ---------------------------------------------------------------------------

  /** `export default function X(` becomes `function X(`. */
  function ExportedFunctionKept(): Matcher {
    (s: string, p: nat) =>
      match ExportDefaultFunction(s, p)
      case Some(c) => Some(Hit(c.end, "function " + c.name + "("))
      case None => None
  }

  /** `export default function (` becomes `function NAME(`. */
  function AnonymousNamed(name: string): Matcher {
    (s: string, p: nat) =>
      match ExportDefaultAnonymous(s, p)
      case Some(e) => Some(Hit(e, "function " + name + "("))
      case None => None
  }

  /** `export\s+default\s+const\s+(\w+)\s*=`: the offset after `=` and the name. */
  function ExportDefaultConst(s: string, p: nat): (r: Option<Capture>)
    ensures r.Some? ==> p < r.value.end <= |s|
    ensures r.Some? ==> ExportDefaultSpaces(s, p).Some? && KeywordSpaces(s, ExportDefaultSpaces(s, p).value, "const").Some?
    ensures r.Some? ==> NameThen(s, KeywordSpaces(s, ExportDefaultSpaces(s, p).value, "const").value, r.value, '=')
  {
    match ExportDefaultSpaces(s, p)
    case None => None
    case Some(a) =>
      match KeywordSpaces(s, a, "const")
      case None => None
      case Some(w) => NameThenAt(s, w, '=')
  }

  /** `export default const X =` becomes `const X =`. */
  function ExportedConstKept(): Matcher {
    (s: string, p: nat) =>
      match ExportDefaultConst(s, p)
      case Some(c) => Some(Hit(c.end, "const " + c.name + " ="))
      case None => None
  }

  /** `^\s*export\s+default\s*;?\s*$` with the multiline flag. */
  function BareExportDefaultLineAt(s: string, p: nat): (r: Option<nat>)
    ensures r.Some? ==> p < r.value <= |s|
    ensures r.Some? ==> LineStart(s, p) && ExportDefault(s, SkipSpaces(s, p)).Some?
    ensures r.Some? ==> LineTail(s, ExportDefault(s, SkipSpaces(s, p)).value) == r
  {
    if !LineStart(s, p) || p > |s| then None
    else
      match ExportDefault(s, SkipSpaces(s, p))
      case None => None
      case Some(d) => LineTail(s, d)
  }

  /** `^\s*export\s+` with the multiline flag. */
  function LineExportAt(s: string, p: nat): (r: Option<nat>)
    ensures r.Some? ==> p < r.value <= |s|
    ensures r.Some? <==> p <= |s| && LineStart(s, p) && KeywordSpaces(s, SkipSpaces(s, p), "export").Some?
    ensures r.Some? ==> SpaceRunTo(s, SkipSpaces(s, p) + 6, r.value)
  {
    if !LineStart(s, p) || p > |s| then None else KeywordSpaces(s, SkipSpaces(s, p), "export")
  }

  /**
   * The export passes, in order. The anonymous default function is named only when the
   * text does not already contain `function NAME`.
   */
  function ExportsStripped(code: string, name: string): string {
    var a := ReplaceAll(code, ExportedFunctionKept());
    var b := if !Contains(a, "function " + name) then ReplaceAll(a, AnonymousNamed(name)) else a;
    var c := ReplaceAll(b, ExportDefaultNameMatch());
    var d := ReplaceAll(c, ExportedConstKept());
    var e := ReplaceAll(d, ExportDefaultSpacesMatch());
    var f := ReplaceAll(e, Deleting(ExportDefault));
    var g := ReplaceAll(f, Deleting(BareExportDefaultLineAt));
    ReplaceAll(g, Deleting(LineExportAt))
  }

  // ---------------------------------------------------------------------------
  // Renaming the declared component
  // ---------------------------------------------------------------------------

  /** `function\s+(\w+)\s*\(` at `p`. */
  function FunctionDeclAt(s: string, p: nat): (r: Option<Capture>)
    ensures r.Some? ==> p < r.value.end <= |s| && At(s, p, "function") && |r.value.name| > 0
    ensures r.Some? ==> KeywordSpaces(s, p, "function").Some? && NameThen(s, KeywordSpaces(s, p, "function").value, r.value, '(')
  {
    match KeywordSpaces(s, p, "function")
    case None => None
    case Some(w) => NameThenAt(s, w, '(')
  }

  /** `const\s+(\w+)\s*=` at `p`. */
  function ConstDeclAt(s: string, p: nat): (r: Option<Capture>)
    ensures r.Some? ==> p < r.value.end <= |s| && |r.value.name| > 0
    ensures r.Some? ==> KeywordSpaces(s, p, "const").Some? && NameThen(s, KeywordSpaces(s, p, "const").value, r.value, '=')
  {
    match KeywordSpaces(s, p, "const")
    case None => None
    case Some(w) => NameThenAt(s, w, '=')
  }

  function FunctionDeclMatch(): Matcher {
    (s: string, p: nat) =>
      match FunctionDeclAt(s, p)
      case Some(c) => Some(Hit(c.end, c.name))
      case None => None
  }

  function ConstDeclMatch(): Matcher {
    (s: string, p: nat) =>
      match ConstDeclAt(s, p)
      case Some(c) => Some(Hit(c.end, c.name))
      case None => None
  }

  /** `fnDecl?.[1] ?? constDecl?.[1]`: the first declared function, else the first declared constant. */
  function DeclaredName(code: string): (r: Option<string>)
    ensures r.Some? ==> |r.value| > 0
    ensures Matches(code, FunctionDeclMatch()) ==> r.Some?
  {
    match FirstHit(code, FunctionDeclMatch(), 0)
    case Some(p) => Some(FunctionDeclAt(code, p).value.name)
    case None =>
      match FirstHit(code, ConstDeclMatch(), 0)
      case Some(p) => Some(ConstDeclAt(code, p).value.name)
      case None => None
  }

  /**
   * The name is captured by the first `function X(` declaration; only when there is none,
   * by the first `const X =` declaration; and there is none when neither occurs.
   */
  lemma DeclaredNameIsFirst(code: string)
    ensures Matches(code, FunctionDeclMatch()) ==> exists p: nat ::
      && p < |code| && FunctionDeclAt(code, p).Some? && DeclaredName(code) == Some(FunctionDeclAt(code, p).value.name)
      && forall j :: 0 <= j < p ==> FunctionDeclAt(code, j).None?
    ensures !Matches(code, FunctionDeclMatch()) && Matches(code, ConstDeclMatch()) ==> exists p: nat ::
      && p < |code| && ConstDeclAt(code, p).Some? && DeclaredName(code) == Some(ConstDeclAt(code, p).value.name)
      && forall j :: 0 <= j < p ==> ConstDeclAt(code, j).None?
    ensures !Matches(code, FunctionDeclMatch()) && !Matches(code, ConstDeclMatch()) ==> DeclaredName(code).None?
  {
    match FirstHit(code, FunctionDeclMatch(), 0)
    case Some(p) =>
      forall j | 0 <= j < p
        ensures FunctionDeclAt(code, j).None?
      {
        assert !HitAt(code, FunctionDeclMatch(), j);
      }
    case None =>
      match FirstHit(code, ConstDeclMatch(), 0)
      case Some(p) =>
        forall j | 0 <= j < p
          ensures ConstDeclAt(code, j).None?
        {
          assert !HitAt(code, ConstDeclMatch(), j);
        }
      case None =>
  }

  /** `\bfunction\s+FROM\s*\(` becomes `function NAME(`. */
  function FunctionsRenamed(code: string, from: string, name: string): string {
    ReplaceAll(code, DeclarationMatch("function", from, '(', "function " + name + "("))
  }

  /** `\bconst\s+FROM\s*=` becomes `const NAME=`. */
  function ConstsRenamed(code: string, from: string, name: string): string {
    ReplaceAll(code, DeclarationMatch("const", from, '=', "const " + name + "="))
  }

  /** The declared name, when it differs from the component's name, is renamed to it. */
  function Renamed(code: string, name: string): string {
    match DeclaredName(code)
    case Some(x) => if x != name then ConstsRenamed(FunctionsRenamed(code, x, name), x, name) else code
    case None => code
  }

  /** A `\bfunction\s+X\s*\(` declaration of an identifier is a `function\s+(\w+)\s*\(` match capturing `X`. */
  lemma DeclarationIsFunctionDecl(s: string, j: nat, x: string)
    requires IsIdentifier(x)
    requires DeclarationAt(s, j, "function", x, '(').Some?
    ensures FunctionDeclAt(s, j).Some? && FunctionDeclAt(s, j).value.name == x
  {
    var n := KeywordSpaces(s, j, "function").value;
    assert s[n..n + |x|] == x;
    forall k | n <= k < n + |x|
      ensures IsWordChar(s[k])
    {
      assert s[k] == x[k - n];
    }
    var f := SkipSpaces(s, n + |x|);
    assert n + |x| < |s|;
    assert IsSpace(s[n + |x|]) || n + |x| == f;
    SkipWordExact(s, n, n + |x|);
  }

  /**
   * When the first `function X(` stands at a word boundary and `X` is not the component's
   * name, the function pass renames that very declaration: everything before it is kept
   * and it now reads `function NAME(`.
   */
  lemma FirstFunctionRenamed(code: string, name: string, p: nat)
    requires FirstHit(code, FunctionDeclMatch(), 0) == Some(p)
    requires p == 0 || !IsWordChar(code[p - 1])
    ensures var x := FunctionDeclAt(code, p).value.name;
            StartsWith(FunctionsRenamed(code, x, name), code[..p] + "function " + name + "(")
  {
    var c := FunctionDeclAt(code, p).value;
    var x := c.name;
    var m := DeclarationMatch("function", x, '(', "function " + name + "(");
    var out := "function " + name + "(";
    NoRenameBefore(code, name, p);
    RenameAtFirst(code, name, p);
    ReplaceFirstHitPrefix(code, m, p, c.end, out);
    HeadJoined(FunctionsRenamed(code, x, name), code[..p], name);
  }

  lemma HeadJoined(r: string, pre: string, name: string)
    requires |pre + ("function " + name + "(")| <= |r|
    requires r[..|pre| + |"function " + name + "("|] == pre + ("function " + name + "(")
    ensures StartsWith(r, pre + "function " + name + "(")
  {
    assert pre + ("function " + name + "(") == pre + "function " + name + "(";
  }

  /** Before the first `function X(`, the rename of `X` finds nothing. */
  lemma NoRenameBefore(code: string, name: string, p: nat)
    requires FirstHit(code, FunctionDeclMatch(), 0) == Some(p)
    ensures var x := FunctionDeclAt(code, p).value.name;
            forall j :: 0 <= j < p ==> !HitAt(code, DeclarationMatch("function", x, '(', "function " + name + "("), j)
  {
    var x := FunctionDeclAt(code, p).value.name;
    var m := DeclarationMatch("function", x, '(', "function " + name + "(");
    assert IsIdentifier(x) by {
      var w := KeywordSpaces(code, p, "function").value;
      var e := SkipWord(code, w);
      assert x == code[w..e];
    }
    forall j | 0 <= j < p
      ensures !HitAt(code, m, j)
    {
      if DeclarationAt(code, j, "function", x, '(').Some? {
        DeclarationIsFunctionDecl(code, j, x);
        assert HitAt(code, FunctionDeclMatch(), j);
      }
    }
  }

  /** At a word boundary, the first `function X(` is itself a match of the rename of `X`. */
  lemma RenameAtFirst(code: string, name: string, p: nat)
    requires FunctionDeclAt(code, p).Some?
    requires p == 0 || !IsWordChar(code[p - 1])
    ensures var c := FunctionDeclAt(code, p).value;
            DeclarationAt(code, p, "function", c.name, '(') == Some(c.end)
  {
    var c := FunctionDeclAt(code, p).value;
    var w := KeywordSpaces(code, p, "function").value;
    assert code[w..w + |c.name|] == c.name;
  }

  /** Code whose declared name already is the component's name is not renamed. */
  lemma NamedComponentKept(code: string, name: string)
    requires DeclaredName(code) == Some(name)
    ensures Renamed(code, name) == code
  {
  }

  // ---------------------------------------------------------------------------
  // One component, step by step
  // ---------------------------------------------------------------------------

  /** The text the React preview keeps for one component. */
  function RewrittenCode(c: Component): string {
    var name := RemoveSpaces(c.name);
    Renamed(ExportsStripped(DirectivesStripped(ImportsStripped(SanitizeJsxDollarInterpolation(c.code))), name), name)
  }

  /** The body of the `processedComponents` map: each pass reassigns `code`. */
  method RewriteComponent(c: Component) returns (code: string)
    ensures code == RewrittenCode(c)
  {
    code := SanitizeJsxDollarInterpolation(c.code);
    code := ReplaceAll(code, Deleting(ReactImportAt));
    code := ReplaceAll(code, Deleting(ReactNamedImportAt));
    code := ReplaceAll(code, Deleting(ImportStatementAt));
    code := ReplaceAll(code, ToLineBreak(UseDirectiveAt));
    code := ReplaceAll(code, ToLineBreak(ReactDestructureAt));
    var stripped := code;
    code := ReplaceAll(code, ExportedFunctionKept());
    var componentName := RemoveSpaces(c.name);
    if !Contains(code, "function " + componentName) {
      code := ReplaceAll(code, AnonymousNamed(componentName));
    }
    code := ReplaceAll(code, ExportDefaultNameMatch());
    code := ReplaceAll(code, ExportedConstKept());
    code := ReplaceAll(code, ExportDefaultSpacesMatch());
    code := ReplaceAll(code, Deleting(ExportDefault));
    code := ReplaceAll(code, Deleting(BareExportDefaultLineAt));
    code := ReplaceAll(code, Deleting(LineExportAt));
    assert code == ExportsStripped(stripped, componentName);
    var actualName := DeclaredName(code);
    if actualName.Some? && actualName.value != componentName {
      code := FunctionsRenamed(code, actualName.value, componentName);
      code := ConstsRenamed(code, actualName.value, componentName);
    }
  }

  // ---------------------------------------------------------------------------
  // Wrapping every body in its own scope
  // ---------------------------------------------------------------------------

  const IifeOpen := " = (function() {\n"
  const IifeReturn := "\nreturn typeof "
  const IifeDefined := " !== 'undefined' ? "
  const IifeFallback := " : (function "
  const IifeClose := "() { return null; });\n})();"

  /** `const Name = (function() { body; return typeof Name !== 'undefined' ? Name : (function Name() { return null; }); })();`. */
  function Iife(name: string, body: string): string {
    "const " + name + IifeOpen + body + IifeReturn + name + IifeDefined + name + IifeFallback + name + IifeClose
  }

  /** `reactComponentNames[i] || 'Component' + i`. */
  function WrapperName(names: seq<string>, i: nat): (r: string)
    ensures r != ""
    ensures i < |names| && names[i] != "" ==> r == names[i]
  {
    if i < |names| && names[i] != "" then names[i] else "Component" + NatToString(i)
  }

  /** The wrapped definition of every body, in order. */
  function Definitions(bodies: seq<string>, names: seq<string>): (r: seq<string>)
    ensures |r| == |bodies|
    ensures forall i :: 0 <= i < |bodies| ==> r[i] == Iife(WrapperName(names, i), bodies[i])
  {
    seq(|bodies|, i requires 0 <= i < |bodies| => Iife(WrapperName(names, i), bodies[i]))
  }

  /** `processedComponents.map((code, i) => …).join('\n\n')`. */
  method WrapComponents(bodies: seq<string>, names: seq<string>) returns (defs: string)
    ensures defs == Join(Definitions(bodies, names), "\n\n")
  {
    var parts: seq<string> := [];
    var i := 0;
    while i < |bodies|
      invariant 0 <= i <= |bodies|
      invariant parts == Definitions(bodies[..i], names)
    {
      parts := parts + [Iife(WrapperName(names, i), bodies[i])];
      i := i + 1;
    }
    assert bodies[..i] == bodies;
    defs := Join(parts, "\n\n");
  }

  /** `RewriteAll` as a value, for the document specification. */
  function RewrittenBodies(cs: seq<Component>): (r: seq<string>)
    ensures |r| == |cs|
    ensures forall i :: 0 <= i < |cs| ==> r[i] == RewrittenCode(cs[i])
  {
    MapCode(cs, RewrittenCode)
  }

  /** `cs.map(f)`. */
  function MapCode(cs: seq<Component>, f: Component -> string): (r: seq<string>)
    ensures |r| == |cs|
    ensures forall i :: 0 <= i < |cs| ==> r[i] == f(cs[i])
  {
    if |cs| == 0 then [] else MapCode(cs[..|cs| - 1], f) + [f(cs[|cs| - 1])]
  }

  /** The rewritten body of every component the React preview keeps, in order. */
  method RewriteAll(cs: seq<Component>) returns (bodies: seq<string>)
    ensures bodies == RewrittenBodies(cs)
  {
    bodies := [];
    var i := 0;
    while i < |cs|
      invariant 0 <= i <= |cs|
      invariant bodies == RewrittenBodies(cs[..i])
    {
      var code := RewriteComponent(cs[i]);
      assert cs[..i + 1][..i] == cs[..i];
      assert RewrittenBodies(cs[..i + 1]) == RewrittenBodies(cs[..i]) + [code];
      bodies := bodies + [code];
      i := i + 1;
    }
    assert cs[..i] == cs;
  }

  /** The `componentDefinitions` of the React document. */
  function ComponentDefinitions(cs: seq<Component>): string {
    var kept := Rewritten(cs);
    Join(Definitions(RewrittenBodies(kept), NamesOf(kept)), "\n\n")
  }

  /**
   * Body and name come from the same filtered list, so the `k`-th definition wraps the
   * `k`-th kept component's rewritten code under that component's own name.
   */
  lemma DefinitionOfEachComponent(cs: seq<Component>, k: nat)
    requires k < |Rewritten(cs)|
    requires RemoveSpaces(Rewritten(cs)[k].name) != ""
    ensures var kept := Rewritten(cs);
            Definitions(RewrittenBodies(kept), NamesOf(kept))[k]
            == Iife(RemoveSpaces(kept[k].name), RewrittenCode(kept[k]))
  {
  }

  /** Every definition occurs in the joined definitions. */
  lemma DefinitionsContainEach(cs: seq<Component>, k: nat)
    requires k < |Rewritten(cs)|
    ensures var kept := Rewritten(cs);
            Contains(ComponentDefinitions(cs), Definitions(RewrittenBodies(kept), NamesOf(kept))[k])
  {
    var kept := Rewritten(cs);
    var parts := Definitions(RewrittenBodies(kept), NamesOf(kept));
    JoinContainsPart(parts, "\n\n", k);
    var pre, post :| Join(parts, "\n\n") == pre + parts[k] + post;
    ContainsInfix(pre, parts[k], post);
  }
}

=== FILE: preview_entry.dfy ===
/**
 * How the React preview turns the project's entry module (`src/main.jsx`) into the script
 * that renders the page (frontend/src/components/WebsitePreview.tsx, the `mainJsx` branch
 * of `loadContent`): imports are removed or replaced by stand-in declarations,
 * placeholders that would shadow a component are dropped, exports and directives are
 * stripped, an `App` component is guaranteed, and the mount id is read.
 *
 * When the entry declares `const App = …` without a `;`, the end of that declaration is
 * looked up with `search(pattern, constStart + 10)`. `String.prototype.search` takes no
 * start offset, so the search runs from the start of the text and can stop at the `const`
 * of `const App` itself; the splice then keeps the whole arrow `App` after the synthesised
 * `function App`, and the script declares `App` twice. `ConstAppSplicedAsWritten` keeps
 * that behaviour and `DuplicateAppAsWritten` exhibits it; `ConstAppSpliced` searches from
 * the offset, as intended, and the rest of the model uses it.
 */
module PreviewEntry {
  import opened Wrappers
  import opened Text
  import opened Rewrite
  import opened Project
  import opened Patterns
  import opened Sanitize
  import opened Placeholders
  import opened PreviewSelect
  import opened PreviewComponent

  // ---------------------------------------------------------------------------
  // Names
  // ---------------------------------------------------------------------------

  /** Default-import bindings the document declares itself (`previewDataNames`). */
  const PreviewDataNames: seq<string> :=
    ["movieData", "products", "productData", "items", "listData", "movies", "posts", "courses"]

  /** Names of the `jsx`, `js` and `tsx` components, whitespace removed (`componentNamesForImports`). */
  function ImportNames(cs: seq<Component>): seq<string> {
    NamesOf(Select(cs, IsImportedComponent))
  }

  /** `isComponentName`: a component's name, or a non-empty name equal to one up to case. */
  predicate IsComponentName(names: seq<string>, name: string) {
    name in names || (name != "" && exists k :: 0 <= k < |names| && ToLower(names[k]) == ToLower(name))
  }

  lemma ToLowerTwice(s: string)
    ensures ToLower(ToLower(s)) == ToLower(s)
  {
  }

  /** A component's name in lower case counts as the component's ("Header" and "header"). */
  lemma LowerCaseIsComponent(names: seq<string>, k: nat)
    requires k < |names| && names[k] != ""
    ensures IsComponentName(names, ToLower(names[k]))
  {
    ToLowerTwice(names[k]);
  }

  // ---------------------------------------------------------------------------
  // Import patterns
  // ---------------------------------------------------------------------------

  /** A matcher replacing each match of `at` by `out` of what it captured. */
  function Captured(at: (string, nat) -> Option<Capture>, out: string -> string): Matcher {
    (s: string, p: nat) =>
      match at(s, p)
      case Some(c) => Some(Hit(c.end, out(c.name)))
      case None => None
  }

  /** `import\s+BINDING\s+from\s+['"]SOURCE['"];?\s*`. */
  function DefaultImportFromAt(s: string, p: nat, binding: string, source: string): (r: Option<nat>)
    ensures r.Some? ==> p < r.value <= |s| && At(s, p, "import")
    ensures r.Some? ==> KeywordSpaces(s, p, "import").Some? && At(s, KeywordSpaces(s, p, "import").value, binding)
    ensures r.Some? ==>
      var f := FromKeyword(s, KeywordSpaces(s, p, "import").value + |binding|);
      && f.Some? && QuotedName(s, f.value, source).Some?
      && r.value == OptSemicolonSpaces(s, QuotedName(s, f.value, source).value)
  {
    match KeywordSpaces(s, p, "import")
    case None => None
    case Some(a) =>
      if !At(s, a, binding) then None
      else
        match FromKeyword(s, a + |binding|)
        case None => None
        case Some(q) =>
          match QuotedName(s, q, source)
          case None => None
          case Some(e) => Some(OptSemicolonSpaces(s, e))
  }

  function ReactDefaultImportAt(s: string, p: nat): Option<nat> {
    DefaultImportFromAt(s, p, "React", "react")
  }

  function ReactDomClientImportAt(s: string, p: nat): Option<nat> {
    DefaultImportFromAt(s, p, "ReactDOM", "react-dom/client")
  }

  function ReactDomImportAt(s: string, p: nat): Option<nat> {
    DefaultImportFromAt(s, p, "ReactDOM", "react-dom")
  }

  /** `import\s+\{[^}]+\}\s+from\s+['"][^'"]+['"];?\s*`. */
  function NamedImportAt(s: string, p: nat): Option<nat> {
    BracesFromAt(s, p, "import", None)
  }

  /** `name` is a whole word of `s` starting at `w`: what a `(\w+)` group captures there. */
  predicate WordAt(s: string, w: nat, name: string) {
    && 0 < |name| && w + |name| <= |s|
    && WordRunTo(s, w, w + |name|) && name == s[w..w + |name|]
  }

  /** `(\w+)\s+from\s+['"][^'"]+['"];?\s*` from `w`, capturing `c`. */
  predicate WordFromQuoted(s: string, w: nat, c: Capture) {
    && WordAt(s, w, c.name)
    && var f := FromKeyword(s, w + |c.name|);
    && f.Some? && QuotedAny(s, f.value).Some?
    && c.end == OptSemicolonSpaces(s, QuotedAny(s, f.value).value)
  }

  /** `(\w+)\s+from\s+['"][^'"]+['"];?\s*` at `w`, capturing the word. */
  function WordFromQuotedAt(s: string, w: nat): (r: Option<Capture>)
    ensures r.Some? ==> w < r.value.end <= |s| && WordFromQuoted(s, w, r.value)
  {
    if w > |s| then None
    else
      var e := SkipWord(s, w);
      if e == w then None
      else
        match FromKeyword(s, e)
        case None => None
        case Some(q) =>
          match QuotedAny(s, q)
          case None => None
          case Some(t) =>
            assert WordAt(s, w, s[w..e]);
            Some(Capture(OptSemicolonSpaces(s, t), s[w..e]))
  }

  /** `import\s+(\w+)\s+from\s+['"][^'"]+['"];?\s*`, capturing the binding. */
  function DefaultImportAt(s: string, p: nat): (r: Option<Capture>)
    ensures r.Some? ==> p < r.value.end <= |s| && At(s, p, "import")
    ensures r.Some? ==> KeywordSpaces(s, p, "import").Some?
    ensures r.Some? ==> WordFromQuoted(s, KeywordSpaces(s, p, "import").value, r.value)
  {
    match KeywordSpaces(s, p, "import")
    case None => None
    case Some(w) => WordFromQuotedAt(s, w)
  }

  /**
   * What a default import of `name` leaves: nothing for a component or a preview data
   * name, a stand-in empty array for anything else.
   */
  function BindingReplacement(names: seq<string>, name: string): string {
    if IsComponentName(names, name) || name in PreviewDataNames then "" else "const " + name + " = [];"
  }

  /** `list` is what lies between the `{` at `a` and the first `}` after it. */
  predicate BraceListAt(s: string, a: nat, list: string) {
    && a + 1 + |list| < |s| && s[a] == '{' && s[a + 1 + |list|] == '}'
    && list == s[a + 1..a + 1 + |list|] && '}' !in list
  }

  /** `import\s+\{([^}]+)\}\s+from\s+['"][^'"]+['"];?\s*`, capturing the list between the braces. */
  function NamedImportListAt(s: string, p: nat): (r: Option<Capture>)
    ensures r.Some? ==> p < r.value.end <= |s| && At(s, p, "import")
    ensures r.Some? <==> NamedImportAt(s, p).Some?
    ensures r.Some? ==> NamedImportAt(s, p) == Some(r.value.end) && KeywordSpaces(s, p, "import").Some?
    ensures r.Some? ==> BraceListAt(s, KeywordSpaces(s, p, "import").value, r.value.name)
  {
    match KeywordSpaces(s, p, "import")
    case None => None
    case Some(a) =>
      match NamedImportAt(s, p)
      case None => None
      case Some(e) => Some(Capture(e, BraceList(s, a)))
  }

  /** What lies between the `{` at `a` and the first `}` after it. */
  function BraceList(s: string, a: nat): (list: string)
    requires Braces(s, a, false).Some?
    ensures BraceListAt(s, a, list)
  {
    var c := Braces(s, a, false).value - 1;
    s[a + 1..c]
  }

  /** First whitespace at or after `i` (or `|s|`). */
  function FindSpace(s: string, i: nat): (j: nat)
    requires i <= |s|
    ensures i <= j <= |s|
    ensures forall k :: i <= k < j ==> !IsSpace(s[k])
    ensures j < |s| ==> IsSpace(s[j])
    decreases |s| - i
  {
    if i < |s| && !IsSpace(s[i]) then FindSpace(s, i + 1) else i
  }

  /** The local name one entry of a named import binds: after ` as `, else its first word. */
  function ImportedBinding(piece: string): string {
    var t := Trim(piece);
    match IndexOf(t, " as ")
    case Some(i) => Trim(t[i + 4..])
    case None => t[..FindSpace(t, 0)]
  }

  /** The non-empty bindings of a named import's entries, in order. */
  function Bindings(pieces: seq<string>): (r: seq<string>)
    ensures forall k :: 0 <= k < |r| ==> r[k] != ""
    ensures forall k :: 0 <= k < |pieces| && ImportedBinding(pieces[k]) != "" ==> ImportedBinding(pieces[k]) in r
  {
    if |pieces| == 0 then []
    else
      var b := ImportedBinding(pieces[0]);
      assert forall k :: 1 <= k < |pieces| ==> pieces[k] == pieces[1..][k - 1];
      (if b != "" then [b] else []) + Bindings(pieces[1..])
  }

  /** The bindings that are not component names, in order. */
  function NonComponents(names: seq<string>, bs: seq<string>): (r: seq<string>)
    ensures forall k :: 0 <= k < |r| ==> r[k] in bs && !IsComponentName(names, r[k])
    ensures forall k :: 0 <= k < |bs| && !IsComponentName(names, bs[k]) ==> bs[k] in r
    ensures (forall k :: 0 <= k < |bs| ==> IsComponentName(names, bs[k])) ==> r == []
  {
    if |bs| == 0 then []
    else
      assert forall k :: 1 <= k < |bs| ==> bs[k] == bs[1..][k - 1];
      (if IsComponentName(names, bs[0]) then [] else [bs[0]]) + NonComponents(names, bs[1..])
  }

  /** Bindings are collected entry by entry, so they keep the entries' order. */
  lemma {:induction false} BindingsInOrder(a: seq<string>, b: seq<string>)
    ensures Bindings(a + b) == Bindings(a) + Bindings(b)
    ensures |a| == 1 ==> Bindings(a) == (if ImportedBinding(a[0]) != "" then [ImportedBinding(a[0])] else [])
  {
    if |a| > 0 {
      assert (a + b)[1..] == a[1..] + b;
      BindingsInOrder(a[1..], b);
    } else {
      assert a + b == b;
    }
  }

  /** The non-components are filtered binding by binding, so they keep the bindings' order. */
  lemma {:induction false} NonComponentsInOrder(names: seq<string>, a: seq<string>, b: seq<string>)
    ensures NonComponents(names, a + b) == NonComponents(names, a) + NonComponents(names, b)
    ensures |a| == 1 ==> NonComponents(names, a) == (if IsComponentName(names, a[0]) then [] else [a[0]])
  {
    if |a| > 0 {
      assert (a + b)[1..] == a[1..] + b;
      NonComponentsInOrder(names, a[1..], b);
    } else {
      assert a + b == b;
    }
  }

  /** `const b = [];` for each binding. */
  function StandIns(bs: seq<string>): (r: seq<string>)
    ensures |r| == |bs|
    ensures forall k :: 0 <= k < |bs| ==> r[k] == "const " + bs[k] + " = [];"
  {
    seq(|bs|, k requires 0 <= k < |bs| => "const " + bs[k] + " = [];")
  }

  /**
   * What a named import leaves: nothing without bindings; otherwise a stand-in for each
   * binding that is not a component, space-separated, with a line break after them.
   */
  function NamedImportReplacement(names: seq<string>, list: string): string {
    var bs := Bindings(Split(list, ','));
    if |bs| == 0 then ""
    else
      var kept := NonComponents(names, bs);
      Join(StandIns(kept), " ") + (if |kept| > 0 then "\n" else "")
  }

  /** `import\s+\*\s+as\s+(\w+)\s+from\s+['"][^'"]+['"];?\s*`, capturing the namespace name. */
  function NamespaceImportAt(s: string, p: nat): (r: Option<Capture>)
    ensures r.Some? ==> p < r.value.end <= |s| && At(s, p, "import")
    ensures r.Some? ==> KeywordSpaces(s, p, "import").Some? && r == NamespaceFrom(s, KeywordSpaces(s, p, "import").value)
  {
    match KeywordSpaces(s, p, "import")
    case None => None
    case Some(a) => NamespaceFrom(s, a)
  }

  /** The namespace pattern from just after `import\s+`: `\*\s+as\s+(\w+)\s+from ...`. */
  function NamespaceFrom(s: string, a: nat): (r: Option<Capture>)
    ensures r.Some? ==> a < r.value.end <= |s|
    ensures r.Some? ==> a + 1 < |s| && s[a] == '*' && IsSpace(s[a + 1])
    ensures r.Some? ==>
      var w := KeywordSpaces(s, SkipSpaces(s, a + 1), "as");
      w.Some? && WordFromQuoted(s, w.value, r.value)
  {
    if !(a + 1 < |s| && s[a] == '*' && IsSpace(s[a + 1])) then None
    else
      match KeywordSpaces(s, SkipSpaces(s, a + 1), "as")
      case None => None
      case Some(w) => WordFromQuotedAt(s, w)
  }

  /** `import\s+['"][^'"]+['"];?\s*`: an import for its side effects. */
  function SideEffectImportAt(s: string, p: nat): (r: Option<nat>)
    ensures r.Some? ==> p < r.value <= |s| && At(s, p, "import")
    ensures r.Some? ==> KeywordSpaces(s, p, "import").Some? && QuotedAny(s, KeywordSpaces(s, p, "import").value).Some?
    ensures r.Some? ==> r.value == OptSemicolonSpaces(s, QuotedAny(s, KeywordSpaces(s, p, "import").value).value)
  {
    match KeywordSpaces(s, p, "import")
    case None => None
    case Some(a) =>
      match QuotedAny(s, a)
      case None => None
      case Some(t) => Some(OptSemicolonSpaces(s, t))
  }

  /**
   * `import\s+(\w+)\s+from\s+[^;]+;?\s*`: after `from`, through the first `;` (or the end),
   * which must leave one whitespace character and one more character.
   */
  function LooseDefaultImportAt(s: string, p: nat): (r: Option<Capture>)
    ensures r.Some? ==> p < r.value.end <= |s| && At(s, p, "import")
  {
    match KeywordSpaces(s, p, "import")
    case None => None
    case Some(w) =>
      var e := SkipWord(s, w);
      if e == w || e == |s| || !IsSpace(s[e]) then None
      else
        var g := SkipSpaces(s, e);
        if !(At(s, g, "from") && g + 4 < |s| && IsSpace(s[g + 4])) then None
        else
          var t := FindChar(s, g + 4, ';');
          if t < g + 6 then None else Some(Capture(OptSemicolonSpaces(s, t), s[w..e]))
  }

  /** First line terminator at or after `i` (or `|s|`): where a multiline `.*$` stops. */
  function LineEnd(s: string, i: nat): (j: nat)
    requires i <= |s|
    ensures i <= j <= |s|
    ensures forall k :: i <= k < j ==> !IsLineTerminator(s[k])
    ensures j == |s| || IsLineTerminator(s[j])
    decreases |s| - i
  {
    if i < |s| && !IsLineTerminator(s[i]) then LineEnd(s, i + 1) else i
  }

  /** `^import\s+(\w+)\s+from\s+.*$` (multiline), capturing the binding. */
  function ImportLineWithBindingAt(s: string, p: nat): (r: Option<Capture>)
    ensures r.Some? ==> p < r.value.end <= |s| && At(s, p, "import") && LineStart(s, p)
  {
    if !LineStart(s, p) then None
    else
      match KeywordSpaces(s, p, "import")
      case None => None
      case Some(w) =>
        var e := SkipWord(s, w);
        if e == w || e == |s| || !IsSpace(s[e]) then None
        else
          var g := SkipSpaces(s, e);
          if !(At(s, g, "from") && g + 4 < |s| && IsSpace(s[g + 4])) then None
          else Some(Capture(LineEnd(s, SkipSpaces(s, g + 4)), s[w..e]))
  }

  /** `^import\s+.*$` (multiline). */
  function ImportLineAt(s: string, p: nat): (r: Option<nat>)
    ensures r.Some? ==> p < r.value <= |s| && At(s, p, "import")
    ensures r.Some? <==> LineStart(s, p) && At(s, p, "import") && p + 6 < |s| && IsSpace(s[p + 6])
    ensures r.Some? ==> r.value == LineEnd(s, SkipSpaces(s, p + 6))
  {
    if LineStart(s, p) && At(s, p, "import") && p + 6 < |s| && IsSpace(s[p + 6])
    then Some(LineEnd(s, SkipSpaces(s, p + 6)))
    else None
  }

  /**
   * `import NAME from ` with NAME a whole word followed by whitespace, `from` and more
   * whitespace: the head the two loose import patterns share.
   */
  predicate ImportWordFrom(s: string, p: nat, name: string, g: nat) {
    && KeywordSpaces(s, p, "import").Some?
    && var w := KeywordSpaces(s, p, "import").value;
    && WordAt(s, w, name) && w + |name| < |s| && IsSpace(s[w + |name|])
    && g == SkipSpaces(s, w + |name|) && At(s, g, "from") && g + 4 < |s| && IsSpace(s[g + 4])
  }

  /** The loose default import runs from `from` through the first `;`, which is not right after it. */
  lemma LooseDefaultImportShape(s: string, p: nat)
    requires LooseDefaultImportAt(s, p).Some?
    ensures exists g: nat ::
      (&& ImportWordFrom(s, p, LooseDefaultImportAt(s, p).value.name, g)
       && g + 6 <= FindChar(s, g + 4, ';')
       && LooseDefaultImportAt(s, p).value.end == OptSemicolonSpaces(s, FindChar(s, g + 4, ';')))
  {
    var w := KeywordSpaces(s, p, "import").value;
    var e := SkipWord(s, w);
    var g := SkipSpaces(s, e);
    assert WordAt(s, w, s[w..e]);
    assert ImportWordFrom(s, p, s[w..e], g);
  }

  /** The import line with a binding runs from a line start to the end of that line. */
  lemma ImportLineWithBindingShape(s: string, p: nat)
    requires ImportLineWithBindingAt(s, p).Some?
    ensures exists g: nat ::
      (&& ImportWordFrom(s, p, ImportLineWithBindingAt(s, p).value.name, g)
       && ImportLineWithBindingAt(s, p).value.end == LineEnd(s, SkipSpaces(s, g + 4)))
  {
    var w := KeywordSpaces(s, p, "import").value;
    var e := SkipWord(s, w);
    var g := SkipSpaces(s, e);
    assert WordAt(s, w, s[w..e]);
    assert ImportWordFrom(s, p, s[w..e], g);
  }

  /** What a default-import pass puts in place of the binding it captured. */
  function BindingOut(names: seq<string>): string -> string {
    x => BindingReplacement(names, x)
  }

  /** What the named-import pass puts in place of the list it captured. */
  function NamedListOut(names: seq<string>): string -> string {
    l => NamedImportReplacement(names, l)
  }

  /** What the namespace-import pass puts in place of the binding it captured: an empty object. */
  function NamespaceOut(): string -> string {
    x => "const " + x + " = {};\n"
  }

  /** The import passes of the entry module, in order. */
  function ImportsResolved(s: string, names: seq<string>): string {
    var a := ReplaceAll(s, Deleting(ReactDefaultImportAt));
    var b := ReplaceAll(a, Deleting(ReactDomClientImportAt));
    var c := ReplaceAll(b, Deleting(ReactDomImportAt));
    var d := ReplaceAll(c, Deleting(NamedImportAt));
    var e := ReplaceAll(d, Captured(DefaultImportAt, BindingOut(names)));
    var f := ReplaceAll(e, Captured(NamedImportListAt, NamedListOut(names)));
    var g := ReplaceAll(f, Captured(NamespaceImportAt, NamespaceOut()));
    var h := ReplaceAll(g, Deleting(SideEffectImportAt));
    var i := ReplaceAll(h, Captured(LooseDefaultImportAt, BindingOut(names)));
    var j := ReplaceAll(i, Captured(ImportLineWithBindingAt, BindingOut(names)));
    ReplaceAll(j, Deleting(ImportLineAt))
  }

  // ---------------------------------------------------------------------------
  // Import properties
  // ---------------------------------------------------------------------------

  /** A default import of a component, or of a data name the document declares, leaves nothing. */
  lemma DeclaredBindingDropped(names: seq<string>, name: string)
    requires IsComponentName(names, name) || name in PreviewDataNames
    ensures BindingReplacement(names, name) == ""
  {
  }

  /** Any other default import leaves a stand-in declaration of its binding. */
  lemma OtherBindingDeclared(names: seq<string>, name: string)
    requires !IsComponentName(names, name) && name !in PreviewDataNames
    ensures Contains(BindingReplacement(names, name), "const " + name + " = ")
  {
    assert BindingReplacement(names, name) == "const " + name + " = " + "[];";
    PrefixStarts("const " + name + " = ", "[];");
  }

  /** The canonical default import statement. */
  function DefaultImportLine(name: string, source: string): string {
    "import " + name + " from '" + source + "';"
  }

  /**
   * A canonical `import X from 'M';` followed by a non-space is one whole default-import
   * match, and it captures `X`.
   */
  lemma DefaultImportRecognised(s: string, p: nat, name: string, source: string, end: nat)
    requires IsIdentifier(name) && source != [] && forall k :: 0 <= k < |source| ==> !IsQuote(source[k])
    requires At(s, p, DefaultImportLine(name, source)) && end == p + |DefaultImportLine(name, source)|
    requires end == |s| || !IsSpace(s[end])
    ensures end == p + |name| + |source| + 16
    ensures DefaultImportAt(s, p) == Some(Capture(end, name))
  {
    LineChars(s, p, name, source);
    ImportShapeRecognised(s, p, name, source, end);
  }

  /** The pieces of `import NAME from 'SOURCE';` at `p`. */
  predicate ImportShape(s: string, p: nat, name: string, source: string) {
    var n, m := |name|, |source|;
    && p + n + m + 16 <= |s|
    && At(s, p, "import") && s[p + 6] == ' ' && s[p + 7..p + 7 + n] == name && s[p + 7 + n] == ' '
    && At(s, p + 8 + n, "from") && s[p + 12 + n] == ' ' && s[p + 13 + n] == '\''
    && s[p + 14 + n..p + 14 + n + m] == source && s[p + 14 + n + m] == '\'' && s[p + 15 + n + m] == ';'
  }

  lemma ImportShapeRecognised(s: string, p: nat, name: string, source: string, end: nat)
    requires IsIdentifier(name) && source != [] && forall k :: 0 <= k < |source| ==> !IsQuote(source[k])
    requires ImportShape(s, p, name, source) && end == p + |name| + |source| + 16
    requires end == |s| || !IsSpace(s[end])
    ensures DefaultImportAt(s, p) == Some(Capture(end, name))
  {
    ImportThenName(s, p, name, source);
    FromAfterName(s, p, name, source);
    QuotedSource(s, p, name, source);
    ImportLineEnd(s, p + 15 + |name| + |source|, end);
    DefaultImportSteps(s, p, name, p + 7 + |name|, p + 13 + |name|, p + 15 + |name| + |source|, end);
  }

  /** A `;` at `t` followed by the end or a non-space ends the match just after it. */
  lemma ImportLineEnd(s: string, t: nat, end: nat)
    requires t < |s| && s[t] == ';' && end == t + 1
    requires end == |s| || !IsSpace(s[end])
    ensures OptSemicolonSpaces(s, t) == end
  {
    if end < |s| {
      assert SkipSpaces(s, end) == end;
    }
  }

  /** The default-import pattern, step by step: keyword, word, `from`, quoted module, `;?\s*`. */
  lemma DefaultImportSteps(s: string, p: nat, name: string, e: nat, q: nat, t: nat, end: nat)
    requires KeywordSpaces(s, p, "import") == Some(p + 7) && p + 7 < e <= |s|
    requires SkipWord(s, p + 7) == e && s[p + 7..e] == name
    requires FromKeyword(s, e) == Some(q) && QuotedAny(s, q) == Some(t)
    requires OptSemicolonSpaces(s, t) == end
    ensures DefaultImportAt(s, p) == Some(Capture(end, name))
  {
    WordFromQuotedSteps(s, p + 7, e, q, t);
  }

  lemma WordFromQuotedSteps(s: string, w: nat, e: nat, q: nat, t: nat)
    requires w < e <= |s| && SkipWord(s, w) == e
    requires FromKeyword(s, e) == Some(q) && QuotedAny(s, q) == Some(t)
    ensures WordFromQuotedAt(s, w) == Some(Capture(OptSemicolonSpaces(s, t), s[w..e]))
  {
  }

  lemma FromAfterName(s: string, p: nat, name: string, source: string)
    requires ImportShape(s, p, name, source)
    ensures FromKeyword(s, p + 7 + |name|) == Some(p + 13 + |name|)
  {
    var n := |name|;
    assert s[p + 8 + n] == s[p + 8 + n..p + 12 + n][0] == 'f';
    SkipOne(s, p + 7 + n);
    SkipNone(s, p + 13 + n);
  }

  /** A canonical default import at `p` has the import's shape there. */
  lemma LineChars(s: string, p: nat, name: string, source: string)
    requires At(s, p, DefaultImportLine(name, source))
    ensures |DefaultImportLine(name, source)| == |name| + |source| + 16
    ensures ImportShape(s, p, name, source)
  {
    var line := DefaultImportLine(name, source);
    LineText(name, source);
    ImportShapeShift(s, p, line, name, source);
  }

  /** The canonical default import has the import's shape at its own start. */
  lemma LineText(name: string, source: string)
    ensures |DefaultImportLine(name, source)| == |name| + |source| + 16
    ensures ImportShape(DefaultImportLine(name, source), 0, name, source)
  {
    var n, m := |name|, |source|;
    var line := DefaultImportLine(name, source);
    var a, b, c := "import ", " from '", "';";
    assert line == a + name + b + source + c;
    var sb, sc := line[7 + n..14 + n], line[14 + n + m..];
    assert sb == b && sc == c;
    assert line[..7] == a;
    assert line[..6] == line[..7][..6] == "import";
    assert line[6] == line[..7][6];
    assert line[7..7 + n] == name;
    assert line[14 + n..14 + n + m] == source;
    assert line[8 + n..12 + n] == sb[1..5] == "from";
    assert line[7 + n] == sb[0] && line[12 + n] == sb[5] && line[13 + n] == sb[6];
    assert line[14 + n + m] == sc[0] && line[15 + n + m] == sc[1];
  }

  /** The shape of a line carries over to any text holding the line at `p`. */
  lemma ImportShapeShift(s: string, p: nat, line: string, name: string, source: string)
    requires At(s, p, line) && ImportShape(line, 0, name, source)
    ensures ImportShape(s, p, name, source)
  {
    var n, m := |name|, |source|;
    var e := p + |line|;
    assert s[p..e] == line;
    SliceOfSlice(s, p, e, 0, 6);
    SliceOfSlice(s, p, e, 7, 7 + n);
    SliceOfSlice(s, p, e, 8 + n, 12 + n);
    SliceOfSlice(s, p, e, 14 + n, 14 + n + m);
    assert s[p + 6] == s[p..e][6] && s[p + 7 + n] == s[p..e][7 + n];
    assert s[p + 12 + n] == s[p..e][12 + n] && s[p + 13 + n] == s[p..e][13 + n];
    assert s[p + 14 + n + m] == s[p..e][14 + n + m] && s[p + 15 + n + m] == s[p..e][15 + n + m];
  }

  lemma ImportThenName(s: string, p: nat, name: string, source: string)
    requires IsIdentifier(name)
    requires ImportShape(s, p, name, source)
    ensures KeywordSpaces(s, p, "import") == Some(p + 7)
    ensures SkipWord(s, p + 7) == p + 7 + |name| && s[p + 7..p + 7 + |name|] == name
  {
    var n := |name|;
    assert s[p + 7] == name[0];
    assert SkipSpaces(s, p + 7) == p + 7;
    forall k | p + 7 <= k < p + 7 + n
      ensures IsWordChar(s[k])
    {
      var t := k - p - 7;
      assert s[k] == s[p + 7..p + 7 + n][t] == name[t];
      assert IsWordChar(name[t]);
    }
    SkipWordExact(s, p + 7, p + 7 + n);
  }

  lemma QuotedSource(s: string, p: nat, name: string, source: string)
    requires source != [] && forall k :: 0 <= k < |source| ==> !IsQuote(source[k])
    requires ImportShape(s, p, name, source)
    ensures QuotedAny(s, p + 13 + |name|) == Some(p + 15 + |name| + |source|)
  {
    var n := |name|;
    var m := |source|;
    forall k | p + 14 + n <= k < p + 14 + n + m
      ensures !IsQuote(s[k])
    {
      assert s[k] == s[p + 14 + n..p + 14 + n + m][k - p - 14 - n];
    }
    FindQuoteExact(s, p + 14 + n, p + 14 + n + m);
  }

  lemma {:induction false} FindQuoteExact(s: string, i: nat, j: nat)
    requires i <= j < |s| && IsQuote(s[j])
    requires forall k :: i <= k < j ==> !IsQuote(s[k])
    ensures FindQuote(s, i) == j
    decreases j - i
  {
    if i < j {
      FindQuoteExact(s, i + 1, j);
    }
  }

  /** In a named import, `a as b` binds `b`. */
  lemma AliasBinds(x: string, y: string)
    requires IsIdentifier(x) && IsIdentifier(y)
    ensures ImportedBinding(x + " as " + y) == y
  {
    var t := x + " as " + y;
    TrimNoop(t);
    AliasFound(x, y);
    assert t[|x| + 4..] == y;
    TrimNoop(y);
  }

  /** The first ` as ` of `x as y` is the one after `x`. */
  lemma AliasFound(x: string, y: string)
    requires IsIdentifier(x)
    ensures IndexOf(x + " as " + y, " as ") == Some(|x|)
  {
    var t := x + " as " + y;
    assert t[|x|..|x| + 4] == " as ";
    forall j: nat | j < |x|
      ensures !At(t, j, " as ")
    {
      if j + 4 <= |t| {
        assert t[j..j + 4][0] == t[j] == x[j];
      }
    }
    assert At(t, |x|, " as ");
  }

  /** A plain entry binds its own name. */
  lemma PlainBinds(x: string)
    requires IsIdentifier(x)
    ensures ImportedBinding(x) == x
  {
    TrimNoop(x);
    assert forall k :: 0 <= k < |x| ==> !IsSpace(x[k]);
    forall j: nat
      ensures !At(x, j, " as ")
    {
      if j + 4 <= |x| {
        assert x[j..j + 4][0] == x[j];
      }
    }
    assert FindSpace(x, 0) == |x|;
  }

  /** A named import of components only leaves nothing. */
  lemma ComponentsOnlyNamedImport(names: seq<string>, list: string)
    requires forall b :: b in Bindings(Split(list, ',')) ==> IsComponentName(names, b)
    ensures NamedImportReplacement(names, list) == ""
  {
    var bs := Bindings(Split(list, ','));
    assert forall k :: 0 <= k < |bs| ==> IsComponentName(names, bs[k]);
  }

  /** Every binding of a named import that is not a component gets a stand-in declaration. */
  lemma NamedImportDeclares(names: seq<string>, list: string, b: string)
    requires b in Bindings(Split(list, ',')) && !IsComponentName(names, b)
    ensures Contains(NamedImportReplacement(names, list), "const " + b + " = [];")
  {
    var bs := Bindings(Split(list, ','));
    var kept := NonComponents(names, bs);
    var i :| 0 <= i < |bs| && bs[i] == b;
    var k :| 0 <= k < |kept| && kept[k] == b;
    var joined := Join(StandIns(kept), " ");
    assert NamedImportReplacement(names, list) == joined + "\n";
    assert Contains(joined, "const " + b + " = [];") by {
      StandInJoined(kept, k);
    }
    ContainsExtend(joined, "\n", "const " + b + " = [];");
  }

  lemma StandInJoined(kept: seq<string>, k: nat)
    requires k < |kept|
    ensures Contains(Join(StandIns(kept), " "), "const " + kept[k] + " = [];")
  {
    JoinContainsPart(StandIns(kept), " ", k);
    var pre, post :| Join(StandIns(kept), " ") == pre + StandIns(kept)[k] + post;
    ContainsInfix(pre, "const " + kept[k] + " = [];", post);
  }

  // ---------------------------------------------------------------------------
  // Placeholders of components
  // ---------------------------------------------------------------------------

  /** `name.charAt(0).toLowerCase() + name.slice(1)`. */
  function LowerFirst(name: string): (r: string)
    ensures |r| == |name|
    ensures IsIdentifier(name) ==> IsIdentifier(r)
  {
    if name == "" then "" else [ToLowerChar(name[0])] + name[1..]
  }

  /** One iteration of the placeholder loop: the name, then its lower-first variant when it differs. */
  function WithoutPlaceholdersOf(s: string, name: string): string {
    var a := ReplaceAll(s, PlaceholderMatch(name));
    var lower := LowerFirst(name);
    if lower != name then ReplaceAll(a, PlaceholderMatch(lower)) else a
  }

  /** The placeholder loop over all names, in order. */
  function WithoutPlaceholders(s: string, names: seq<string>): string
    decreases |names|
  {
    if |names| == 0 then s else WithoutPlaceholders(WithoutPlaceholdersOf(s, names[0]), names[1..])
  }

  /** `componentNamesForImports.forEach(…)`: strips every placeholder of every component name. */
  method RemovePlaceholders(s: string, names: seq<string>) returns (out: string)
    ensures out == WithoutPlaceholders(s, names)
  {
    out := s;
    var i := 0;
    while i < |names|
      invariant 0 <= i <= |names|
      invariant WithoutPlaceholders(out, names[i..]) == WithoutPlaceholders(s, names)
    {
      assert names[i..][0] == names[i] && names[i..][1..] == names[i + 1..];
      out := ReplaceAll(out, PlaceholderMatch(names[i]));
      var lower := LowerFirst(names[i]);
      if lower != names[i] {
        out := ReplaceAll(out, PlaceholderMatch(lower));
      }
      i := i + 1;
    }
    assert names[i..] == [];
  }

  /** Text outside a placeholder declaration is left alone by every pass. */
  lemma RestUntouched(pre: string, post: string, name: string)
    requires 'c' !in pre && !Contains(post, "const")
    ensures ReplaceAll(pre + post, PlaceholderMatch(name)) == pre + post
  {
    var s := pre + post;
    forall j | 0 <= j < |s|
      ensures !HitAt(s, PlaceholderMatch(name), j)
    {
      if j < |pre| {
        assert s[j] == pre[j];
        NoHitWithoutC(s, name, j);
      } else {
        NoHitInSuffix(pre, post, name, j);
      }
    }
    ReplaceNoHit(s, PlaceholderMatch(name), 0);
  }

  lemma {:induction false} RestUntouchedByLoop(pre: string, post: string, names: seq<string>)
    requires 'c' !in pre && !Contains(post, "const")
    ensures WithoutPlaceholders(pre + post, names) == pre + post
    decreases |names|
  {
    if |names| > 0 {
      RestUntouched(pre, post, names[0]);
      RestUntouched(pre, post, LowerFirst(names[0]));
      RestUntouchedByLoop(pre, post, names[1..]);
    }
  }

  /** One pass on a placeholder declaration removes it for its own name and leaves it for another. */
  lemma PassOnDeclaration(pre: string, x: string, post: string, name: string)
    requires IsIdentifier(x) && IsIdentifier(name)
    requires 'c' !in pre && !Contains(post, "const") && (post == [] || !IsSpace(post[0]))
    ensures ReplaceAll(pre + PlaceholderDecl(x) + post, PlaceholderMatch(name))
            == if name == x then pre + post else pre + PlaceholderDecl(x) + post
  {
    if name == x {
      PlaceholderRemoved(pre, x, post);
    } else {
      var s := pre + PlaceholderDecl(x) + post;
      forall j | 0 <= j < |s|
        ensures !HitAt(s, PlaceholderMatch(name), j)
      {
        OtherNameMisses(pre, x, post, name, j);
      }
      ReplaceNoHit(s, PlaceholderMatch(name), 0);
    }
  }

  /**
   * A placeholder declaration of a component name, or of its lower-first variant, standing
   * between texts without `const`, is gone after the loop, and nothing else changes.
   */
  lemma {:induction false} ComponentPlaceholderDropped(pre: string, x: string, post: string, names: seq<string>)
    requires forall k :: 0 <= k < |names| ==> IsIdentifier(names[k])
    requires exists k :: 0 <= k < |names| && (names[k] == x || LowerFirst(names[k]) == x)
    requires 'c' !in pre && !Contains(post, "const") && (post == [] || !IsSpace(post[0]))
    ensures WithoutPlaceholders(pre + PlaceholderDecl(x) + post, names) == pre + post
    decreases |names|
  {
    var k :| 0 <= k < |names| && (names[k] == x || LowerFirst(names[k]) == x);
    assert IsIdentifier(x);
    var name := names[0];
    var lower := LowerFirst(name);
    PassOnDeclaration(pre, x, post, name);
    if name == x {
      RestUntouched(pre, post, lower);
      RestUntouchedByLoop(pre, post, names[1..]);
    } else if lower != name && lower == x {
      PassOnDeclaration(pre, x, post, lower);
      RestUntouchedByLoop(pre, post, names[1..]);
    } else {
      if lower != name {
        PassOnDeclaration(pre, x, post, lower);
      }
      assert WithoutPlaceholdersOf(pre + PlaceholderDecl(x) + post, name) == pre + PlaceholderDecl(x) + post;
      assert k > 0;
      assert names[1..][k - 1] == names[k];
      ComponentPlaceholderDropped(pre, x, post, names[1..]);
    }
  }
  // ---------------------------------------------------------------------------
  // Exports and directives
  // ---------------------------------------------------------------------------

  /** `export\s+\{[^}]+\}\s+from\s+['"][^'"]+['"];?\s*`. */
  function ExportFromAt(s: string, p: nat): Option<nat> {
    BracesFromAt(s, p, "export", None)
  }

  /** `export\s+`. */
  function ExportKeywordAt(s: string, p: nat): Option<nat> {
    KeywordSpaces(s, p, "export")
  }

  /** The export passes, then the directive passes shared with the components. */
  function EntryExportsStripped(s: string): string {
    var a := ReplaceAll(s, ExportDefaultSpacesMatch());
    var b := ReplaceAll(a, Deleting(ExportFromAt));
    DirectivesStripped(ReplaceAll(b, Deleting(ExportKeywordAt)))
  }

  // ---------------------------------------------------------------------------
  // The App component
  // ---------------------------------------------------------------------------

  const AppHead := "function App() {\n  return (\n    <>\n      "
  const AppTail := "\n    </>\n  );\n}"

  /** `appDefinition`: a function `App` rendering each component once, in order. */
  function AppDefinition(names: seq<string>): string {
    AppHead + Join(Tags(names), "\n      ") + AppTail
  }

  /** Names of the components a synthesised `App` renders: `jsx` and `js` ones. */
  function AppNames(cs: seq<Component>): seq<string> {
    NamesOf(Select(cs, IsRenderedByApp))
  }

  /** The synthesised `App` is a `function App(` declaration. */
  lemma AppDefinitionDeclaresApp(names: seq<string>)
    ensures StartsWith(AppDefinition(names), "function App(")
    ensures Contains(AppDefinition(names), "function App(")
  {
    assert AppHead[..13] == "function App(";
    assert AppDefinition(names)[..13] == AppHead[..13];
    ContainsAt(AppDefinition(names), "function App(", 0);
  }

  /** The synthesised `App` renders every component it is given. */
  lemma AppRendersEach(names: seq<string>, k: nat)
    requires k < |names|
    ensures Contains(AppDefinition(names), "<" + names[k] + " />")
  {
    JoinContainsPart(Tags(names), "\n      ", k);
    var pre, post :| Join(Tags(names), "\n      ") == pre + Tags(names)[k] + post;
    assert AppDefinition(names) == (AppHead + pre) + Tags(names)[k] + (post + AppTail);
    ContainsInfix(AppHead + pre, Tags(names)[k], post + AppTail);
  }

  /** `kw\s+NAME\s*close` at `p`, without a word boundary before it. */
  function NamedDeclAt(s: string, p: nat, kw: string, name: string, close: char): (r: Option<nat>)
    ensures r.Some? ==> p < r.value <= |s|
    ensures r.Some? ==> KeywordSpaces(s, p, kw).Some? && At(s, KeywordSpaces(s, p, kw).value, name)
    ensures r.Some? ==>
      var n := KeywordSpaces(s, p, kw).value + |name|;
      n < r.value && SpacesIn(s, n, r.value - 1) && s[r.value - 1] == close
  {
    match KeywordSpaces(s, p, kw)
    case None => None
    case Some(n) =>
      if !At(s, n, name) then None
      else
        var f := SkipSpaces(s, n + |name|);
        if f < |s| && s[f] == close then Some(f + 1) else None
  }

  /** `function\s+App\s*\(`. */
  function FunctionAppAt(s: string, p: nat): Option<nat> {
    NamedDeclAt(s, p, "function", "App", '(')
  }

  /** `const\s+App\s*=`. */
  function ConstAppAt(s: string, p: nat): Option<nat> {
    NamedDeclAt(s, p, "const", "App", '=')
  }

  /** `\bconst\s+App\s*=`. */
  function ConstAppWordAt(s: string, p: nat): Option<nat> {
    DeclarationAt(s, p, "const", "App", '=')
  }

  /** `\blet\s+App\s*=`. */
  function LetAppWordAt(s: string, p: nat): Option<nat> {
    DeclarationAt(s, p, "let", "App", '=')
  }

  /** `hasFunctionApp`. */
  predicate HasFunctionApp(s: string) {
    Contains(s, "function App") || Matches(s, Deleting(FunctionAppAt))
  }

  /** `hasConstApp`. */
  predicate HasConstApp(s: string) {
    Matches(s, Deleting(ConstAppAt))
  }

  /** `finalHasApp`: some declaration of `App` is present. */
  predicate FinalHasApp(s: string) {
    || Matches(s, Deleting(FunctionAppAt))
    || Contains(s, "function App(")
    || Matches(s, Deleting(ConstAppWordAt))
    || Matches(s, Deleting(LetAppWordAt))
  }

  /** `(ReactDOM|function|const|var)\s`. */
  function NextStatementAt(s: string, p: nat): (r: Option<nat>)
    ensures r.Some? ==> p < r.value <= |s| && IsSpace(s[r.value - 1])
    ensures r.Some? ==>
      || (At(s, p, "ReactDOM") && r.value == p + 9) || (At(s, p, "function") && r.value == p + 9)
      || (At(s, p, "const") && r.value == p + 6) || (At(s, p, "var") && r.value == p + 4)
    ensures At(s, p, "ReactDOM") && p + 8 < |s| && IsSpace(s[p + 8]) ==> r == Some(p + 9)
    ensures At(s, p, "function") && p + 8 < |s| && IsSpace(s[p + 8]) ==> r == Some(p + 9)
    ensures At(s, p, "const") && p + 5 < |s| && IsSpace(s[p + 5]) ==> r == Some(p + 6)
    ensures At(s, p, "var") && p + 3 < |s| && IsSpace(s[p + 3]) ==> r == Some(p + 4)
  {
    assert At(s, p, "ReactDOM") ==> s[p] == s[p..p + 8][0] == 'R';
    assert At(s, p, "function") ==> s[p] == s[p..p + 8][0] == 'f';
    assert At(s, p, "const") ==> s[p] == s[p..p + 5][0] == 'c';
    assert At(s, p, "var") ==> s[p] == s[p..p + 3][0] == 'v';
    var w := if At(s, p, "ReactDOM") then 8 else if At(s, p, "function") then 8
             else if At(s, p, "const") then 5 else if At(s, p, "var") then 3 else 0;
    if w > 0 && p + w < |s| && IsSpace(s[p + w]) then Some(p + w + 1) else None
  }

  /**
   * Where the arrow `App` starting at `start` ends: after the next `;`, else at the next
   * statement found by a search beginning at `from`, else at the end of the text.
   */
  function ConstAppEnd(s: string, start: nat, from: nat): (r: nat)
    ensures r <= |s|
    ensures IndexOfFrom(s, ";", start).Some? ==>
      start < r && s[r - 1] == ';' && forall k :: start <= k < r - 1 ==> s[k] != ';'
    ensures IndexOfFrom(s, ";", start).None? ==> forall k :: start <= k < |s| ==> s[k] != ';'
    ensures IndexOfFrom(s, ";", start).None? ==> r == NextStatementOrEnd(s, from)
    ensures IndexOfFrom(s, ";", start).None? && r < |s| ==> from <= r && NextStatementAt(s, r).Some?
    ensures IndexOfFrom(s, ";", start).None? && from <= |s| ==> forall k :: from <= k < r ==> NextStatementAt(s, k).None?
    ensures IndexOfFrom(s, ";", start).None? && from > |s| ==> r == |s|
  {
    match IndexOfFrom(s, ";", start)
    case Some(e) =>
      assert forall k :: start <= k < e ==> !At(s, k, ";") && s[k..k + 1] == [s[k]];
      e + 1
    case None =>
      assert forall k :: start <= k < |s| ==> !At(s, k, ";") && s[k..k + 1] == [s[k]];
      NextStatementOrEnd(s, from)
  }

  /** The first statement start at or after `from`, else the end of the text. */
  function NextStatementOrEnd(s: string, from: nat): (r: nat)
    ensures r <= |s|
    ensures r < |s| ==> from <= r && NextStatementAt(s, r).Some?
    ensures from <= |s| ==> forall k :: from <= k < r ==> NextStatementAt(s, k).None?
    ensures from > |s| ==> r == |s|
  {
    var next := if from <= |s| then FirstHit(s, Deleting(NextStatementAt), from) else None;
    assert from <= |s| ==> forall k :: from <= k < |s| && NextStatementAt(s, k).Some? ==> HitAt(s, Deleting(NextStatementAt), k);
    match next
    case Some(n) => n
    case None => |s|
  }

  /** The arrow `App` replaced by the synthesised one, the next-statement search starting at the text's start, as written. */
  function ConstAppSplicedAsWritten(s: string, appDef: string): (r: string)
    ensures IndexOf(s, "const App").None? ==> r == s
    ensures IndexOf(s, "const App").Some? ==>
              var c := IndexOf(s, "const App").value;
              c + |appDef| + 2 <= |r| && r[..c] == s[..c] && r[c..c + |appDef|] == appDef
              && EndsWith(s, r[c + |appDef| + 2..])
  {
    match IndexOf(s, "const App")
    case None => s
    case Some(c) =>
      var e := ConstAppEnd(s, c, 0);
      SplicedParts(s[..c], appDef, s[e..]);
      s[..c] + appDef + "\n\n" + s[e..]
  }

  /** The arrow `App` replaced by the synthesised one, the search starting ten characters into it. */
  function ConstAppSpliced(s: string, appDef: string): (r: string)
    ensures IndexOf(s, "const App").None? ==> r == s
    ensures IndexOf(s, "const App").Some? ==>
              var c := IndexOf(s, "const App").value;
              c + |appDef| + 2 <= |r| && r[..c] == s[..c] && r[c..c + |appDef|] == appDef
              && EndsWith(s, r[c + |appDef| + 2..]) && |r| < |s| + |appDef| + 2
  {
    match IndexOf(s, "const App")
    case None => s
    case Some(c) =>
      var e := ConstAppEnd(s, c, c + 10);
      SplicedParts(s[..c], appDef, s[e..]);
      s[..c] + appDef + "\n\n" + s[e..]
  }

  /** When the text has an arrow `App`, the splice holds the synthesised definition. */
  lemma ConstAppContainsDefinition(s: string, appDef: string)
    requires IndexOf(s, "const App").Some?
    ensures Contains(ConstAppSpliced(s, appDef), appDef)
  {
    var c := IndexOf(s, "const App").value;
    ContainsAt(ConstAppSpliced(s, appDef), appDef, c);
  }

  /** The parts of a splice `pre + def + "\n\n" + post` can be read back from it. */
  lemma SplicedParts(pre: string, def: string, post: string)
    ensures var r := pre + def + "\n\n" + post;
            && r[..|pre|] == pre && r[|pre|..|pre| + |def|] == def && r[|pre| + |def| + 2..] == post
  {
    var r := pre + def + "\n\n" + post;
    assert r == pre + (def + ("\n\n" + post));
    assert (def + ("\n\n" + post))[..|def|] == def;
  }

  /** `ReactDOM\.(render|createRoot)`. */
  function RenderCallAt(s: string, p: nat): (r: Option<nat>)
    ensures r.Some? ==> p < r.value <= |s|
    ensures r.Some? <==> At(s, p, "ReactDOM.render") || At(s, p, "ReactDOM.createRoot")
    ensures r.Some? ==> r.value == p + (if At(s, p, "ReactDOM.render") then 15 else 19)
  {
    AtConcat(s, p, "ReactDOM.", "render");
    AtConcat(s, p, "ReactDOM.", "createRoot");
    assert "ReactDOM." + "render" == "ReactDOM.render" && "ReactDOM." + "createRoot" == "ReactDOM.createRoot";
    if !At(s, p, "ReactDOM.") then None
    else if At(s, p + 9, "render") then Some(p + 15)
    else if At(s, p + 9, "createRoot") then Some(p + 19)
    else None
  }

  /** The synthesised `App` inserted before the first render call, or appended. */
  function InsertApp(s: string, appDef: string): (r: string)
    ensures Contains(r, appDef)
  {
    match FirstHit(s, Deleting(RenderCallAt), 0)
    case Some(r) =>
      ContainsInfix(Trim(s[..r]) + "\n\n", appDef, "\n\n" + Trim(s[r..]));
      (Trim(s[..r]) + "\n\n") + appDef + ("\n\n" + Trim(s[r..]))
    case None =>
      ContainsInfix(Trim(s) + "\n\n", appDef, "");
      (Trim(s) + "\n\n") + appDef + ""
  }

  /** The `App` handling after the export passes: replace an arrow `App`, add a missing one, keep a function `App`. */
  function AppEnsured(s: string, appDef: string): (r: string)
    ensures HasFunctionApp(s) && !HasConstApp(s) ==> r == s
    ensures !HasFunctionApp(s) && !HasConstApp(s) ==> Contains(r, appDef)
    ensures HasConstApp(s) && Contains(s, "const App") ==> Contains(r, appDef)
    ensures HasConstApp(s) && !Contains(s, "const App") ==> r == s
  {
    if HasConstApp(s) then
      if Contains(s, "const App") then
        ConstAppContainsDefinition(s, appDef);
        ConstAppSpliced(s, appDef)
      else ConstAppSpliced(s, appDef)
    else if !HasFunctionApp(s) then InsertApp(s, appDef)
    else s
  }

  /** The final check: insert the synthesised `App` when no declaration of `App` is left. */
  function AppGuaranteed(s: string, appDef: string): string {
    if FinalHasApp(s) then s else InsertApp(s, appDef)
  }

  /** After the final check the script always declares `App`. */
  lemma AppAlwaysDeclared(s: string, names: seq<string>)
    ensures FinalHasApp(AppGuaranteed(s, AppDefinition(names)))
  {
    if !FinalHasApp(s) {
      var d := AppDefinition(names);
      AppDefinitionDeclaresApp(names);
      match FirstHit(s, Deleting(RenderCallAt), 0)
      case Some(r) =>
        ContainsWithin(Trim(s[..r]) + "\n\n", d, "\n\n" + Trim(s[r..]), "function App(");
      case None =>
        ContainsWithin(Trim(s) + "\n\n", d, "", "function App(");
    }
  }

  /** Trimming keeps the start of a text that begins with a word of non-space characters. */
  lemma TrimKeepsStart(t: string, w: string)
    requires StartsWith(t, w) && w != [] && forall k :: 0 <= k < |w| ==> !IsSpace(w[k])
    ensures StartsWith(Trim(t), w)
  {
    TrimIsInfix(t);
    var a, b :| 0 <= a <= b <= |t| && Trim(t) == t[a..b]
                && (forall k :: 0 <= k < a ==> IsSpace(t[k]))
                && (forall k :: b <= k < |t| ==> IsSpace(t[k]));
    assert t[0] == w[0];
    assert t[|w| - 1] == w[|w| - 1];
    assert a == 0;
    assert b >= |w|;
    assert t[a..b][..|w|] == t[..|w|];
  }

  /** When there is a render call, the synthesised `App` is inserted right before it. */
  lemma AppBeforeRender(s: string, appDef: string)
    requires Matches(s, Deleting(RenderCallAt))
    ensures var r := FirstHit(s, Deleting(RenderCallAt), 0).value;
            && InsertApp(s, appDef) == (Trim(s[..r]) + "\n\n") + appDef + ("\n\n" + Trim(s[r..]))
            && StartsWith(Trim(s[r..]), "ReactDOM.")
  {
    var r := FirstHit(s, Deleting(RenderCallAt), 0).value;
    assert At(s[r..], 0, "ReactDOM.") by {
      assert s[r..][..9] == s[r..r + 9];
    }
    TrimKeepsStart(s[r..], "ReactDOM.");
  }

  // ---------------------------------------------------------------------------
  // The arrow App and the next-statement search
  // ---------------------------------------------------------------------------

  /** An entry that opens with an arrow `App` and has no `;`. */
  function ArrowApp(body: string): string {
    "const App = " + body
  }

  lemma ArrowAppFound(body: string)
    requires ';' !in body
    ensures IndexOf(ArrowApp(body), "const App") == Some(0)
    ensures IndexOfFrom(ArrowApp(body), ";", 0).None?
  {
    var s := ArrowApp(body);
    assert s[..9] == "const App";
    assert ';' !in s by {
      assert forall k :: 0 <= k < |body| ==> s[12 + k] == body[k];
    }
    CharNotContained(s, ';');
  }

  /**
   * As written, an arrow `App` without `;` is not replaced: the search for the next
   * statement finds its own `const`, so the synthesised `App` is put in front of it and
   * both declarations remain.
   */
  lemma DuplicateAppAsWritten(body: string, appDef: string)
    requires ';' !in body
    ensures ConstAppSplicedAsWritten(ArrowApp(body), appDef) == appDef + "\n\n" + ArrowApp(body)
  {
    var s := ArrowApp(body);
    ArrowAppFound(body);
    assert s[..5] == "const";
    assert NextStatementAt(s, 0) == Some(6);
    assert FirstHit(s, Deleting(NextStatementAt), 0) == Some(0);
  }

  /** A next statement found inside `a + b` past `a` is a keyword of `b`. */
  lemma KeywordInSuffix(a: string, b: string, j: nat, w: string)
    requires |a| <= j
    ensures At(a + b, j, w) ==> Contains(b, w)
  {
    if At(a + b, j, w) {
      assert (a + b)[j..j + |w|] == b[j - |a|..j - |a| + |w|];
      ContainsAt(b, w, j - |a|);
    }
  }

  /**
   * With the search starting ten characters in, an arrow `App` without `;` and without a
   * later statement is replaced through the end of the text.
   */
  lemma ArrowAppReplaced(body: string, appDef: string)
    requires ';' !in body
    requires !Contains(body, "ReactDOM") && !Contains(body, "function") && !Contains(body, "const") && !Contains(body, "var")
    ensures ConstAppSpliced(ArrowApp(body), appDef) == appDef + "\n\n"
  {
    var s := ArrowApp(body);
    ArrowAppFound(body);
    assert s == "const App = " + body;
    assert s[10] == '=' && s[11] == ' ';
    forall j | 10 <= j < |s|
      ensures !HitAt(s, Deleting(NextStatementAt), j)
    {
      NoStatementAfterArrow(body, j);
    }
    assert FirstHit(s, Deleting(NextStatementAt), 10).None?;
  }

  lemma NoStatementAfterArrow(body: string, j: nat)
    requires !Contains(body, "ReactDOM") && !Contains(body, "function") && !Contains(body, "const") && !Contains(body, "var")
    requires 10 <= j
    ensures NextStatementAt(ArrowApp(body), j).None?
  {
    var s := ArrowApp(body);
    if j >= 12 {
      KeywordInSuffix("const App = ", body, j, "ReactDOM");
      KeywordInSuffix("const App = ", body, j, "function");
      KeywordInSuffix("const App = ", body, j, "const");
      KeywordInSuffix("const App = ", body, j, "var");
    } else {
      assert s[10] == '=' && s[11] == ' ';
      assert j + 3 <= |s| ==> s[j..j + 3][0] == s[j];
      assert j + 5 <= |s| ==> s[j..j + 5][0] == s[j];
      assert j + 8 <= |s| ==> s[j..j + 8][0] == s[j];
    }
  }

  // ---------------------------------------------------------------------------
  // The mount point
  // ---------------------------------------------------------------------------

  /** `getElementById\(['"]([^'"]+)['"]\)`, capturing the id. */
  function RootIdAt(s: string, p: nat): (r: Option<Capture>)
    ensures r.Some? ==> p < r.value.end <= |s|
    ensures r.Some? ==>
      var c := p + 16 + |r.value.name|;
      && At(s, p, "getElementById(") && 0 < |r.value.name| && r.value.end == c + 2
      && IsQuote(s[p + 15]) && r.value.name == s[p + 16..c] && IsQuote(s[c]) && s[c + 1] == ')'
      && forall k :: 0 <= k < |r.value.name| ==> !IsQuote(r.value.name[k])
  {
    if !At(s, p, "getElementById(") || p + 15 >= |s| || !IsQuote(s[p + 15]) then None
    else
      var c := FindQuote(s, p + 16);
      if c > p + 16 && c + 1 < |s| && s[c + 1] == ')' then Some(Capture(c + 2, s[p + 16..c])) else None
  }

  /** The id of the first `getElementById('…')` call, else `app`. */
  function RootOf(s: string): (r: string)
    ensures r != ""
    ensures !Contains(s, "getElementById(") ==> r == "app"
  {
    var m := Captured(RootIdAt, x => x);
    match FirstHit(s, m, 0)
    case Some(p) =>
      assert RootIdAt(s, p).Some?;
      m(s, p).value.out
    case None => "app"
  }

  /** The canonical lookup of the element with id `id`. */
  function RootLookup(id: string): string {
    "getElementById('" + id + "')"
  }

  /** The first `getElementById('id')` gives the mount id. */
  lemma RootFromFirstLookup(pre: string, id: string, post: string)
    requires 'g' !in pre && id != [] && forall k :: 0 <= k < |id| ==> !IsQuote(id[k])
    ensures RootOf(pre + RootLookup(id) + post) == id
  {
    var s := pre + RootLookup(id) + post;
    var p := |pre|;
    var e := p + |RootLookup(id)|;
    assert s[p..e] == RootLookup(id);
    RootLookupRecognised(s, p, id, e);
    var m := Captured(RootIdAt, x => x);
    assert HitAt(s, m, p);
    forall j | 0 <= j < p
      ensures !HitAt(s, m, j)
    {
      assert s[j] == pre[j];
      if j + 15 <= |s| {
        assert s[j..j + 15][0] == s[j];
      }
      assert RootIdAt(s, j).None?;
    }
    FirstHitAt(s, m, 0, p);
  }

  lemma RootLookupRecognised(s: string, p: nat, id: string, end: nat)
    requires id != [] && forall k :: 0 <= k < |id| ==> !IsQuote(id[k])
    requires At(s, p, RootLookup(id)) && end == p + |RootLookup(id)|
    ensures end == p + |id| + 18
    ensures RootIdAt(s, p) == Some(Capture(end, id))
  {
    RootLookupText(id);
    RootShapeShift(s, p, RootLookup(id), id);
    RootShapeRecognised(s, p, id, end);
  }

  /** The pieces of `getElementById('ID')` at `p`. */
  predicate RootShape(s: string, p: nat, id: string) {
    var n := |id|;
    && p + n + 18 <= |s| && s[p..p + 15] == "getElementById(" && s[p + 15] == '\''
    && s[p + 16..p + 16 + n] == id && s[p + 16 + n] == '\'' && s[p + 17 + n] == ')'
  }

  /** The canonical lookup has the lookup's shape at its own start. */
  lemma RootLookupText(id: string)
    ensures |RootLookup(id)| == |id| + 18 && RootShape(RootLookup(id), 0, id)
  {
    var n := |id|;
    var look := RootLookup(id);
    var a, c := "getElementById('", "')";
    assert look == a + id + c;
    assert look[..15] == a[..15] == "getElementById(";
    assert look[15] == a[15];
    assert look[16..16 + n] == id;
    assert look[16 + n] == c[0] && look[17 + n] == c[1];
  }

  /** The lookup's shape carries over to any text holding it at `p`. */
  lemma RootShapeShift(s: string, p: nat, line: string, id: string)
    requires At(s, p, line) && RootShape(line, 0, id)
    ensures RootShape(s, p, id)
  {
    var n := |id|;
    var e := p + |line|;
    assert s[p..e] == line;
    SliceOfSlice(s, p, e, 0, 15);
    SliceOfSlice(s, p, e, 16, 16 + n);
    assert s[p + 15] == s[p..e][15] && s[p + 16 + n] == s[p..e][16 + n] && s[p + 17 + n] == s[p..e][17 + n];
  }

  /** Text shaped like the lookup of `id` is matched there, capturing `id`. */
  lemma RootShapeRecognised(s: string, p: nat, id: string, end: nat)
    requires id != [] && forall k :: 0 <= k < |id| ==> !IsQuote(id[k])
    requires RootShape(s, p, id) && end == p + |id| + 18
    ensures RootIdAt(s, p) == Some(Capture(end, id))
  {
    var n := |id|;
    forall k | p + 16 <= k < p + 16 + n
      ensures !IsQuote(s[k])
    {
      assert s[k] == s[p + 16..p + 16 + n][k - p - 16];
    }
    FindQuoteExact(s, p + 16, p + 16 + n);
  }

  lemma {:induction false} FirstHitAt(s: string, m: Matcher, i: nat, p: nat)
    requires i <= p && HitAt(s, m, p)
    requires forall j :: i <= j < p ==> !HitAt(s, m, j)
    ensures FirstHit(s, m, i) == Some(p)
    decreases p - i
  {
    if i < p {
      FirstHitAt(s, m, i + 1, p);
    }
  }
  // ---------------------------------------------------------------------------
  // The whole entry module
  // ---------------------------------------------------------------------------

  /** The entry module after the import, placeholder, export, directive and `App` passes. */
  function EntryProcessed(mainJsx: string, cs: seq<Component>): string {
    var names := ImportNames(cs);
    var resolved := ImportsResolved(SanitizeJsxDollarInterpolation(mainJsx), names);
    AppEnsured(EntryExportsStripped(WithoutPlaceholders(resolved, names)), AppDefinition(AppNames(cs)))
  }

  /** `appCode` for a non-empty entry module. */
  function EntryScript(mainJsx: string, cs: seq<Component>): (r: string)
    ensures FinalHasApp(r)
  {
    AppAlwaysDeclared(EntryProcessed(mainJsx, cs), AppNames(cs));
    AppGuaranteed(EntryProcessed(mainJsx, cs), AppDefinition(AppNames(cs)))
  }

  /** `rootElement` for a non-empty entry module. */
  function EntryRoot(mainJsx: string, cs: seq<Component>): string {
    RootOf(EntryProcessed(mainJsx, cs))
  }

  /** The import passes, one reassignment each. */
  method ResolveImports(s: string, names: seq<string>) returns (processed: string)
    ensures processed == ImportsResolved(s, names)
  {
    processed := ReplaceAll(s, Deleting(ReactDefaultImportAt));
    processed := ReplaceAll(processed, Deleting(ReactDomClientImportAt));
    processed := ReplaceAll(processed, Deleting(ReactDomImportAt));
    processed := ReplaceAll(processed, Deleting(NamedImportAt));
    processed := ReplaceAll(processed, Captured(DefaultImportAt, BindingOut(names)));
    processed := ReplaceAll(processed, Captured(NamedImportListAt, NamedListOut(names)));
    processed := ReplaceAll(processed, Captured(NamespaceImportAt, NamespaceOut()));
    processed := ReplaceAll(processed, Deleting(SideEffectImportAt));
    processed := ReplaceAll(processed, Captured(LooseDefaultImportAt, BindingOut(names)));
    processed := ReplaceAll(processed, Captured(ImportLineWithBindingAt, BindingOut(names)));
    processed := ReplaceAll(processed, Deleting(ImportLineAt));
  }

  /** The export and directive passes, one reassignment each. */
  method StripExports(s: string) returns (processed: string)
    ensures processed == EntryExportsStripped(s)
  {
    processed := ReplaceAll(s, ExportDefaultSpacesMatch());
    processed := ReplaceAll(processed, Deleting(ExportFromAt));
    processed := ReplaceAll(processed, Deleting(ExportKeywordAt));
    processed := ReplaceAll(processed, ToLineBreak(UseDirectiveAt));
    processed := ReplaceAll(processed, ToLineBreak(ReactDestructureAt));
  }

  /**
   * The `App` handling: the arrow `App` spliced out, or a missing `App` inserted. The
   * statement search starts ten characters into the arrow `App`, the corrected splice.
   */
  method EnsureApp(s: string, appDefinition: string) returns (processed: string)
    ensures processed == AppEnsured(s, appDefinition)
  {
    processed := s;
    if HasConstApp(processed) {
      var constStart := IndexOf(processed, "const App");
      if constStart.Some? {
        var c := constStart.value;
        var constEnd: nat;
        var semicolon := IndexOfFrom(processed, ";", c);
        if semicolon.None? {
          var next := if c + 10 <= |processed| then FirstHit(processed, Deleting(NextStatementAt), c + 10) else None;
          constEnd := if next.Some? then next.value else |processed|;
        } else {
          constEnd := semicolon.value + 1;
        }
        processed := processed[..c] + appDefinition + "\n\n" + processed[constEnd..];
      }
    } else if !HasFunctionApp(processed) {
      processed := InsertApp(processed, appDefinition);
    }
  }

  /** `rootElement`: `app` unless a `getElementById('…')` call names the mount point. */
  method FindRoot(s: string) returns (rootElement: string)
    ensures rootElement == RootOf(s) && rootElement != ""
  {
    rootElement := "app";
    var rootHit := FirstHit(s, Captured(RootIdAt, x => x), 0);
    if rootHit.Some? {
      rootElement := RootIdAt(s, rootHit.value).value.name;
    }
  }

  /**
   * The `mainJsx` branch of `loadContent`: the script always declares `App`, and the
   * mount id is the first `getElementById` argument (else `app`).
   */
  method ProcessEntry(mainJsx: string, cs: seq<Component>) returns (appCode: string, rootElement: string)
    ensures appCode == EntryScript(mainJsx, cs) && FinalHasApp(appCode)
    ensures rootElement == EntryRoot(mainJsx, cs) && rootElement != ""
  {
    var names := ImportNames(cs);
    var processed := SanitizeJsxDollarInterpolation(mainJsx);
    processed := ResolveImports(processed, names);
    processed := RemovePlaceholders(processed, names);
    processed := StripExports(processed);
    var appDefinition := AppDefinition(AppNames(cs));
    processed := EnsureApp(processed, appDefinition);
    rootElement := FindRoot(processed);
    if !FinalHasApp(processed) {
      processed := InsertApp(processed, appDefinition);
    }
    AppAlwaysDeclared(EntryProcessed(mainJsx, cs), AppNames(cs));
    appCode := processed;
  }
}

=== FILE: preview_legacy.dfy ===
/**
 * The legacy document of the preview (frontend/src/components/WebsitePreview.tsx, the
 * branch of `loadContent` for a project without components): a full HTML page is kept
 * and receives the CSS and the JavaScript before its first `</head>` and `</body>` when it
 * has no style or script element of its own; anything else is placed in a fixed shell.
 *
 * The source inserts with `content.replace('</body>', `<script>${js}</script></body>`)`.
 * A replacement string is not literal in JavaScript: `$'`, `$&`, `` $` `` and `$$` in it
 * are expanded (GetSubstitution, section 22.1.3.19.1 of ECMA-262). Script text such as
 * `p = '$'` therefore splices the rest of the page into the script.
 * `ReplaceTextAsWritten` keeps that expansion and `DollarQuoteSplicesTailAsWritten`
 * exhibits it; `ReplaceText` inserts the text literally, and the rest of the model uses it.
 */
module PreviewLegacy {
  import opened Wrappers
  import opened Text
  import opened PreviewReact

  /** `hasFullHtml`: non-empty markup that, trimmed and lower-cased, names a doctype or an `html` element. */
  predicate HasFullHtml(html: string) {
    html != "" && (Contains(ToLower(Trim(html)), "<!doctype") || Contains(ToLower(Trim(html)), "<html"))
  }

  // ---------------------------------------------------------------------------
  // Replacing the first occurrence of a text
  // ---------------------------------------------------------------------------

  /**
   * The expansion of a replacement string for a match without capture groups: `$$` is a
   * dollar, `$&` the match, `` $` `` the text before it, `$'` the text after it; any other
   * dollar stays as it is.
   */
  function Substitute(repl: string, matched: string, before: string, after: string): string
    decreases |repl|
  {
    if |repl| == 0 then ""
    else if repl[0] == '$' && |repl| >= 2 && repl[1] in "$&`'" then
      var expanded :=
        if repl[1] == '$' then "$"
        else if repl[1] == '&' then matched
        else if repl[1] == '`' then before
        else after;
      expanded + Substitute(repl[2..], matched, before, after)
    else [repl[0]] + Substitute(repl[1..], matched, before, after)
  }

  /**
   * `s.replace(target, repl)` with a string pattern, as JavaScript evaluates it: text
   * without the target is unchanged, and otherwise what precedes and what follows the
   * first occurrence is kept.
   */
  function ReplaceTextAsWritten(s: string, target: string, repl: string): (r: string)
    ensures !Contains(s, target) ==> r == s
    ensures Contains(s, target) ==>
              var i := IndexOf(s, target).value;
              i + |target| <= |s| && i <= |r| && r[..i] == s[..i] && EndsWith(r, s[i + |target|..])
  {
    match IndexOf(s, target)
    case None => s
    case Some(i) =>
      var mid := Substitute(repl, target, s[..i], s[i + |target|..]);
      SplicedAround(s[..i], mid, s[i + |target|..]);
      s[..i] + mid + s[i + |target|..]
  }

  /**
   * The first occurrence of `target` replaced by `repl` taken literally: the same, with
   * `repl` itself standing where the target stood.
   */
  function ReplaceText(s: string, target: string, repl: string): (r: string)
    ensures !Contains(s, target) ==> r == s
    ensures Contains(s, target) ==>
              var i := IndexOf(s, target).value;
              i + |target| <= |s| && i <= |r| && r[..i] == s[..i] && EndsWith(r, s[i + |target|..])
              && |r| == |s| - |target| + |repl| && r[i..i + |repl|] == repl
  {
    match IndexOf(s, target)
    case None => s
    case Some(i) =>
      SplicedAround(s[..i], repl, s[i + |target|..]);
      s[..i] + repl + s[i + |target|..]
  }

  /** The parts of `pre + mid + post` can be read back from it. */
  lemma SplicedAround(pre: string, mid: string, post: string)
    ensures var r := pre + mid + post;
            && r[..|pre|] == pre && r[|pre|..|pre| + |mid|] == mid && EndsWith(r, post)
  {
    var r := pre + mid + post;
    assert r[|r| - |post|..] == post;
    assert r == pre + (mid + post);
    assert (mid + post)[..|mid|] == mid;
  }

  /** A dollar-free prefix of a replacement string is copied as it is. */
  lemma {:induction false} SubstitutePlainPrefix(x: string, y: string, matched: string, before: string, after: string)
    requires '$' !in x
    ensures Substitute(x + y, matched, before, after) == x + Substitute(y, matched, before, after)
    decreases |x|
  {
    if |x| > 0 {
      assert x[0] in x;
      assert (x + y)[0] == x[0] && (x + y)[1..] == x[1..] + y;
      assert Substitute(x + y, matched, before, after) == [x[0]] + Substitute(x[1..] + y, matched, before, after);
      assert forall k :: 0 <= k < |x[1..]| ==> x[1..][k] in x;
      SubstitutePlainPrefix(x[1..], y, matched, before, after);
      assert x == [x[0]] + x[1..];
    } else {
      assert x + y == y;
    }
  }

  /** A replacement without a dollar is inserted literally. */
  lemma NoDollarLiteral(s: string, target: string, repl: string)
    requires '$' !in repl
    ensures ReplaceTextAsWritten(s, target, repl) == ReplaceText(s, target, repl)
  {
    if IndexOf(s, target).Some? {
      var i := IndexOf(s, target).value;
      SubstitutePlainPrefix(repl, "", target, s[..i], s[i + |target|..]);
      assert repl + "" == repl;
    }
  }

  /** Replacing a tag by `ins + tag` inserts `ins` right before the first occurrence of the tag and keeps everything else. */
  lemma InsertsBefore(s: string, tag: string, ins: string)
    requires Contains(s, tag)
    ensures ReplaceText(s, tag, ins + tag) == s[..IndexOf(s, tag).value] + ins + s[IndexOf(s, tag).value..]
  {
    var i := IndexOf(s, tag).value;
    assert s[i..] == tag + s[i + |tag|..];
  }

  /** `<script>JS</script>`. */
  function ScriptElement(js: string): string {
    "<script>" + js + "</script>"
  }

  /** `<style>CSS</style>`. */
  function StyleElement(css: string): string {
    "<style>" + css + "</style>"
  }

  /** The text that replaces `</body>`: the script element, then the tag. */
  function ScriptInsertion(js: string): string {
    ScriptElement(js) + "</body>"
  }

  /** A replacement made of dollar-free text around one `$'` expands to that text around what follows the match. */
  lemma SubstituteAfter(x: string, y: string, matched: string, before: string, after: string)
    requires '$' !in x && '$' !in y
    ensures Substitute(x + "$'" + y, matched, before, after) == x + after + y
  {
    assert x + "$'" + y == x + ("$'" + y);
    SubstitutePlainPrefix(x, "$'" + y, matched, before, after);
    assert ("$'" + y)[0] == '$' && ("$'" + y)[1] == '\'' && ("$'" + y)[2..] == y;
    assert Substitute("$'" + y, matched, before, after) == after + Substitute(y, matched, before, after);
    SubstitutePlainPrefix(y, "", matched, before, after);
    assert y + "" == y;
  }

  lemma DollarFree(x: string, y: string)
    requires '$' !in x && '$' !in y
    ensures '$' !in x + y
  {
  }

  /**
   * Script text holding `$'` (as in `p = '$'`), inserted as written, carries a copy of
   * everything after the page's first `</body>` inside the script; inserted literally it
   * does not, and the two pages differ whenever that tail is not two characters long.
   */
  lemma DollarQuoteSplicesTailAsWritten(page: string, a: string, b: string)
    requires Contains(page, "</body>")
    requires '$' !in a && '$' !in b
    ensures var i := IndexOf(page, "</body>").value;
            var tail := page[i + 7..];
            && ReplaceTextAsWritten(page, "</body>", ScriptInsertion(a + "$'" + b))
               == page[..i] + "<script>" + a + tail + b + "</script></body>" + tail
            && ReplaceText(page, "</body>", ScriptInsertion(a + "$'" + b))
               == page[..i] + "<script>" + a + "$'" + b + "</script></body>" + tail
            && (|tail| != 2 ==> ReplaceTextAsWritten(page, "</body>", ScriptInsertion(a + "$'" + b))
                                != ReplaceText(page, "</body>", ScriptInsertion(a + "$'" + b)))
  {
    var i := IndexOf(page, "</body>").value;
    var tail := page[i + 7..];
    DollarQuoteAsWritten(page, a, b, i, tail);
    DollarQuoteLiteral(page, a, b, i, tail);
  }

  /** As written, the `$'` of the script expands to the text after the first `</body>`. */
  lemma DollarQuoteAsWritten(page: string, a: string, b: string, i: nat, tail: string)
    requires IndexOf(page, "</body>") == Some(i) && tail == page[i + 7..]
    requires '$' !in a && '$' !in b
    ensures ReplaceTextAsWritten(page, "</body>", ScriptInsertion(a + "$'" + b))
            == page[..i] + "<script>" + a + tail + b + "</script></body>" + tail
  {
    var open, close := "<script>", "</script>" + "</body>";
    var rest := b + close;
    assert ScriptInsertion(a + "$'" + b) == (open + a) + "$'" + rest;
    DollarFree(open, a);
    DollarFree(b, close);
    SubstituteAfter(open + a, rest, "</body>", page[..i], tail);
  }

  /** Taken literally, the script keeps its `$'`. */
  lemma DollarQuoteLiteral(page: string, a: string, b: string, i: nat, tail: string)
    requires IndexOf(page, "</body>") == Some(i) && tail == page[i + 7..]
    ensures ReplaceText(page, "</body>", ScriptInsertion(a + "$'" + b))
            == page[..i] + "<script>" + a + "$'" + b + "</script></body>" + tail
  {
  }

  // ---------------------------------------------------------------------------
  // The document
  // ---------------------------------------------------------------------------

  /** An element with dollar-free content, put before a tag, is inserted literally by the replacement as written. */
  lemma ElementLiteral(s: string, tag: string, open: string, body: string, close: string)
    requires '$' !in open && '$' !in body && '$' !in close && '$' !in tag
    ensures ReplaceTextAsWritten(s, tag, open + body + close + tag) == ReplaceText(s, tag, open + body + close + tag)
  {
    DollarFree(open, body);
    DollarFree(open + body, close);
    DollarFree(open + body + close, tag);
    NoDollarLiteral(s, tag, open + body + close + tag);
  }

  /** The CSS before the first `</head>`, unless the markup has a style element or there is no CSS. */
  function WithStyle(html: string, css: string): string {
    if !Contains(html, "<style>") && css != "" then ReplaceText(html, "</head>", StyleElement(css) + "</head>")
    else html
  }

  /** The script before the first `</body>`, unless the original markup has a script element or there is no script. */
  function WithScript(content: string, html: string, js: string): string {
    if !Contains(html, "<script>") && js != "" then ReplaceText(content, "</body>", ScriptInsertion(js))
    else content
  }

  const ShellHead := "\n            <!DOCTYPE html>\n            <html lang=\"en\">\n            <head>\n              <meta charset=\"UTF-8\">\n              <meta name=\"viewport\" content=\"width=device-width, initial-scale=1.0\">\n              "
  const ShellStyle := "\n              <style>\n                * {\n                  box-sizing: border-box;\n                }\n                body {\n                  margin: 0;\n                  padding: 0;\n                  font-family: -apple-system, BlinkMacSystemFont, 'Segoe UI', 'Roboto', 'Oxygen', 'Ubuntu', 'Cantarell', 'Fira Sans', 'Droid Sans', 'Helvetica Neue', sans-serif;\n                }\n                  "
  const ShellBody := "\n              </style>\n            </head>\n            <body>\n                "
  const ShellScript := "\n              <script>\n                  "
  const ShellTail := "\n              </script>\n            </body>\n            </html>\n          "

  /** The page around markup that is not a full document. */
  function LegacyShell(title: string, css: string, html: string, js: string): string {
    ShellHead + TitleElement(title) + ShellStyle + css + ShellBody + html + ShellScript + js + ShellTail
  }

  /**
   * The legacy document for the markup, the CSS, the script and the site name: a full
   * document with its own style and script elements is shown as it is; other markup goes
   * into the shell with the CSS, the script and the title.
   */
  function LegacyDocument(html: string, css: string, js: string, websiteName: string): (r: string)
    ensures HasFullHtml(html) && Contains(html, "<style>") && Contains(html, "<script>") ==> r == html
    ensures !HasFullHtml(html) ==>
              && Contains(r, TitleElement(Title(websiteName)))
              && Contains(r, html) && Contains(r, css) && Contains(r, js)
  {
    if HasFullHtml(html) then WithScript(WithStyle(html, css), html, js)
    else
      LegacyShellContents(Title(websiteName), css, html, js);
      LegacyShell(Title(websiteName), css, html, js)
  }

  /** The shell carries the title, the CSS, the markup and the script. */
  lemma LegacyShellContents(title: string, css: string, html: string, js: string)
    ensures var page := LegacyShell(title, css, html, js);
            && Contains(page, TitleElement(title)) && Contains(page, css)
            && Contains(page, html) && Contains(page, js)
  {
    var t := TitleElement(title);
    var p1 := ShellHead + t;
    var p2 := p1 + ShellStyle + css;
    var p3 := p2 + ShellBody + html;
    var p4 := p3 + ShellScript + js;
    ContainsLast(ShellHead, t);
    ContainsExtend(p1, ShellStyle, t);
    ContainsExtend(p1 + ShellStyle, css, t);
    ContainsLast(p1 + ShellStyle, css);
    ContainsExtend(p2, ShellBody, t);
    ContainsExtend(p2, ShellBody, css);
    ContainsExtend(p2 + ShellBody, html, t);
    ContainsExtend(p2 + ShellBody, html, css);
    ContainsLast(p2 + ShellBody, html);
    ContainsExtend(p3, ShellScript, t);
    ContainsExtend(p3, ShellScript, css);
    ContainsExtend(p3, ShellScript, html);
    ContainsExtend(p3 + ShellScript, js, t);
    ContainsExtend(p3 + ShellScript, js, css);
    ContainsExtend(p3 + ShellScript, js, html);
    ContainsLast(p3 + ShellScript, js);
    ContainsExtend(p4, ShellTail, t);
    ContainsExtend(p4, ShellTail, css);
    ContainsExtend(p4, ShellTail, html);
    ContainsExtend(p4, ShellTail, js);
  }

  /**
   * A full document without a style element receives the CSS immediately before its first
   * `</head>`; when it has its own script element nothing else changes. When the CSS has
   * no `$`, the replacement as JavaScript evaluates it gives the same page.
   */
  lemma StyleInsertedBeforeHead(html: string, css: string, js: string, websiteName: string)
    requires HasFullHtml(html) && !Contains(html, "<style>") && css != "" && Contains(html, "</head>")
    requires Contains(html, "<script>")
    ensures var i := IndexOf(html, "</head>").value;
            && LegacyDocument(html, css, js, websiteName) == html[..i] + StyleElement(css) + html[i..]
            && ('$' !in css ==>
                  ReplaceTextAsWritten(html, "</head>", StyleElement(css) + "</head>") == html[..i] + StyleElement(css) + html[i..])
  {
    InsertsBefore(html, "</head>", StyleElement(css));
    if '$' !in css {
      ElementLiteral(html, "</head>", "<style>", css, "</style>");
    }
  }

  /**
   * A full document without a script element receives the script immediately before the
   * first `</body>`; when it has its own style element nothing else changes. When the
   * script has no `$`, the replacement as JavaScript evaluates it gives the same page.
   */
  lemma ScriptInsertedBeforeBody(html: string, css: string, js: string, websiteName: string)
    requires HasFullHtml(html) && !Contains(html, "<script>") && js != "" && Contains(html, "</body>")
    requires Contains(html, "<style>")
    ensures var i := IndexOf(html, "</body>").value;
            && LegacyDocument(html, css, js, websiteName) == html[..i] + ScriptElement(js) + html[i..]
            && ('$' !in js ==>
                  ReplaceTextAsWritten(html, "</body>", ScriptInsertion(js)) == html[..i] + ScriptElement(js) + html[i..])
  {
    assert WithStyle(html, css) == html;
    InsertsBefore(html, "</body>", ScriptElement(js));
    if '$' !in js {
      ElementLiteral(html, "</body>", "<script>", js, "</script>");
    }
  }
}

=== FILE: preview_react.dfy ===
/**
 * The React document of the preview (frontend/src/components/WebsitePreview.tsx, the
 * `usesReact` branch of `loadContent`): the CDN scripts, a guard that reports errors in
 * the mount element, fallback declarations for the preview data names the code leaves
 * undeclared, the wrapped component definitions, and the entry module's script (or a
 * synthesised `App` when there is no entry module).
 */
module PreviewReact {
  import opened Wrappers
  import opened Text
  import opened Rewrite
  import opened Project
  import opened PreviewSelect
  import opened PreviewComponent
  import opened PreviewEntry
  import opened Patterns

  // ---------------------------------------------------------------------------
  // Pieces shared by the documents
  // ---------------------------------------------------------------------------

  /** `websiteName || 'Generated Website'`. */
  function Title(websiteName: string): string {
    Or(websiteName, "Generated Website")
  }

  function TitleElement(title: string): string {
    "<title>" + title + "</title>"
  }

  /** The element the page mounts into. */
  function MountDiv(id: string): string {
    "<div id=\"" + id + "\"></div>"
  }

  // ---------------------------------------------------------------------------
  // The synthesised App when there is no entry module
  // ---------------------------------------------------------------------------

  const DefaultAppIndent := "\n                  "
  const DefaultAppOpen := ") {\n                    return (\n                      <>\n                        "
  const DefaultAppHead := DefaultAppIndent + "function App(" + DefaultAppOpen
  const DefaultTagSeparator := "\n                        "
  const DefaultAppMount := "\n                      </>\n                    );\n                  }\n                  \n                  var rootEl = document."
  const DefaultAppTail := ";\n                  if (rootEl && typeof ReactDOM.createRoot === 'function') {\n                    ReactDOM.createRoot(rootEl).render(<App />);\n                  } else if (rootEl) {\n                    ReactDOM.render(<App />, rootEl);\n                  }\n                "

  /** The `App` that renders the `jsx`/`js` components in order and mounts at `root`. */
  function DefaultAppScript(names: seq<string>, root: string): string {
    DefaultAppHead + Join(Tags(names), DefaultTagSeparator) + DefaultAppMount + RootLookup(root) + DefaultAppTail
  }

  /** Regrouping a concatenation after its second part. */
  lemma Regroup5(a: string, b: string, c: string, d: string, e: string)
    ensures a + b + c + d + e == a + b + (c + d + e)
  {
  }

  /** Regrouping a concatenation around its second part. */
  lemma Regroup7(a: string, b: string, c: string, d: string, e: string, f: string, g: string)
    ensures a + b + c + d + e + f + g == a + b + (c + d + e + f + g)
  {
  }

  /** The synthesised script declares `App`. */
  lemma DefaultAppDeclaresApp(names: seq<string>, root: string)
    ensures FinalHasApp(DefaultAppScript(names, root))
  {
    var tags := Join(Tags(names), DefaultTagSeparator);
    var lookup := RootLookup(root);
    ContainsInfix(DefaultAppIndent, "function App(", DefaultAppOpen + tags + DefaultAppMount + lookup + DefaultAppTail);
    Regroup7(DefaultAppIndent, "function App(", DefaultAppOpen, tags, DefaultAppMount, lookup, DefaultAppTail);
  }

  /** The synthesised script looks up its mount element. */
  lemma DefaultAppLooksUpRoot(names: seq<string>, root: string)
    ensures Contains(DefaultAppScript(names, root), RootLookup(root))
  {
    ContainsInfix(DefaultAppHead + Join(Tags(names), DefaultTagSeparator) + DefaultAppMount, RootLookup(root), DefaultAppTail);
  }

  /** The synthesised `App` renders each component. */
  lemma DefaultAppRendersEach(names: seq<string>, root: string, k: nat)
    requires k < |names|
    ensures Contains(DefaultAppScript(names, root), "<" + names[k] + " />")
  {
    var tags := Join(Tags(names), DefaultTagSeparator);
    var tail := DefaultAppMount + RootLookup(root) + DefaultAppTail;
    JoinContains(Tags(names), DefaultTagSeparator, k);
    ContainsWithin(DefaultAppHead, tags, tail, Tags(names)[k]);
    Regroup5(DefaultAppHead, tags, DefaultAppMount, RootLookup(root), DefaultAppTail);
  }

  // ---------------------------------------------------------------------------
  // Fallback data declarations
  // ---------------------------------------------------------------------------

  /** `\b(const|let|var)\s+name\b` at `p`: the offset after the name. */
  function DataDeclarationAt(s: string, p: nat, name: string): (r: Option<nat>)
    ensures r.Some? ==> p < r.value <= |s|
    ensures r.Some? <==> (&& p <= |s| && (p == 0 || !IsWordChar(s[p - 1]))
                          && KeywordSpaces(s, p, KeywordAt(s, p)).Some?
                          && At(s, KeywordSpaces(s, p, KeywordAt(s, p)).value, name)
                          && WordBoundary(s, KeywordSpaces(s, p, KeywordAt(s, p)).value + |name|))
    ensures r.Some? ==> r.value == KeywordSpaces(s, p, KeywordAt(s, p)).value + |name|
  {
    if p > |s| || (p > 0 && IsWordChar(s[p - 1])) then None
    else
      match KeywordSpaces(s, p, KeywordAt(s, p))
      case None => None
      case Some(n) =>
        if At(s, n, name) && WordBoundary(s, n + |name|) then Some(n + |name|) else None
  }

  function DataDeclarationMatch(name: string): Matcher {
    Deleting((s: string, p: nat) => DataDeclarationAt(s, p, name))
  }

  /** `new RegExp('\\b(const|let|var)\\s+' + name + '\\b').test(code)`. */
  predicate Declares(code: string, name: string) {
    Matches(code, DataDeclarationMatch(name))
  }

  /** The names of `names` that `code` does not declare, in order. */
  function UndeclaredNames(names: seq<string>, code: string): (r: seq<string>)
    ensures |r| <= |names|
    ensures forall x :: x in r <==> x in names && !Declares(code, x)
  {
    if |names| == 0 then []
    else
      var rest := UndeclaredNames(names[1..], code);
      assert forall x :: x in names <==> x == names[0] || x in names[1..];
      if Declares(code, names[0]) then rest else [names[0]] + rest
  }

  /** The undeclared names are filtered name by name, so they keep the order of `names`. */
  lemma {:induction false} UndeclaredNamesInOrder(a: seq<string>, b: seq<string>, code: string)
    ensures UndeclaredNames(a + b, code) == UndeclaredNames(a, code) + UndeclaredNames(b, code)
    ensures |a| == 1 ==> UndeclaredNames(a, code) == (if Declares(code, a[0]) then [] else [a[0]])
  {
    if |a| > 0 {
      var ab := a + b;
      assert ab[0] == a[0] && ab[1..] == a[1..] + b;
      UndeclaredNamesInOrder(a[1..], b, code);
      var rest := UndeclaredNames(a[1..], code);
      if Declares(code, a[0]) {
        assert UndeclaredNames(ab, code) == UndeclaredNames(a[1..] + b, code);
        assert UndeclaredNames(a, code) == rest;
      } else {
        assert UndeclaredNames(ab, code) == [a[0]] + UndeclaredNames(a[1..] + b, code);
        assert UndeclaredNames(a, code) == [a[0]] + rest;
      }
      assert |a| == 1 ==> a[1..] == [] && rest == [];
    } else {
      assert a + b == b;
    }
  }

  function FallbackLine(name: string): string {
    "if (typeof " + name + " === 'undefined') { var " + name + " = []; }"
  }

  function FallbackLinesOf(names: seq<string>): (r: seq<string>)
    ensures |r| == |names|
    ensures forall k :: 0 <= k < |names| ==> r[k] == FallbackLine(names[k])
  {
    seq(|names|, k requires 0 <= k < |names| => FallbackLine(names[k]))
  }

  /** `reactFallbackLines` for the user code `code`. */
  function ReactFallbacks(code: string): string {
    Join(FallbackLinesOf(UndeclaredNames(PreviewDataNames, code)), "\n        ")
  }

  /** A data name the code does not declare gets its fallback line. */
  lemma FallbackForUndeclared(code: string, name: string)
    requires name in PreviewDataNames && !Declares(code, name)
    ensures Contains(ReactFallbacks(code), FallbackLine(name))
  {
    var names := UndeclaredNames(PreviewDataNames, code);
    var k :| 0 <= k < |names| && names[k] == name;
    JoinContainsPart(FallbackLinesOf(names), "\n        ", k);
    var pre, post :| ReactFallbacks(code) == pre + FallbackLinesOf(names)[k] + post;
    ContainsInfix(pre, FallbackLine(name), post);
  }

  /** A hit of the pattern somewhere makes `test` succeed. */
  lemma HitMatches(s: string, m: Matcher, i: nat)
    requires HitAt(s, m, i)
    ensures Matches(s, m)
  {
  }

  /** The declaration keyword the pattern tries at `p`: the one the text holds there. */
  function KeywordAt(s: string, p: nat): string {
    if At(s, p, "const") then "const" else if At(s, p, "let") then "let" else "var"
  }

  lemma KeywordAtIs(s: string, p: nat, kw: string)
    requires kw == "const" || kw == "let" || kw == "var"
    requires At(s, p, kw)
    ensures KeywordAt(s, p) == kw
  {
    assert s[p] == kw[0];
  }

  /** A keyword followed by one space and a non-space character. */
  lemma KeywordThenSpace(s: string, p: nat, kw: string)
    requires At(s, p, kw) && p + |kw| + 1 < |s|
    requires s[p + |kw|] == ' ' && !IsSpace(s[p + |kw| + 1])
    ensures KeywordSpaces(s, p, kw) == Some(p + |kw| + 1)
  {
  }

  /** After a name of word characters, a non-word character or the end is a word boundary. */
  lemma NameThenBoundary(s: string, n: nat, name: string)
    requires At(s, n, name) && |name| > 0 && IsWordChar(name[|name| - 1])
    requires n + |name| == |s| || !IsWordChar(s[n + |name|])
    ensures WordBoundary(s, n + |name|)
  {
    assert s[n + |name| - 1] == s[n..n + |name|][|name| - 1];
  }

  /** A keyword, one space and a whole-word name at `p`, with word boundaries around them. */
  predicate DeclarationShape(s: string, p: nat, kw: string, name: string) {
    && (kw == "const" || kw == "let" || kw == "var")
    && |name| > 0 && IsWordChar(name[0]) && IsWordChar(name[|name| - 1])
    && p + |kw| + 1 + |name| <= |s| && At(s, p, kw) && s[p + |kw|] == ' ' && At(s, p + |kw| + 1, name)
    && s[p + |kw| + 1] == name[0]
    && (p == 0 || !IsWordChar(s[p - 1]))
    && (p + |kw| + 1 + |name| == |s| || !IsWordChar(s[p + |kw| + 1 + |name|]))
  }

  /** `kw name` with a word boundary on both sides is a declaration of the name. */
  lemma DeclarationAtSeen(s: string, p: nat, kw: string, name: string)
    requires DeclarationShape(s, p, kw, name)
    ensures DataDeclarationAt(s, p, name) == Some(p + |kw| + 1 + |name|)
  {
    var n := p + |kw| + 1;
    KeywordAtIs(s, p, kw);
    KeywordThenSpace(s, p, kw);
    var k := KeywordAt(s, p);
    assert KeywordSpaces(s, p, k) == Some(n);
    NameThenBoundary(s, n, name);
    assert At(s, n, name) && WordBoundary(s, n + |name|);
  }

  /** Where the keyword, the space, the name and the texts around them sit in a declaration. */
  lemma DeclarationLayout(pre: string, kw: string, name: string, post: string)
    requires kw == "const" || kw == "let" || kw == "var"
    requires |name| > 0 && forall k :: 0 <= k < |name| ==> IsWordChar(name[k])
    requires pre == "" || !IsWordChar(pre[|pre| - 1])
    requires post == "" || !IsWordChar(post[0])
    ensures DeclarationShape(pre + kw + " " + name + post, |pre|, kw, name)
  {
    var s := pre + kw + " " + name + post;
    var p := |pre|;
    var n := p + |kw| + 1;
    assert s[p..p + |kw|] == kw;
    assert s[n..n + |name|] == name;
    assert n + |name| < |s| ==> s[n + |name|] == post[0];
    assert p > 0 ==> s[p - 1] == pre[|pre| - 1];
    assert IsWordChar(name[|name| - 1]);
  }

  /**
   * A `const`, `let` or `var` declaration of the name that stands as a whole word is seen,
   * so such a name gets no fallback line.
   */
  lemma DeclarationSuppressesFallback(pre: string, kw: string, name: string, post: string)
    requires kw == "const" || kw == "let" || kw == "var"
    requires |name| > 0 && forall k :: 0 <= k < |name| ==> IsWordChar(name[k])
    requires pre == "" || !IsWordChar(pre[|pre| - 1])
    requires post == "" || !IsWordChar(post[0])
    ensures Declares(pre + kw + " " + name + post, name)
    ensures name !in UndeclaredNames(PreviewDataNames, pre + kw + " " + name + post)
  {
    DeclarationLayout(pre, kw, name, post);
    DeclarationAtSeen(pre + kw + " " + name + post, |pre|, kw, name);
    HitMatches(pre + kw + " " + name + post, DataDeclarationMatch(name), |pre|);
  }

  // ---------------------------------------------------------------------------
  // The page
  // ---------------------------------------------------------------------------

  const DocumentHead := "<!DOCTYPE html>\n<html lang=\"en\">\n<head>\n  <meta charset=\"UTF-8\">\n  <meta name=\"viewport\" content=\"width=device-width, initial-scale=1.0\">\n  "
  const ReactStyle := "\n  <style>\n    * { margin: 0; padding: 0; box-sizing: border-box; }\n    body { font-family: -apple-system, BlinkMacSystemFont, 'Segoe UI', 'Roboto', sans-serif; }\n    "
  const StyleClose := "\n  </style>\n</head>\n<body>\n  "
  const ReactScripts := "\n  <script crossorigin src=\"https://unpkg.com/react@18/umd/react.development.js\"></script>\n  <script crossorigin src=\"https://unpkg.com/react-dom@18/umd/react-dom.development.js\"></script>\n  <script src=\"https://unpkg.com/@babel/standalone/babel.min.js\"></script>\n  <script type=\"text/babel\" data-presets=\"react\">\n    (function() {\n      try {\n        // Check if React and ReactDOM are loaded\n        if (typeof React === 'undefined') {\n          throw new Error('React library not loaded');\n        }\n        if (typeof ReactDOM === 'undefined') {\n          throw new Error('ReactDOM library not loaded');\n        }\n        \n        // Make React hooks available\n        const { useState, useEffect, useRef, useCallback, useMemo, useContext } = React;\n        \n        // Define common data variables only if user code does not declare them (avoids \"already been declared\" errors)\n        "
  const ReactDefsGap := "\n        \n        // Each component in its own scope so duplicate names (PlayIcon, etc.) across files don't conflict\n        "
  const ReactAppGap := "\n        \n        // App initialization\n        "
  const ReactGuard := "\n        \n        // Final check: Ensure App is defined\n        if (typeof App === 'undefined') {\n          throw new Error('App component is not defined. Available components: ' + Object.keys(window).filter(k => k.match(/^[A-Z]/)).join(', '));\n        }\n      } catch (error) {\n        console.error('React compilation/execution error:', error);\n        const container = document."
  const ReactTail := ";\n        if (container) {\n          container.innerHTML = '<div style=\"padding: 20px; color: red; font-family: monospace; background: #fee; border: 2px solid red; margin: 20px;\">' +\n            '<h3 style=\"margin-top: 0;\">React Error:</h3>' +\n            '<p><strong>' + error.message + '</strong></p>' +\n            '<pre style=\"overflow: auto; white-space: pre-wrap; background: #fff; padding: 10px; border-radius: 4px;\">' + \n            (error.stack || error.toString()) + '</pre>' +\n            '</div>';\n        }\n      }\n    })();\n  </script>\n</body>\n</html>"

  /** The page head: doctype, title and styles. */
  function ReactPageHead(title: string, css: string): string {
    DocumentHead + TitleElement(title) + ReactStyle + css + StyleClose
  }

  /** The page around its script parts. */
  function ReactPage(title: string, css: string, root: string, fallbacks: string, defs: string, appCode: string): string {
    ReactPageHead(title, css) + MountDiv(root) + (ReactScripts + fallbacks + ReactDefsGap) + defs
    + ReactAppGap + appCode + ReactGuard + RootLookup(root) + ReactTail
  }

  /** The entry module: `viteConfig.mainJsx || viteConfig.mainJs`. */
  function EntryModule(cfg: ViteConfig): string {
    Or(cfg.mainJsx, cfg.mainJs)
  }

  /** `appCode`: the processed entry module, or the synthesised `App`. */
  function ReactAppCode(cfg: ViteConfig, cs: seq<Component>): string {
    var mainJsx := EntryModule(cfg);
    if mainJsx != "" then EntryScript(mainJsx, cs) else DefaultAppScript(AppNames(cs), "app")
  }

  /** `rootElement`: found in the processed entry module, or `app`. */
  function ReactRoot(cfg: ViteConfig, cs: seq<Component>): string {
    var mainJsx := EntryModule(cfg);
    if mainJsx != "" then EntryRoot(mainJsx, cs) else "app"
  }

  /**
   * The React document for the components, the configuration and the site name. It
   * carries the title, the mount element, every component definition and a script that
   * declares `App`, and its error guard looks up the element it mounts.
   */
  function ReactDocument(cfg: ViteConfig, cs: seq<Component>, websiteName: string): (r: string)
    ensures var root := ReactRoot(cfg, cs);
            && root != ""
            && Contains(r, TitleElement(Title(websiteName))) && Contains(r, MountDiv(root))
            && Contains(r, RootLookup(root)) && Contains(r, ComponentDefinitions(cs))
            && Contains(r, ReactAppCode(cfg, cs)) && FinalHasApp(ReactAppCode(cfg, cs))
  {
    var defs := ComponentDefinitions(cs);
    var appCode := ReactAppCode(cfg, cs);
    ReactPageContents(Title(websiteName), cfg.styleCss, ReactRoot(cfg, cs), ReactFallbacks(defs + "\n\n" + appCode), defs, appCode);
    ReactScriptDeclaresApp(cfg, cs);
    ReactPage(Title(websiteName), cfg.styleCss, ReactRoot(cfg, cs), ReactFallbacks(defs + "\n\n" + appCode), defs, appCode)
  }

  /**
   * Whichever way it was obtained, the script declares `App` and the mount id is never
   * empty; without an entry module the synthesised `App` mounts at `app`.
   */
  lemma ReactScriptDeclaresApp(cfg: ViteConfig, cs: seq<Component>)
    ensures FinalHasApp(ReactAppCode(cfg, cs))
    ensures ReactRoot(cfg, cs) != ""
    ensures EntryModule(cfg) == "" ==> Contains(ReactAppCode(cfg, cs), RootLookup(ReactRoot(cfg, cs)))
  {
    if EntryModule(cfg) != "" {
      AppAlwaysDeclared(EntryProcessed(EntryModule(cfg), cs), AppNames(cs));
      assert RootOf(EntryProcessed(EntryModule(cfg), cs)) != "";
    } else {
      DefaultAppDeclaresApp(AppNames(cs), "app");
      DefaultAppLooksUpRoot(AppNames(cs), "app");
    }
  }

  /**
   * The page carries the title, the mount element, every fallback line, the component
   * definitions and the script, and its error guard looks up the same element it mounts.
   */
  lemma ReactPageContents(title: string, css: string, root: string, fallbacks: string, defs: string, appCode: string)
    ensures var page := ReactPage(title, css, root, fallbacks, defs, appCode);
            && Contains(page, TitleElement(title)) && Contains(page, MountDiv(root))
            && Contains(page, fallbacks) && Contains(page, defs) && Contains(page, appCode)
            && Contains(page, RootLookup(root))
  {
    var head := ReactPageHead(title, css);
    var scripts := ReactScripts + fallbacks + ReactDefsGap;
    var p1 := head + MountDiv(root);
    var p2 := p1 + scripts;
    var p3 := p2 + defs;
    var p4 := p3 + ReactAppGap;
    var p5 := p4 + appCode;
    var p6 := p5 + ReactGuard;
    var p7 := p6 + RootLookup(root);
    // the title
    ContainsLast(DocumentHead, TitleElement(title));
    ContainsExtend(DocumentHead + TitleElement(title), ReactStyle, TitleElement(title));
    ContainsExtend(DocumentHead + TitleElement(title) + ReactStyle, css, TitleElement(title));
    ContainsExtend(DocumentHead + TitleElement(title) + ReactStyle + css, StyleClose, TitleElement(title));
    Appended8(head, MountDiv(root), scripts, defs, ReactAppGap, appCode, ReactGuard, RootLookup(root), ReactTail, TitleElement(title));
    // the mount element
    ContainsLast(head, MountDiv(root));
    Appended7(p1, scripts, defs, ReactAppGap, appCode, ReactGuard, RootLookup(root), ReactTail, MountDiv(root));
    // the fallbacks
    ContainsLast(ReactScripts, fallbacks);
    ContainsExtend(ReactScripts + fallbacks, ReactDefsGap, fallbacks);
    ContainsWithin(p1, scripts, "", fallbacks);
    assert p1 + scripts + "" == p2;
    Appended6(p1, scripts, defs, ReactAppGap, appCode, ReactGuard, RootLookup(root), ReactTail, fallbacks);
    // the definitions
    ContainsLast(p2, defs);
    ContainsExtend(p3, ReactAppGap, defs);
    ContainsExtend(p4, appCode, defs);
    ContainsExtend(p5, ReactGuard, defs);
    ContainsExtend(p6, RootLookup(root), defs);
    ContainsExtend(p7, ReactTail, defs);
    // the script
    ContainsLast(p4, appCode);
    ContainsExtend(p5, ReactGuard, appCode);
    ContainsExtend(p6, RootLookup(root), appCode);
    ContainsExtend(p7, ReactTail, appCode);
    // the guard's lookup
    ContainsLast(p6, RootLookup(root));
    ContainsExtend(p7, ReactTail, RootLookup(root));
  }

  /** Containment in `a + b` survives appending six more parts. */
  lemma Appended6(a: string, b: string, c: string, d: string, e: string, f: string, g: string, h: string, p: string)
    requires Contains(a + b, p)
    ensures Contains(a + b + c + d + e + f + g + h, p)
  {
    ContainsExtend(a + b, c, p);
    ContainsExtend(a + b + c, d, p);
    ContainsExtend(a + b + c + d, e, p);
    ContainsExtend(a + b + c + d + e, f, p);
    ContainsExtend(a + b + c + d + e + f, g, p);
    ContainsExtend(a + b + c + d + e + f + g, h, p);
  }

  /** Containment in `a` survives appending seven more parts. */
  lemma Appended7(a: string, b: string, c: string, d: string, e: string, f: string, g: string, h: string, p: string)
    requires Contains(a, p)
    ensures Contains(a + b + c + d + e + f + g + h, p)
  {
    ContainsExtend(a, b, p);
    Appended6(a, b, c, d, e, f, g, h, p);
  }

  /** Containment in `a` survives appending eight more parts. */
  lemma Appended8(a: string, b: string, c: string, d: string, e: string, f: string, g: string, h: string, i: string, p: string)
    requires Contains(a, p)
    ensures Contains(a + b + c + d + e + f + g + h + i, p)
  {
    ContainsExtend(a, b, p);
    Appended7(a + b, c, d, e, f, g, h, i, p);
  }

  /** Each preview data name the definitions and the script leave undeclared gets its fallback line in the document. */
  lemma ReactDocumentFallback(cfg: ViteConfig, cs: seq<Component>, websiteName: string, name: string)
    requires name in PreviewDataNames
    requires !Declares(ComponentDefinitions(cs) + "\n\n" + ReactAppCode(cfg, cs), name)
    ensures Contains(ReactDocument(cfg, cs, websiteName), FallbackLine(name))
  {
    var defs := ComponentDefinitions(cs);
    var appCode := ReactAppCode(cfg, cs);
    var fallbacks := ReactFallbacks(defs + "\n\n" + appCode);
    ReactPageContents(Title(websiteName), cfg.styleCss, ReactRoot(cfg, cs), fallbacks, defs, appCode);
    FallbackForUndeclared(defs + "\n\n" + appCode, name);
    ContainsTransitive(ReactDocument(cfg, cs, websiteName), fallbacks, FallbackLine(name));
  }
}

=== FILE: preview_select.dfy ===
/**
 * The first decisions of the preview's `loadContent`
 * (frontend/src/components/WebsitePreview.tsx): which of the three document builders
 * runs, and which components the React builder rewrites and wraps.
 *
 * The rewrite filter tests a component without a language by its path with the regular
 * expression literal `/\\.(jsx|tsx)$/`. In a literal, `\\` is a backslash, so the test
 * only accepts a path that ends in a backslash, any character and `jsx`/`tsx`, never an
 * ordinary `src/components/Header.jsx`. `IsRewrittenAsWritten` keeps that test and
 * `PlainJsxPathSkippedAsWritten` exhibits it; `IsRewritten` tests the extension, as
 * `/\.(jsx|tsx)$/` would, and the rest of the model uses it.
 */
module PreviewSelect {
  import opened Wrappers
  import opened Text
  import opened Project

  /** The three documents the preview can build. */
  datatype PreviewPath = ReactPath | VanillaPath | LegacyPath

  /**
   * The test `usesReact` applies to one component; `&&` binds tighter than `||`, so a
   * `className=` without a `<` does not count.
   */
  predicate LooksLikeReact(c: Component): (r: bool)
    ensures c.language == "jsx" ==> r
    ensures (c.language != "jsx" && !Contains(c.code, "import React") && !Contains(c.code, "from 'react'")
             && !Contains(c.code, "<")) ==> !r
  {
    || c.language == "jsx"
    || Contains(c.code, "import React")
    || Contains(c.code, "from 'react'")
    || (Contains(c.code, "<") && Contains(c.code, "className="))
  }

  /** `components.some(…)`, scanning from the first component. */
  function SomeLooksLikeReact(cs: seq<Component>): (r: bool)
    ensures r <==> exists k :: 0 <= k < |cs| && LooksLikeReact(cs[k])
  {
    if |cs| == 0 then false
    else
      assert forall k :: 1 <= k < |cs| ==> cs[k] == cs[1..][k - 1];
      LooksLikeReact(cs[0]) || SomeLooksLikeReact(cs[1..])
  }

  /**
   * The builder `loadContent` runs: absent or empty components select the legacy
   * document; otherwise one React-looking component selects the React document.
   */
  function PathOf(components: seq<Component>): (r: PreviewPath)
    ensures r == LegacyPath <==> |components| == 0
    ensures r == ReactPath <==> |components| > 0 && exists k :: 0 <= k < |components| && LooksLikeReact(components[k])
  {
    if |components| == 0 then LegacyPath
    else if SomeLooksLikeReact(components) then ReactPath
    else VanillaPath
  }

  /** One `jsx` component is enough for the React document, whatever the others are. */
  lemma JsxSelectsReact(cs: seq<Component>, k: nat)
    requires k < |cs| && cs[k].language == "jsx"
    ensures PathOf(cs) == ReactPath
  {
    assert LooksLikeReact(cs[k]);
  }

  /**
   * `className=` without a `<` does not count: the `&&` of the last test binds first, so a
   * plain `js` component that only mentions `className=` leaves the vanilla document.
   */
  lemma ClassNameWithoutTagIsVanilla(c: Component)
    requires c.language == "js" && '<' !in c.code
    requires !Contains(c.code, "import React") && !Contains(c.code, "from 'react'")
    ensures PathOf([c]) == VanillaPath
  {
    CharNotContained(c.code, '<');
  }

  /** The path test as written: a backslash, any character but a line break, then `jsx` or `tsx`, at the end. */
  predicate BackslashExtension(path: string) {
    |path| >= 5 && path[|path| - 5] == '\\' && !IsLineTerminator(path[|path| - 4])
    && (EndsWith(path, "jsx") || EndsWith(path, "tsx"))
  }

  /** The path test intended: a `.jsx` or `.tsx` extension. */
  predicate JsxExtension(path: string) {
    EndsWith(path, ".jsx") || EndsWith(path, ".tsx")
  }

  /** The shared filter of the React builder, as written. */
  predicate IsRewrittenAsWritten(c: Component) {
    || c.language == "jsx" || c.language == "js" || c.language == "tsx"
    || (c.language == "" && (BackslashExtension(c.path)
                             || (c.code != "" && (Contains(c.code, "from 'react'") || Contains(c.code, "className")))))
  }

  /** The shared filter of the React builder, with the extension test intended. */
  predicate IsRewritten(c: Component) {
    || c.language == "jsx" || c.language == "js" || c.language == "tsx"
    || (c.language == "" && (JsxExtension(c.path)
                             || (c.code != "" && (Contains(c.code, "from 'react'") || Contains(c.code, "className")))))
  }

  /** No path without a backslash passes the test as written. */
  lemma BackslashNeeded(path: string)
    requires '\\' !in path
    ensures !BackslashExtension(path)
  {
    if |path| >= 5 {
      assert path[|path| - 5] in path;
    }
  }

  /**
   * A language-less component at an ordinary `.jsx` path whose code neither imports from
   * `'react'` nor mentions `className` is dropped as written and kept as intended.
   */
  lemma PlainJsxPathSkippedAsWritten(c: Component)
    requires c.language == "" && EndsWith(c.path, ".jsx") && '\\' !in c.path
    requires !Contains(c.code, "from 'react'") && !Contains(c.code, "className")
    ensures !IsRewrittenAsWritten(c)
    ensures IsRewritten(c)
  {
    BackslashNeeded(c.path);
  }

  /** With the extension test intended, every language-less `.jsx` or `.tsx` component is rewritten. */
  lemma JsxPathRewritten(cs: seq<Component>, k: nat)
    requires k < |cs| && cs[k].language == "" && JsxExtension(cs[k].path)
    ensures cs[k] in Rewritten(cs)
  {
  }

  /** The components that pass `keep`, in their order. */
  function Select(cs: seq<Component>, keep: Component -> bool): (r: seq<Component>)
    ensures |r| <= |cs|
    ensures forall k :: 0 <= k < |r| ==> keep(r[k]) && r[k] in cs
    ensures forall k :: 0 <= k < |cs| && keep(cs[k]) ==> cs[k] in r
    ensures (forall k :: 0 <= k < |cs| ==> keep(cs[k])) ==> r == cs
  {
    if |cs| == 0 then []
    else
      var rest := Select(cs[1..], keep);
      assert forall k :: 1 <= k < |cs| ==> cs[k] == cs[1..][k - 1];
      if keep(cs[0]) then [cs[0]] + rest else rest
  }

  /**
   * The filter goes component by component, so the kept components stay in their order:
   * it distributes over concatenation, and keeps one component exactly when it passes.
   */
  lemma {:induction false} SelectInOrder(a: seq<Component>, b: seq<Component>, keep: Component -> bool)
    ensures Select(a + b, keep) == Select(a, keep) + Select(b, keep)
    ensures |a| == 1 ==> Select(a, keep) == (if keep(a[0]) then a else [])
  {
    if |a| > 0 {
      assert (a + b)[1..] == a[1..] + b;
      SelectInOrder(a[1..], b, keep);
    } else {
      assert a + b == b;
    }
  }

  /** The components the React builder rewrites and wraps (`processedComponents`, `reactComponentNames`). */
  function Rewritten(cs: seq<Component>): (r: seq<Component>)
    ensures forall k :: 0 <= k < |r| ==> IsRewritten(r[k]) && r[k] in cs
    ensures forall k :: 0 <= k < |cs| && IsRewritten(cs[k]) ==> cs[k] in r
  {
    Select(cs, IsRewritten)
  }

  /** The components whose names mark imports in the entry module: `jsx`, `js` or `tsx`. */
  predicate IsImportedComponent(c: Component) {
    c.language == "jsx" || c.language == "js" || c.language == "tsx"
  }

  /** The components a synthesised `App` renders: `jsx` or `js`. */
  predicate IsRenderedByApp(c: Component) {
    c.language == "jsx" || c.language == "js"
  }

  /** Every component rendered by a synthesised `App` is also rewritten and wrapped. */
  lemma AppRendersOnlyWrapped(cs: seq<Component>, k: nat)
    requires k < |Select(cs, IsRenderedByApp)|
    ensures Select(cs, IsRenderedByApp)[k] in Rewritten(cs)
  {
    var c := Select(cs, IsRenderedByApp)[k];
    var i :| 0 <= i < |cs| && cs[i] == c;
    assert IsRewritten(cs[i]);
  }
}

=== FILE: preview_statements.dfy ===
/**
 * What the import and export passes of the preview do to one statement in canonical form
 * (frontend/src/components/WebsitePreview.tsx, `loadContent`): the statement is removed
 * (or, for an exported function, reduced to the function), and the text around it is left
 * as it was. Each pass is a global regex replace; a pass whose pattern begins with a word
 * the text does not contain leaves the text unchanged.
 */
module PreviewStatements {
  import opened Wrappers
  import opened Text
  import opened Rewrite
  import opened Patterns
  import opened Placeholders
  import opened PreviewComponent
  import opened Sanitize
  import opened PreviewEntry
  import opened PreviewVanilla

  // ---------------------------------------------------------------------------
  // Passes that cannot match
  // ---------------------------------------------------------------------------

  /** A deleting pass that matches nowhere in `t` leaves `t` unchanged. */
  lemma DeletingMisses(t: string, at: (string, nat) -> Option<nat>)
    requires forall j: nat :: j < |t| ==> at(t, j).None?
    ensures ReplaceAll(t, Deleting(at)) == t
  {
    ReplaceNoHit(t, Deleting(at), 0);
  }

  /** A capturing pass that matches nowhere in `t` leaves `t` unchanged, whatever it puts in place. */
  lemma CapturedMisses(t: string, at: (string, nat) -> Option<Capture>, out: string -> string)
    requires forall j: nat :: j < |t| ==> at(t, j).None?
    ensures ReplaceAll(t, Captured(at, out)) == t
  {
    ReplaceNoHit(t, Captured(at, out), 0);
  }

  /** Every import pass of the entry module leaves a text without `import` unchanged. */
  lemma ImportFreePasses(t: string, names: seq<string>)
    requires !Contains(t, "import")
    ensures ReplaceAll(t, Deleting(ReactDefaultImportAt)) == t
    ensures ReplaceAll(t, Deleting(ReactDomClientImportAt)) == t
    ensures ReplaceAll(t, Deleting(ReactDomImportAt)) == t
    ensures ReplaceAll(t, Deleting(NamedImportAt)) == t
    ensures ReplaceAll(t, Captured(DefaultImportAt, BindingOut(names))) == t
    ensures ReplaceAll(t, Captured(NamedImportListAt, NamedListOut(names))) == t
    ensures ReplaceAll(t, Captured(NamespaceImportAt, NamespaceOut())) == t
    ensures ReplaceAll(t, Deleting(SideEffectImportAt)) == t
    ensures ReplaceAll(t, Captured(LooseDefaultImportAt, BindingOut(names))) == t
    ensures ReplaceAll(t, Captured(ImportLineWithBindingAt, BindingOut(names))) == t
    ensures ReplaceAll(t, Deleting(ImportLineAt)) == t
  {
    forall j: nat | j < |t|
      ensures !At(t, j, "import")
    {
      NotContains(t, "import", j);
    }
    DeletingMisses(t, ReactDefaultImportAt);
    DeletingMisses(t, ReactDomClientImportAt);
    DeletingMisses(t, ReactDomImportAt);
    DeletingMisses(t, NamedImportAt);
    CapturedMisses(t, DefaultImportAt, BindingOut(names));
    CapturedMisses(t, NamedImportListAt, NamedListOut(names));
    CapturedMisses(t, NamespaceImportAt, NamespaceOut());
    DeletingMisses(t, SideEffectImportAt);
    CapturedMisses(t, LooseDefaultImportAt, BindingOut(names));
    CapturedMisses(t, ImportLineWithBindingAt, BindingOut(names));
    DeletingMisses(t, ImportLineAt);
  }

  /** The entry's import passes leave a text without `import` as it is. */
  lemma ImportFreeUnchanged(t: string, names: seq<string>)
    requires !Contains(t, "import")
    ensures ImportsResolved(t, names) == t
  {
    ImportFreePasses(t, names);
  }

  // ---------------------------------------------------------------------------
  // A canonical named import
  // ---------------------------------------------------------------------------

  /** `import {LIST} from 'SOURCE';` and a line break. */
  function NamedImportLine(list: string, source: string): (line: string)
    ensures |line| == |list| + |source| + 19
  {
    "import {" + list + "} from '" + source + "';\n"
  }

  /** A list a `\{[^}]+\}` group takes whole, and a module name `['"][^'"]+['"]` takes whole. */
  predicate PlainImport(list: string, source: string) {
    && list != [] && (forall k :: 0 <= k < |list| ==> list[k] != '}')
    && source != [] && (forall k :: 0 <= k < |source| ==> !IsQuote(source[k]))
  }

  /** The characters of the canonical named import at `p`, one by one. */
  predicate NamedShape(s: string, p: nat, list: string, source: string) {
    var l, m := |list|, |source|;
    && p + l + m + 19 <= |s|
    && At(s, p, "import") && s[p + 6] == ' ' && s[p + 7] == '{'
    && s[p + 8..p + 8 + l] == list
    && s[p + 8 + l] == '}' && s[p + 9 + l] == ' ' && At(s, p + 10 + l, "from") && s[p + 14 + l] == ' '
    && s[p + 15 + l] == '\'' && s[p + 16 + l..p + 16 + l + m] == source
    && s[p + 16 + l + m] == '\'' && s[p + 17 + l + m] == ';' && s[p + 18 + l + m] == '\n'
  }

  lemma NamedShapeOf(pre: string, list: string, source: string, post: string)
    ensures NamedShape(pre + NamedImportLine(list, source) + post, |pre|, list, source)
  {
    var line := NamedImportLine(list, source);
    var s := pre + line + post;
    NamedLineShape(list, source);
    assert s[|pre|..|pre| + |line|] == line;
    NamedShapeShift(s, |pre|, line, list, source);
  }

  /** The canonical line itself has the shape at its start. */
  lemma NamedLineShape(list: string, source: string)
    ensures NamedShape(NamedImportLine(list, source), 0, list, source)
  {
    var s := NamedImportLine(list, source);
    var l, m := |list|, |source|;
    var a, b, c := "import {", "} from '", "';\n";
    assert s == a + list + b + source + c;
    var sa, sb, sc := s[..8], s[8 + l..16 + l], s[16 + l + m..];
    assert sa == a && sb == b && sc == c;
    assert s[8..8 + l] == list;
    assert s[16 + l..16 + l + m] == source;
    assert s[..6] == sa[..6] == "import";
    assert s[6] == sa[6] && s[7] == sa[7];
    assert s[10 + l..14 + l] == sb[2..6] == "from";
    assert s[8 + l] == sb[0] && s[9 + l] == sb[1] && s[14 + l] == sb[6] && s[15 + l] == sb[7];
    assert s[16 + l + m] == sc[0] && s[17 + l + m] == sc[1] && s[18 + l + m] == sc[2];
  }

  /** The shape of a line carries over to any text holding the line at `p`. */
  lemma NamedShapeShift(s: string, p: nat, line: string, list: string, source: string)
    requires p + |line| <= |s| && s[p..p + |line|] == line
    requires NamedShape(line, 0, list, source)
    ensures NamedShape(s, p, list, source)
  {
    var l, m := |list|, |source|;
    assert forall k :: 0 <= k < |line| ==> s[p + k] == line[k];
    assert s[p..p + 6] == line[..6];
    assert s[p + 8..p + 8 + l] == line[8..8 + l];
    assert s[p + 10 + l..p + 14 + l] == line[10 + l..14 + l];
    assert s[p + 16 + l..p + 16 + l + m] == line[16 + l..16 + l + m];
  }

  lemma FindCharTo(s: string, i: nat, j: nat, c: char)
    requires i <= j < |s| && s[j] == c && forall k :: i <= k < j ==> s[k] != c
    ensures FindChar(s, i, c) == j
    decreases j - i
  {
    if i < j {
      FindCharTo(s, i + 1, j, c);
    }
  }

  lemma FindQuoteTo(s: string, i: nat, j: nat)
    requires i <= j < |s| && IsQuote(s[j]) && forall k :: i <= k < j ==> !IsQuote(s[k])
    ensures FindQuote(s, i) == j
    decreases j - i
  {
    if i < j {
      FindQuoteTo(s, i + 1, j);
    }
  }

  /** The `import {LIST}` head of the canonical line. */
  lemma NamedHead(s: string, p: nat, list: string, source: string)
    requires PlainImport(list, source) && NamedShape(s, p, list, source)
    ensures KeywordSpaces(s, p, "import") == Some(p + 7)
    ensures Braces(s, p + 7, false) == Some(p + 9 + |list|)
  {
    var l := |list|;
    SkipNone(s, p + 7);
    forall k | p + 8 <= k < p + 8 + l
      ensures s[k] != '}'
    {
      assert s[k] == s[p + 8..p + 8 + l][k - p - 8];
    }
    FindCharTo(s, p + 8, p + 8 + l, '}');
  }

  /** The ` from 'SOURCE'` part of the canonical line. */
  lemma NamedModule(s: string, p: nat, list: string, source: string)
    requires PlainImport(list, source) && NamedShape(s, p, list, source)
    ensures FromKeyword(s, p + 9 + |list|) == Some(p + 15 + |list|)
    ensures QuotedAny(s, p + 15 + |list|) == Some(p + 17 + |list| + |source|)
    ensures QuotedName(s, p + 15 + |list|, source) == Some(p + 17 + |list| + |source|)
  {
    var l, m := |list|, |source|;
    SkipOne(s, p + 9 + l);
    SkipNone(s, p + 15 + l);
    forall k | p + 16 + l <= k < p + 16 + l + m
      ensures !IsQuote(s[k])
    {
      assert s[k] == s[p + 16 + l..p + 16 + l + m][k - p - 16 - l];
    }
    FindQuoteTo(s, p + 16 + l, p + 16 + l + m);
  }

  /** The `;` and line break that end the canonical line. */
  lemma NamedTail(s: string, p: nat, list: string, source: string)
    requires NamedShape(s, p, list, source)
    requires p + |list| + |source| + 19 == |s| || !IsSpace(s[p + |list| + |source| + 19])
    ensures OptSemicolonSpaces(s, p + 17 + |list| + |source|) == p + |list| + |source| + 19
  {
    var e := p + |list| + |source| + 19;
    if e < |s| {
      SkipNone(s, e);
    }
    assert SkipSpaces(s, e - 1) == e;
  }

  /**
   * At a canonical named import followed by a non-space, the braces pattern (with any
   * module, or with the import's own module) matches the whole line.
   */
  lemma BracesLineMatched(s: string, p: nat, list: string, source: string, from: Option<string>, e: nat)
    requires PlainImport(list, source) && NamedShape(s, p, list, source)
    requires from == None || from == Some(source)
    requires e == p + |list| + |source| + 19 && (e == |s| || !IsSpace(s[e]))
    ensures BracesFromAt(s, p, "import", from) == Some(e)
  {
    var l, m := |list|, |source|;
    NamedHead(s, p, list, source);
    NamedModule(s, p, list, source);
    NamedTail(s, p, list, source);
    BracesLineSteps(s, p, source, from, p + 9 + l, p + 17 + l + m, e);
  }

  /** The braces pattern over the steps a canonical named import takes. */
  lemma BracesLineSteps(s: string, p: nat, source: string, from: Option<string>, b: nat, e: nat, t: nat)
    requires from == None || from == Some(source)
    requires KeywordSpaces(s, p, "import") == Some(p + 7) && Braces(s, p + 7, false) == Some(b)
    requires FromKeyword(s, b) == Some(b + 6) && e <= |s|
    requires QuotedAny(s, b + 6) == Some(e) && QuotedName(s, b + 6, source) == Some(e)
    requires OptSemicolonSpaces(s, e) == t
    ensures BracesFromAt(s, p, "import", from) == Some(t)
  {
    assert QuotedModule(s, b + 6, from, e) by {
      if from.Some? {
        assert QuotedName(s, b + 6, from.value) == Some(e);
      } else {
        assert QuotedAny(s, b + 6) == Some(e);
      }
    }
    BracesFromSteps(s, p, "import", from, p + 7, b, b + 6, e);
  }

  /** The braces pattern, step by step: keyword, braces, `from`, quoted module, `;?\s*`. */
  lemma BracesFromSteps(s: string, p: nat, kw: string, from: Option<string>, a: nat, b: nat, q: nat, e: nat)
    requires KeywordSpaces(s, p, kw) == Some(a) && Braces(s, a, false) == Some(b)
    requires FromKeyword(s, b) == Some(q) && QuotedModule(s, q, from, e) && e <= |s|
    ensures BracesFromAt(s, p, kw, from) == Some(OptSemicolonSpaces(s, e))
  {
  }

  /** The only occurrence of `kw` in `s` is the one at `p`. */
  ghost predicate OnlyOccurrence(s: string, kw: string, p: nat) {
    forall j: nat :: At(s, j, kw) ==> j == p
  }

  /** A deleting pass whose only match in `s` covers `s[|pre|..e]` leaves `pre + post`. */
  lemma OnlyMatchDeleted(s: string, at: (string, nat) -> Option<nat>, pre: string, e: nat, post: string)
    requires |pre| < e <= |s| && s[..|pre|] == pre && s[e..] == post
    requires at(s, |pre|) == Some(e)
    requires forall j: nat :: j < |s| && j != |pre| ==> at(s, j).None?
    ensures ReplaceAll(s, Deleting(at)) == pre + post
  {
    DeleteOnlyHit(s, Deleting(at), pre, e, post);
  }

  /** Where `s` has its only `import` at `p` and a `{` after it, no pass for a `React` binding matches. */
  lemma ReactBindingMisses(s: string, p: nat)
    requires OnlyOccurrence(s, "import", p)
    requires KeywordSpaces(s, p, "import") == Some(p + 7) && p + 7 < |s| && s[p + 7] == '{'
    ensures forall j: nat :: j < |s| ==> ReactDefaultImportAt(s, j).None?
    ensures forall j: nat :: j < |s| ==> ReactDomClientImportAt(s, j).None?
    ensures forall j: nat :: j < |s| ==> ReactDomImportAt(s, j).None?
    ensures forall j: nat :: j < |s| ==> ReactImportAt(s, j).None?
  {
    assert !At(s, p + 7, "React") && !At(s, p + 7, "ReactDOM") by {
      if p + 12 <= |s| {
        assert s[p + 7..p + 12][0] == '{';
      }
    }
  }

  /** The entry's import passes, when the first three change nothing and the fourth leaves no `import`. */
  lemma ResolvedAfterNamedPass(s: string, t: string, names: seq<string>)
    requires ReplaceAll(s, Deleting(ReactDefaultImportAt)) == s
    requires ReplaceAll(s, Deleting(ReactDomClientImportAt)) == s
    requires ReplaceAll(s, Deleting(ReactDomImportAt)) == s
    requires ReplaceAll(s, Deleting(NamedImportAt)) == t && !Contains(t, "import")
    ensures ImportsResolved(s, names) == t
  {
    ImportFreePasses(t, names);
  }

  /** The named-import pass on a text whose only `import` begins a canonical named import. */
  lemma NamedLineDeleted(s: string, pre: string, list: string, source: string, post: string,
                         at: (string, nat) -> Option<nat>, from: Option<string>)
    requires s == pre + NamedImportLine(list, source) + post
    requires PlainImport(list, source) && (from == None || from == Some(source))
    requires post == [] || !IsSpace(post[0])
    requires OnlyOccurrence(s, "import", |pre|)
    requires forall j: nat :: at(s, j) == BracesFromAt(s, j, "import", from)
    ensures ReplaceAll(s, Deleting(at)) == pre + post
  {
    var e := |pre| + |list| + |source| + 19;
    NamedShapeOf(pre, list, source, post);
    assert s[..|pre|] == pre && s[e..] == post;
    ShapedLineDeleted(s, pre, list, source, post, at, from);
  }

  lemma ShapedLineDeleted(s: string, pre: string, list: string, source: string, post: string,
                          at: (string, nat) -> Option<nat>, from: Option<string>)
    requires PlainImport(list, source) && (from == None || from == Some(source))
    requires NamedShape(s, |pre|, list, source)
    requires s[..|pre|] == pre && s[|pre| + |list| + |source| + 19..] == post
    requires post == [] || !IsSpace(post[0])
    requires OnlyOccurrence(s, "import", |pre|)
    requires forall j: nat :: at(s, j) == BracesFromAt(s, j, "import", from)
    ensures ReplaceAll(s, Deleting(at)) == pre + post
  {
    var e := |pre| + |list| + |source| + 19;
    assert s[e..] == post;
    assert e == |s| || s[e] == post[0];
    BracesLineMatched(s, |pre|, list, source, from, e);
    assert at(s, |pre|) == BracesFromAt(s, |pre|, "import", from);
    BracesMissElsewhere(s, |pre|, at, from);
    OnlyMatchDeleted(s, at, pre, e, post);
  }

  /** Where `import` occurs only at `p`, an import pattern built on the braces pattern matches nowhere else. */
  lemma BracesMissElsewhere(s: string, p: nat, at: (string, nat) -> Option<nat>, from: Option<string>)
    requires OnlyOccurrence(s, "import", p)
    requires forall j: nat :: at(s, j) == BracesFromAt(s, j, "import", from)
    ensures forall j: nat :: j < |s| && j != p ==> at(s, j).None?
  {
    forall j: nat | j < |s| && j != p
      ensures at(s, j).None?
    {
      assert !At(s, j, "import");
    }
  }

  /**
   * In the entry module, the named-import pass removes a canonical `import {…} from '…';`
   * line whole, before the pass that would turn its bindings into stand-ins ever sees it;
   * the other import passes find nothing left.
   */
  lemma NamedImportDeleted(pre: string, list: string, source: string, post: string, names: seq<string>)
    requires PlainImport(list, source)
    requires post == [] || !IsSpace(post[0])
    requires OnlyOccurrence(pre + NamedImportLine(list, source) + post, "import", |pre|)
    requires !Contains(pre + post, "import")
    ensures ImportsResolved(pre + NamedImportLine(list, source) + post, names) == pre + post
  {
    var s := pre + NamedImportLine(list, source) + post;
    var p := |pre|;
    var e := p + |list| + |source| + 19;
    NamedShapeOf(pre, list, source, post);
    NamedHead(s, p, list, source);
    ReactBindingMisses(s, p);
    DeletingMisses(s, ReactDefaultImportAt);
    DeletingMisses(s, ReactDomClientImportAt);
    DeletingMisses(s, ReactDomImportAt);
    NamedLineDeleted(s, pre, list, source, post, NamedImportAt, None);
    ResolvedAfterNamedPass(s, pre + post, names);
  }

  /**
   * In a component, a canonical `import {…} from 'react';` line is removed whole by the
   * React named-import pass.
   */
  lemma ReactNamedImportDeleted(pre: string, list: string, post: string)
    requires PlainImport(list, "react")
    requires post == [] || !IsSpace(post[0])
    requires OnlyOccurrence(pre + NamedImportLine(list, "react") + post, "import", |pre|)
    requires !Contains(pre + post, "import")
    ensures ImportsStripped(pre + NamedImportLine(list, "react") + post) == pre + post
  {
    var s := pre + NamedImportLine(list, "react") + post;
    var p := |pre|;
    NamedShapeOf(pre, list, "react", post);
    NamedHead(s, p, list, "react");
    ReactBindingMisses(s, p);
    DeletingMisses(s, ReactImportAt);
    NamedLineDeleted(s, pre, list, "react", post, ReactNamedImportAt, Some("react"));
    forall j: nat | j < |pre + post|
      ensures ImportStatementAt(pre + post, j).None?
    {
      NotContains(pre + post, "import", j);
    }
    DeletingMisses(pre + post, ImportStatementAt);
  }

  /** `import BODY;` and a line break. */
  function ImportStatementLine(body: string): (line: string)
    ensures |line| == |body| + 9
  {
    "import " + body + ";\n"
  }

  /** The characters of `import BODY;` and a line break at `p`. */
  predicate StatementShape(s: string, p: nat, body: string) {
    && p + |body| + 9 <= |s|
    && At(s, p, "import") && s[p + 6] == ' '
    && s[p + 7..p + 7 + |body|] == body && s[p + 7 + |body|] == ';' && s[p + 8 + |body|] == '\n'
  }

  lemma StatementShapeOf(pre: string, body: string, post: string)
    ensures StatementShape(pre + ImportStatementLine(body) + post, |pre|, body)
  {
    var line := ImportStatementLine(body);
    var s := pre + line + post;
    var p := |pre|;
    assert forall k :: 0 <= k < |line| ==> s[p + k] == line[k];
    assert s[p..p + 6] == line[..6] == "import";
    assert s[p + 7..p + 7 + |body|] == line[7..7 + |body|] == body;
  }

  /** A statement body that neither the React default-import pass nor the React named-import pass starts on. */
  predicate OtherImportBody(body: string) {
    && body != [] && !IsSpace(body[0]) && body[0] != '{' && !At(body, 0, "React")
    && forall k :: 0 <= k < |body| ==> body[k] != ';'
  }

  lemma ShapedStatementDeleted(s: string, pre: string, body: string, post: string)
    requires OtherImportBody(body) && StatementShape(s, |pre|, body)
    requires s[..|pre|] == pre && s[|pre| + |body| + 9..] == post
    requires post == [] || !IsSpace(post[0])
    requires OnlyOccurrence(s, "import", |pre|)
    ensures ReplaceAll(s, Deleting(ReactImportAt)) == s
    ensures ReplaceAll(s, Deleting(ReactNamedImportAt)) == s
    ensures ReplaceAll(s, Deleting(ImportStatementAt)) == pre + post
  {
    var p, e := |pre|, |pre| + |body| + 9;
    OtherImportsMiss(s, p);
    ReactPassesMissStatement(s, p, body);
    DeletingMisses(s, ReactImportAt);
    DeletingMisses(s, ReactNamedImportAt);
    StatementMatched(s, p, body, post);
    OnlyMatchDeleted(s, ImportStatementAt, pre, e, post);
  }

  /** Where `import` occurs only at `p`, no import pattern matches anywhere else. */
  lemma OtherImportsMiss(s: string, p: nat)
    requires OnlyOccurrence(s, "import", p)
    ensures forall j: nat :: j < |s| && j != p ==> ImportStatementAt(s, j).None?
    ensures forall j: nat :: j < |s| && j != p ==> ReactImportAt(s, j).None?
    ensures forall j: nat :: j < |s| && j != p ==> ReactNamedImportAt(s, j).None?
  {
    forall j: nat | j < |s| && j != p
      ensures !At(s, j, "import")
    {
    }
  }

  /** Neither React import pattern matches a statement whose body is of another kind. */
  lemma ReactPassesMissStatement(s: string, p: nat, body: string)
    requires OtherImportBody(body) && StatementShape(s, p, body)
    ensures ReactImportAt(s, p).None? && ReactNamedImportAt(s, p).None?
  {
    var b := |body|;
    assert s[p + 7] == body[0];
    SkipNone(s, p + 7);
    assert KeywordSpaces(s, p, "import") == Some(p + 7);
    assert !At(s, p + 7, "React") by {
      if p + 12 <= |s| && b >= 5 {
        assert s[p + 7..p + 12] == body[..5];
      }
    }
    assert Braces(s, p + 7, false).None?;
  }

  /** The general import pattern matches the statement through its `;` and newline. */
  lemma StatementMatched(s: string, p: nat, body: string, post: string)
    requires OtherImportBody(body) && StatementShape(s, p, body)
    requires s[p + |body| + 9..] == post && (post == [] || !IsSpace(post[0]))
    ensures ImportStatementAt(s, p) == Some(p + |body| + 9)
  {
    var b := |body|;
    var e := p + b + 9;
    forall k | p + 6 <= k < p + 7 + b
      ensures s[k] != ';'
    {
      if k > p + 6 {
        assert s[k] == s[p + 7..p + 7 + b][k - p - 7];
      }
    }
    FindCharTo(s, p + 6, p + 7 + b, ';');
    if e < |s| {
      assert s[e] == post[0];
      SkipNone(s, e);
    }
    assert SkipSpaces(s, e - 1) == e;
  }

  /**
   * In a component, a statement `import BODY;` that is not of React is removed whole by the
   * general import pass, whatever BODY holds up to its `;`.
   */
  lemma ImportStatementDeleted(pre: string, body: string, post: string)
    requires OtherImportBody(body)
    requires post == [] || !IsSpace(post[0])
    requires OnlyOccurrence(pre + ImportStatementLine(body) + post, "import", |pre|)
    ensures ImportsStripped(pre + ImportStatementLine(body) + post) == pre + post
  {
    var s := pre + ImportStatementLine(body) + post;
    StatementShapeOf(pre, body, post);
    assert s[..|pre|] == pre && s[|pre| + |body| + 9..] == post;
    ShapedStatementDeleted(s, pre, body, post);
  }

  // ---------------------------------------------------------------------------
  // Exports
  // ---------------------------------------------------------------------------

  /** Every export pass of a component leaves a text without `export` unchanged. */
  lemma ExportFreePasses(t: string, componentName: string)
    requires !Contains(t, "export")
    ensures ReplaceAll(t, ExportedFunctionKept()) == t
    ensures ReplaceAll(t, AnonymousNamed(componentName)) == t
    ensures ReplaceAll(t, ExportDefaultNameMatch()) == t
    ensures ReplaceAll(t, ExportedConstKept()) == t
    ensures ReplaceAll(t, ExportDefaultSpacesMatch()) == t
    ensures ReplaceAll(t, Deleting(ExportDefault)) == t
    ensures ReplaceAll(t, Deleting(BareExportDefaultLineAt)) == t
    ensures ReplaceAll(t, Deleting(LineExportAt)) == t
  {
    forall j: nat
      ensures !At(t, j, "export")
    {
      NotContains(t, "export", j);
    }
    forall j: nat | j < |t|
      ensures ExportDefaultSpaces(t, j).None? && LineExportAt(t, j).None?
      ensures BareExportDefaultLineAt(t, j).None?
    {
    }
    ReplaceNoHit(t, ExportedFunctionKept(), 0);
    ReplaceNoHit(t, AnonymousNamed(componentName), 0);
    ReplaceNoHit(t, ExportDefaultNameMatch(), 0);
    ReplaceNoHit(t, ExportedConstKept(), 0);
    ReplaceNoHit(t, ExportDefaultSpacesMatch(), 0);
    DeletingMisses(t, ExportDefault);
    DeletingMisses(t, BareExportDefaultLineAt);
    DeletingMisses(t, LineExportAt);
  }

  /** A component's export passes leave a text without `export` as it is. */
  lemma ExportFreeUnchanged(t: string, componentName: string)
    requires !Contains(t, "export")
    ensures ExportsStripped(t, componentName) == t
  {
    ExportFreePasses(t, componentName);
  }

  /**
   * In the entry module, the `export ` keyword before a declaration is removed and nothing
   * else changes; the directive passes then run on what is left.
   */
  lemma ExportKeywordDeleted(pre: string, post: string)
    requires post == [] || (!IsSpace(post[0]) && post[0] != '{')
    requires !At(post, 0, "default")
    requires OnlyOccurrence(pre + "export " + post, "export", |pre|)
    ensures EntryExportsStripped(pre + "export " + post) == DirectivesStripped(pre + post)
  {
    var s := pre + "export " + post;
    var p := |pre|;
    assert s[..p] == pre && s[p + 7..] == post;
    assert s[p..p + 6] == "export" && s[p + 6] == ' ';
    if p + 7 < |s| {
      SkipNone(s, p + 7);
    }
    assert KeywordSpaces(s, p, "export") == Some(p + 7);
    assert !At(s, p + 7, "default") by {
      if p + 14 <= |s| {
        assert s[p + 7..p + 14] == post[..7];
      }
    }
    assert Braces(s, p + 7, false).None?;
    forall j: nat | j < |s|
      ensures ExportDefaultSpaces(s, j).None? && ExportFromAt(s, j).None?
      ensures j != p ==> ExportKeywordAt(s, j).None?
    {
      if j != p {
        assert !At(s, j, "export");
      }
    }
    ReplaceNoHit(s, ExportDefaultSpacesMatch(), 0);
    DeletingMisses(s, ExportFromAt);
    OnlyMatchDeleted(s, ExportKeywordAt, pre, p + 7, post);
  }

  /** `export default function NAME(`. */
  function ExportedFunctionHead(name: string): (head: string)
    ensures |head| == |name| + 25
  {
    "export default function " + name + "("
  }

  /** The characters of `export default function NAME(` at `p`. */
  predicate ExportedFunctionShape(s: string, p: nat, name: string) {
    && p + |name| + 25 <= |s|
    && At(s, p, "export") && s[p + 6] == ' ' && At(s, p + 7, "default") && s[p + 14] == ' '
    && At(s, p + 15, "function") && s[p + 23] == ' '
    && s[p + 24..p + 24 + |name|] == name && s[p + 24 + |name|] == '('
  }

  lemma ExportedFunctionShapeOf(pre: string, name: string, post: string)
    ensures ExportedFunctionShape(pre + ExportedFunctionHead(name) + post, |pre|, name)
  {
    var h := "export default function ";
    var s := pre + ExportedFunctionHead(name) + post;
    var p, n := |pre|, |name|;
    assert s == pre + h + name + "(" + post;
    assert s[p..p + 24] == h;
    assert s[p + 24..p + 24 + n] == name;
    assert s[p + 24 + n] == '(';
    assert h[..6] == "export" && h[7..14] == "default" && h[15..23] == "function";
    assert s[p..p + 6] == s[p..p + 24][..6];
    assert s[p + 7..p + 14] == s[p..p + 24][7..14];
    assert s[p + 15..p + 23] == s[p..p + 24][15..23];
  }

  /** At `export default function NAME(`, the kept-function pattern matches it and captures NAME. */
  lemma ExportedFunctionMatched(s: string, p: nat, name: string, e: nat)
    requires IsIdentifier(name) && ExportedFunctionShape(s, p, name) && e == p + |name| + 25
    ensures ExportDefaultFunction(s, p) == Some(Capture(e, name))
  {
    var n := |name|;
    SkipNone(s, p + 7);
    assert KeywordSpaces(s, p, "export") == Some(p + 7);
    assert ExportDefault(s, p) == Some(p + 14);
    SkipNone(s, p + 15);
    assert ExportDefaultSpaces(s, p) == Some(p + 15);
    assert s[p + 24] == name[0];
    SkipNone(s, p + 24);
    assert KeywordSpaces(s, p + 15, "function") == Some(p + 24);
    assert forall k :: p + 24 <= k < p + 24 + n ==> s[k] == name[k - p - 24];
    assert NameThen(s, p + 24, Capture(e, name), '(');
    NameThenFound(s, p + 24, Capture(e, name), '(');
    ExportFunctionSteps(s, p, p + 15, p + 24, Capture(e, name));
  }

  /** The kept-function pattern, step by step: `export default`, `function`, the name and `(`. */
  lemma ExportFunctionSteps(s: string, p: nat, a: nat, w: nat, c: Capture)
    requires ExportDefaultSpaces(s, p) == Some(a) && KeywordSpaces(s, a, "function") == Some(w)
    requires w <= |s| && NameThenAt(s, w, '(') == Some(c)
    ensures ExportDefaultFunction(s, p) == Some(c)
  {
  }

  /**
   * In a component, `export default function NAME(` loses `export default ` and nothing
   * else changes, whatever the component's own name.
   */
  lemma ExportedFunctionReduced(pre: string, name: string, post: string, componentName: string)
    requires IsIdentifier(name)
    requires OnlyOccurrence(pre + ExportedFunctionHead(name) + post, "export", |pre|)
    requires !Contains(pre + "function " + name + "(" + post, "export")
    ensures ExportsStripped(pre + ExportedFunctionHead(name) + post, componentName) == pre + "function " + name + "(" + post
  {
    var s := pre + ExportedFunctionHead(name) + post;
    var e := |pre| + |name| + 25;
    ExportedFunctionShapeOf(pre, name, post);
    assert s[..|pre|] == pre && s[e..] == post;
    ShapedFunctionKept(s, pre, name, post);
    ExportFreePasses(pre + "function " + name + "(" + post, componentName);
  }

  lemma ShapedFunctionKept(s: string, pre: string, name: string, post: string)
    requires IsIdentifier(name) && ExportedFunctionShape(s, |pre|, name)
    requires s[..|pre|] == pre && s[|pre| + |name| + 25..] == post
    requires OnlyOccurrence(s, "export", |pre|)
    ensures ReplaceAll(s, ExportedFunctionKept()) == pre + "function " + name + "(" + post
  {
    var p := |pre|;
    var e := p + |name| + 25;
    ExportedFunctionMatched(s, p, name, e);
    forall j: nat | j < |s| && j != p
      ensures !HitAt(s, ExportedFunctionKept(), j)
    {
      assert !At(s, j, "export");
    }
    ReplaceOnlyHit(s, ExportedFunctionKept(), p, e, "function " + name + "(");
  }

  // ---------------------------------------------------------------------------
  // `jsx` imports in a vanilla function's code
  // ---------------------------------------------------------------------------

  /** Braces that are matched when they must hold something are matched when they may be empty. */
  lemma BracesAllowingEmpty(s: string, i: nat)
    requires Braces(s, i, false).Some?
    ensures Braces(s, i, true) == Braces(s, i, false)
  {
  }

  /** The named `jsx` pattern, step by step: `import`, the braces naming `jsx`, `from`, the quoted module, `;?\s*`. */
  lemma JsxNamedSteps(s: string, p: nat, a: nat, b: nat, q: nat, c: nat)
    requires KeywordSpaces(s, p, "import") == Some(a) && Braces(s, a, true) == Some(b)
    requires a + 1 <= b - 1 <= |s| && Contains(s[a + 1..b - 1], "jsx")
    requires FromKeyword(s, b) == Some(q) && QuotedAny(s, q) == Some(c)
    ensures JsxNamedImportAt(s, p) == Some(OptSemicolonSpaces(s, c))
  {
  }

  /** At a canonical named import whose list names `jsx`, the named `jsx` pattern matches the whole line. */
  lemma JsxNamedLineMatched(s: string, p: nat, list: string, source: string, e: nat)
    requires PlainImport(list, source) && Contains(list, "jsx") && NamedShape(s, p, list, source)
    requires e == p + |list| + |source| + 19 && (e == |s| || !IsSpace(s[e]))
    ensures JsxNamedImportAt(s, p) == Some(e)
  {
    var l, m := |list|, |source|;
    NamedHead(s, p, list, source);
    NamedModule(s, p, list, source);
    NamedTail(s, p, list, source);
    BracesAllowingEmpty(s, p + 7);
    assert s[p + 8..p + 9 + l - 1] == list;
    JsxNamedSteps(s, p, p + 7, p + 9 + l, p + 15 + l, p + 17 + l + m);
  }

  /**
   * In a vanilla function's code, a canonical `import {…} from '…';` line whose list names
   * `jsx` is removed whole, and nothing else changes.
   */
  lemma JsxNamedImportDeleted(pre: string, list: string, source: string, post: string)
    requires PlainImport(list, source) && Contains(list, "jsx")
    requires post == [] || !IsSpace(post[0])
    requires OnlyOccurrence(pre + NamedImportLine(list, source) + post, "import", |pre|)
    requires !Contains(pre + post, "import")
    ensures JsxImportsRemoved(pre + NamedImportLine(list, source) + post) == pre + post
  {
    var s := pre + NamedImportLine(list, source) + post;
    var e := |pre| + |list| + |source| + 19;
    NamedShapeOf(pre, list, source, post);
    assert s[..|pre|] == pre && s[e..] == post;
    assert e == |s| || s[e] == post[0];
    JsxNamedLineMatched(s, |pre|, list, source, e);
    forall j: nat | j < |s| && j != |pre|
      ensures JsxNamedImportAt(s, j).None?
    {
      assert !At(s, j, "import");
    }
    OnlyMatchDeleted(s, JsxNamedImportAt, pre, e, post);
    NoImportMisses(pre + post);
    assert JsxImportsRemoved(s) == ReplaceAll(pre + post, Deleting(JsxDefaultImportAt));
    forall j: nat | j < |pre + post|
      ensures JsxDefaultImportAt(pre + post, j).None?
    {
      NotContains(pre + post, "import", j);
    }
    DeletingMisses(pre + post, JsxDefaultImportAt);
  }

  /** `import jsx from 'SOURCE';` and a line break. */
  function JsxDefaultLine(source: string): (line: string)
    ensures |line| == |source| + 20
  {
    "import jsx from '" + source + "';\n"
  }

  /** The characters of the canonical default `jsx` import at `p`, one by one. */
  predicate JsxDefaultShape(s: string, p: nat, source: string) {
    var m := |source|;
    && p + m + 20 <= |s|
    && At(s, p, "import") && s[p + 6] == ' ' && At(s, p + 7, "jsx") && s[p + 10] == ' '
    && At(s, p + 11, "from") && s[p + 15] == ' ' && s[p + 16] == '\''
    && s[p + 17..p + 17 + m] == source
    && s[p + 17 + m] == '\'' && s[p + 18 + m] == ';' && s[p + 19 + m] == '\n'
  }

  /** The canonical line itself has the shape at its start. */
  lemma JsxDefaultLineShape(source: string)
    ensures JsxDefaultShape(JsxDefaultLine(source), 0, source)
  {
    var s := JsxDefaultLine(source);
    var m := |source|;
    var a, c := "import jsx from '", "';\n";
    assert s == a + source + c;
    var sa, sc := s[..17], s[17 + m..];
    assert sa == a && sc == c;
    assert s[17..17 + m] == source;
    assert s[..6] == sa[..6] == "import";
    assert s[7..10] == sa[7..10] == "jsx";
    assert s[11..15] == sa[11..15] == "from";
    assert s[6] == sa[6] && s[10] == sa[10] && s[15] == sa[15] && s[16] == sa[16];
    assert s[17 + m] == sc[0] && s[18 + m] == sc[1] && s[19 + m] == sc[2];
  }

  /** The shape of a line carries over to any text holding the line at `p`. */
  lemma JsxDefaultShapeOf(pre: string, source: string, post: string)
    ensures JsxDefaultShape(pre + JsxDefaultLine(source) + post, |pre|, source)
  {
    var line := JsxDefaultLine(source);
    var s := pre + line + post;
    var p, m := |pre|, |source|;
    JsxDefaultLineShape(source);
    assert s[p..p + |line|] == line;
    assert forall k :: 0 <= k < |line| ==> s[p + k] == line[k];
    assert s[p..p + 6] == line[..6];
    assert s[p + 7..p + 10] == line[7..10];
    assert s[p + 11..p + 15] == line[11..15];
    assert s[p + 17..p + 17 + m] == line[17..17 + m];
  }

  /** The `import jsx from` part of the canonical default line. */
  lemma JsxDefaultHead(s: string, p: nat, source: string)
    requires JsxDefaultShape(s, p, source)
    ensures KeywordSpaces(s, p, "import") == Some(p + 7)
    ensures FromKeyword(s, p + 10) == Some(p + 16)
  {
    SkipNone(s, p + 7);
    SkipOne(s, p + 10);
    SkipNone(s, p + 16);
  }

  /** The quoted module of the canonical default line. */
  lemma JsxDefaultModule(s: string, p: nat, source: string)
    requires source != [] && (forall k :: 0 <= k < |source| ==> !IsQuote(source[k]))
    requires JsxDefaultShape(s, p, source)
    ensures QuotedAny(s, p + 16) == Some(p + 18 + |source|)
  {
    var m := |source|;
    forall k | p + 17 <= k < p + 17 + m
      ensures !IsQuote(s[k])
    {
      assert s[k] == s[p + 17..p + 17 + m][k - p - 17];
    }
    FindQuoteTo(s, p + 17, p + 17 + m);
  }

  /** The `;` and line break that end the canonical default line. */
  lemma JsxDefaultTail(s: string, p: nat, source: string, e: nat)
    requires JsxDefaultShape(s, p, source)
    requires e == p + |source| + 20 && (e == |s| || !IsSpace(s[e]))
    ensures OptSemicolonSpaces(s, p + 18 + |source|) == e
  {
    if e < |s| {
      SkipNone(s, e);
    }
    assert SkipSpaces(s, e - 1) == e;
  }

  /** At a canonical default `jsx` import followed by a non-space, the default pattern matches the whole line. */
  lemma JsxDefaultLineMatched(s: string, p: nat, source: string, e: nat)
    requires source != [] && (forall k :: 0 <= k < |source| ==> !IsQuote(source[k]))
    requires JsxDefaultShape(s, p, source)
    requires e == p + |source| + 20 && (e == |s| || !IsSpace(s[e]))
    ensures JsxDefaultImportAt(s, p) == Some(e)
  {
    JsxDefaultHead(s, p, source);
    JsxDefaultModule(s, p, source);
    JsxDefaultTail(s, p, source, e);
    JsxDefaultSteps(s, p, p + 7, p + 16, p + 18 + |source|);
  }

  /** The default `jsx` pattern, step by step: `import`, `jsx`, `from`, the quoted module, `;?\s*`. */
  lemma JsxDefaultSteps(s: string, p: nat, a: nat, q: nat, c: nat)
    requires KeywordSpaces(s, p, "import") == Some(a) && At(s, a, "jsx")
    requires FromKeyword(s, a + 3) == Some(q) && QuotedAny(s, q) == Some(c)
    ensures JsxDefaultImportAt(s, p) == Some(OptSemicolonSpaces(s, c))
  {
  }

  /**
   * In a vanilla function's code, a canonical `import jsx from '…';` line is removed whole
   * by the second pass, after the first pass finds nothing, and nothing else changes.
   */
  lemma JsxDefaultImportDeleted(pre: string, source: string, post: string)
    requires source != [] && (forall k :: 0 <= k < |source| ==> !IsQuote(source[k]))
    requires post == [] || !IsSpace(post[0])
    requires OnlyOccurrence(pre + JsxDefaultLine(source) + post, "import", |pre|)
    ensures JsxImportsRemoved(pre + JsxDefaultLine(source) + post) == pre + post
  {
    var s := pre + JsxDefaultLine(source) + post;
    var p := |pre|;
    var e := p + |source| + 20;
    JsxDefaultShapeOf(pre, source, post);
    assert s[..p] == pre && s[e..] == post;
    assert e == |s| || s[e] == post[0];
    forall j: nat | j < |s|
      ensures JsxNamedImportAt(s, j).None?
    {
      if j == p {
        assert s[p + 7] == 'j';
        SkipNone(s, p + 7);
        assert Braces(s, p + 7, true).None?;
      } else {
        assert !At(s, j, "import");
      }
    }
    DeletingMisses(s, JsxNamedImportAt);
    JsxDefaultLineMatched(s, p, source, e);
    forall j: nat | j < |s| && j != p
      ensures JsxDefaultImportAt(s, j).None?
    {
      assert !At(s, j, "import");
    }
    OnlyMatchDeleted(s, JsxDefaultImportAt, pre, e, post);
  }
}

=== FILE: preview_vanilla.dfy ===
/**
 * The vanilla document of the preview (frontend/src/components/WebsitePreview.tsx, the
 * branch of `loadContent` for components that do not look like React): every `js`
 * component becomes a function named after the component, the entry module's default
 * imports choose which of them are appended to the `app` element, and a small `jsx`
 * helper builds DOM elements.
 */
module PreviewVanilla {
  import opened Wrappers
  import opened Text
  import opened Rewrite
  import opened Project
  import opened Patterns
  import opened PreviewSelect
  import opened PreviewComponent
  import opened PreviewEntry
  import opened PreviewReact

  /** A component turned into a callable function (`{ name, code }`). */
  datatype VanillaFunction = VanillaFunction(name: string, code: string)

  // ---------------------------------------------------------------------------
  // Converting one component
  // ---------------------------------------------------------------------------

  /** `export default function X(` becomes `function NAME(`. */
  function NamedDefaultRenamed(name: string): Matcher {
    (s: string, p: nat) =>
      match ExportDefaultFunction(s, p)
      case Some(c) => Some(Hit(c.end, "function " + name + "("))
      case None => None
  }

  /** The first pattern: named and anonymous default-exported functions take the name. */
  function DefaultFunctionRenamed(code: string, name: string): string {
    ReplaceAll(ReplaceAll(code, NamedDefaultRenamed(name)), AnonymousNamed(name))
  }

  /** `const\s+\w+\s*=\s*` at `p`: the offset after the whitespace following `=`. */
  function ConstHeadAt(s: string, p: nat): (r: Option<nat>)
    ensures r.Some? ==> p < r.value <= |s|
    ensures r.Some? <==> (&& KeywordSpaces(s, p, "const").Some?
                          && KeywordSpaces(s, p, "const").value < SkipWord(s, KeywordSpaces(s, p, "const").value)
                          && EqualsAfter(s, SkipWord(s, KeywordSpaces(s, p, "const").value)))
    ensures r.Some? ==> SpaceRunTo(s, SkipSpaces(s, SkipWord(s, KeywordSpaces(s, p, "const").value)) + 1, r.value)
  {
    match KeywordSpaces(s, p, "const")
    case None => None
    case Some(w) =>
      var e := SkipWord(s, w);
      var f := SkipSpaces(s, e);
      if e > w && f < |s| && s[f] == '=' then Some(SkipSpaces(s, f + 1)) else None
  }

  /** `\s*=` from `e`: whitespace, then an `=`. */
  predicate EqualsAfter(s: string, e: nat)
    requires e <= |s|
  {
    SkipSpaces(s, e) < |s| && s[SkipSpaces(s, e)] == '='
  }

  /** `const\s+\w+\s*=\s*(\([^)]*\)\s*=>\s*\{[^}]*\})` at `p`, capturing the arrow function. */
  function ArrowConstAt(s: string, p: nat): (r: Option<Capture>)
    ensures r.Some? ==> p < r.value.end <= |s| && StartsWith(r.value.name, "(") && EndsWith(r.value.name, "}")
    ensures r.Some? ==> (&& ConstHeadAt(s, p).Some? && ConstHeadAt(s, p).value < r.value.end
                         && r.value.name == s[ConstHeadAt(s, p).value..r.value.end])
  {
    match ConstHeadAt(s, p)
    case None => None
    case Some(g) =>
      if g < |s| && s[g] == '(' then
        var h := FindChar(s, g + 1, ')');
        if h < |s| then
          var i := SkipSpaces(s, h + 1);
          if At(s, i, "=>") then
            match Braces(s, SkipSpaces(s, i + 2), true)
            case Some(k) =>
              ParenBraceSlice(s, g, k);
              Some(Capture(k, s[g..k]))
            case None => None
          else None
        else None
      else None
  }

  lemma ParenBraceSlice(s: string, g: nat, k: nat)
    requires g < k <= |s| && s[g] == '(' && s[k - 1] == '}'
    ensures StartsWith(s[g..k], "(") && EndsWith(s[g..k], "}")
  {
    assert s[g..k][0] == s[g] && s[g..k][k - g - 1] == s[k - 1];
    assert s[g..k][k - g - 1..] == [s[k - 1]];
  }

  function ArrowConstMatch(): Matcher {
    Captured(ArrowConstAt, x => x)
  }

  /** `const\s+\w+\s*=\s*function\s*\([^)]*\)\s*\{[^}]*\}` at `p`. */
  function FunctionConstAt(s: string, p: nat): (r: Option<nat>)
    ensures r.Some? ==> p < r.value <= |s|
    ensures r.Some? ==> (&& ConstHeadAt(s, p).Some? && At(s, ConstHeadAt(s, p).value, "function")
                         && ConstHeadAt(s, p).value + 8 < r.value && s[r.value - 1] == '}')
  {
    match ConstHeadAt(s, p)
    case None => None
    case Some(g) =>
      if At(s, g, "function") then
        var a := SkipSpaces(s, g + 8);
        if a < |s| && s[a] == '(' then
          var h := FindChar(s, a + 1, ')');
          if h < |s| then Braces(s, SkipSpaces(s, h + 1), true) else None
        else None
      else None
  }

  /** The first `const\s+\w+\s*=\s*` becomes `function NAME`. */
  function ConstHeadRenamed(name: string): Matcher {
    (s: string, p: nat) =>
      match ConstHeadAt(s, p)
      case Some(e) => Some(Hit(e, "function " + name))
      case None => None
  }

  /** `export\s+default\s+\w+;?` at `p`. */
  function ExportDefaultWordAt(s: string, p: nat): (r: Option<nat>)
    ensures r.Some? ==> p < r.value <= |s|
    ensures r.Some? <==> (&& ExportDefaultSpaces(s, p).Some?
                          && ExportDefaultSpaces(s, p).value < SkipWord(s, ExportDefaultSpaces(s, p).value))
    ensures r.Some? ==> var e := SkipWord(s, ExportDefaultSpaces(s, p).value);
                        if e < |s| && s[e] == ';' then r.value == e + 1 else r.value == e
  {
    match ExportDefaultSpaces(s, p)
    case None => None
    case Some(w) =>
      var e := SkipWord(s, w);
      if e == w then None else if e < |s| && s[e] == ';' then Some(e + 1) else Some(e)
  }

  /**
   * The second pattern, a `const` component with a default export: the first arrow
   * function is returned from a function of the name; else a `const X = function` head
   * is renamed and the default export dropped; else the code is wrapped as it is.
   */
  function ConstComponentConverted(code: string, name: string): string {
    match FirstHit(code, ArrowConstMatch(), 0)
    case Some(i) => "function " + name + "() { return " + ArrowConstAt(code, i).value.name + "; }"
    case None =>
      if Matches(code, Deleting(FunctionConstAt)) then
        ReplaceAll(ReplaceFirst(code, ConstHeadRenamed(name)), Deleting(ExportDefaultWordAt))
      else "function " + name + "() { " + ReplaceAll(code, ExportDefaultSpacesMatch()) + " }"
  }

  /** `function\s+\w+` at `p`. */
  function FunctionWordAt(s: string, p: nat): (r: Option<nat>)
    ensures r.Some? ==> p < r.value <= |s|
    ensures r.Some? <==> (&& KeywordSpaces(s, p, "function").Some?
                          && KeywordSpaces(s, p, "function").value < SkipWord(s, KeywordSpaces(s, p, "function").value))
    ensures r.Some? ==> WordRunTo(s, KeywordSpaces(s, p, "function").value, r.value)
  {
    match KeywordSpaces(s, p, "function")
    case None => None
    case Some(w) =>
      var e := SkipWord(s, w);
      if e > w then Some(e) else None
  }

  function FunctionWordRenamed(name: string): Matcher {
    (s: string, p: nat) =>
      match FunctionWordAt(s, p)
      case Some(e) => Some(Hit(e, "function " + name))
      case None => None
  }

  /** The third pattern, a function declaration: exports dropped, the first function renamed unless the name is there. */
  function DeclaredFunctionConverted(code: string, name: string): string {
    var c := ReplaceAll(code, ExportDefaultSpacesMatch());
    if Contains(c, "function " + name) then c else ReplaceFirst(c, FunctionWordRenamed(name))
  }

  /** `\{[\s\S]*\}` at `p`: from this `{` through the last `}` after it. */
  function BlockAt(s: string, p: nat): (r: Option<nat>)
    ensures r.Some? ==> p < r.value <= |s| && s[p] == '{'
    ensures r.Some? <==> p < |s| && s[p] == '{' && LastIndexOfChar(s, '}').Some? && p < LastIndexOfChar(s, '}').value
    ensures r.Some? ==> s[r.value - 1] == '}' && forall y :: r.value <= y < |s| ==> s[y] != '}'
  {
    if p < |s| && s[p] == '{' then
      match LastIndexOfChar(s, '}')
      case Some(j) => if j > p then Some(j + 1) else None
      case None => None
    else None
  }

  /** The fourth pattern: the outermost block becomes the body of a function of the name, or the code is wrapped. */
  function WrappedConverted(code: string, name: string): string {
    match FirstHit(code, Deleting(BlockAt), 0)
    case Some(i) => "function " + name + "() " + code[i..BlockAt(code, i).value]
    case None => "function " + name + "() { " + code + " }"
  }

  /** A `js` component as a function: the name without whitespace, the trimmed code converted by the first pattern that applies. */
  function Converted(c: Component): VanillaFunction {
    var name := RemoveSpaces(c.name);
    var code := Trim(c.code);
    var converted :=
      if Contains(code, "export default function") then DefaultFunctionRenamed(code, name)
      else if Contains(code, "const") && Contains(code, "export default") then ConstComponentConverted(code, name)
      else if StartsWith(code, "function") || StartsWith(code, "export default") then DeclaredFunctionConverted(code, name)
      else WrappedConverted(code, name);
    VanillaFunction(name, converted)
  }

  /** A global replace emits the replacement of the leftmost match. */
  lemma ReplacementEmitted(s: string, m: Matcher)
    requires Matches(s, m)
    ensures Contains(ReplaceAll(s, m), m(s, FirstHit(s, m, 0).value).value.out)
  {
    var i := FirstHit(s, m, 0).value;
    ReplaceCopiesUpTo(s, m, 0, i);
    ReplaceAtHit(s, m, i);
    var out, rest := m(s, i).value.out, ReplaceFrom(s, m, m(s, i).value.end);
    assert ReplaceAll(s, m) == s[0..i] + out + rest;
    ContainsInfix(s[0..i], out, rest);
  }

  /** The first pass names the function: a named default export becomes `function NAME(`. */
  lemma NamedDefaultExportRenamed(code: string, name: string)
    requires Matches(code, NamedDefaultRenamed(name))
    ensures Contains(ReplaceAll(code, NamedDefaultRenamed(name)), "function " + name + "(")
  {
    ReplacementEmitted(code, NamedDefaultRenamed(name));
  }

  /** Code whose only default export is an anonymous function gets the name from the second pass. */
  lemma AnonymousDefaultExportRenamed(code: string, name: string)
    requires !Matches(code, NamedDefaultRenamed(name)) && Matches(code, AnonymousNamed(name))
    ensures Contains(DefaultFunctionRenamed(code, name), "function " + name + "(")
  {
    ReplacementEmitted(code, AnonymousNamed(name));
  }

  /** The third pattern always leaves `function NAME` in the code when some `function X` is there to rename. */
  lemma DeclaredFunctionNamed(code: string, name: string)
    requires Matches(ReplaceAll(code, ExportDefaultSpacesMatch()), FunctionWordRenamed(name))
    ensures Contains(DeclaredFunctionConverted(code, name), "function " + name)
  {
    var c := ReplaceAll(code, ExportDefaultSpacesMatch());
    if !Contains(c, "function " + name) {
      var m := FunctionWordRenamed(name);
      var i := FirstHit(c, m, 0).value;
      ContainsInfix(c[..i], "function " + name, c[m(c, i).value.end..]);
    }
  }

  /** A text containing `p + q` contains `p`. */
  lemma ContainsFront(s: string, p: string, q: string)
    requires Contains(s, p + q)
    ensures Contains(s, p)
  {
    var i := IndexOf(s, p + q).value;
    assert s[i..i + |p|] == (p + q)[..|p|];
    ContainsAt(s, p, i);
  }

  /** The first `{` of the code has a `}` after it. */
  predicate HasBlock(code: string) {
    var i := FindChar(code, 0, '{');
    i < |code| && LastIndexOfChar(code, '}').Some? && i < LastIndexOfChar(code, '}').value
  }

  /**
   * The fourth pattern's body: from the first `{` through the last `}` when a `}` follows
   * that `{`, otherwise the whole code wrapped in braces.
   */
  lemma WrappedBody(code: string, name: string)
    ensures HasBlock(code) ==>
              WrappedConverted(code, name) == "function " + name + "() " + code[FindChar(code, 0, '{')..LastIndexOfChar(code, '}').value + 1]
    ensures !HasBlock(code) ==> WrappedConverted(code, name) == "function " + name + "() { " + code + " }"
  {
    if HasBlock(code) {
      BlockFound(code);
    } else {
      NoBlockFound(code);
    }
  }

  lemma BlockFound(code: string)
    requires HasBlock(code)
    ensures FirstHit(code, Deleting(BlockAt), 0) == Some(FindChar(code, 0, '{'))
    ensures BlockAt(code, FindChar(code, 0, '{')) == Some(LastIndexOfChar(code, '}').value + 1)
  {
    var i := FindChar(code, 0, '{');
    var m := Deleting(BlockAt);
    assert BlockAt(code, i) == Some(LastIndexOfChar(code, '}').value + 1);
    assert m(code, i) == Some(Hit(LastIndexOfChar(code, '}').value + 1, ""));
    forall j | 0 <= j < i
      ensures !HitAt(code, m, j)
    {
      assert BlockAt(code, j).None?;
    }
    assert HitAt(code, m, i);
  }

  lemma NoBlockFound(code: string)
    requires !HasBlock(code)
    ensures FirstHit(code, Deleting(BlockAt), 0).None?
  {
    var i := FindChar(code, 0, '{');
    var m := Deleting(BlockAt);
    forall j | 0 <= j < |code|
      ensures !HitAt(code, m, j)
    {
      if code[j] == '{' {
        assert i <= j;
      }
      assert BlockAt(code, j).None?;
    }
  }

  /** The fourth pattern yields a function of the name whose body is a block. */
  lemma WrappedIsBlock(code: string, name: string)
    ensures StartsWith(WrappedConverted(code, name), "function " + name + "() {")
  {
    var head := "function " + name + "() ";
    match FirstHit(code, Deleting(BlockAt), 0)
    case Some(i) =>
      var body := code[i..BlockAt(code, i).value];
      assert body[0] == '{';
      assert (head + body)[..|head| + 1] == head + "{";
    case None =>
      assert (head + "{ " + code + " }")[..|head| + 1] == head + "{";
  }

  /**
   * Code with no default export that does not start with `function` becomes a function of
   * the component's name whose body is a block: its outermost block, or the code wrapped.
   */
  lemma PlainCodeWrapped(c: Component)
    requires !Contains(Trim(c.code), "export default") && !StartsWith(Trim(c.code), "function")
    ensures Converted(c).code == WrappedConverted(Trim(c.code), RemoveSpaces(c.name))
    ensures StartsWith(Converted(c).code, "function " + RemoveSpaces(c.name) + "() {")
  {
    var code := Trim(c.code);
    NoDefaultExport(code);
    assert Converted(c).code == WrappedConverted(code, RemoveSpaces(c.name));
    WrappedIsBlock(code, RemoveSpaces(c.name));
  }

  /** Code without `export default` neither contains nor starts with any longer form of it. */
  lemma NoDefaultExport(code: string)
    requires !Contains(code, "export default")
    ensures !Contains(code, "export default function") && !StartsWith(code, "export default")
  {
    if Contains(code, "export default function") {
      assert "export default function" == "export default" + " function";
      ContainsFront(code, "export default", " function");
    }
    StartsContains(code, "export default");
  }

  lemma StartsContains(s: string, p: string)
    ensures StartsWith(s, p) ==> Contains(s, p)
  {
    if StartsWith(s, p) {
      ContainsAt(s, p, 0);
    }
  }

  /**
   * With an arrow function, the second pattern returns it from a function of the name: the
   * text returned is the code's own, from just after the first `const X = ` that heads an
   * arrow function through that function's closing `}`.
   */
  lemma ArrowReturned(code: string, name: string)
    requires Matches(code, ArrowConstMatch())
    ensures StartsWith(ConstComponentConverted(code, name), "function " + name + "() { return (")
    ensures EndsWith(ConstComponentConverted(code, name), "}; }")
    ensures var i := FirstHit(code, ArrowConstMatch(), 0).value;
            && ArrowConstAt(code, i).Some? && ConstHeadAt(code, i).Some?
            && ConstComponentConverted(code, name)
               == "function " + name + "() { return " + code[ConstHeadAt(code, i).value..ArrowConstAt(code, i).value.end] + "; }"
  {
    var i := FirstHit(code, ArrowConstMatch(), 0).value;
    assert ArrowConstAt(code, i).Some?;
    var arrow := ArrowConstAt(code, i).value.name;
    assert ConstComponentConverted(code, name) == "function " + name + "() { return " + arrow + "; }";
    ReturnWrapped(name, arrow);
  }

  lemma ReturnWrapped(name: string, arrow: string)
    requires StartsWith(arrow, "(") && EndsWith(arrow, "}")
    ensures StartsWith("function " + name + "() { return " + arrow + "; }", "function " + name + "() { return (")
    ensures EndsWith("function " + name + "() { return " + arrow + "; }", "}; }")
  {
    var head := "function " + name + "() { return ";
    var r := head + arrow + "; }";
    assert r == head + arrow + "; }";
    assert r[..|head| + 1] == head + "(";
    assert r[|r| - 4..] == [arrow[|arrow| - 1]] + "; }";
  }

  /** A `const` component holding an arrow function becomes a function of the name returning that arrow function. */
  lemma ArrowComponentReturned(c: Component)
    requires !Contains(Trim(c.code), "export default function")
    requires Contains(Trim(c.code), "const") && Contains(Trim(c.code), "export default")
    requires Matches(Trim(c.code), ArrowConstMatch())
    ensures StartsWith(Converted(c).code, "function " + RemoveSpaces(c.name) + "() { return (")
    ensures EndsWith(Converted(c).code, "}; }")
    ensures Converted(c).code == ConstComponentConverted(Trim(c.code), RemoveSpaces(c.name))
  {
    assert Converted(c).code == ConstComponentConverted(Trim(c.code), RemoveSpaces(c.name));
    ArrowReturned(Trim(c.code), RemoveSpaces(c.name));
  }

  // ---------------------------------------------------------------------------
  // Removing `jsx` imports from a function's code
  // ---------------------------------------------------------------------------

  /** `import\s+\{[^}]*jsx[^}]*\}\s+from\s+['"][^'"]+['"];?\s*` at `p`. */
  function JsxNamedImportAt(s: string, p: nat): (r: Option<nat>)
    ensures r.Some? ==> At(s, p, "import") && p < r.value <= |s|
    ensures r.Some? ==> var a := KeywordSpaces(s, p, "import");
                        && a.Some? && Braces(s, a.value, true).Some?
                        && a.value + 2 <= Braces(s, a.value, true).value
                        && Contains(s[a.value + 1..Braces(s, a.value, true).value - 1], "jsx")
                        && FromKeyword(s, Braces(s, a.value, true).value).Some?
                        && QuotedAny(s, FromKeyword(s, Braces(s, a.value, true).value).value).Some?
                        && r.value == OptSemicolonSpaces(s, QuotedAny(s, FromKeyword(s, Braces(s, a.value, true).value).value).value)
  {
    match KeywordSpaces(s, p, "import")
    case None => None
    case Some(a) =>
      match Braces(s, a, true)
      case None => None
      case Some(b) =>
        if !Contains(s[a + 1..b - 1], "jsx") then None
        else
          match FromKeyword(s, b)
          case None => None
          case Some(q) =>
            match QuotedAny(s, q)
            case None => None
            case Some(e) => Some(OptSemicolonSpaces(s, e))
  }

  /** `import\s+jsx\s+from\s+['"][^'"]+['"];?\s*` at `p`. */
  function JsxDefaultImportAt(s: string, p: nat): (r: Option<nat>)
    ensures r.Some? ==> At(s, p, "import") && p < r.value <= |s|
    ensures r.Some? ==> var a := KeywordSpaces(s, p, "import");
                        && a.Some? && At(s, a.value, "jsx")
                        && FromKeyword(s, a.value + 3).Some?
                        && QuotedAny(s, FromKeyword(s, a.value + 3).value).Some?
                        && r.value == OptSemicolonSpaces(s, QuotedAny(s, FromKeyword(s, a.value + 3).value).value)
  {
    match KeywordSpaces(s, p, "import")
    case None => None
    case Some(a) =>
      if !At(s, a, "jsx") then None
      else
        match FromKeyword(s, a + 3)
        case None => None
        case Some(q) =>
          match QuotedAny(s, q)
          case None => None
          case Some(e) => Some(OptSemicolonSpaces(s, e))
  }

  /**
   * The code a function contributes to the page: its `jsx` imports removed (the page
   * defines `jsx`). Code without an `import` keeps its text.
   */
  function JsxImportsRemoved(code: string): (r: string)
    ensures !Contains(code, "import") ==> r == code
  {
    if !Contains(code, "import") then
      NoImportMisses(code);
      ReplaceAll(ReplaceAll(code, Deleting(JsxNamedImportAt)), Deleting(JsxDefaultImportAt))
    else ReplaceAll(ReplaceAll(code, Deleting(JsxNamedImportAt)), Deleting(JsxDefaultImportAt))
  }

  /** Every match of either import pattern starts with `import`. */
  lemma JsxImportsNeedImport(s: string, j: nat)
    requires !Contains(s, "import")
    ensures !HitAt(s, Deleting(JsxNamedImportAt), j) && !HitAt(s, Deleting(JsxDefaultImportAt), j)
  {
    NotContains(s, "import", j);
    assert JsxNamedImportAt(s, j).None? && JsxDefaultImportAt(s, j).None?;
  }

  /** Neither import pattern matches code without an `import`. */
  lemma NoImportMisses(code: string)
    requires !Contains(code, "import")
    ensures !Matches(code, Deleting(JsxNamedImportAt)) && !Matches(code, Deleting(JsxDefaultImportAt))
  {
    forall j | 0 <= j < |code|
      ensures !HitAt(code, Deleting(JsxNamedImportAt), j) && !HitAt(code, Deleting(JsxDefaultImportAt), j)
    {
      JsxImportsNeedImport(code, j);
    }
  }

  // ---------------------------------------------------------------------------
  // The execution code
  // ---------------------------------------------------------------------------

  /** `import\s+(\w+)\s+from\s+['"][^'"]+['"];?` at `p`, capturing the binding. */
  function ImportBindingAt(s: string, p: nat): (r: Option<Capture>)
    ensures r.Some? ==> p < r.value.end <= |s|
    ensures r.Some? ==> |r.value.name| > 0 && forall k :: 0 <= k < |r.value.name| ==> IsWordChar(r.value.name[k])
    ensures r.Some? ==> var a := KeywordSpaces(s, p, "import");
                        && a.Some? && r.value.name == s[a.value..SkipWord(s, a.value)]
                        && FromKeyword(s, SkipWord(s, a.value)).Some?
                        && QuotedAny(s, FromKeyword(s, SkipWord(s, a.value)).value).Some?
                        && var f := QuotedAny(s, FromKeyword(s, SkipWord(s, a.value)).value).value;
                           r.value.end == if f < |s| && s[f] == ';' then f + 1 else f
  {
    match KeywordSpaces(s, p, "import")
    case None => None
    case Some(a) =>
      var e := SkipWord(s, a);
      if e == a then None
      else
        match FromKeyword(s, e)
        case None => None
        case Some(q) =>
          match QuotedAny(s, q)
          case None => None
          case Some(f) =>
            assert forall k :: 0 <= k < e - a ==> s[a..e][k] == s[a + k];
            Some(Capture(if f < |s| && s[f] == ';' then f + 1 else f, s[a..e]))
  }

  /** The default-import bindings of the entry module, in order (`componentNames`). */
  function ImportedNames(mainJs: string): (r: seq<string>)
    ensures |r| <= |mainJs|
    ensures forall x :: x in r ==> exists p :: 0 <= p < |mainJs| && ImportBindingAt(mainJs, p).Some? && ImportBindingAt(mainJs, p).value.name == x
  {
    MatchAllOuts(mainJs, ImportBindingMatch(), 0);
    MatchAll(mainJs, ImportBindingMatch())
  }

  function ImportBindingMatch(): Matcher {
    Captured(ImportBindingAt, x => x)
  }

  /**
   * The names are collected left to right: the first is the binding of the leftmost default
   * import, and collection resumes after that import.
   */
  lemma ImportedNamesFirst(mainJs: string, p: nat)
    requires p < |mainJs| && ImportBindingAt(mainJs, p).Some?
    requires forall j :: 0 <= j < p ==> ImportBindingAt(mainJs, j).None?
    ensures ImportedNames(mainJs)
            == [ImportBindingAt(mainJs, p).value.name] + MatchAllFrom(mainJs, ImportBindingMatch(), ImportBindingAt(mainJs, p).value.end)
  {
    var m := ImportBindingMatch();
    assert m(mainJs, p) == Some(Hit(ImportBindingAt(mainJs, p).value.end, ImportBindingAt(mainJs, p).value.name));
    forall j | 0 <= j < p
      ensures !HitAt(mainJs, m, j)
    {
      assert m(mainJs, j).None?;
    }
    MatchAllSkips(mainJs, m, 0, p);
  }

  /** An entry module with no default import yields no names. */
  lemma ImportedNamesNone(mainJs: string)
    requires forall j :: 0 <= j < |mainJs| ==> ImportBindingAt(mainJs, j).None?
    ensures ImportedNames(mainJs) == []
  {
    var m := ImportBindingMatch();
    forall j | 0 <= j < |mainJs|
      ensures !HitAt(mainJs, m, j)
    {
      assert m(mainJs, j).None?;
    }
    MatchAllNoHit(mainJs, m, 0);
  }

  /** `app.appendChild(NAME());`. */
  function AppendCall(name: string): string {
    "app.appendChild(" + name + "());"
  }

  /** One call per function, in order. */
  function CallsOf(fs: seq<VanillaFunction>): (r: seq<string>)
    ensures |r| == |fs|
    ensures forall k :: 0 <= k < |fs| ==> r[k] == AppendCall(fs[k].name)
  {
    seq(|fs|, k requires 0 <= k < |fs| => AppendCall(fs[k].name))
  }

  /** The lookup of `componentFunctions.find`: the code declares `function NAME…`, or the names agree up to case. */
  predicate Provides(f: VanillaFunction, name: string) {
    Contains(f.code, "function " + name) || ToLower(f.name) == ToLower(name)
  }

  /** The first function that provides `name`. */
  function Provider(fs: seq<VanillaFunction>, name: string): (r: Option<VanillaFunction>)
    ensures r.Some? ==> r.value in fs && Provides(r.value, name)
    ensures r.None? <==> forall k :: 0 <= k < |fs| ==> !Provides(fs[k], name)
    ensures r.Some? ==> exists k :: 0 <= k < |fs| && fs[k] == r.value && forall j :: 0 <= j < k ==> !Provides(fs[j], name)
  {
    if |fs| == 0 then None
    else if Provides(fs[0], name) then Some(fs[0])
    else
      var r := Provider(fs[1..], name);
      assert forall k :: 1 <= k < |fs| ==> fs[k] == fs[1..][k - 1];
      assert r.Some? ==> exists k :: 1 <= k < |fs| && fs[k] == r.value && forall j :: 1 <= j < k ==> !Provides(fs[j], name);
      r
  }

  /** The calls for the imported names, each the call of its first provider; names without one are skipped. */
  function ImportedCalls(names: seq<string>, fs: seq<VanillaFunction>): (r: seq<string>)
    ensures |r| <= |names|
    ensures forall k :: 0 <= k < |names| && Provider(fs, names[k]).Some? ==> AppendCall(Provider(fs, names[k]).value.name) in r
    ensures forall x :: x in r ==> exists k :: 0 <= k < |names| && Provider(fs, names[k]).Some? && x == AppendCall(Provider(fs, names[k]).value.name)
  {
    if |names| == 0 then []
    else
      var rest := ImportedCalls(names[1..], fs);
      assert forall k :: 1 <= k < |names| ==> names[k] == names[1..][k - 1];
      match Provider(fs, names[0])
      case Some(f) => [AppendCall(f.name)] + rest
      case None => rest
  }

  /** The calls follow the names: one call per name with a provider, in the names' order. */
  lemma {:induction false} ImportedCallsInOrder(a: seq<string>, b: seq<string>, fs: seq<VanillaFunction>)
    ensures ImportedCalls(a + b, fs) == ImportedCalls(a, fs) + ImportedCalls(b, fs)
    ensures |a| == 1 ==> ImportedCalls(a, fs) == (if Provider(fs, a[0]).Some? then [AppendCall(Provider(fs, a[0]).value.name)] else [])
  {
    if |a| > 0 {
      assert (a + b)[1..] == a[1..] + b;
      ImportedCallsInOrder(a[1..], b, fs);
      if |a| == 1 {
        assert a[1..] == [];
      }
    } else {
      assert a + b == b;
    }
  }

  const ExecOpen := "\n                  (function() {\n                    const app = document."
  const ExecGuard := ";\n                    if (!app) return;\n                    "
  const ExecClose := "\n                  })();\n                "
  const CallSeparator := "\n                    "
  const TopExecOpen := "\n                (function() {\n                  const app = document."
  const TopExecGuard := ";\n                  if (!app) return;\n                  "
  const TopExecClose := "\n                })();\n              "
  const TopCallSeparator := "\n                  "

  /** An immediately invoked function that looks up `app` and runs the calls. */
  function Execution(open: string, guard: string, calls: string, close: string): string {
    open + RootLookup("app") + guard + calls + close
  }

  /** `executionCode`: imported components when the entry module imports any, else every function in order. */
  function ExecutionCode(mainJs: string, fs: seq<VanillaFunction>): string {
    if mainJs != "" then
      var names := ImportedNames(mainJs);
      if |names| > 0 then Execution(ExecOpen, ExecGuard, Join(ImportedCalls(names, fs), CallSeparator), ExecClose)
      else Execution(ExecOpen, ExecGuard, Join(CallsOf(fs), CallSeparator), ExecClose)
    else Execution(TopExecOpen, TopExecGuard, Join(CallsOf(fs), TopCallSeparator), TopExecClose)
  }

  /** The execution looks up the `app` element and contains its calls. */
  lemma ExecutionParts(open: string, guard: string, calls: string, close: string)
    ensures Contains(Execution(open, guard, calls, close), RootLookup("app"))
    ensures Contains(Execution(open, guard, calls, close), calls)
  {
    ContainsLast(open, RootLookup("app"));
    ContainsExtend(open + RootLookup("app"), guard, RootLookup("app"));
    ContainsExtend(open + RootLookup("app") + guard, calls, RootLookup("app"));
    ContainsExtend(open + RootLookup("app") + guard + calls, close, RootLookup("app"));
    ContainsLast(open + RootLookup("app") + guard, calls);
    ContainsExtend(open + RootLookup("app") + guard + calls, close, calls);
  }

  /** Each part of a join occurs in the joined text. */
  lemma JoinedPart(parts: seq<string>, sep: string, k: nat)
    requires k < |parts|
    ensures Contains(Join(parts, sep), parts[k])
  {
    JoinContainsPart(parts, sep, k);
    var pre, post :| Join(parts, sep) == pre + parts[k] + post;
    ContainsInfix(pre, parts[k], post);
  }

  /** The execution code always mounts into the `app` element. */
  lemma ExecutionMountsAtApp(mainJs: string, fs: seq<VanillaFunction>)
    ensures Contains(ExecutionCode(mainJs, fs), RootLookup("app"))
  {
    if mainJs != "" {
      var names := ImportedNames(mainJs);
      ExecutionParts(ExecOpen, ExecGuard, Join(ImportedCalls(names, fs), CallSeparator), ExecClose);
      ExecutionParts(ExecOpen, ExecGuard, Join(CallsOf(fs), CallSeparator), ExecClose);
    } else {
      ExecutionParts(TopExecOpen, TopExecGuard, Join(CallsOf(fs), TopCallSeparator), TopExecClose);
    }
  }

  /** Without an entry module, or one without default imports, every function is called. */
  lemma ExecutionCallsEveryFunction(mainJs: string, fs: seq<VanillaFunction>, k: nat)
    requires k < |fs|
    requires mainJs == "" || ImportedNames(mainJs) == []
    ensures Contains(ExecutionCode(mainJs, fs), AppendCall(fs[k].name))
  {
    var sep := if mainJs != "" then CallSeparator else TopCallSeparator;
    JoinedPart(CallsOf(fs), sep, k);
    if mainJs != "" {
      ExecutionParts(ExecOpen, ExecGuard, Join(CallsOf(fs), sep), ExecClose);
    } else {
      ExecutionParts(TopExecOpen, TopExecGuard, Join(CallsOf(fs), sep), TopExecClose);
    }
    ContainsTransitive(ExecutionCode(mainJs, fs), Join(CallsOf(fs), sep), AppendCall(fs[k].name));
  }

  /** With default imports, each imported name that some function provides has its provider called. */
  lemma ExecutionCallsImported(mainJs: string, fs: seq<VanillaFunction>, k: nat)
    requires k < |ImportedNames(mainJs)|
    requires Provider(fs, ImportedNames(mainJs)[k]).Some?
    ensures Contains(ExecutionCode(mainJs, fs), AppendCall(Provider(fs, ImportedNames(mainJs)[k]).value.name))
  {
    var names := ImportedNames(mainJs);
    var calls := ImportedCalls(names, fs);
    var call := AppendCall(Provider(fs, names[k]).value.name);
    var i :| 0 <= i < |calls| && calls[i] == call;
    JoinedPart(calls, CallSeparator, i);
    ExecutionParts(ExecOpen, ExecGuard, Join(calls, CallSeparator), ExecClose);
    ContainsTransitive(ExecutionCode(mainJs, fs), Join(calls, CallSeparator), call);
  }

  // ---------------------------------------------------------------------------
  // The page
  // ---------------------------------------------------------------------------

  const VanillaStyle := "\n  <style>\n    * {\n      margin: 0;\n      padding: 0;\n      box-sizing: border-box;\n    }\n    body {\n      font-family: -apple-system, BlinkMacSystemFont, 'Segoe UI', 'Roboto', sans-serif;\n    }\n    "
  const VanillaScriptOpen := "\n  <script>\n    "
  const VanillaGap := "\n    \n    "
  const VanillaTail := "\n  </script>\n</body>\n</html>"
  const JsxHelper := "function jsx(tag, props = {}, ...children) {\n  const element = document.createElement(tag);\n  \n  // Set attributes\n  if (props) {\n    Object.keys(props).forEach(key => {\n      if (key === 'className') {\n        element.className = props[key];\n      } else if (key.startsWith('on') && typeof props[key] === 'function') {\n        const eventName = key.slice(2).toLowerCase();\n        element.addEventListener(eventName, props[key]);\n      } else if (key !== 'children') {\n        element.setAttribute(key, props[key]);\n      }\n    });\n  }\n  \n  // Append children\n  children.forEach(child => {\n    if (child === null || child === undefined) return;\n    if (typeof child === 'string' || typeof child === 'number') {\n      element.appendChild(document.createTextNode(String(child)));\n    } else if (child instanceof Node) {\n      element.appendChild(child);\n    } else if (Array.isArray(child)) {\n      child.forEach(c => {\n        if (c instanceof Node) {\n          element.appendChild(c);\n        } else if (typeof c === 'string' || typeof c === 'number') {\n          element.appendChild(document.createTextNode(String(c)));\n        }\n      });\n    }\n  });\n  \n  return element;\n}"

  /** The page around the function codes and the execution code. */
  function VanillaPage(title: string, css: string, codes: string, exec: string): string {
    DocumentHead + TitleElement(title) + VanillaStyle + css + StyleClose + MountDiv("app")
    + VanillaScriptOpen + JsxHelper + VanillaGap + codes + VanillaGap + exec + VanillaTail
  }

  /** The page carries the title, the `app` element, the function codes and the execution code. */
  lemma VanillaPageContents(title: string, css: string, codes: string, exec: string)
    ensures var page := VanillaPage(title, css, codes, exec);
            && Contains(page, TitleElement(title)) && Contains(page, MountDiv("app"))
            && Contains(page, codes) && Contains(page, exec)
  {
    var a := DocumentHead + TitleElement(title) + VanillaStyle + css + StyleClose;
    var b := a + MountDiv("app") + VanillaScriptOpen + JsxHelper + VanillaGap;
    ContainsLast(DocumentHead, TitleElement(title));
    ContainsExtend(DocumentHead + TitleElement(title), VanillaStyle, TitleElement(title));
    ContainsExtend(DocumentHead + TitleElement(title) + VanillaStyle, css, TitleElement(title));
    ContainsExtend(DocumentHead + TitleElement(title) + VanillaStyle + css, StyleClose, TitleElement(title));
    Appended8(a, MountDiv("app"), VanillaScriptOpen, JsxHelper, VanillaGap, codes, VanillaGap, exec, VanillaTail, TitleElement(title));
    ContainsLast(a, MountDiv("app"));
    Appended7(a + MountDiv("app"), VanillaScriptOpen, JsxHelper, VanillaGap, codes, VanillaGap, exec, VanillaTail, MountDiv("app"));
    ContainsLast(b, codes);
    ContainsExtend(b + codes, VanillaGap, codes);
    ContainsExtend(b + codes + VanillaGap, exec, codes);
    ContainsExtend(b + codes + VanillaGap + exec, VanillaTail, codes);
    ContainsLast(b + codes + VanillaGap, exec);
    ContainsExtend(b + codes + VanillaGap + exec, VanillaTail, exec);
  }

  /** The components of the vanilla document: language `js`. */
  predicate IsVanillaComponent(c: Component) {
    c.language == "js"
  }

  /** `componentFunctions`. */
  function VanillaFunctions(cs: seq<Component>): (r: seq<VanillaFunction>)
    ensures |r| == |Select(cs, IsVanillaComponent)|
    ensures forall k :: 0 <= k < |r| ==> r[k] == Converted(Select(cs, IsVanillaComponent)[k])
  {
    var kept := Select(cs, IsVanillaComponent);
    seq(|kept|, k requires 0 <= k < |kept| => Converted(kept[k]))
  }

  /** The code each function contributes, `jsx` imports removed. */
  function FunctionCodes(fs: seq<VanillaFunction>): (r: seq<string>)
    ensures |r| == |fs|
    ensures forall k :: 0 <= k < |fs| ==> r[k] == JsxImportsRemoved(fs[k].code)
  {
    seq(|fs|, k requires 0 <= k < |fs| => JsxImportsRemoved(fs[k].code))
  }

  /**
   * The vanilla document for the components, the configuration and the site name. It
   * carries the title and the `app` element, and its execution looks up that element.
   */
  function VanillaDocument(cfg: ViteConfig, cs: seq<Component>, websiteName: string): (r: string)
    ensures Contains(r, TitleElement(Title(websiteName))) && Contains(r, MountDiv("app"))
    ensures Contains(r, RootLookup("app"))
  {
    var fs := VanillaFunctions(cs);
    var exec := ExecutionCode(cfg.mainJs, fs);
    var page := VanillaPage(Title(websiteName), cfg.styleCss, Join(FunctionCodes(fs), "\n\n"), exec);
    VanillaPageContents(Title(websiteName), cfg.styleCss, Join(FunctionCodes(fs), "\n\n"), exec);
    ExecutionMountsAtApp(cfg.mainJs, fs);
    ContainsTransitive(page, exec, RootLookup("app"));
    page
  }

  /** The vanilla document carries the code of every `js` component's function, its `jsx` imports removed. */
  lemma VanillaDocumentContents(cfg: ViteConfig, cs: seq<Component>, websiteName: string, k: nat)
    requires k < |VanillaFunctions(cs)|
    ensures Contains(VanillaDocument(cfg, cs, websiteName), JsxImportsRemoved(VanillaFunctions(cs)[k].code))
  {
    var fs := VanillaFunctions(cs);
    var doc := VanillaDocument(cfg, cs, websiteName);
    var codes := Join(FunctionCodes(fs), "\n\n");
    VanillaPageContents(Title(websiteName), cfg.styleCss, codes, ExecutionCode(cfg.mainJs, fs));
    JoinedPart(FunctionCodes(fs), "\n\n", k);
    ContainsTransitive(doc, codes, JsxImportsRemoved(fs[k].code));
  }
}

=== FILE: project.dfy ===
/**
 * The project shape the generation service works with: components, the Vite
 * configuration strings and the legacy `html`/`css`/`js` fields, read from a parsed reply.
 *
 * A string field that is absent, `undefined`, `null` or not a string is `""`: every
 * consumer of these fields tests them for truthiness, so the distinction never matters.
 */
module Project {
  import opened Wrappers
  import opened Text
  import opened Json

  /** One source file of the generated project (`{name, type, path, code, language}`). */
  datatype Component = Component(name: string, kind: string, path: string, code: string, language: string)

  /** The `viteConfig` record: whole-file texts of the project's fixed files. */
  datatype ViteConfig = ViteConfig(
    packageJson: string, viteConfig: string, indexHtml: string,
    mainJsx: string, mainJs: string, styleCss: string)

  /**
   * A reply after parsing: the component form, the legacy form, or both. `viteConfig` is
   * `None` when the member is absent or falsy; `htmlUpper`, `cssUpper`, `jsUpper` and
   * `javascript` are the alternative spellings the legacy fallback accepts.
   */
  datatype WebsiteCode = WebsiteCode(
    components: seq<Component>, viteConfig: Option<ViteConfig>,
    html: string, htmlUpper: string, css: string, cssUpper: string,
    js: string, jsUpper: string, javascript: string)

  const NoConfig := ViteConfig("", "", "", "", "", "")

  /** The fields of an absent `viteConfig` read as `""` (`viteConfig?.styleCss || ''`). */
  function ConfigOrEmpty(viteConfig: Option<ViteConfig>): ViteConfig {
    match viteConfig
    case Some(c) => c
    case None => NoConfig
  }

  /** One entry of `components`, each field read as a string. */
  function ComponentOf(v: Json): (c: Component)
    ensures c.code != "" ==> Get(v, "code") == Some(JString(c.code))
    ensures ReadsAsString(v, "name", c.name) && ReadsAsString(v, "type", c.kind)
    ensures ReadsAsString(v, "path", c.path) && ReadsAsString(v, "code", c.code)
    ensures ReadsAsString(v, "language", c.language)
  {
    Component(GetString(v, "name"), GetString(v, "type"), GetString(v, "path"),
              GetString(v, "code"), GetString(v, "language"))
  }

  function ComponentsOf(items: seq<Json>): (cs: seq<Component>)
    ensures |cs| == |items|
    ensures forall k :: 0 <= k < |cs| ==> cs[k] == ComponentOf(items[k])
  {
    if |items| == 0 then [] else [ComponentOf(items[0])] + ComponentsOf(items[1..])
  }

  function ViteConfigOf(v: Json): ViteConfig {
    ViteConfig(GetString(v, "packageJson"), GetString(v, "viteConfig"), GetString(v, "indexHtml"),
               GetString(v, "mainJsx"), GetString(v, "mainJs"), GetString(v, "styleCss"))
  }

  /** `websiteCode.viteConfig || null`. */
  function ConfigOf(v: Json): (r: Option<ViteConfig>)
    ensures r.Some? <==> Get(v, "viteConfig").Some? && Truthy(Get(v, "viteConfig").value)
  {
    match Get(v, "viteConfig")
    case Some(c) => if Truthy(c) then Some(ViteConfigOf(c)) else None
    case None => None
  }

  /** The fields of a parsed reply. */
  function WebsiteCodeOf(v: Json): (w: WebsiteCode)
    ensures |w.components| == |GetArray(v, "components")|
    ensures forall k :: 0 <= k < |w.components| ==> w.components[k] == ComponentOf(GetArray(v, "components")[k])
    ensures w.viteConfig == ConfigOf(v)
    ensures ReadsAsString(v, "html", w.html) && ReadsAsString(v, "HTML", w.htmlUpper)
    ensures ReadsAsString(v, "css", w.css) && ReadsAsString(v, "CSS", w.cssUpper)
    ensures ReadsAsString(v, "js", w.js) && ReadsAsString(v, "JS", w.jsUpper)
    ensures ReadsAsString(v, "javascript", w.javascript)
  {
    WebsiteCode(ComponentsOf(GetArray(v, "components")), ConfigOf(v),
                GetString(v, "html"), GetString(v, "HTML"), GetString(v, "css"), GetString(v, "CSS"),
                GetString(v, "js"), GetString(v, "JS"), GetString(v, "javascript"))
  }

  /** The record `extractCodeFromResponse` builds from code blocks. */
  function LegacyCode(html: string, css: string, js: string): WebsiteCode {
    WebsiteCode([], None, html, "", css, "", js, "", "")
  }

  /** `s.replace(/\s+/g, '')`: a component's name as an identifier. */
  function RemoveSpaces(s: string): (r: string)
    ensures |r| <= |s|
    ensures forall k :: 0 <= k < |r| ==> !IsSpace(r[k])
    ensures forall k :: 0 <= k < |r| ==> r[k] in s
  {
    if |s| == 0 then ""
    else if IsSpace(s[0]) then RemoveSpaces(s[1..])
    else
      var rest := RemoveSpaces(s[1..]);
      assert forall k :: 0 <= k < |rest| ==> rest[k] in s by {
        forall k | 0 <= k < |rest| ensures rest[k] in s {
          assert rest[k] in s[1..];
        }
      }
      [s[0]] + rest
  }

  /** Removing whitespace works character by character, keeping the order of what is left. */
  lemma {:induction false} RemoveSpacesAppend(a: string, b: string)
    ensures RemoveSpaces(a + b) == RemoveSpaces(a) + RemoveSpaces(b)
    ensures |a| == 1 ==> RemoveSpaces(a) == (if IsSpace(a[0]) then "" else a)
    decreases |a|
  {
    if |a| == 0 {
      assert a + b == b;
    } else {
      assert (a + b)[1..] == a[1..] + b;
      RemoveSpacesAppend(a[1..], b);
    }
  }

  /** A name without whitespace is its own identifier. */
  lemma {:induction false} RemoveSpacesNoop(s: string)
    requires forall k :: 0 <= k < |s| ==> !IsSpace(s[k])
    ensures RemoveSpaces(s) == s
  {
    if |s| > 0 {
      RemoveSpacesNoop(s[1..]);
    }
  }

  /** The identifier of each component, in order (`(c.name || '').replace(/\s+/g, '')`). */
  function NamesOf(cs: seq<Component>): (names: seq<string>)
    ensures |names| == |cs|
    ensures forall k :: 0 <= k < |cs| ==> names[k] == RemoveSpaces(cs[k].name)
  {
    if |cs| == 0 then [] else [RemoveSpaces(cs[0].name)] + NamesOf(cs[1..])
  }

  /** `<Name />` for each name. */
  function Tags(names: seq<string>): (r: seq<string>)
    ensures |r| == |names|
    ensures forall k :: 0 <= k < |names| ==> r[k] == "<" + names[k] + " />"
  {
    if |names| == 0 then [] else ["<" + names[0] + " />"] + Tags(names[1..])
  }
}

=== FILE: recent_projects.dfy ===
/**
 * The recent-projects strip (frontend/src/components/RecentProjects.tsx): how long ago a
 * project was created, and the six most recent projects with their thumbnail gradients.
 * Times are milliseconds since the epoch, as `Date.getTime()` gives them.
 */
module RecentProjects {
  import opened Wrappers
  import opened Text

  /** The six thumbnail backgrounds, in order. */
  const Gradients: seq<string> := [
    "linear-gradient(135deg, #667eea 0%, #764ba2 100%)",
    "linear-gradient(135deg, #f093fb 0%, #f5576c 100%)",
    "linear-gradient(135deg, #4facfe 0%, #00f2fe 100%)",
    "linear-gradient(135deg, #43e97b 0%, #38f9d7 100%)",
    "linear-gradient(135deg, #fa709a 0%, #fee140 100%)",
    "linear-gradient(135deg, #30cfd0 0%, #330867 100%)"
  ]

  /** How many projects the strip shows. */
  const RecentCount: nat := 6

  // ---------------------------------------------------------------------------
  // getTimeAgo
  // ---------------------------------------------------------------------------

  const SecondsPerMinute: int := 60
  const SecondsPerHour: int := 3600
  const SecondsPerDay: int := 86400
  const SecondsPerWeek: int := 604800

  /** The bucket of an age. */
  datatype Age = JustNow | MinutesAgo(minutes: nat) | HoursAgo(hours: nat) | DaysAgo(days: nat) | OnDate

  /** `Math.floor((now - date) / 1000)`: Dafny's division by a positive number rounds down, as `Math.floor` does. */
  function AgeInSeconds(nowMs: int, dateMs: int): int {
    (nowMs - dateMs) / 1000
  }

  /** The buckets of `getTimeAgo`, by the age in whole seconds. */
  function AgeOf(seconds: int): (r: Age)
    ensures seconds < SecondsPerMinute <==> r.JustNow?
    ensures r.MinutesAgo? ==> SecondsPerMinute <= seconds < SecondsPerHour && r.minutes == seconds / SecondsPerMinute
    ensures r.HoursAgo? ==> SecondsPerHour <= seconds < SecondsPerDay && r.hours == seconds / SecondsPerHour
    ensures r.DaysAgo? ==> SecondsPerDay <= seconds < SecondsPerWeek && r.days == seconds / SecondsPerDay
    ensures r.OnDate? <==> seconds >= SecondsPerWeek
  {
    if seconds < SecondsPerMinute then JustNow
    else if seconds < SecondsPerHour then MinutesAgo(seconds / SecondsPerMinute)
    else if seconds < SecondsPerDay then HoursAgo(seconds / SecondsPerHour)
    else if seconds < SecondsPerWeek then DaysAgo(seconds / SecondsPerDay)
    else OnDate
  }

  /** Every count shown is at least one and below the next unit. */
  lemma AgeCountsInRange(seconds: int)
    ensures var a := AgeOf(seconds);
            && (a.MinutesAgo? ==> 1 <= a.minutes <= 59)
            && (a.HoursAgo? ==> 1 <= a.hours <= 23)
            && (a.DaysAgo? ==> 1 <= a.days <= 6)
  {
  }

  /** The order of the buckets, from newest to oldest. */
  function Rank(a: Age): nat {
    match a
    case JustNow => 0
    case MinutesAgo(_) => 1
    case HoursAgo(_) => 2
    case DaysAgo(_) => 3
    case OnDate => 4
  }

  /** An older age never lands in a newer bucket, nor shows a smaller count in the same bucket. */
  lemma AgeMonotone(s1: int, s2: int)
    requires s1 <= s2
    ensures Rank(AgeOf(s1)) <= Rank(AgeOf(s2))
    ensures AgeOf(s1).MinutesAgo? && AgeOf(s2).MinutesAgo? ==> AgeOf(s1).minutes <= AgeOf(s2).minutes
    ensures AgeOf(s1).HoursAgo? && AgeOf(s2).HoursAgo? ==> AgeOf(s1).hours <= AgeOf(s2).hours
    ensures AgeOf(s1).DaysAgo? && AgeOf(s2).DaysAgo? ==> AgeOf(s1).days <= AgeOf(s2).days
  {
  }

  /**
   * `getTimeAgo`: the text for a creation time seen at `nowMs`. A date that does not
   * parse compares false with everything and is shown as `localeDate`, the text
   * `toLocaleDateString` gives, as is any date a week old or more.
   */
  function GetTimeAgo(nowMs: int, dateMs: Option<int>, localeDate: string): (r: string)
    ensures dateMs.None? ==> r == localeDate
    ensures dateMs.Some? ==> r == AgeText(AgeOf(AgeInSeconds(nowMs, dateMs.value)), localeDate)
  {
    match dateMs
    case None => localeDate
    case Some(d) => AgeText(AgeOf(AgeInSeconds(nowMs, d)), localeDate)
  }

  /** The text of a bucket. */
  function AgeText(a: Age, localeDate: string): string {
    match a
    case JustNow => "Just now"
    case MinutesAgo(n) => NatToString(n) + " minutes ago"
    case HoursAgo(n) => NatToString(n) + " hours ago"
    case DaysAgo(n) => NatToString(n) + " days ago"
    case OnDate => localeDate
  }

  /** A creation time in the future reads as `Just now`. */
  lemma FutureIsJustNow(nowMs: int, dateMs: int, localeDate: string)
    requires dateMs > nowMs
    ensures GetTimeAgo(nowMs, Some(dateMs), localeDate) == "Just now"
  {
    assert AgeInSeconds(nowMs, dateMs) < 0;
  }

  /** The number shown before `minutes ago` reads back as the whole minutes elapsed. */
  lemma MinutesReadBack(nowMs: int, dateMs: int, localeDate: string)
    requires SecondsPerMinute <= AgeInSeconds(nowMs, dateMs) < SecondsPerHour
    ensures var r := GetTimeAgo(nowMs, Some(dateMs), localeDate);
            var n := AgeInSeconds(nowMs, dateMs) / SecondsPerMinute;
            var digits := NatToString(n);
            r == digits + " minutes ago" && DigitsValue(digits) == n
  {
    DigitsValueOfNatToString(AgeInSeconds(nowMs, dateMs) / SecondsPerMinute);
  }

  // ---------------------------------------------------------------------------
  // The most recent six
  // ---------------------------------------------------------------------------

  /** A project as the strip reads it; `createdAt` is the creation time in milliseconds. */
  datatype Project = Project(id: string, websiteName: string, createdAt: int)

  /** A listed project with its thumbnail. */
  datatype Listed = Listed(project: Project, thumbnail: string)

  /** Newest first. */
  predicate SortedDesc(s: seq<Project>) {
    forall i, j :: 0 <= i < j < |s| ==> s[i].createdAt >= s[j].createdAt
  }

  /** Insertion before the first project no newer than `p`, so that equal times keep their order. */
  function Insert(p: Project, s: seq<Project>): (r: seq<Project>)
    ensures multiset(r) == multiset(s) + multiset{p}
    ensures |r| == |s| + 1
  {
    if |s| == 0 || s[0].createdAt <= p.createdAt then [p] + s
    else
      assert s == [s[0]] + s[1..];
      [s[0]] + Insert(p, s[1..])
  }

  /** Inserting into a list sorted newest first keeps it sorted. */
  lemma {:induction false} InsertSorted(p: Project, s: seq<Project>)
    requires SortedDesc(s)
    ensures SortedDesc(Insert(p, s))
  {
    if |s| > 0 && s[0].createdAt > p.createdAt {
      var rest := Insert(p, s[1..]);
      InsertSorted(p, s[1..]);
      assert Insert(p, s) == [s[0]] + rest;
      forall k | 0 <= k < |rest|
        ensures rest[k].createdAt <= s[0].createdAt
      {
        assert rest[k] in multiset(rest);
        if rest[k] != p {
          assert rest[k] in multiset(s[1..]);
          var m :| 0 <= m < |s[1..]| && s[1..][m] == rest[k];
          assert s[m + 1] == rest[k];
        }
      }
    }
  }

  /** `websites.sort((a, b) => b.createdAt - a.createdAt)`: a stable sort, newest first. */
  function SortByNewest(s: seq<Project>): (r: seq<Project>)
    ensures multiset(r) == multiset(s)
    ensures |r| == |s|
  {
    if |s| == 0 then []
    else
      assert s == [s[0]] + s[1..];
      Insert(s[0], SortByNewest(s[1..]))
  }

  /** The projects created at time `t`, in their order. */
  function CreatedAt(s: seq<Project>, t: int): (r: seq<Project>)
    ensures forall k :: 0 <= k < |r| ==> r[k].createdAt == t
  {
    if |s| == 0 then []
    else (if s[0].createdAt == t then [s[0]] else []) + CreatedAt(s[1..], t)
  }

  /** Insertion puts the new project before the others created at the same time and keeps their order. */
  lemma {:induction false} InsertKeepsTies(p: Project, s: seq<Project>, t: int)
    ensures CreatedAt(Insert(p, s), t) == (if p.createdAt == t then [p] else []) + CreatedAt(s, t)
  {
    var r := Insert(p, s);
    if |s| == 0 || s[0].createdAt <= p.createdAt {
      assert r[0] == p && r[1..] == s;
    } else {
      InsertKeepsTies(p, s[1..], t);
      assert r[0] == s[0] && r[1..] == Insert(p, s[1..]);
    }
  }

  /** The sort is stable: projects created at the same time keep their order. */
  lemma {:induction false} SortByNewestStable(s: seq<Project>, t: int)
    ensures CreatedAt(SortByNewest(s), t) == CreatedAt(s, t)
  {
    if |s| > 0 {
      SortByNewestStable(s[1..], t);
      InsertKeepsTies(s[0], SortByNewest(s[1..]), t);
    }
  }

  /** The sort puts the newest first. */
  lemma {:induction false} SortByNewestSorted(s: seq<Project>)
    ensures SortedDesc(SortByNewest(s))
  {
    if |s| > 0 {
      SortByNewestSorted(s[1..]);
      InsertSorted(s[0], SortByNewest(s[1..]));
    }
  }

  /** The fetched list: a missing body is empty. */
  function Fetched(data: Option<seq<Project>>): seq<Project> {
    match data
    case Some(ws) => ws
    case None => []
  }

  /** `.slice(0, 6)` of the sorted list. */
  function Newest(ws: seq<Project>): (r: seq<Project>)
    ensures |r| == if |ws| < RecentCount then |ws| else RecentCount
  {
    var sorted := SortByNewest(ws);
    if |sorted| <= RecentCount then sorted else sorted[..RecentCount]
  }

  /** The strip's list: newest first, at most six, thumbnails taken in turn. */
  function RecentList(data: Option<seq<Project>>): (r: seq<Listed>)
    ensures |r| == if |Fetched(data)| < RecentCount then |Fetched(data)| else RecentCount
    ensures forall i :: 0 <= i < |r| ==> r[i] == Listed(Newest(Fetched(data))[i], Gradients[i % |Gradients|])
  {
    var top := Newest(Fetched(data));
    seq(|top|, i requires 0 <= i < |top| => Listed(top[i], Gradients[i % |Gradients|]))
  }

  /** The projects of a list. */
  function ProjectsOf(r: seq<Listed>): seq<Project> {
    seq(|r|, i requires 0 <= i < |r| => r[i].project)
  }

  /**
   * The list holds the newest projects: newest first, each a fetched project, and no
   * fetched project left out is newer than one listed.
   */
  lemma RecentListIsNewest(ws: seq<Project>)
    ensures var listed := ProjectsOf(RecentList(Some(ws)));
            && SortedDesc(listed)
            && multiset(listed) <= multiset(ws)
            && forall p, i :: p in multiset(ws) - multiset(listed) && 0 <= i < |listed| ==> p.createdAt <= listed[i].createdAt
  {
    var listed := ProjectsOf(RecentList(Some(ws)));
    assert listed == Newest(ws);
    NewestIsNewest(ws);
  }

  /** The first six of the sorted list are sorted, fetched, and no newer than none left out. */
  lemma NewestIsNewest(ws: seq<Project>)
    ensures var top := Newest(ws);
            && SortedDesc(top)
            && multiset(top) <= multiset(ws)
            && forall p, i :: p in multiset(ws) - multiset(top) && 0 <= i < |top| ==> p.createdAt <= top[i].createdAt
  {
    var sorted := SortByNewest(ws);
    SortByNewestSorted(ws);
    var n := if |sorted| <= RecentCount then |sorted| else RecentCount;
    assert Newest(ws) == sorted[..n];
    SortedPrefix(sorted, n);
  }

  /** A prefix of a list sorted newest first is sorted, and nothing after it is newer than anything in it. */
  lemma SortedPrefix(sorted: seq<Project>, n: nat)
    requires SortedDesc(sorted) && n <= |sorted|
    ensures var top := sorted[..n];
            && SortedDesc(top)
            && multiset(top) <= multiset(sorted)
            && forall p, i :: p in multiset(sorted) - multiset(top) && 0 <= i < |top| ==> p.createdAt <= top[i].createdAt
  {
    var top := sorted[..n];
    var rest := sorted[n..];
    assert sorted == top + rest;
    assert multiset(sorted) == multiset(top) + multiset(rest);
    forall p, i | p in multiset(sorted) - multiset(top) && 0 <= i < |top|
      ensures p.createdAt <= top[i].createdAt
    {
      assert p in multiset(rest);
      var j :| 0 <= j < |rest| && rest[j] == p;
      assert sorted[n + j] == p;
    }
  }

  /** The listed projects get different thumbnails. */
  lemma ThumbnailsDistinct(data: Option<seq<Project>>)
    ensures var r := RecentList(data);
            forall i, j :: 0 <= i < j < |r| ==> r[i].thumbnail != r[j].thumbnail
  {
    var r := RecentList(data);
    forall i, j | 0 <= i < j < |r|
      ensures r[i].thumbnail != r[j].thumbnail
    {
      assert i % |Gradients| == i && j % |Gradients| == j;
      GradientsDistinct(i, j);
    }
  }

  /** The six gradients differ from each other. */
  lemma GradientsDistinct(i: nat, j: nat)
    requires i < j < |Gradients|
    ensures Gradients[i] != Gradients[j]
  {
    assert Gradients[i][25] != Gradients[j][25] || Gradients[i][26] != Gradients[j][26];
  }
}

=== FILE: reply_parser.dfy ===
/**
 * Turning the generation model's reply into a value: fence stripping, JSON parsing with
 * truncation repair, and the extraction fallbacks (`parseV0Response`,
 * `tryRepairTruncatedJson` and `extractCodeFromResponse` of the generation service).
 */
module ReplyParser {
  import opened Wrappers
  import opened Text
  import opened Rewrite
  import opened Json

  // ---------------------------------------------------------------------------
  // Markdown fences (fenced code blocks, section 4.5 of CommonMark)
  // ---------------------------------------------------------------------------

  /** `^\s*```(?:json)?\s*\n?` (case-insensitive): only at the very start of the text. */
  function LeadingFenceAt(s: string, i: nat): (r: Option<Hit>)
    ensures r.Some? ==> i == 0 && 3 <= r.value.end <= |s| && r.value.out == ""
  {
    if i != 0 then None
    else
      var q := SkipSpaces(s, 0);
      if !At(s, q, "```") then None
      else
        var t := if AtNoCase(s, q + 3, "json") then q + 7 else q + 3;
        Some(Hit(SkipSpaces(s, t), ""))
  }

  /**
   * `\n?\s*```\s*$` with the multiline flag, tried at offset `p`: whitespace, three
   * backticks, then whitespace reaching either the end of the text or a line terminator
   * (the match stops before the last line terminator of that run).
   */
  function ClosingFenceAt(s: string, p: nat): (r: Option<Hit>)
    ensures r.Some? ==> p + 3 <= r.value.end <= |s| && r.value.out == ""
    ensures r.Some? ==> At(s, SkipSpaces(s, p), "```")
  {
    if p > |s| then None
    else
      var q := SkipSpaces(s, p);
      if !At(s, q, "```") then None
      else
        var r := SkipSpaces(s, q + 3);
        if r == |s| then Some(Hit(r, ""))
        else
          match LastLineTerminator(s, q + 3, r)
          case Some(x) => Some(Hit(x, ""))
          case None => None
  }

  /**
   * Fence stripping of `parseV0Response`: trim, drop a leading fence, drop the first
   * closing fence, trim. What is left is trimmed and no longer than the reply.
   */
  function StripFences(response: string): (r: string)
    ensures r == [] || (!IsSpace(r[0]) && !IsSpace(r[|r| - 1]))
    ensures |r| <= |response|
  {
    var t := Trim(response);
    var a := ReplaceFirst(t, LeadingFenceAt);
    var b := ReplaceFirst(a, ClosingFenceAt);
    Trim(b)
  }

  /** Text that `trim()` leaves unchanged and that holds at least one character. */
  predicate IsTrimmed(t: string) {
    |t| > 0 && !IsSpace(t[0]) && !IsSpace(t[|t| - 1])
  }

  /**
   * No triple backtick of `t` ends a line: after each one, the spaces that follow hold no
   * line break and are followed by another character of `t`. Only such a triple backtick
   * could start a closing-fence match.
   */
  predicate NoLineEndingFence(t: string) {
    forall q :: 0 <= q && q + 3 <= |t| && At(t, q, "```") ==>
      SkipSpaces(t, q + 3) < |t| && LastLineTerminator(t, q + 3, SkipSpaces(t, q + 3)).None?
  }

  /** A payload without any triple backtick has none that ends a line. */
  lemma NoFenceNoLineEndingFence(t: string)
    requires !Contains(t, "```")
    ensures NoLineEndingFence(t)
  {
    forall q | 0 <= q && q + 3 <= |t|
      ensures !At(t, q, "```")
    {
      NotContains(t, "```", q);
    }
  }

  /**
   * Wrapping a payload in a fence (tagged `json` or untagged) and stripping it gives the
   * payload back, provided no triple backtick of the payload ends a line.
   */
  lemma StripFencesRoundTrip(tag: string, t: string)
    requires tag == "" || tag == "json"
    requires IsTrimmed(t) && NoLineEndingFence(t)
    ensures StripFences("```" + tag + "\n" + t + "\n```") == t
  {
    var s := "```" + tag + "\n" + t + "\n```";
    var a := t + "\n```";
    FencedIsTrimmed(tag, t);
    LeadingFenceStripped(tag, t);
    ClosingFenceStripped(t);
    TrimNoop(t);
  }

  lemma FencedIsTrimmed(tag: string, t: string)
    requires IsTrimmed(t)
    ensures var s := "```" + tag + "\n" + t + "\n```"; Trim(s) == s
  {
    var s := "```" + tag + "\n" + t + "\n```";
    assert s[0] == '`' && s[|s| - 1] == '`';
    TrimNoop(s);
  }

  /** The leading fence, its tag and the line break after it are removed. */
  lemma LeadingFenceStripped(tag: string, t: string)
    requires tag == "" || tag == "json"
    requires IsTrimmed(t)
    ensures ReplaceFirst("```" + tag + "\n" + t + "\n```", LeadingFenceAt) == t + "\n```"
  {
    var s := "```" + tag + "\n" + t + "\n```";
    LeadingFenceEnds(tag, t);
    ReplaceFirstAtStart(s, LeadingFenceAt, |tag| + 4);
    assert s[|tag| + 4..] == t + "\n```";
  }

  /** The leading fence match covers the backticks, the tag and the line break, and stops at the payload. */
  lemma LeadingFenceEnds(tag: string, t: string)
    requires tag == "" || tag == "json"
    requires IsTrimmed(t)
    ensures LeadingFenceAt("```" + tag + "\n" + t + "\n```", 0) == Some(Hit(|tag| + 4, ""))
  {
    var s := "```" + tag + "\n" + t + "\n```";
    var n := |tag| + 4;
    assert s[..3] == "```" && s[3..3 + |tag|] == tag && s[3 + |tag|] == '\n';
    assert s[n] == t[0];
    assert SkipSpaces(s, 0) == 0;
    if tag == "json" {
      assert AtNoCase(s, 3, "json");
      assert SkipSpaces(s, n) == n;
      assert SkipSpaces(s, 7) == n;
    } else {
      assert !AtNoCase(s, 3, "json") by {
        assert ToLower(s[3..7])[0] == ToLowerChar('\n');
      }
      assert SkipSpaces(s, n) == n;
      assert SkipSpaces(s, 3) == n;
    }
  }

  /** The closing fence after the payload is the first one, and it is removed with its line break. */
  lemma ClosingFenceStripped(t: string)
    requires IsTrimmed(t) && NoLineEndingFence(t)
    ensures ReplaceFirst(t + "\n```", ClosingFenceAt) == t
  {
    var a := t + "\n```";
    forall p | 0 <= p < |t|
      ensures !HitAt(a, ClosingFenceAt, p)
    {
      NoFenceInPayload(t, p);
    }
    assert SkipSpaces(a, |t| + 1) == |t| + 1;
    assert SkipSpaces(a, |t|) == |t| + 1;
    assert a[|t| + 1..|t| + 4] == "```";
    assert SkipSpaces(a, |t| + 4) == |a|;
    assert ClosingFenceAt(a, |t|) == Some(Hit(|a|, ""));
    assert HitAt(a, ClosingFenceAt, |t|);
    assert FirstHit(a, ClosingFenceAt, 0) == Some(|t|) by {
      FirstHitAt(a, ClosingFenceAt, 0, |t|);
    }
    assert a[..|t|] == t;
  }

  /** `FirstHit` is the first offset where the pattern matches. */
  lemma {:induction false} FirstHitAt(s: string, m: Matcher, i: nat, k: nat)
    requires i <= k < |s| && HitAt(s, m, k)
    requires forall j :: i <= j < k ==> !HitAt(s, m, j)
    ensures FirstHit(s, m, i) == Some(k)
    decreases k - i
  {
    if i < k {
      FirstHitAt(s, m, i + 1, k);
    }
  }

  /** No closing fence starts inside a payload none of whose triple backticks ends a line. */
  lemma NoFenceInPayload(t: string, p: nat)
    requires IsTrimmed(t) && NoLineEndingFence(t) && p < |t|
    ensures ClosingFenceAt(t + "\n```", p).None?
  {
    var a := t + "\n```";
    var q := SkipSpaces(a, p);
    assert q < |t| by {
      assert a[|t| - 1] == t[|t| - 1];
    }
    if At(a, q, "```") {
      FenceInPayload(t, a, q);
      var e := SkipSpaces(t, q + 3);
      SkipSpacesInPrefix(t, a, q + 3);
      NoTerminatorInPrefix(t, a, q + 3, e);
    }
  }

  /** A triple backtick of `t + "\n```"` that starts inside `t` lies wholly inside `t`. */
  lemma FenceInPayload(t: string, a: string, q: nat)
    requires a == t + "\n```" && q < |t| && At(a, q, "```")
    ensures q + 3 <= |t| && At(t, q, "```")
  {
    assert a[|t|] == '\n';
    assert forall k :: q <= k < q + 3 ==> a[k] == a[q..q + 3][k - q] == '`';
    assert q + 3 <= |t|;
    assert t[q..q + 3] == a[q..q + 3];
  }

  /** A stretch of `t` without a line terminator has none in any extension of `t`. */
  lemma NoTerminatorInPrefix(t: string, a: string, lo: nat, hi: nat)
    requires lo <= hi <= |t| <= |a| && a[..|t|] == t
    requires LastLineTerminator(t, lo, hi).None?
    ensures LastLineTerminator(a, lo, hi).None?
  {
    assert forall y :: lo <= y < hi ==> a[y] == t[y];
  }

  /** Skipping spaces that stop inside `t` stops at the same place in any extension of `t`. */
  lemma {:induction false} SkipSpacesInPrefix(t: string, a: string, i: nat)
    requires i <= |t| <= |a| && a[..|t|] == t
    requires SkipSpaces(t, i) < |t|
    ensures SkipSpaces(a, i) == SkipSpaces(t, i)
    decreases |t| - i
  {
    assert a[i] == t[i];
    if IsSpace(t[i]) {
      SkipSpacesInPrefix(t, a, i + 1);
    }
  }

  // ---------------------------------------------------------------------------
  // Truncation repair
  // ---------------------------------------------------------------------------

  /** `/Unterminated string|Unexpected end of JSON input|position \d+/.test(message)`. */
  predicate IsTruncationMessage(message: string) {
    || Contains(message, "Unterminated string")
    || Contains(message, "Unexpected end of JSON input")
    || exists i :: 0 <= i < |message| && At(message, i, "position ") && i + 9 < |message| && IsDigit(message[i + 9])
  }

  /** Closing suffixes, in the order they are tried: string+component+array+root, string+config+root, string+array+root. */
  const RepairSuffixes: seq<string> := ["\"\n}\n]\n}", "\"\n}\n}", "\"\n]\n}"]

  /** First suffix from index `k` on whose completion of `trimmed` parses to an object or array. */
  function RepairFrom(trimmed: string, parse: Parser, k: nat): (r: Option<string>)
    requires k <= |RepairSuffixes|
    ensures r.Some? ==> exists j :: k <= j < |RepairSuffixes| && r.value == trimmed + RepairSuffixes[j]
                                    && ParsesToObject(parse, r.value)
                                    && forall i :: k <= i < j ==> !ParsesToObject(parse, trimmed + RepairSuffixes[i])
    ensures r.None? ==> forall i :: k <= i < |RepairSuffixes| ==> !ParsesToObject(parse, trimmed + RepairSuffixes[i])
    decreases |RepairSuffixes| - k
  {
    if k == |RepairSuffixes| then None
    else if ParsesToObject(parse, trimmed + RepairSuffixes[k]) then Some(trimmed + RepairSuffixes[k])
    else RepairFrom(trimmed, parse, k + 1)
  }

  /** What `tryRepairTruncatedJson` returns. */
  function RepairTruncatedJson(content: string, parse: Parser): (r: Option<string>)
    ensures Trim(content) == "" ==> r.None?
    ensures r.Some? ==> StartsWithTrimmed(r.value, content) && ParsesToObject(parse, r.value)
  {
    var trimmed := Trim(content);
    if trimmed == "" then None
    else
      var r := RepairFrom(trimmed, parse, 0);
      assert r.Some? ==> r.value[..|trimmed|] == trimmed;
      r
  }

  /** `text` begins with `content.trim()`. */
  predicate StartsWithTrimmed(text: string, content: string) {
    StartsWith(text, Trim(content))
  }

  /**
   * `tryRepairTruncatedJson`: null for blank input; otherwise the trimmed input completed
   * by the first suffix, in order, that yields an object or array; null if none does.
   */
  method TryRepairTruncatedJson(content: string, parse: Parser) returns (r: Option<string>)
    ensures Trim(content) == "" ==> r.None?
    ensures r.Some? ==> exists j :: 0 <= j < |RepairSuffixes| && r.value == Trim(content) + RepairSuffixes[j]
                                    && ParsesToObject(parse, r.value)
                                    && forall i :: 0 <= i < j ==> !ParsesToObject(parse, Trim(content) + RepairSuffixes[i])
    ensures r.None? && Trim(content) != "" ==> forall i :: 0 <= i < |RepairSuffixes| ==> !ParsesToObject(parse, Trim(content) + RepairSuffixes[i])
    ensures r == RepairTruncatedJson(content, parse)
  {
    var trimmed := Trim(content);
    if trimmed == "" {
      return None;
    }
    var k := 0;
    while k < |RepairSuffixes|
      invariant 0 <= k <= |RepairSuffixes|
      invariant forall i :: 0 <= i < k ==> !ParsesToObject(parse, trimmed + RepairSuffixes[i])
      invariant RepairFrom(trimmed, parse, 0) == RepairFrom(trimmed, parse, k)
    {
      var repaired := trimmed + RepairSuffixes[k];
      var parsed := parse(repaired);
      if parsed.Parsed? && IsObjectLike(parsed.value) {
        return Some(repaired);
      }
      k := k + 1;
    }
    return None;
  }

  // ---------------------------------------------------------------------------
  // parseV0Response
  // ---------------------------------------------------------------------------

  /** The last attempt: the trimmed original reply, fences and all. */
  function RawAttempt(response: string, parse: Parser): (r: Option<Json>)
    ensures r.Some? ==> IsObjectLike(r.value) && parse(Trim(response)) == Parsed(r.value)
    ensures ParsesToObject(parse, Trim(response)) ==> r.Some?
  {
    var raw := parse(Trim(response));
    if raw.Parsed? && IsObjectLike(raw.value) then Some(raw.value) else None
  }

  /** The repaired text, when the fence-stripped parse failed with a truncation-like message. */
  function RepairAttempt(content: string, parse: Parser): (r: Option<string>)
    ensures r.Some? ==> parse(content).SyntaxError? && IsTruncationMessage(parse(content).message)
    ensures r.Some? ==> ParsesToObject(parse, r.value)
  {
    var first := parse(content);
    if first.SyntaxError? && IsTruncationMessage(first.message) then RepairTruncatedJson(content, parse) else None
  }

  /** `parseV0Response`: `None` is the source's `null`. */
  function ParseV0Response(response: string, parse: Parser): (r: Option<Json>)
    ensures response == "" ==> r.None?
    ensures r.Some? ==> IsObjectLike(r.value)
    ensures (response != "" && ParsesToObject(parse, StripFences(response)))
              ==> r == Some(parse(StripFences(response)).value)
    ensures (response != "" && !ParsesToObject(parse, StripFences(response))
             && RepairAttempt(StripFences(response), parse).Some?)
              ==> r == Some(parse(RepairAttempt(StripFences(response), parse).value).value)
    ensures (response != "" && !ParsesToObject(parse, StripFences(response))
             && RepairAttempt(StripFences(response), parse).None?)
              ==> r == RawAttempt(response, parse)
  {
    if response == "" then None
    else
      var content := StripFences(response);
      var first := parse(content);
      if first.Parsed? && IsObjectLike(first.value) then Some(first.value)
      else
        match RepairAttempt(content, parse)
        case Some(repaired) => Some(parse(repaired).value)
        case None => RawAttempt(response, parse)
  }

  /** A fenced payload that parses is parsed exactly as if the fence had been removed by hand. */
  lemma ParseFencedPayload(tag: string, t: string, parse: Parser)
    requires tag == "" || tag == "json"
    requires IsTrimmed(t) && NoLineEndingFence(t)
    requires ParsesToObject(parse, t)
    ensures ParseV0Response("```" + tag + "\n" + t + "\n```", parse) == Some(parse(t).value)
  {
    StripFencesRoundTrip(tag, t);
  }

  /** Repair is never tried when the parse error does not look like truncation. */
  lemma NoRepairWithoutTruncation(response: string, parse: Parser)
    requires response != ""
    requires parse(StripFences(response)).SyntaxError?
    requires !IsTruncationMessage(parse(StripFences(response)).message)
    ensures ParseV0Response(response, parse) == RawAttempt(response, parse)
  {
  }

  // ---------------------------------------------------------------------------
  // extractCodeFromResponse
  // ---------------------------------------------------------------------------

  /** A parsed reply, or the legacy `{html, css, js}` record built from code blocks. */
  datatype Extracted = FromJson(value: Json) | Legacy(html: string, css: string, js: string)

  const HtmlPlaceholder := "<div>Generated Website</div>"
  const CssPlaceholder := "body { margin: 0; padding: 0; }"
  const JsPlaceholder := "// JavaScript code"

  /** The keys occur in `s[lo..hi]` one after another, without overlapping (leftmost search). */
  predicate KeysInOrder(s: string, lo: nat, hi: nat, keys: seq<string>)
    requires lo <= hi <= |s|
    decreases |keys|
  {
    if |keys| == 0 then true
    else
      match IndexOfFrom(s[..hi], keys[0], lo)
      case None => false
      case Some(c) => KeysInOrder(s, c + |keys[0]|, hi, keys[1..])
  }

  /**
   * `\{[\s\S]*k1[\s\S]*k2…[\s\S]*\}`: from the first `{` to the last `}`, provided the
   * keys occur between them in order.
   */
  function BraceSpan(s: string, keys: seq<string>): (r: Option<string>)
    ensures r.Some? ==> |r.value| >= 2 && r.value[0] == '{' && r.value[|r.value| - 1] == '}'
    ensures r.Some? <==> && IndexOf(s, "{").Some? && LastIndexOfChar(s, '}').Some?
                         && IndexOf(s, "{").value < LastIndexOfChar(s, '}').value
                         && KeysInOrder(s, IndexOf(s, "{").value + 1, LastIndexOfChar(s, '}').value, keys)
    ensures r.Some? ==> && r.value == s[IndexOf(s, "{").value..LastIndexOfChar(s, '}').value + 1]
                        && '{' !in s[..IndexOf(s, "{").value] && '}' !in s[LastIndexOfChar(s, '}').value + 1..]
  {
    match IndexOf(s, "{")
    case None => None
    case Some(p) =>
      match LastIndexOfChar(s, '}')
      case None => None
      case Some(l) =>
        if p < l && KeysInOrder(s, p + 1, l, keys) then
          assert s[p..p + 1] == "{";
          var r := s[p..l + 1];
          assert r[0] == s[p] && r[|r| - 1] == s[l];
          FirstBrace(s, p);
          Some(r)
        else None
  }

  /** No `{` comes before the first offset that holds `{`. */
  lemma FirstBrace(s: string, p: nat)
    requires p <= |s| && forall j :: 0 <= j < p ==> !At(s, j, "{")
    ensures '{' !in s[..p]
  {
    forall j | 0 <= j < p
      ensures s[j] != '{'
    {
      assert !At(s, j, "{");
      assert s[j..j + 1] == [s[j]];
    }
  }

  /** A pattern for a code block: a fence with a language tag, or an HTML element (case-insensitive). */
  datatype BlockPattern = Fence(tag: string) | Element(name: string)

  /** Leftmost offset at or after `from` holding `p`, ignoring ASCII case (`p` in lower case). */
  function IndexOfNoCase(s: string, p: string, from: nat): (r: Option<nat>)
    ensures r.Some? ==> from <= r.value && AtNoCase(s, r.value, p)
    ensures r.Some? ==> forall j :: from <= j < r.value ==> !AtNoCase(s, j, p)
    ensures r.None? ==> forall j :: from <= j ==> !AtNoCase(s, j, p)
    decreases |s| - from
  {
    if from + |p| > |s| then None
    else if AtNoCase(s, from, p) then Some(from)
    else IndexOfNoCase(s, p, from + 1)
  }

  /** Last `\n` in `s[lo..hi]`. */
  function LastNewline(s: string, lo: nat, hi: nat): (r: Option<nat>)
    requires lo <= hi <= |s|
    ensures r.Some? ==> lo <= r.value < hi && s[r.value] == '\n'
    ensures r.Some? ==> forall y :: r.value < y < hi ==> s[y] != '\n'
    ensures r.None? ==> forall y :: lo <= y < hi ==> s[y] != '\n'
    decreases hi
  {
    if hi == lo then None
    else if s[hi - 1] == '\n' then Some(hi - 1)
    else LastNewline(s, lo, hi - 1)
  }

  /**
   * The captured text of the pattern matched at offset `p`:
   * ```` ```tag\s*\n([\s\S]*?)``` ```` or `<name>([\s\S]*?)<\/name>` (case-insensitive).
   */
  function BlockAt(s: string, pat: BlockPattern, p: nat): (r: Option<string>)
    ensures r.Some? ==> exists a, b :: p <= a <= b <= |s| && r.value == s[a..b]
    ensures pat.Fence? ==> r == FenceBlockAt(s, pat.tag, p)
    ensures pat.Element? ==> r == ElementBlockAt(s, pat.name, p)
  {
    match pat
    case Fence(tag) => FenceBlockAt(s, tag, p)
    case Element(name) => ElementBlockAt(s, name, p)
  }

  /** ```` ```tag\s*\n([\s\S]*?)``` ````: the capture starts after the last line break of the whitespace run. */
  function FenceBlockAt(s: string, tag: string, p: nat): (r: Option<string>)
    ensures r.Some? ==> exists a, b :: p <= a <= b <= |s| && r.value == s[a..b]
    ensures r.Some? ==> At(s, p, "```" + tag)
    ensures r.Some? ==> exists x: nat, c: nat :: FenceCapture(s, p, tag, x, c) && r.value == s[x + 1..c]
  {
    var open := "```" + tag;
    if !At(s, p, open) then None
    else
      var run := SkipSpaces(s, p + |open|);
      match LastNewline(s, p + |open|, run)
      case None => None
      case Some(x) =>
        match IndexOfFrom(s, "```", x + 1)
        case None => None
        case Some(c) =>
          assert FenceCapture(s, p, tag, x, c);
          Some(s[x + 1..c])
  }

  /**
   * The capture of the fence opened at `p` runs from `x + 1` to `c`: `x` is the last line
   * break of the whitespace run after the tag, and `c` is the first triple backtick after
   * it (the lazy `[\s\S]*?`).
   */
  predicate FenceCapture(s: string, p: nat, tag: string, x: nat, c: nat) {
    var o := p + 3 + |tag|;
    && o <= x < c <= |s| && s[x] == '\n'
    && (forall k :: o <= k <= x ==> IsSpace(s[k]))
    && o <= |s| && (forall k :: x < k < SkipSpaces(s, o) ==> s[k] != '\n')
    && At(s, c, "```") && (forall j :: x + 1 <= j < c ==> !At(s, j, "```"))
  }

  /** `<name>([\s\S]*?)<\/name>`, case-insensitive. */
  function ElementBlockAt(s: string, name: string, p: nat): (r: Option<string>)
    ensures r.Some? ==> exists a, b :: p <= a <= b <= |s| && r.value == s[a..b]
    ensures r.Some? <==> AtNoCase(s, p, "<" + name + ">")
                         && exists c :: p + |name| + 2 <= c && AtNoCase(s, c, "</" + name + ">")
    ensures r.Some? ==> exists c :: && p + |name| + 2 <= c <= |s| && r.value == s[p + |name| + 2..c] && AtNoCase(s, c, "</" + name + ">")
                                    && forall j :: p + |name| + 2 <= j < c ==> !AtNoCase(s, j, "</" + name + ">")
  {
    var open := "<" + name + ">";
    if !AtNoCase(s, p, open) then None
    else
      match IndexOfNoCase(s, "</" + name + ">", p + |open|)
      case None => None
      case Some(c) => Some(s[p + |open|..c])
  }

  /** `s.match(pattern)[1]`: the capture of the leftmost match at or after `p`. */
  function FirstBlock(s: string, pat: BlockPattern, p: nat): (r: Option<string>)
    decreases |s| - p
  {
    if p > |s| then None
    else match BlockAt(s, pat, p)
      case Some(c) => Some(c)
      case None => if p == |s| then None else FirstBlock(s, pat, p + 1)
  }

  /** `match(p1) || match(p2) || …`: the capture of the first pattern that matches anywhere. */
  function FirstOf(s: string, pats: seq<BlockPattern>): Option<string>
  {
    if |pats| == 0 then None
    else match FirstBlock(s, pats[0], 0)
      case Some(c) => Some(c)
      case None => FirstOf(s, pats[1..])
  }

  const HtmlPatterns: seq<BlockPattern> := [Fence("html"), Fence("HTML"), Element("html")]
  const CssPatterns: seq<BlockPattern> := [Fence("css"), Fence("CSS"), Element("style")]
  const JsPatterns: seq<BlockPattern> := [Fence("javascript"), Fence("js"), Fence("JS"), Element("script")]

  /** A legacy field: the trimmed capture, or the placeholder when no pattern matched. */
  function BlockOr(s: string, pats: seq<BlockPattern>, placeholder: string): (r: string)
    ensures FirstOf(s, pats).None? ==> r == placeholder
    ensures FirstOf(s, pats).Some? ==> r == Trim(FirstOf(s, pats).value)
  {
    match FirstOf(s, pats)
    case Some(c) => Trim(c)
    case None => placeholder
  }

  const ComponentKeys: seq<string> := ["\"components\""]
  const LegacyKeys: seq<string> := ["\"html\"", "\"css\"", "\"js\""]

  /**
   * The component-shaped object found in the text, parsed (with one repair attempt): the
   * span's value when it parses, else the value of its repair after a truncation error.
   */
  function ComponentSpanAttempt(response: string, parse: Parser): (r: Option<Json>)
    ensures r.Some? ==> BraceSpan(response, ComponentKeys).Some?
    ensures (BraceSpan(response, ComponentKeys).Some? && parse(BraceSpan(response, ComponentKeys).value).Parsed?)
              ==> r == Some(parse(BraceSpan(response, ComponentKeys).value).value)
    ensures (BraceSpan(response, ComponentKeys).Some? && parse(BraceSpan(response, ComponentKeys).value).SyntaxError?)
              ==> var span := BraceSpan(response, ComponentKeys).value;
                  var repaired := RepairTruncatedJson(span, parse);
                  if IsTruncationMessage(parse(span).message) && repaired.Some?
                  then r == Some(parse(repaired.value).value) && IsObjectLike(r.value)
                  else r.None?
  {
    match BraceSpan(response, ComponentKeys)
    case None => None
    case Some(matched) =>
      match parse(matched)
      case Parsed(v) => Some(v)
      case SyntaxError(msg) =>
        if IsTruncationMessage(msg) then
          match RepairTruncatedJson(matched, parse)
          case Some(repaired) => Some(parse(repaired).value)
          case None => None
        else None
  }

  /** The legacy-shaped object found in the text, parsed: the span's value exactly when it parses. */
  function LegacySpanAttempt(response: string, parse: Parser): (r: Option<Json>)
    ensures r.Some? <==> BraceSpan(response, LegacyKeys).Some? && parse(BraceSpan(response, LegacyKeys).value).Parsed?
    ensures r.Some? ==> r.value == parse(BraceSpan(response, LegacyKeys).value).value
  {
    match BraceSpan(response, LegacyKeys)
    case None => None
    case Some(matched) =>
      match parse(matched)
      case Parsed(v) => Some(v)
      case SyntaxError(_) => None
  }

  /** `extractCodeFromResponse`: never fails; the last resort is the legacy record. */
  function ExtractCodeFromResponse(response: string, parse: Parser): (r: Extracted)
    ensures ParseV0Response(response, parse).Some? ==> r == FromJson(ParseV0Response(response, parse).value)
    ensures r.Legacy? ==> ParseV0Response(response, parse).None?
                          && ComponentSpanAttempt(response, parse).None?
                          && LegacySpanAttempt(response, parse).None?
    ensures r.Legacy? ==> r.html == BlockOr(response, HtmlPatterns, HtmlPlaceholder)
                          && r.css == BlockOr(response, CssPatterns, CssPlaceholder)
                          && r.js == BlockOr(response, JsPatterns, JsPlaceholder)
    ensures (ParseV0Response(response, parse).None? && ComponentSpanAttempt(response, parse).Some?)
              ==> r == FromJson(ComponentSpanAttempt(response, parse).value)
    ensures (ParseV0Response(response, parse).None? && ComponentSpanAttempt(response, parse).None?
             && LegacySpanAttempt(response, parse).Some?)
              ==> r == FromJson(LegacySpanAttempt(response, parse).value)
    ensures (ParseV0Response(response, parse).None? && ComponentSpanAttempt(response, parse).None?
             && LegacySpanAttempt(response, parse).None?)
              ==> r == Legacy(BlockOr(response, HtmlPatterns, HtmlPlaceholder),
                              BlockOr(response, CssPatterns, CssPlaceholder),
                              BlockOr(response, JsPatterns, JsPlaceholder))
  {
    match ParseV0Response(response, parse)
    case Some(v) => FromJson(v)
    case None =>
      match ComponentSpanAttempt(response, parse)
      case Some(v) => FromJson(v)
      case None =>
        match LegacySpanAttempt(response, parse)
        case Some(v) => FromJson(v)
        case None =>
          Legacy(BlockOr(response, HtmlPatterns, HtmlPlaceholder),
                 BlockOr(response, CssPatterns, CssPlaceholder),
                 BlockOr(response, JsPatterns, JsPlaceholder))
  }

  /** A reply with no braces, backticks or angle brackets that nothing parses yields exactly the three placeholders. */
  lemma PlaceholdersWhenNothingFound(response: string, parse: Parser)
    requires forall text :: !parse(text).Parsed?
    requires '{' !in response && '`' !in response && '<' !in response
    ensures ExtractCodeFromResponse(response, parse) == Legacy(HtmlPlaceholder, CssPlaceholder, JsPlaceholder)
  {
    NoBrace(response);
    NoBlocks(response, HtmlPatterns);
    NoBlocks(response, CssPatterns);
    NoBlocks(response, JsPatterns);
  }

  lemma NoBrace(s: string)
    requires '{' !in s
    ensures IndexOf(s, "{").None?
  {
    forall p: nat | p + 1 <= |s|
      ensures !At(s, p, "{")
    {
      assert s[p..p + 1][0] == s[p];
      assert s[p] in s;
    }
  }

  /** Without backticks or `<`, no block pattern matches. */
  lemma NoBlocks(s: string, pats: seq<BlockPattern>)
    requires '`' !in s && '<' !in s
    ensures FirstOf(s, pats).None?
    decreases |pats|
  {
    if |pats| > 0 {
      NoBlockFrom(s, pats[0], 0);
      NoBlocks(s, pats[1..]);
    }
  }

  lemma {:induction false} NoBlockFrom(s: string, pat: BlockPattern, p: nat)
    requires '`' !in s && '<' !in s
    ensures FirstBlock(s, pat, p).None?
    decreases |s| - p
  {
    if p <= |s| {
      NoBlockAt(s, pat, p);
      if p < |s| {
        NoBlockFrom(s, pat, p + 1);
      }
    }
  }

  lemma NoBlockAt(s: string, pat: BlockPattern, p: nat)
    requires '`' !in s && '<' !in s
    ensures BlockAt(s, pat, p).None?
  {
    match pat
    case Fence(tag) =>
      NoFenceAt(s, tag, p);
    case Element(name) =>
      NoElementAt(s, name, p);
  }

  lemma NoFenceAt(s: string, tag: string, p: nat)
    requires '`' !in s
    ensures FenceBlockAt(s, tag, p).None?
  {
    var open := "```" + tag;
    if p + |open| <= |s| {
      assert s[p..p + |open|][0] == s[p];
      assert s[p] in s;
    }
  }

  lemma NoElementAt(s: string, name: string, p: nat)
    requires '<' !in s
    ensures ElementBlockAt(s, name, p).None?
  {
    var open := "<" + name + ">";
    if p + |open| <= |s| {
      assert ToLower(s[p..p + |open|])[0] == ToLowerChar(s[p]);
      assert s[p] in s;
    }
    assert !AtNoCase(s, p, open);
  }
}

=== FILE: rewrite.dfy ===
/**
 * The semantics of JavaScript's `String.prototype.replace` driven by one pattern.
 *
 * Every regular expression of the source is re-expressed as an explicit matcher: a
 * function that, given the whole text and an offset, says whether the pattern matches
 * starting exactly there, where the match ends, and what text replaces it (the
 * replacement may depend on the whole text, as the source's callbacks do). A global
 * (`/g`) replace tries offsets left to right, replaces the leftmost match, resumes
 * scanning after it and never re-examines replaced text; a non-global replace replaces
 * the leftmost match only. None of the source's global patterns matches the empty string,
 * so a match always consumes at least one character.
 */
module Rewrite {
  import opened Wrappers

  /** A match: the offset one past its last character, and its replacement text. */
  datatype Hit = Hit(end: nat, out: string)

  type Matcher = (string, nat) -> Option<Hit>

  /** The pattern matches `s` starting at offset `i`. */
  predicate HitAt(s: string, m: Matcher, i: nat) {
    i < |s| && m(s, i).Some? && i < m(s, i).value.end <= |s|
  }

  /** Text produced by a global replace from offset `i` on. */
  function ReplaceFrom(s: string, m: Matcher, i: nat): string
    requires i <= |s|
    decreases |s| - i
  {
    if i == |s| then ""
    else if HitAt(s, m, i) then m(s, i).value.out + ReplaceFrom(s, m, m(s, i).value.end)
    else [s[i]] + ReplaceFrom(s, m, i + 1)
  }

  /** `s.replace(/pattern/g, replacement)`: text where the pattern never matches is unchanged. */
  function ReplaceAll(s: string, m: Matcher): (r: string)
    ensures !Matches(s, m) ==> r == s
  {
    if !Matches(s, m) then
      ReplaceNoHit(s, m, 0);
      ReplaceFrom(s, m, 0)
    else ReplaceFrom(s, m, 0)
  }

  /** Leftmost offset at or after `i` where the pattern matches. */
  function FirstHit(s: string, m: Matcher, i: nat): (r: Option<nat>)
    requires i <= |s|
    ensures r.Some? ==> i <= r.value < |s| && HitAt(s, m, r.value)
    ensures r.Some? ==> forall j :: i <= j < r.value ==> !HitAt(s, m, j)
    ensures r.None? ==> forall j :: i <= j < |s| ==> !HitAt(s, m, j)
    decreases |s| - i
  {
    if i == |s| then None
    else if HitAt(s, m, i) then Some(i)
    else FirstHit(s, m, i + 1)
  }

  /**
   * `s.replace(/pattern/, replacement)`: only the leftmost match is replaced, so text
   * without a match is unchanged and the text before the match is kept.
   */
  function ReplaceFirst(s: string, m: Matcher): (r: string)
    ensures !Matches(s, m) ==> r == s
    ensures Matches(s, m) ==> var i := FirstHit(s, m, 0).value;
                              i + |m(s, i).value.out| <= |r| && r[..i] == s[..i] && r[i..i + |m(s, i).value.out|] == m(s, i).value.out
  {
    match FirstHit(s, m, 0)
    case None => s
    case Some(i) => s[..i] + m(s, i).value.out + s[m(s, i).value.end..]
  }

  /** The replacement texts of the successive matches of a global scan from `i` (`matchAll`). */
  function MatchAllFrom(s: string, m: Matcher, i: nat): (r: seq<string>)
    requires i <= |s|
    ensures |r| <= |s| - i
    decreases |s| - i
  {
    if i == |s| then []
    else if HitAt(s, m, i) then [m(s, i).value.out] + MatchAllFrom(s, m, m(s, i).value.end)
    else MatchAllFrom(s, m, i + 1)
  }

  /**
   * `Array.from(s.matchAll(/pattern/g))`, each match mapped to its replacement text: it
   * collects nothing exactly when the pattern never matches.
   */
  function MatchAll(s: string, m: Matcher): (r: seq<string>)
    ensures r == [] <==> !Matches(s, m)
  {
    match FirstHit(s, m, 0)
    case None =>
      MatchAllNoHit(s, m, 0);
      MatchAllFrom(s, m, 0)
    case Some(i) =>
      MatchAllSkips(s, m, 0, i);
      MatchAllFrom(s, m, 0)
  }

  /** `pattern.test(s)`. */
  predicate Matches(s: string, m: Matcher) {
    FirstHit(s, m, 0).Some?
  }

  /** Where the pattern never matches, a global replace returns the text unchanged. */
  lemma {:induction false} ReplaceNoHit(s: string, m: Matcher, i: nat)
    requires i <= |s|
    requires forall j :: i <= j < |s| ==> !HitAt(s, m, j)
    ensures ReplaceFrom(s, m, i) == s[i..]
    decreases |s| - i
  {
    if i < |s| {
      ReplaceNoHit(s, m, i + 1);
    }
  }

  /** At a match, a global replace emits the replacement and resumes after the match. */
  lemma ReplaceAtHit(s: string, m: Matcher, i: nat)
    requires HitAt(s, m, i)
    ensures ReplaceFrom(s, m, i) == m(s, i).value.out + ReplaceFrom(s, m, m(s, i).value.end)
  {
  }

  /** A global replace copies the text before its first match verbatim. */
  lemma {:induction false} ReplaceCopiesUpTo(s: string, m: Matcher, i: nat, k: nat)
    requires i <= k <= |s|
    requires forall j :: i <= j < k ==> !HitAt(s, m, j)
    ensures ReplaceFrom(s, m, i) == s[i..k] + ReplaceFrom(s, m, k)
    decreases k - i
  {
    if i < k {
      ReplaceCopiesUpTo(s, m, i + 1, k);
    }
  }

  /** A text with exactly one match, at `p` and ending at `e`, has that match replaced and the rest copied. */
  lemma ReplaceOnlyHit(s: string, m: Matcher, p: nat, e: nat, out: string)
    requires HitAt(s, m, p) && m(s, p) == Some(Hit(e, out))
    requires forall j :: 0 <= j < p ==> !HitAt(s, m, j)
    requires forall j :: e <= j < |s| ==> !HitAt(s, m, j)
    ensures ReplaceAll(s, m) == s[..p] + out + s[e..]
  {
    ReplaceCopiesUpTo(s, m, 0, p);
    ReplaceAtHit(s, m, p);
    ReplaceNoHit(s, m, e);
  }

  /** At the first match, at `p`, a global replace copies what precedes it, emits the replacement and resumes after it. */
  lemma ReplaceFirstHit(s: string, m: Matcher, p: nat, e: nat, out: string)
    requires HitAt(s, m, p) && m(s, p) == Some(Hit(e, out))
    requires forall j :: 0 <= j < p ==> !HitAt(s, m, j)
    ensures ReplaceAll(s, m) == s[..p] + out + ReplaceFrom(s, m, e)
  {
    ReplaceCopiesUpTo(s, m, 0, p);
    ReplaceAtHit(s, m, p);
    assert s[0..p] == s[..p];
  }

  /** The first match, at `p`, is replaced and what precedes it copied: the result begins with both. */
  lemma ReplaceFirstHitPrefix(s: string, m: Matcher, p: nat, e: nat, out: string)
    requires HitAt(s, m, p) && m(s, p) == Some(Hit(e, out))
    requires forall j :: 0 <= j < p ==> !HitAt(s, m, j)
    ensures |s[..p] + out| <= |ReplaceAll(s, m)|
    ensures ReplaceAll(s, m)[..p + |out|] == s[..p] + out
  {
    ReplaceFirstHit(s, m, p, e, out);
    var rest := ReplaceFrom(s, m, e);
    assert ReplaceAll(s, m) == (s[..p] + out) + rest;
  }

  /** A deleting match at offset 0 is the first match: only what follows it is left. */
  lemma ReplaceFirstAtStart(s: string, m: Matcher, e: nat)
    requires 0 < e <= |s| && m(s, 0) == Some(Hit(e, ""))
    ensures ReplaceFirst(s, m) == s[e..]
  {
    assert HitAt(s, m, 0);
    assert FirstHit(s, m, 0) == Some(0);
  }

  /** The same, for a match that deletes what it covers: what is left are the texts around it. */
  lemma DeleteOnlyHit(s: string, m: Matcher, pre: string, e: nat, post: string)
    requires HitAt(s, m, |pre|) && m(s, |pre|) == Some(Hit(e, ""))
    requires s[..|pre|] == pre && e <= |s| && s[e..] == post
    requires forall j :: 0 <= j < |pre| ==> !HitAt(s, m, j)
    requires forall j :: e <= j < |s| ==> !HitAt(s, m, j)
    ensures ReplaceAll(s, m) == pre + post
  {
    ReplaceOnlyHit(s, m, |pre|, e, "");
  }

  /** Replacing with text never longer than the match never lengthens the text. */
  lemma {:induction false} ReplaceNeverLonger(s: string, m: Matcher, i: nat)
    requires i <= |s|
    requires forall j :: i <= j < |s| && HitAt(s, m, j) ==> |m(s, j).value.out| <= m(s, j).value.end - j
    ensures |ReplaceFrom(s, m, i)| <= |s| - i
    decreases |s| - i
  {
    if i < |s| {
      if HitAt(s, m, i) {
        ReplaceNeverLonger(s, m, m(s, i).value.end);
      } else {
        ReplaceNeverLonger(s, m, i + 1);
      }
    }
  }

  /** A scan that finds no match collects nothing. */
  lemma {:induction false} MatchAllNoHit(s: string, m: Matcher, i: nat)
    requires i <= |s|
    requires forall j :: i <= j < |s| ==> !HitAt(s, m, j)
    ensures MatchAllFrom(s, m, i) == []
    decreases |s| - i
  {
    if i < |s| {
      MatchAllNoHit(s, m, i + 1);
    }
  }

  /** The scan passes over offsets without a match. */
  lemma {:induction false} MatchAllSkips(s: string, m: Matcher, i: nat, j: nat)
    requires i <= j < |s| && HitAt(s, m, j)
    requires forall k :: i <= k < j ==> !HitAt(s, m, k)
    ensures MatchAllFrom(s, m, i) == [m(s, j).value.out] + MatchAllFrom(s, m, m(s, j).value.end)
    decreases j - i
  {
    if i < j {
      MatchAllSkips(s, m, i + 1, j);
    }
  }

  /** Everything the scan collects is the replacement of a match at or after `i`. */
  lemma {:induction false} MatchAllOuts(s: string, m: Matcher, i: nat)
    requires i <= |s|
    ensures forall x :: x in MatchAllFrom(s, m, i) ==>
              exists j :: i <= j < |s| && HitAt(s, m, j) && m(s, j).value.out == x
    decreases |s| - i
  {
    if i < |s| {
      if HitAt(s, m, i) {
        MatchAllOuts(s, m, m(s, i).value.end);
      } else {
        MatchAllOuts(s, m, i + 1);
      }
    }
  }
}

=== FILE: sanitize.dfy ===
/**
 * The source sanitisers of the generation service (backend/src/website/website.service.ts)
 * and the image-size choice shared with the preview: each is a global replace driven by an
 * explicit matcher for the source's pattern.
 */
module Sanitize {
  import opened Wrappers
  import opened Text
  import opened Rewrite

  // ---------------------------------------------------------------------------
  // `${expr}` inside JSX text:  />([^<]*?)\$\{([^}]+)\}([^<]*?)</g  ->  >before{'$' + expr}after<
  // ---------------------------------------------------------------------------

  /** Offsets of one `>before${expr}after<` match: `${` at `k`, `}` at `e`, `<` at `a`. */
  datatype DollarSpan = DollarSpan(k: nat, e: nat, a: nat)

  /**
   * Lazy search for the `${` that starts the interpolation, trying `k = i+1, i+2, …`
   * while the text between `>` and `k` holds no `<`.
   */
  function DollarSpanFrom(s: string, i: nat, k: nat): (r: Option<DollarSpan>)
    requires i < k <= |s|
    ensures r.Some? ==> k <= r.value.k && At(s, r.value.k, "${")
    ensures r.Some? ==> r.value.k + 2 < r.value.e < r.value.a < |s|
    ensures r.Some? ==> s[r.value.e] == '}' && s[r.value.a] == '<'
    ensures r.Some? ==> forall j :: k <= j < r.value.k ==> s[j] != '<'
    ensures r.Some? ==> forall j :: r.value.k + 2 <= j < r.value.e ==> s[j] != '}'
    ensures r.Some? ==> forall j :: r.value.e < j < r.value.a ==> s[j] != '<'

    decreases |s| - k
  {
    if k == |s| || s[k] == '<' then None
    else if At(s, k, "${") then
      var e := FindChar(s, k + 2, '}');
      if e == k + 2 || e == |s| then DollarSpanFrom(s, i, k + 1)
      else
        var a := FindChar(s, e + 1, '<');
        if a == |s| then DollarSpanFrom(s, i, k + 1)
        else Some(DollarSpan(k, e, a))
    else DollarSpanFrom(s, i, k + 1)
  }

  /** The replacement the source writes for one match. */
  function DollarOut(before: string, expr: string, after: string): string {
    ">" + before + "{'$' + " + expr + "}" + after + "<"
  }

  /** Matcher for the `${expr}`-in-JSX-text pattern. */
  function DollarMatch(s: string, i: nat): Option<Hit> {
    if i < |s| && s[i] == '>' && i + 1 <= |s| then
      match DollarSpanFrom(s, i, i + 1)
      case None => None
      case Some(d) => Some(Hit(d.a + 1, DollarOut(s[i + 1..d.k], s[d.k + 2..d.e], s[d.e + 1..d.a])))
    else None
  }

  /**
   * `sanitizeJsxDollarInterpolation` (and the preview's identical `sanitizeDollarInJsx`):
   * text without `${` is left unchanged.
   */
  function SanitizeJsxDollarInterpolation(code: string): (r: string)
    ensures !Contains(code, "${") ==> r == code
  {
    if !Contains(code, "${") then
      DollarFreeUnchanged(code);
      ReplaceAll(code, DollarMatch)
    else ReplaceAll(code, DollarMatch)
  }

  /** Without `${` the dollar pattern matches nowhere. */
  lemma DollarFreeUnchanged(code: string)
    requires !Contains(code, "${")
    ensures !Matches(code, DollarMatch)
  {
    forall j | 0 <= j < |code|
      ensures !HitAt(code, DollarMatch, j)
    {
      if j < |code| && code[j] == '>' {
        forall x | j + 1 <= x
          ensures !At(code, x, "${")
        {
          NotContains(code, "${", x);
        }
      }
    }
  }

  /**
   * At a `>` that opens `before${expr}after<` — `before` and `after` without `<`, `before`
   * without `${`, `expr` non-empty without `}` — the match covers exactly that group and
   * rewrites it to `>before{'$' + expr}after<`, whatever text surrounds it.
   */
  lemma DollarGroupAt(pre: string, before: string, expr: string, after: string, post: string)
    requires '<' !in before && '<' !in after && '}' !in expr && expr != []
    requires !Contains(before, "${")
    ensures var s := pre + ">" + before + "${" + expr + "}" + after + "<" + post;
            && HitAt(s, DollarMatch, |pre|)
            && DollarMatch(s, |pre|) == Some(Hit(|pre| + |before| + |expr| + |after| + 5, DollarOut(before, expr, after)))
  {
    var s := pre + ">" + before + "${" + expr + "}" + after + "<" + post;
    GroupLayout(pre, before, expr, after, post);
    DollarGroupIn(s, |pre|, before, expr, after);
  }

  lemma {:induction false} DollarGroupIn(s: string, i: nat, before: string, expr: string, after: string)
    requires '<' !in before && '<' !in after && '}' !in expr && expr != []
    requires !Contains(before, "${")
    requires GroupShape(s, i, before, expr, after)
    ensures HitAt(s, DollarMatch, i)
    ensures DollarMatch(s, i) == Some(Hit(i + |before| + |expr| + |after| + 5, DollarOut(before, expr, after)))
  {
    var k := i + 1 + |before|;
    var e := k + 2 + |expr|;
    var a := e + 1 + |after|;
    assert DollarSpanFrom(s, i, i + 1) == Some(DollarSpan(k, e, a)) by {
      GroupSpan(s, i, before, expr, after);
    }
    assert s[i + 1..k] == before && s[k + 2..e] == expr && s[e + 1..a] == after;
  }

  /** The lazy search from just after the group's `>` finds the group's own `${`, `}` and `<`. */
  lemma GroupSpan(s: string, i: nat, before: string, expr: string, after: string)
    requires '<' !in before && '<' !in after && '}' !in expr && expr != []
    requires !Contains(before, "${")
    requires GroupShape(s, i, before, expr, after)
    ensures var k := i + 1 + |before|;
            var e := k + 2 + |expr|;
            DollarSpanFrom(s, i, i + 1) == Some(DollarSpan(k, e, e + 1 + |after|))
  {
    var k := i + 1 + |before|;
    var e := k + 2 + |expr|;
    var a := e + 1 + |after|;
    BeforeChars(s, i, before, expr, after);
    NoCharIn(s, k + 2, e, expr, '}');
    NoCharIn(s, e + 1, a, after, '<');
    assert At(s, k, "${");
    DollarSpanAt(s, i, i + 1, k, e, a);
  }

  /** No `<` and no `${` starts inside the `before` of a group. */
  lemma BeforeChars(s: string, i: nat, before: string, expr: string, after: string)
    requires '<' !in before && !Contains(before, "${")
    requires GroupShape(s, i, before, expr, after)
    ensures forall j :: i + 1 <= j < i + 1 + |before| ==> s[j] != '<' && !At(s, j, "${")
  {
    forall j | i + 1 <= j < i + 1 + |before|
      ensures s[j] != '<' && !At(s, j, "${")
    {
      BeforeChar(s, i, before, j);
    }
  }

  /** A slice equal to a text without `c` holds no `c`. */
  lemma NoCharIn(s: string, lo: nat, hi: nat, t: string, c: char)
    requires lo <= hi <= |s| && s[lo..hi] == t && c !in t
    ensures forall j :: lo <= j < hi ==> s[j] != c
  {
    forall j | lo <= j < hi
      ensures s[j] != c
    {
      assert s[j] == t[j - lo];
    }
  }

  /** No `<` and no `${` starts inside `before`. */
  lemma BeforeChar(s: string, i: nat, before: string, j: nat)
    requires '<' !in before && !Contains(before, "${")
    requires i + 3 + |before| <= |s|
    requires s[i + 1..i + 1 + |before|] == before
    requires s[i + 1 + |before|..i + 3 + |before|] == "${"
    requires i + 1 <= j < i + 1 + |before|
    ensures s[j] != '<' && !At(s, j, "${")
  {
    var k := i + 1 + |before|;
    assert s[j] == before[j - i - 1];
    assert s[j] in before;
    if At(s, j, "${") {
      assert s[j] == s[j..j + 2][0] == '$';
      assert s[j + 1] == s[j..j + 2][1] == '{';
      if j + 1 < k {
        assert before[j - i] == s[j + 1];
        assert before[j - i - 1..j - i + 1] == "${";
        ContainsAt(before, "${", j - i - 1);
      }
    }
  }

  /** `>before${expr}after<` at `i` of `s`, part by part. */
  predicate GroupShape(s: string, i: nat, before: string, expr: string, after: string) {
    && i + |before| + |expr| + |after| + 5 <= |s|
    && s[i] == '>' && s[i + 1..i + 1 + |before|] == before
    && s[i + 1 + |before|..i + 3 + |before|] == "${"
    && s[i + 3 + |before|..i + 3 + |before| + |expr|] == expr
    && s[i + 3 + |before| + |expr|] == '}'
    && s[i + 4 + |before| + |expr|..i + 4 + |before| + |expr| + |after|] == after
    && s[i + 4 + |before| + |expr| + |after|] == '<'
  }

  /** Where each part of `pre>before${expr}after<post` sits. */
  lemma GroupLayout(pre: string, before: string, expr: string, after: string, post: string)
    ensures GroupShape(pre + ">" + before + "${" + expr + "}" + after + "<" + post, |pre|, before, expr, after)
  {
  }

  /** The lazy search stops at the first `${` whose `}` and closing `<` exist. */
  lemma {:induction false} DollarSpanAt(s: string, i: nat, k0: nat, k: nat, e: nat, a: nat)
    requires i < k0 <= k && k + 2 < e < a < |s|
    requires forall j :: k0 <= j < k ==> s[j] != '<' && !At(s, j, "${")
    requires At(s, k, "${") && s[e] == '}' && s[a] == '<'
    requires forall j :: k + 2 <= j < e ==> s[j] != '}'
    requires forall j :: e < j < a ==> s[j] != '<'
    ensures DollarSpanFrom(s, i, k0) == Some(DollarSpan(k, e, a))
    decreases k - k0
  {
    if k0 < k {
      DollarSpanAt(s, i, k0 + 1, k, e, a);
    } else {
      assert s[k] == '$';
    }
  }

  /** Text without `$` holds no `${`. */
  lemma NoDollarSign(t: string)
    requires '$' !in t
    ensures !Contains(t, "${")
  {
    forall x | 0 <= x < |t|
      ensures !At(t, x, "${")
    {
      assert t[x] in t;
      if x + 2 <= |t| {
        assert t[x..x + 2][0] == t[x];
      }
    }
  }

  /** A paragraph `<p>before${expr}after</p>` gets its interpolation rewritten and nothing else. */
  lemma DollarInParagraph(before: string, expr: string, after: string)
    requires '<' !in before && '<' !in after && '}' !in expr && expr != []
    requires !Contains(before, "${")
    ensures SanitizeJsxDollarInterpolation("<p" + ">" + before + "${" + expr + "}" + after + "<" + "/p>")
         == "<p" + DollarOut(before, expr, after) + "/p>"
  {
    var s := "<p" + ">" + before + "${" + expr + "}" + after + "<" + "/p>";
    var end := |before| + |expr| + |after| + 7;
    ParagraphLayout(before, expr, after);
    DollarGroupAt("<p", before, expr, after, "/p>");
    ParagraphReplace(s, end, DollarOut(before, expr, after));
  }

  /** With a single match from offset 2 up to the closing `/p>`, only that match is replaced. */
  lemma ParagraphReplace(s: string, end: nat, o: string)
    requires 2 < end && end + 3 == |s| && s[..2] == "<p" && s[end..] == "/p>"
    requires HitAt(s, DollarMatch, 2) && DollarMatch(s, 2) == Some(Hit(end, o))
    ensures SanitizeJsxDollarInterpolation(s) == "<p" + o + "/p>"
  {
    assert SanitizeJsxDollarInterpolation(s) == ReplaceAll(s, DollarMatch);
    ParagraphEnds(s, end);
    ReplaceCopiesUpTo(s, DollarMatch, 0, 2);
    ReplaceAtHit(s, DollarMatch, 2);
    ReplaceNoHit(s, DollarMatch, end);
  }

  lemma ParagraphLayout(before: string, expr: string, after: string)
    ensures var s := "<p" + ">" + before + "${" + expr + "}" + after + "<" + "/p>";
            var end := |before| + |expr| + |after| + 7;
            && s == "<p>" + before + "${" + expr + "}" + after + "</p>"
            && end + 3 == |s| && s[..2] == "<p" && s[end..] == "/p>"
  {
  }

  /** Neither the opening `<p` nor the closing `/p>` starts a match. */
  lemma ParagraphEnds(s: string, end: nat)
    requires 2 <= end && end + 3 == |s|
    requires s[..2] == "<p" && s[end..] == "/p>"
    ensures !HitAt(s, DollarMatch, 0) && !HitAt(s, DollarMatch, 1)
    ensures forall j :: end <= j < |s| ==> !HitAt(s, DollarMatch, j)
  {
    assert s[0] == s[..2][0] && s[1] == s[..2][1];
    assert s[end] == s[end..][0] && s[end + 1] == s[end..][1];
  }

  /** The example of a price written as `${price}` inside a paragraph. */
  lemma PriceParagraph()
    ensures SanitizeJsxDollarInterpolation("<p>Total: ${price}</p>") == "<p>Total: {'$' + price}</p>"
  {
    NoDollarSign("Total: ");
    DollarInParagraph("Total: ", "price", "");
    PriceParagraphText();
  }

  lemma PriceParagraphText()
    ensures "<p" + ">" + "Total: " + "${" + "price" + "}" + "" + "<" + "/p>" == "<p>Total: ${price}</p>"
    ensures "<p" + DollarOut("Total: ", "price", "") + "/p>" == "<p>Total: {'$' + price}</p>"
  {
  }

  // ---------------------------------------------------------------------------
  // `!x = {}` / `!x = []`:  /!\s*(\w+)\s*=\s*\{\s*\}/g and /!\s*(\w+)\s*=\s*\[\s*\]/g  ->  !x
  // ---------------------------------------------------------------------------

  /**
   * The pattern `!\s*(\w+)\s*=\s*<open>\s*<close>` at offset `i`, replaced by `!` and the
   * identifier: the replacement is never longer than the match.
   */
  function NegatedAssignAt(open: char, close: char, s: string, i: nat): (r: Option<Hit>)
    ensures r.Some? ==> i < r.value.end <= |s| && s[i] == '!'
    ensures r.Some? ==> |r.value.out| <= r.value.end - i
  {
    if i < |s| && s[i] == '!' then
      var j1 := SkipSpaces(s, i + 1);
      var w := SkipWord(s, j1);
      var j2 := SkipSpaces(s, w);
      if w > j1 && j2 < |s| && s[j2] == '=' then
        var j3 := SkipSpaces(s, j2 + 1);
        if j3 < |s| && s[j3] == open then
          var j4 := SkipSpaces(s, j3 + 1);
          if j4 < |s| && s[j4] == close then Some(Hit(j4 + 1, "!" + s[j1..w])) else None
        else None
      else None
    else None
  }

  function NegatedAssignMatch(open: char, close: char): Matcher {
    (s: string, i: nat) => NegatedAssignAt(open, close, s, i)
  }

  /** `sanitizeInvalidConditionAssignment`: the rewrite never lengthens its input (and so leaves empty input empty). */
  function SanitizeInvalidConditionAssignment(code: string): (r: string)
    ensures |r| <= |code|
  {
    SanitizeConditionNeverLonger(code);
    ReplaceAll(ReplaceAll(code, NegatedAssignMatch('{', '}')), NegatedAssignMatch('[', ']'))
  }

  /** Each of the two passes replaces a match by something no longer, so together they never lengthen the code. */
  lemma SanitizeConditionNeverLonger(code: string)
    ensures |ReplaceAll(ReplaceAll(code, NegatedAssignMatch('{', '}')), NegatedAssignMatch('[', ']'))| <= |code|
  {
    var m1 := NegatedAssignMatch('{', '}');
    var m2 := NegatedAssignMatch('[', ']');
    forall j | 0 <= j < |code| && HitAt(code, m1, j)
      ensures |m1(code, j).value.out| <= m1(code, j).value.end - j
    {
    }
    ReplaceNeverLonger(code, m1, 0);
    var mid := ReplaceAll(code, m1);
    forall j | 0 <= j < |mid| && HitAt(mid, m2, j)
      ensures |m2(mid, j).value.out| <= m2(mid, j).value.end - j
    {
    }
    ReplaceNeverLonger(mid, m2, 0);
  }

  /** Text without `!` is left unchanged. */
  lemma SanitizeConditionWithoutBang(code: string)
    requires '!' !in code
    ensures SanitizeInvalidConditionAssignment(code) == code
  {
    var m1 := NegatedAssignMatch('{', '}');
    var m2 := NegatedAssignMatch('[', ']');
    assert forall j :: 0 <= j < |code| ==> !HitAt(code, m1, j) by {
      forall j | 0 <= j < |code| ensures !HitAt(code, m1, j) {
        assert code[j] in code;
      }
    }
    ReplaceNoHit(code, m1, 0);
    assert forall j :: 0 <= j < |code| ==> !HitAt(code, m2, j) by {
      forall j | 0 <= j < |code| ensures !HitAt(code, m2, j) {
        assert code[j] in code;
      }
    }
    ReplaceNoHit(code, m2, 0);
  }

  /** An identifier: one or more `\w` characters. */
  predicate IsIdentifier(name: string) {
    |name| > 0 && forall t :: 0 <= t < |name| ==> IsWordChar(name[t])
  }

  /** `!name = {}` becomes `!name`. */
  lemma NegatedAssignBraces(name: string)
    requires IsIdentifier(name)
    ensures SanitizeInvalidConditionAssignment("!" + name + " = {}") == "!" + name
  {
    var m1 := NegatedAssignMatch('{', '}');
    var a := "!" + name + " = {}";
    assert a == "!" + name + " = " + ['{', '}'];
    NegatedAssignOnce(name, '{', '}');
    assert m1(a, 0) == Some(Hit(|a|, "!" + name));
    assert ReplaceFrom(a, m1, |a|) == "";
    assert ReplaceAll(a, m1) == "!" + name;
    PlainNegationKept(name);
  }

  /** `!name = []` becomes `!name`. */
  lemma NegatedAssignBrackets(name: string)
    requires IsIdentifier(name)
    ensures SanitizeInvalidConditionAssignment("!" + name + " = []") == "!" + name
  {
    var m2 := NegatedAssignMatch('[', ']');
    var b := "!" + name + " = []";
    assert b == "!" + name + " = " + ['[', ']'];
    NegatedAssignOnce(name, '[', ']');
    BracesMissBrackets(name);
    assert m2(b, 0) == Some(Hit(|b|, "!" + name));
    assert ReplaceFrom(b, m2, |b|) == "";
    assert ReplaceAll(b, m2) == "!" + name;
  }

  /** The pattern matches the whole of `!name = <open><close>`, and only with that bracket pair. */
  lemma NegatedAssignOnce(name: string, open: char, close: char)
    requires IsIdentifier(name) && !IsSpace(open) && !IsSpace(close)
    ensures var s := "!" + name + " = " + [open, close];
            && NegatedAssignAt(open, close, s, 0) == Some(Hit(|s|, "!" + name))
            && (open != '{' ==> NegatedAssignAt('{', '}', s, 0).None?)
  {
    var s := "!" + name + " = " + [open, close];
    var n := |name|;
    assert s[0] == '!' && s[n + 1] == ' ' && s[n + 2] == '=' && s[n + 3] == ' ';
    assert s[n + 4] == open && s[n + 5] == close;
    assert forall t :: 1 <= t < n + 1 ==> s[t] == name[t - 1];
    assert SkipSpaces(s, 1) == 1;
    SkipWordExact(s, 1, n + 1);
    assert SkipSpaces(s, n + 2) == n + 2;
    assert SkipSpaces(s, n + 1) == n + 2;
    assert SkipSpaces(s, n + 4) == n + 4;
    assert SkipSpaces(s, n + 3) == n + 4;
    assert SkipSpaces(s, n + 5) == n + 5;
    assert s[1..n + 1] == name;
  }

  /** In `!name = []` the `{}` pattern matches nowhere. */
  lemma BracesMissBrackets(name: string)
    requires IsIdentifier(name)
    ensures ReplaceAll("!" + name + " = []", NegatedAssignMatch('{', '}')) == "!" + name + " = []"
  {
    var b := "!" + name + " = []";
    var m1 := NegatedAssignMatch('{', '}');
    assert !HitAt(b, m1, 0) by {
      NegatedAssignOnce(name, '[', ']');
      assert b == "!" + name + " = " + ['[', ']'];
    }
    forall j | 0 < j < |b|
      ensures !HitAt(b, m1, j)
    {
      BangOnlyFirst(name, b, j);
      NoBangNoHit(b, '{', '}', j);
    }
    ReplaceNoHit(b, m1, 0);
  }

  /** In `!name = []`, the only `!` is the first character. */
  lemma BangOnlyFirst(name: string, b: string, j: nat)
    requires IsIdentifier(name) && b == "!" + name + " = []" && 0 < j < |b|
    ensures b[j] != '!'
  {
    if j <= |name| {
      assert b[j] == name[j - 1];
    } else {
      assert b[j] == " = []"[j - 1 - |name|];
    }
  }

  /** The pattern starts only at a `!`. */
  lemma NoBangNoHit(s: string, open: char, close: char, j: nat)
    requires j < |s| && s[j] != '!'
    ensures !HitAt(s, NegatedAssignMatch(open, close), j)
  {
  }

  /** `!name` alone is not rewritten by the second pass. */
  lemma PlainNegationKept(name: string)
    requires IsIdentifier(name)
    ensures ReplaceAll("!" + name, NegatedAssignMatch('[', ']')) == "!" + name
  {
    var s := "!" + name;
    var m2 := NegatedAssignMatch('[', ']');
    assert SkipWord(s, 1) == |s|;
    forall j | 0 <= j < |s|
      ensures !HitAt(s, m2, j)
    {
      if j > 0 {
        assert s[j] == name[j - 1];
      }
    }
    ReplaceNoHit(s, m2, 0);
  }

  // ---------------------------------------------------------------------------
  // imgur URLs:  /https?:\/\/(?:i\.)?imgur\.com\/[^\s"'<>)\]]+/gi
  // ---------------------------------------------------------------------------

  /** A character that may continue an image URL (`[^\s"'<>)\]]`). */
  predicate IsUrlChar(c: char) {
    !IsSpace(c) && c != '"' && c != '\'' && c != '<' && c != '>' && c != ')' && c != ']'
  }

  /** First index at or after `i` that is not a URL character. */
  function SkipUrlChars(s: string, i: nat): (j: nat)
    requires i <= |s|
    ensures i <= j <= |s|
    ensures forall k :: i <= k < j ==> IsUrlChar(s[k])
    ensures j == |s| || !IsUrlChar(s[j])
    decreases |s| - i
  {
    if i < |s| && IsUrlChar(s[i]) then SkipUrlChars(s, i + 1) else i
  }

  /** End of the imgur URL starting at `i`, if one does (the pattern is case-insensitive). */
  function ImgurUrlEnd(s: string, i: nat): (r: Option<nat>)
    ensures r.Some? ==> i + 17 < r.value <= |s|
    ensures r.Some? ==> AtNoCase(s, i, "http")
    ensures r.Some? ==> exists k :: i + 7 <= k && k + 10 < r.value && AtNoCase(s, k, "imgur.com/")
                                    && forall m :: k + 10 <= m < r.value ==> IsUrlChar(s[m])
    ensures r.Some? ==> r.value == |s| || !IsUrlChar(s[r.value])
  {
    if AtNoCase(s, i, "http") then
      var j := if i + 4 < |s| && ToLowerChar(s[i + 4]) == 's' then i + 5 else i + 4;
      if At(s, j, "://") then
        var k := if AtNoCase(s, j + 3, "i.") then j + 5 else j + 3;
        if AtNoCase(s, k, "imgur.com/") then
          var e := SkipUrlChars(s, k + 10);
          if e > k + 10 then
            assert AtNoCase(s, k, "imgur.com/");
            Some(e)
          else None
        else None
      else None
    else None
  }

  /** A placeholder image size. */
  datatype Size = Size(width: nat, height: nat)

  const HeroSize := Size(1200, 600)
  const ThumbSize := Size(96, 96)
  const CardSize := Size(400, 300)

  /** `https://picsum.photos/W/H`. */
  function PicsumUrl(d: Size): string {
    "https://picsum.photos/" + NatToString(d.width) + "/" + NatToString(d.height)
  }

  const HeroWords: seq<string> := ["hero", "banner", "header-bg", "cover", "jumbotron", "full-width"]
  const ThumbWords: seq<string> := ["thumbnail", "thumb", "avatar", "icon", "logo", "favicon", "profile-pic", "user-img"]
  const CardWords: seq<string> := ["card", "product", "item-img", "gallery", "grid-item"]

  /** `\b(w1|w2|…)\b` matches somewhere in `ctx`. */
  predicate HasKeyword(ctx: string, words: seq<string>) {
    exists p, w :: 0 <= p <= |ctx| && w in words && KeywordAt(ctx, p, w)
  }

  predicate KeywordAt(ctx: string, p: nat, w: string) {
    At(ctx, p, w) && WordBoundary(ctx, p) && WordBoundary(ctx, p + |w|)
  }

  /** Executable search for a keyword, equivalent to `HasKeyword`. */
  function FindKeyword(ctx: string, words: seq<string>, p: nat): (r: bool)
    requires p <= |ctx|
    ensures r <==> exists q, w :: p <= q <= |ctx| && w in words && KeywordAt(ctx, q, w)
    decreases |ctx| - p
  {
    if KeywordListAt(ctx, p, words) then true
    else if p == |ctx| then false
    else FindKeyword(ctx, words, p + 1)
  }

  function KeywordListAt(ctx: string, p: nat, words: seq<string>): (r: bool)
    requires p <= |ctx|
    ensures r <==> exists w :: w in words && KeywordAt(ctx, p, w)
  {
    if |words| == 0 then false
    else KeywordAt(ctx, p, words[0]) || KeywordListAt(ctx, p, words[1..])
  }

  /** Size by keyword priority: hero > thumbnail > card > default. */
  function SizeByKeywords(ctx: string): (d: Size)
    ensures d in {HeroSize, ThumbSize, CardSize}
    ensures d == HeroSize <==> HasKeyword(ctx, HeroWords)
    ensures d == ThumbSize <==> !HasKeyword(ctx, HeroWords) && HasKeyword(ctx, ThumbWords)
  {
    if FindKeyword(ctx, HeroWords, 0) then HeroSize
    else if FindKeyword(ctx, ThumbWords, 0) then ThumbSize
    else if FindKeyword(ctx, CardWords, 0) then CardSize
    else CardSize
  }

  /**
   * `text.slice(max(0, idx - before), idx + after).toLowerCase()`: the lower-cased text
   * from `before` characters before `idx` to `after` characters after it, cut at the ends.
   */
  function ContextWindow(text: string, idx: nat, before: nat, after: nat): (ctx: string)
    ensures |ctx| <= before + after
    ensures idx <= |text| ==>
              var lo := if idx >= before then idx - before else 0;
              var hi := if idx + after <= |text| then idx + after else |text|;
              ctx == ToLower(text[lo..hi])
    ensures idx >= |text| + before ==> ctx == ""
  {
    var lo := if idx >= before then idx - before else 0;
    var hi := if idx + after <= |text| then idx + after else |text|;
    if lo <= hi then ToLower(text[lo..hi]) else ""
  }

  /** `inferImageDimensions`: the keyword size of the window 400 characters either side of `idx`. */
  function InferImageDimensions(code: string, idx: nat): (d: Size)
    ensures d in {HeroSize, ThumbSize, CardSize}
    ensures d == SizeByKeywords(ContextWindow(code, idx, 400, 400))
  {
    SizeByKeywords(ContextWindow(code, idx, 400, 400))
  }

  /** Matcher of `replaceBrokenImageUrls`: the size comes from the first occurrence of the matched URL. */
  function BrokenImageMatch(s: string, i: nat): Option<Hit> {
    match ImgurUrlEnd(s, i)
    case None => None
    case Some(e) =>
      var url := s[i..e];
      var idx := match IndexOf(s, url) case Some(x) => x case None => 0;
      Some(Hit(e, PicsumUrl(InferImageDimensions(s, idx))))
  }

  /** `replaceBrokenImageUrls`: text without an imgur address is left unchanged. */
  function ReplaceBrokenImageUrls(code: string): (r: string)
    ensures (forall k :: 0 <= k < |code| ==> !AtNoCase(code, k, "imgur.com/")) ==> r == code
  {
    if forall k :: 0 <= k < |code| ==> !AtNoCase(code, k, "imgur.com/") then
      NoImgurUnchanged(code);
      ReplaceAll(code, BrokenImageMatch)
    else ReplaceAll(code, BrokenImageMatch)
  }

  /**
   * Every imgur URL is replaced by a picsum URL of one of the three sizes: the size the
   * keywords select within 400 characters either side of the URL's first occurrence.
   */
  lemma BrokenImageReplacement(s: string, i: nat)
    requires HitAt(s, BrokenImageMatch, i)
    ensures exists d :: d in {HeroSize, ThumbSize, CardSize} && BrokenImageMatch(s, i).value.out == PicsumUrl(d)
    ensures var url := s[i..BrokenImageMatch(s, i).value.end];
            && IndexOf(s, url).Some?
            && BrokenImageMatch(s, i).value.out
                 == PicsumUrl(SizeByKeywords(ContextWindow(s, IndexOf(s, url).value, 400, 400)))
  {
    var e := ImgurUrlEnd(s, i).value;
    assert At(s, i, s[i..e]);
    var idx := IndexOf(s, s[i..e]).value;
    assert BrokenImageMatch(s, i).value.out == PicsumUrl(InferImageDimensions(s, idx));
  }

  /** The size is decided by the text around the URL's first occurrence, which may precede it. */
  lemma BrokenImageUsesFirstOccurrence(s: string, i: nat, e: nat)
    requires ImgurUrlEnd(s, i) == Some(e)
    ensures IndexOf(s, s[i..e]).Some? && IndexOf(s, s[i..e]).value <= i
    ensures BrokenImageMatch(s, i) == Some(Hit(e, PicsumUrl(InferImageDimensions(s, IndexOf(s, s[i..e]).value))))
  {
    assert At(s, i, s[i..e]);
  }

  /** In text with no `imgur.com/`, neither image pattern (the generator's nor the preview's) matches. */
  lemma NoImgurUnchanged(code: string)
    requires forall k :: 0 <= k < |code| ==> !AtNoCase(code, k, "imgur.com/")
    ensures !Matches(code, BrokenImageMatch) && !Matches(code, PreviewImageMatch)
  {
    forall j | 0 <= j < |code|
      ensures !HitAt(code, BrokenImageMatch, j) && !HitAt(code, PreviewImageMatch, j)
    {
    }
  }

  // ---------------------------------------------------------------------------
  // The preview's own size rule: window [offset-500, offset+100), explicit numbers win.
  // ---------------------------------------------------------------------------

  /** Matcher for `<name>\s*[=:]\s*["']?(\d+)`; the hit's text is the digit run. */
  function NumberAttrMatch(name: string): Matcher {
    (s: string, i: nat) =>
      if At(s, i, name) then
        var j := SkipSpaces(s, i + |name|);
        if j < |s| && (s[j] == '=' || s[j] == ':') then
          var q := SkipSpaces(s, j + 1);
          var d0 := if q < |s| && (s[q] == '"' || s[q] == '\'') && q + 1 < |s| && IsDigit(s[q + 1]) then q + 1 else q;
          var d1 := SkipDigits(s, d0);
          if d1 > d0 then Some(Hit(d1, s[d0..d1])) else None
        else None
      else None
  }

  /** The number of the first `<name> = "123"`-like attribute in `ctx`, if any. */
  function FirstNumberAttr(ctx: string, name: string): (r: Option<nat>)
  {
    match FirstHit(ctx, NumberAttrMatch(name), 0)
    case None => None
    case Some(i) => Some(DigitsOf(NumberAttrMatch(name)(ctx, i).value.out))
  }

  /** Value of a digit string, non-digits counting as zero. */
  function DigitsOf(d: string): nat {
    if forall k :: 0 <= k < |d| ==> IsDigit(d[k]) then DigitsValue(d) else 0
  }

  function Clamp(v: nat, lo: nat, hi: nat): (r: nat)
    requires lo <= hi
    ensures lo <= r <= hi
    ensures lo <= v <= hi ==> r == v
  {
    if v > hi then hi else if v < lo then lo else v
  }

  /**
   * Size for the URL at `offset` of the assembled preview document: keywords within
   * `[offset-500, offset+100)`, then explicit `width`/`height` numbers in that window,
   * clamped to [48,1200] x [48,800].
   */
  function PreviewImageSize(content: string, offset: nat): (d: Size)
    ensures 48 <= d.width <= 1200 && 48 <= d.height <= 800
    ensures var ctx := ContextWindow(content, offset, 500, 100);
            match FirstNumberAttr(ctx, "width")
            case Some(v) => d.width == Clamp(v, 48, 1200)
            case None => d.width == SizeByKeywords(ctx).width
    ensures var ctx := ContextWindow(content, offset, 500, 100);
            match FirstNumberAttr(ctx, "height")
            case Some(v) => d.height == Clamp(v, 48, 800)
            case None => d.height == SizeByKeywords(ctx).height
  {
    var ctx := ContextWindow(content, offset, 500, 100);
    var byWord := SizeByKeywords(ctx);
    var w := match FirstNumberAttr(ctx, "width") case Some(v) => Clamp(v, 48, 1200) case None => byWord.width;
    var h := match FirstNumberAttr(ctx, "height") case Some(v) => Clamp(v, 48, 800) case None => byWord.height;
    Size(w, h)
  }

  /** Without explicit numbers in the window, the keyword size is used. */
  lemma PreviewSizeWithoutNumbers(content: string, offset: nat, ctx: string)
    requires ctx == ContextWindow(content, offset, 500, 100)
    requires FirstNumberAttr(ctx, "width").None? && FirstNumberAttr(ctx, "height").None?
    ensures PreviewImageSize(content, offset) == SizeByKeywords(ctx)
  {
  }

  /** Matcher of the preview's final rewrite: the size comes from the match's own offset. */
  function PreviewImageMatch(s: string, i: nat): Option<Hit> {
    match ImgurUrlEnd(s, i)
    case None => None
    case Some(e) => Some(Hit(e, PicsumUrl(PreviewImageSize(s, i))))
  }

  /** The preview document's imgur rewrite: a document without an imgur address is left unchanged. */
  function ReplacePreviewImageUrls(content: string): (r: string)
    ensures (forall k :: 0 <= k < |content| ==> !AtNoCase(content, k, "imgur.com/")) ==> r == content
  {
    if forall k :: 0 <= k < |content| ==> !AtNoCase(content, k, "imgur.com/") then
      NoImgurUnchanged(content);
      ReplaceAll(content, PreviewImageMatch)
    else ReplaceAll(content, PreviewImageMatch)
  }
}

=== FILE: sidebar.dfy ===
/**
 * The application sidebar (frontend/src/components/AppSidebar.tsx): the titles of the
 * recent websites, the user's initials, and the recents list shown five at a time.
 */
module Sidebar {
  import opened Wrappers
  import opened Text

  /** `INITIAL_RECENTS` and `SHOW_MORE_COUNT`. */
  const InitialRecents: nat := 5
  const ShowMoreCount: nat := 5

  /** The default `maxLen` of `truncateTitle`. */
  const TitleMaxLength: nat := 22

  const UntitledConversation := "New Conversation"
  const Ellipsis := "..."

  /** `truncateTitle`: an empty title is untitled; a long one keeps its first 22 characters and an ellipsis. */
  function TruncateTitle(title: string): (r: string)
    ensures title == "" ==> r == UntitledConversation
    ensures 0 < |title| <= TitleMaxLength ==> r == title
    ensures |title| > TitleMaxLength ==> r == title[..TitleMaxLength] + Ellipsis
    ensures |r| <= TitleMaxLength + |Ellipsis|
  {
    if title == "" then UntitledConversation
    else if |title| > TitleMaxLength then title[..TitleMaxLength] + Ellipsis
    else title
  }

  /** A shown title begins with the title's own first characters. */
  lemma TruncatedTitleIsPrefix(title: string)
    requires title != ""
    ensures var r := TruncateTitle(title);
            var n := if |title| < TitleMaxLength then |title| else TitleMaxLength;
            |r| >= n && r[..n] == title[..n]
  {
  }

  /** Truncating a shown title again changes nothing. */
  lemma TruncateTitleIdempotent(title: string)
    ensures TruncateTitle(TruncateTitle(title)) == TruncateTitle(title)
  {
    if |title| > TitleMaxLength {
      var r := title[..TitleMaxLength] + Ellipsis;
      assert r[..TitleMaxLength] == title[..TitleMaxLength];
    }
  }

  /** A recent website, as the sidebar reads it; a missing prompt is empty. */
  datatype Recent = Recent(id: string, websiteName: string, prompt: string, createdAt: string)

  /** The label of a recent website: its name, else its prompt, else untitled, truncated. */
  function RecentLabel(site: Recent): (r: string)
    ensures site.websiteName != "" ==> r == TruncateTitle(site.websiteName)
    ensures site.websiteName == "" && site.prompt != "" ==> r == TruncateTitle(site.prompt)
    ensures site.websiteName == "" && site.prompt == "" ==> r == UntitledConversation
  {
    TruncateTitle(Or(Or(site.websiteName, site.prompt), UntitledConversation))
  }

  /** The first character of every non-empty piece (`n[0]` of an empty piece joins as nothing). */
  function Heads(pieces: seq<string>): (r: string)
    ensures |r| <= |pieces|
  {
    if |pieces| == 0 then ""
    else (if pieces[0] == "" then "" else [pieces[0][0]]) + Heads(pieces[1..])
  }

  /** `getInitials`: the upper-cased first characters of the space-separated words, at most two. */
  function GetInitials(name: string): (r: string)
    ensures |r| <= 2 && |r| <= |Heads(Split(name, ' '))|
    ensures |r| == if |Heads(Split(name, ' '))| < 2 then |Heads(Split(name, ' '))| else 2
    ensures forall k :: 0 <= k < |r| ==> r[k] == ToUpperChar(Heads(Split(name, ' '))[k])
  {
    var heads := ToUpper(Heads(Split(name, ' ')));
    if |heads| <= 2 then heads else heads[..2]
  }

  /** A name that does not begin with a space has its first character, upper-cased, as its first initial. */
  lemma InitialsStartWithName(name: string)
    requires name != "" && name[0] != ' '
    ensures var r := GetInitials(name);
            |r| >= 1 && r[0] == ToUpperChar(name[0])
  {
    var j := FindChar(name, 0, ' ');
    assert j > 0;
    var pieces := Split(name, ' ');
    assert pieces[0] == if j == |name| then name else name[..j];
    assert pieces[0] != "" && pieces[0][0] == name[0];
    assert Heads(pieces)[0] == name[0];
  }

  /** A two-word name gives both words' first characters. */
  lemma TwoWordInitials(first: string, last: string)
    requires first != "" && last != "" && ' ' !in first && ' ' !in last
    ensures GetInitials(first + " " + last) == [ToUpperChar(first[0]), ToUpperChar(last[0])]
  {
    var name := first + " " + last;
    var j := FindChar(name, 0, ' ');
    FirstSpace(first, last);
    assert name[j + 1..] == last;
    SplitSingle(last, ' ');
    assert name[..j] == first;
    assert Split(name, ' ') == [first, last];
    var pieces := [first, last];
    assert pieces[1..] == [last];
    assert Heads(pieces) == [first[0], last[0]];
  }

  /** The first space of `first + " " + last` is the one between them. */
  lemma FirstSpace(first: string, last: string)
    requires ' ' !in first
    ensures FindChar(first + " " + last, 0, ' ') == |first|
  {
    var name := first + " " + last;
    var j := FindChar(name, 0, ' ');
    assert forall k :: 0 <= k < |first| ==> name[k] == first[k] && first[k] in first;
    assert name[|first|] == ' ';
  }

  /** The avatar's text: the initials of a named user, else `U`. */
  function AvatarText(userName: Option<string>): (r: string)
    ensures userName.Some? && userName.value != "" ==> r == GetInitials(userName.value)
    ensures userName.None? || userName.value == "" ==> r == "U"
  {
    match userName
    case Some(n) => if n != "" then GetInitials(n) else "U"
    case None => "U"
  }

  /** `recents.slice(0, visible)`. */
  function VisibleRecents(recents: seq<Recent>, visible: nat): (r: seq<Recent>)
    ensures |r| == if visible < |recents| then visible else |recents|
    ensures r == recents[..|r|]
  {
    if visible < |recents| then recents[..visible] else recents
  }

  /** `recents.length > visible`. */
  predicate HasMoreRecents(recents: seq<Recent>, visible: nat) {
    |recents| > visible
  }

  /** More recents exist exactly when some are hidden. */
  lemma MoreMeansHidden(recents: seq<Recent>, visible: nat)
    ensures HasMoreRecents(recents, visible) <==> |VisibleRecents(recents, visible)| < |recents|
  {
  }

  /** `Show More` reveals the next five recents after the shown ones. */
  lemma ShowMoreReveals(recents: seq<Recent>, visible: nat)
    requires visible <= |recents|
    ensures var next := if visible + ShowMoreCount < |recents| then visible + ShowMoreCount else |recents|;
            VisibleRecents(recents, visible + ShowMoreCount) == VisibleRecents(recents, visible) + recents[visible..next]
  {
    var next := if visible + ShowMoreCount < |recents| then visible + ShowMoreCount else |recents|;
    assert VisibleRecents(recents, visible) == recents[..visible];
    assert recents[..next] == recents[..visible] + recents[visible..next];
  }

  /** The outcome of the recents request: a list, a body that is not a list, or a failure. */
  datatype RecentsReply = Listed(items: seq<Recent>) | NotAList | RequestFailed

  /** The sidebar's recents state. */
  class RecentsPanel {
    var recents: seq<Recent>
    var recentsVisible: nat

    constructor ()
      ensures recents == [] && recentsVisible == InitialRecents
    {
      recents := [];
      recentsVisible := InitialRecents;
    }

    /**
     * `fetchRecents`: a list replaces the recents and shows the first five again; a body
     * that is not a list empties them the same way; a failure empties them and keeps the count.
     */
    method FetchRecents(reply: RecentsReply)
      modifies this
      ensures reply.Listed? ==> recents == reply.items && recentsVisible == InitialRecents
      ensures reply.NotAList? ==> recents == [] && recentsVisible == InitialRecents
      ensures reply.RequestFailed? ==> recents == [] && recentsVisible == old(recentsVisible)
    {
      if reply.RequestFailed? {
        recents := [];
        return;
      }
      var list := if reply.Listed? then reply.items else [];
      recents := list;
      recentsVisible := InitialRecents;
    }

    /** `handleShowMoreRecents`. */
    method ShowMore()
      modifies this
      ensures recentsVisible == old(recentsVisible) + ShowMoreCount
      ensures recents == old(recents)
    {
      recentsVisible := recentsVisible + ShowMoreCount;
    }
  }
}

=== FILE: text.dfy ===
/** The optional value used throughout the model (JavaScript's `null` / `undefined` results). */
module Wrappers {
  datatype Option<+T> = None | Some(value: T)
}

/**
 * Character classes, case mapping, searching, trimming, splitting and joining over
 * `string` (= `seq<char>`), with the meaning JavaScript gives them in the source.
 * Case mapping covers ASCII letters only.
 */
module Text {
  import opened Wrappers

  /** JavaScript's `\s` class: ECMAScript WhiteSpace and LineTerminator code points (also what `trim` strips). */
  predicate IsSpace(c: char) {
    || c == ' ' || c == '\t' || c == '\n' || c == '\r' || c == '\U{000B}' || c == '\U{000C}'
    || c == '\U{00A0}' || c == '\U{1680}' || ('\U{2000}' <= c <= '\U{200A}')
    || c == '\U{2028}' || c == '\U{2029}' || c == '\U{202F}' || c == '\U{205F}'
    || c == '\U{3000}' || c == '\U{FEFF}'
  }

  /** The characters before which a multiline `$` matches. */
  predicate IsLineTerminator(c: char) {
    c == '\n' || c == '\r' || c == '\U{2028}' || c == '\U{2029}'
  }

  /** JavaScript's `\w` class. */
  predicate IsWordChar(c: char) {
    ('a' <= c <= 'z') || ('A' <= c <= 'Z') || ('0' <= c <= '9') || c == '_'
  }

  /** JavaScript's `\d` class. */
  predicate IsDigit(c: char) {
    '0' <= c <= '9'
  }

  function ToLowerChar(c: char): (r: char)
    ensures IsWordChar(c) <==> IsWordChar(r)
    ensures IsSpace(c) <==> IsSpace(r)
    ensures !('A' <= r <= 'Z')
  {
    if 'A' <= c <= 'Z' then (c as int + 32) as char else c
  }

  function ToUpperChar(c: char): (r: char)
    ensures !('a' <= r <= 'z')
  {
    if 'a' <= c <= 'z' then (c as int - 32) as char else c
  }

  /** `toLowerCase()` on ASCII letters. */
  function ToLower(s: string): (r: string)
    ensures |r| == |s|
    ensures forall i :: 0 <= i < |s| ==> r[i] == ToLowerChar(s[i])
  {
    seq(|s|, i requires 0 <= i < |s| => ToLowerChar(s[i]))
  }

  /** Text with no upper-case letter is its own lower case. */
  lemma LowerUnchanged(s: string)
    requires NoUpper(s)
    ensures ToLower(s) == s
  {
    NoUpperAt(s);
    assert forall i :: 0 <= i < |s| ==> ToLower(s)[i] == s[i];
  }

  /** No character of `s` is an upper-case ASCII letter. */
  predicate NoUpper(s: string) {
    |s| == 0 || (!('A' <= s[0] <= 'Z') && NoUpper(s[1..]))
  }

  lemma {:induction false} NoUpperAt(s: string)
    requires NoUpper(s)
    ensures forall i :: 0 <= i < |s| ==> !('A' <= s[i] <= 'Z')
  {
    if |s| > 0 {
      NoUpperAt(s[1..]);
      assert forall i :: 1 <= i < |s| ==> s[i] == s[1..][i - 1];
    }
  }

  /** `toUpperCase()` on ASCII letters. */
  function ToUpper(s: string): (r: string)
    ensures |r| == |s|
    ensures forall i :: 0 <= i < |s| ==> r[i] == ToUpperChar(s[i])
  {
    seq(|s|, i requires 0 <= i < |s| => ToUpperChar(s[i]))
  }

  /** `s` holds `p` at offset `i`. */
  predicate At(s: string, i: nat, p: string) {
    i + |p| <= |s| && s[i..i + |p|] == p
  }

  /** Holding `a + b` at `i` is holding `a` there and `b` right after it. */
  /** Past the first text, a pattern occurs in a concatenation where it occurs in the second. */
  lemma AtInSuffix(pre: string, post: string, j: nat, p: string)
    requires |pre| <= j
    ensures At(pre + post, j, p) == At(post, j - |pre|, p)
  {
    if j + |p| <= |pre + post| {
      assert (pre + post)[j..j + |p|] == post[j - |pre|..j - |pre| + |p|];
    }
  }

  lemma AtConcat(s: string, i: nat, a: string, b: string)
    ensures At(s, i, a + b) <==> At(s, i, a) && At(s, i + |a|, b)
  {
    if At(s, i, a + b) {
      assert s[i..i + |a|] == (a + b)[..|a|] == a;
      assert s[i + |a|..i + |a| + |b|] == (a + b)[|a|..] == b;
    }
    if At(s, i, a) && At(s, i + |a|, b) {
      assert s[i..i + |a| + |b|] == s[i..i + |a|] + s[i + |a|..i + |a| + |b|];
    }
  }

  /** `s` holds `p` at offset `i`, ignoring ASCII case (`p` is given in lower case). */
  predicate AtNoCase(s: string, i: nat, p: string) {
    i + |p| <= |s| && ToLower(s[i..i + |p|]) == p
  }

  /** `s.indexOf(p, from)`, as an option. */
  function IndexOfFrom(s: string, p: string, from: nat): (r: Option<nat>)
    ensures r.Some? ==> from <= r.value && At(s, r.value, p)
    ensures r.Some? ==> forall j :: from <= j < r.value ==> !At(s, j, p)
    ensures r.None? ==> forall j :: from <= j ==> !At(s, j, p)
    decreases |s| - from
  {
    if from + |p| > |s| then None
    else if At(s, from, p) then Some(from)
    else IndexOfFrom(s, p, from + 1)
  }

  function IndexOf(s: string, p: string): Option<nat> {
    IndexOfFrom(s, p, 0)
  }

  /** `s.includes(p)`. */
  predicate Contains(s: string, p: string) {
    IndexOf(s, p).Some?
  }

  lemma ContainsAt(s: string, p: string, i: nat)
    requires At(s, i, p)
    ensures Contains(s, p)
  {
  }

  lemma NotContains(s: string, p: string, i: nat)
    requires !Contains(s, p)
    ensures !At(s, i, p)
  {
  }

  /** `s.startsWith(p)`. */
  predicate StartsWith(s: string, p: string) {
    At(s, 0, p)
  }

  /** `s.endsWith(p)`. */
  predicate EndsWith(s: string, p: string) {
    |p| <= |s| && s[|s| - |p|..] == p
  }

  /** First index at or after `i` that is not in `\s` (or `|s|`). */
  function SkipSpaces(s: string, i: nat): (j: nat)
    requires i <= |s|
    ensures i <= j <= |s|
    ensures forall k :: i <= k < j ==> IsSpace(s[k])
    ensures j == |s| || !IsSpace(s[j])
    decreases |s| - i
  {
    if i < |s| && IsSpace(s[i]) then SkipSpaces(s, i + 1) else i
  }

  /** Every character of `s[i..j]` is in `\s`. */
  predicate SpacesIn(s: string, i: nat, j: nat) {
    i <= j <= |s| && forall k :: i <= k < j ==> IsSpace(s[k])
  }

  /** A greedy `\s*` from `i` ends at `j`: `s[i..j]` is whitespace and `s[j]` is not. */
  predicate SpaceRunTo(s: string, i: nat, j: nat) {
    SpacesIn(s, i, j) && (j == |s| || !IsSpace(s[j]))
  }

  /** A greedy `\w*` from `i` ends at `j`. */
  predicate WordRunTo(s: string, i: nat, j: nat) {
    i <= j <= |s| && (forall k :: i <= k < j ==> IsWordChar(s[k])) && (j == |s| || !IsWordChar(s[j]))
  }

  /** The greedy whitespace run is unique, so `SkipSpaces` finds it. */
  lemma SkipSpacesTo(s: string, i: nat, j: nat)
    requires SpaceRunTo(s, i, j)
    ensures SkipSpaces(s, i) == j
  {
  }

  /** Last line terminator in `s[lo..hi]`. */
  function LastLineTerminator(s: string, lo: nat, hi: nat): (r: Option<nat>)
    requires lo <= hi <= |s|
    ensures r.Some? ==> lo <= r.value < hi && IsLineTerminator(s[r.value])
    ensures r.Some? ==> forall y :: r.value < y < hi ==> !IsLineTerminator(s[y])
    ensures r.None? ==> forall y :: lo <= y < hi ==> !IsLineTerminator(s[y])
    decreases hi
  {
    if hi == lo then None
    else if IsLineTerminator(s[hi - 1]) then Some(hi - 1)
    else LastLineTerminator(s, lo, hi - 1)
  }

  /** First index at or after `i` that is not in `\w` (or `|s|`). */
  function SkipWord(s: string, i: nat): (j: nat)
    requires i <= |s|
    ensures i <= j <= |s|
    ensures forall k :: i <= k < j ==> IsWordChar(s[k])
    ensures j == |s| || !IsWordChar(s[j])
    decreases |s| - i
  {
    if i < |s| && IsWordChar(s[i]) then SkipWord(s, i + 1) else i
  }

  /** `SkipWord` stops exactly at the end of a run of `\w` characters. */
  lemma {:induction false} SkipWordExact(s: string, i: nat, j: nat)
    requires i <= j <= |s|
    requires forall k :: i <= k < j ==> IsWordChar(s[k])
    requires j == |s| || !IsWordChar(s[j])
    ensures SkipWord(s, i) == j
    decreases j - i
  {
    if i < j {
      SkipWordExact(s, i + 1, j);
    }
  }

  /** First index at or after `i` that is not a digit (or `|s|`). */
  function SkipDigits(s: string, i: nat): (j: nat)
    requires i <= |s|
    ensures i <= j <= |s|
    ensures forall k :: i <= k < j ==> IsDigit(s[k])
    ensures j == |s| || !IsDigit(s[j])
    decreases |s| - i
  {
    if i < |s| && IsDigit(s[i]) then SkipDigits(s, i + 1) else i
  }

  /** First index at or after `i` holding `c` (or `|s|`). */
  function FindChar(s: string, i: nat, c: char): (j: nat)
    requires i <= |s|
    ensures i <= j <= |s|
    ensures forall k :: i <= k < j ==> s[k] != c
    ensures j < |s| ==> s[j] == c
    decreases |s| - i
  {
    if i < |s| && s[i] != c then FindChar(s, i + 1, c) else i
  }

  /** Last index of `c` in `s`. */
  function LastIndexOfChar(s: string, c: char): (r: Option<nat>)
    ensures r.Some? ==> r.value < |s| && s[r.value] == c && forall y :: r.value < y < |s| ==> s[y] != c
    ensures r.None? ==> c !in s
  {
    if |s| == 0 then None
    else if s[|s| - 1] == c then Some(|s| - 1)
    else
      var r := LastIndexOfChar(s[..|s| - 1], c);
      assert s == s[..|s| - 1] + [s[|s| - 1]];
      r
  }

  /** `\b` between `s[i-1]` and `s[i]`, the ends of `s` counting as non-word characters. */
  predicate WordBoundary(s: string, i: nat)
    requires i <= |s|
  {
    (i > 0 && IsWordChar(s[i - 1])) != (i < |s| && IsWordChar(s[i]))
  }

  /** Start of `trim()`: first non-space index. */
  function TrimStartIndex(s: string, i: nat): (j: nat)
    requires i <= |s|
    ensures i <= j <= |s|
    ensures forall k :: i <= k < j ==> IsSpace(s[k])
    ensures j == |s| || !IsSpace(s[j])
  {
    SkipSpaces(s, i)
  }

  /** End of `trim()`: one past the last non-space index at or above `lo`. */
  function TrimEndIndex(s: string, lo: nat, hi: nat): (j: nat)
    requires lo <= hi <= |s|
    ensures lo <= j <= hi
    ensures forall k :: j <= k < hi ==> IsSpace(s[k])
    ensures j == lo || !IsSpace(s[j - 1])
    decreases hi
  {
    if hi > lo && IsSpace(s[hi - 1]) then TrimEndIndex(s, lo, hi - 1) else hi
  }

  /** `s.trim()`. */
  function Trim(s: string): (r: string)
    ensures r == [] || (!IsSpace(r[0]) && !IsSpace(r[|r| - 1]))
    ensures |r| <= |s|
  {
    var a := TrimStartIndex(s, 0);
    var b := TrimEndIndex(s, a, |s|);
    s[a..b]
  }

  /** `s.trim()` keeps the text between the leading and the trailing whitespace. */
  lemma TrimIsInfix(s: string)
    ensures exists a, b ::
              && 0 <= a <= b <= |s| && Trim(s) == s[a..b]
              && (forall k :: 0 <= k < a ==> IsSpace(s[k]))
              && (forall k :: b <= k < |s| ==> IsSpace(s[k]))
  {
    var a := TrimStartIndex(s, 0);
    var b := TrimEndIndex(s, a, |s|);
    assert Trim(s) == s[a..b];
  }

  /** Trimming text without surrounding whitespace changes nothing. */
  lemma TrimNoop(s: string)
    requires s == [] || (!IsSpace(s[0]) && !IsSpace(s[|s| - 1]))
    ensures Trim(s) == s
  {
  }

  /** A string whose every character is whitespace (`!s.trim()`). */
  predicate IsBlank(s: string) {
    Trim(s) == []
  }

  /** `a || b` on strings. */
  function Or(a: string, b: string): (r: string)
    ensures a != "" ==> r == a
    ensures a == "" ==> r == b
  {
    if a != "" then a else b
  }

  /** `parts.join(sep)`. */
  function Join(parts: seq<string>, sep: string): string {
    if |parts| == 0 then ""
    else if |parts| == 1 then parts[0]
    else parts[0] + sep + Join(parts[1..], sep)
  }

  /** `s.split(c)` for a one-character separator. */
  function Split(s: string, c: char): (r: seq<string>)
    ensures |r| >= 1
    ensures forall k :: 0 <= k < |r| ==> c !in r[k]
    decreases |s|
  {
    var j := FindChar(s, 0, c);
    if j == |s| then [s] else [s[..j]] + Split(s[j + 1..], c)
  }

  /** Splitting and joining back on the same character gives the input back. */
  lemma {:induction false} JoinSplit(s: string, c: char)
    ensures Join(Split(s, c), [c]) == s
    decreases |s|
  {
    var j := FindChar(s, 0, c);
    if j < |s| {
      JoinSplit(s[j + 1..], c);
      var rest := Split(s[j + 1..], c);
      assert Split(s, c) == [s[..j]] + rest;
      assert s == s[..j] + [c] + s[j + 1..];
    }
  }

  /** Splitting text without the separator gives one piece. */
  lemma SplitSingle(s: string, c: char)
    requires c !in s
    ensures Split(s, c) == [s]
  {
  }

  /** Decimal rendering of a natural number, as `String(n)`. */
  function NatToString(n: nat): (r: string)
    ensures |r| >= 1
    ensures forall k :: 0 <= k < |r| ==> IsDigit(r[k])
    ensures n < 10 <==> |r| == 1
  {
    if n < 10 then [Digit(n)] else NatToString(n / 10) + [Digit(n % 10)]
  }

  function Digit(d: nat): (c: char)
    requires d < 10
    ensures IsDigit(c)
  {
    ('0' as int + d) as char
  }

  /** Value of a run of decimal digits (`parseInt(d, 10)`). */
  function DigitsValue(d: string): nat
    requires forall k :: 0 <= k < |d| ==> IsDigit(d[k])
  {
    if |d| == 0 then 0
    else
      var last := d[|d| - 1];
      assert IsDigit(last);
      DigitsValue(d[..|d| - 1]) * 10 + (last as int - '0' as int)
  }

  /** Rendering then reading a number gives it back. */
  lemma {:induction false} DigitsValueOfNatToString(n: nat)
    ensures DigitsValue(NatToString(n)) == n
  {
    if n >= 10 {
      DigitsValueOfNatToString(n / 10);
      var r := NatToString(n);
      assert r[..|r| - 1] == NatToString(n / 10);
    }
  }

  /** A text starts with its own first part. */
  lemma PrefixStarts(a: string, b: string)
    ensures StartsWith(a + b, a)
  {
    assert (a + b)[0..|a|] == a;
  }

  /** What a middle part contains, the whole contains. */
  lemma ContainsWithin(a: string, m: string, b: string, p: string)
    requires Contains(m, p)
    ensures Contains(a + m + b, p)
  {
    var i := IndexOf(m, p).value;
    var s := a + m + b;
    assert s[|a| + i..|a| + i + |p|] == m[i..i + |p|];
    ContainsAt(s, p, |a| + i);
  }

  /** Appending text keeps what a text contains. */
  lemma ContainsExtend(a: string, b: string, p: string)
    requires Contains(a, p)
    ensures Contains(a + b, p)
  {
    var i := IndexOf(a, p).value;
    assert (a + b)[i..i + |p|] == a[i..i + |p|];
    ContainsAt(a + b, p, i);
  }

  /** What a part of a text contains, the text contains. */
  lemma ContainsTransitive(s: string, m: string, p: string)
    requires Contains(s, m) && Contains(m, p)
    ensures Contains(s, p)
  {
    var i := IndexOf(s, m).value;
    var j := IndexOf(m, p).value;
    assert s[i..i + |m|] == m && m[j..j + |p|] == p;
    forall k | 0 <= k < |p|
      ensures s[i + j + k] == p[k]
    {
      assert s[i..i + |m|][j + k] == s[i + j + k];
      assert m[j..j + |p|][k] == m[j + k];
    }
    assert s[i + j..i + j + |p|] == p;
    ContainsAt(s, p, i + j);
  }

  /** A text ending in `p` contains `p`. */
  lemma ContainsLast(a: string, p: string)
    ensures Contains(a + p, p)
  {
    assert (a + p)[|a|..|a| + |p|] == p;
    ContainsAt(a + p, p, |a|);
  }

  /** A text without the character `c` does not contain it. */
  lemma CharNotContained(s: string, c: char)
    requires c !in s
    ensures !Contains(s, [c])
  {
    forall j: nat
      ensures !At(s, j, [c])
    {
      if j + 1 <= |s| {
        assert s[j..j + 1][0] == s[j];
      }
    }
  }

  /** Every position of `p` inside the concatenation `a + p + b` is found by `Contains`. */
  lemma ContainsInfix(a: string, p: string, b: string)
    ensures Contains(a + p + b, p)
  {
    var s := a + p + b;
    assert s[|a|..|a| + |p|] == p;
    ContainsAt(s, p, |a|);
  }

  /** A joined text contains each of its parts. */
  lemma JoinContains(parts: seq<string>, sep: string, k: nat)
    requires k < |parts|
    ensures Contains(Join(parts, sep), parts[k])
  {
    JoinContainsPart(parts, sep, k);
    var pre, post :| Join(parts, sep) == pre + parts[k] + post;
    ContainsInfix(pre, parts[k], post);
  }

  /** Each part of a join occurs in the joined text. */
  lemma {:induction false} JoinContainsPart(parts: seq<string>, sep: string, k: nat)
    requires k < |parts|
    ensures exists pre, post :: Join(parts, sep) == pre + parts[k] + post
    decreases |parts|
  {
    if |parts| == 1 {
      assert Join(parts, sep) == "" + parts[0] + "";
    } else if k == 0 {
      assert Join(parts, sep) == "" + parts[0] + (sep + Join(parts[1..], sep));
    } else {
      JoinContainsPart(parts[1..], sep, k - 1);
      var pre, post :| Join(parts[1..], sep) == pre + parts[1..][k - 1] + post;
      assert Join(parts, sep) == (parts[0] + sep + pre) + parts[k] + post;
    }
  }

  /** Neighbouring parts appear side by side, the separator between them. */
  lemma {:induction false} JoinAdjacent(parts: seq<string>, sep: string, k: nat)
    requires k + 1 < |parts|
    ensures Contains(Join(parts, sep), parts[k] + sep + parts[k + 1])
    decreases |parts|
  {
    var pair := parts[k] + sep + parts[k + 1];
    if k == 0 {
      if |parts| == 2 {
        assert Join(parts[1..], sep) == parts[1];
        assert Join(parts, sep) == "" + pair + "";
        ContainsInfix("", pair, "");
      } else {
        var rest := parts[1..];
        assert Join(rest, sep) == parts[1] + sep + Join(rest[1..], sep);
        assert Join(parts, sep) == "" + pair + (sep + Join(rest[1..], sep));
        ContainsInfix("", pair, sep + Join(rest[1..], sep));
      }
    } else {
      JoinAdjacent(parts[1..], sep, k - 1);
      assert parts[1..][k - 1] + sep + parts[1..][k] == pair;
      assert Join(parts, sep) == (parts[0] + sep) + Join(parts[1..], sep) + "";
      ContainsWithin(parts[0] + sep, Join(parts[1..], sep), "", pair);
    }
  }
}
